=== FILE: README.md ===
# Osimis Web Viewer core, modelled in Dafny

The Osimis Web Viewer is a DICOM viewer plugin for the Orthanc server. It has two halves:

- A C++ backend. It serves the images of an instance in several qualities: LOW, MEDIUM, LOSSLESS and PIXELDATA.
- An AngularJS frontend. It downloads those images and shows them in a grid of panes.

This project models the logic both halves rely on, as pure functions over immutable datatypes, and proves properties of that model.

Backend:

- The image qualities and how they are ordered.
- The policy that chooses which qualities an instance offers.
- The image route parser and the image repository's cache of DICOM files.
- The KLV (key-length-value) writer used for image binaries.
- The short-term cache's prefetch policy.
- The study controller, which orders the series of a study for display.
- The series helpers, which sort and format slices.
- The JSON accessors of the toolbox.

Frontend:

- The qualities chosen for diagnosis and for thumbnails.
- The ref-counted binaries cache and its flush.
- Image binary requests and the priority policy that gives tasks to workers.
- The KLV reader.
- The conversion of relative URLs to absolute ones.
- The series adapter and the series model, which handle navigation inside a series.
- Study navigation across series, reports and videos.
- Panes and the pane manager's layout and selection.
- The listener registry and annotation groups.

Each Dafny module follows one source component. Its exceptions and error returns are values of `Result` or `Option`. Callers are never asked to avoid them. Integer widths are written out where the source depends on them, for example 32-bit unsigned arithmetic and parsing.

## Model

| member | source | states |
|---|---|---|
| AnnotationGroup.Flatten | frontend/src/app/annotation/annotation-group.class.js:19-22 | the constructor's one-level `_.flatten`: an annotation is in the group exactly when it is one of the items or in one of the item lists |
| AnnotationGroup.FlattenCount | frontend/src/app/annotation/annotation-group.class.js:19-22 | flattening keeps every annotation: the group holds as many as the items do together |
| AnnotationGroup.FlattenFlat | frontend/src/app/annotation/annotation-group.class.js:19-22 | a list of plain annotations, or a single list of them, is taken unchanged and in order |
| AnnotationGroup.NewGroup | frontend/src/app/annotation/annotation-group.class.js:19-22 | a new group holds as many annotations as its items do together, and an annotation is in it exactly when it is one of the items or in one of the item lists |
| AnnotationGroup.Where | frontend/src/app/annotation/annotation-group.class.js:38-41 | `filter` with `===` on one field: keeps exactly the annotations whose field equals the value |
| AnnotationGroup.WhereCounts | frontend/src/app/annotation/annotation-group.class.js:38-41 | filtering keeps each matching annotation as many times as it occurs and drops every other |
| AnnotationGroup.WhereAppend | frontend/src/app/annotation/annotation-group.class.js:38-41 | filtering splits over concatenation, so the kept annotations stay in their order |
| AnnotationGroup.WhereAllMatch | frontend/src/app/annotation/annotation-group.class.js:38-41 | a list whose entries all match is kept whole |
| AnnotationGroup.FilterByType | frontend/src/app/annotation/annotation-group.class.js:37-44 | `filterByType`: the new group holds exactly the annotations of that type |
| AnnotationGroup.FilterByImageId | frontend/src/app/annotation/annotation-group.class.js:50-57 | `filterByImageId`: the new group holds exactly the annotations of that image |
| AnnotationGroup.FilterIdempotent | frontend/src/app/annotation/annotation-group.class.js:37-57 | filtering twice by the same type, or the same image id, gives what filtering once gave |
| AnnotationGroup.Distinct | frontend/src/app/annotation/annotation-group.class.js:63-72 | the `indexOf`/`push` reduction collects exactly the values some annotation has |
| AnnotationGroup.DistinctFacts | frontend/src/app/annotation/annotation-group.class.js:63-72 | the collected values repeat nothing and come in the order of their first occurrence |
| AnnotationGroup.GetImageIds | frontend/src/app/annotation/annotation-group.class.js:62-73 | `getImageIds`: an id is listed exactly when some annotation is on that image |
| AnnotationGroup.GetTypes | frontend/src/app/annotation/annotation-group.class.js:78-89 | `getTypes`: a type is listed exactly when some annotation has it |
| AnnotationGroup.AnyOfKind | frontend/src/app/annotation/annotation-group.class.js:126-129 | the `or` reduction is true exactly when its seed is or some annotation has the type |
| AnnotationGroup.HasType | frontend/src/app/annotation/annotation-group.class.js:125-130 | `hasType` holds exactly when some annotation of the group has the type |
| AnnotationGroup.HasTypeIff | frontend/src/app/annotation/annotation-group.class.js:125-130 | `hasType` holds exactly when `filterByType` leaves something, and exactly when `getTypes` lists the type |
| AnnotationGroup.FilteredTypes | frontend/src/app/annotation/annotation-group.class.js:37-44 | after `filterByType`, `getTypes` lists that type alone, or nothing when the group lacked it |
| AnnotationGroup.DistinctSnoc | frontend/src/app/annotation/annotation-group.class.js:63-72 | one more annotation adds its value at the end exactly when the value is new |
| AnnotationGroup.BucketsByImageId | frontend/src/app/annotation/annotation-group.class.js:97-108 | the grouping reduction makes one bucket per image id, in `getImageIds` order, each holding that image's annotations in order |
| AnnotationGroup.MapByImageIds | frontend/src/app/annotation/annotation-group.class.js:95-119 | `mapByImageIds`: one result per image id, `fn` applied to the group of that image's annotations and its id |
| AvailableQuality.ImageDimension | backend/WebViewerLibrary/Image/AvailableQuality/OnTheFlyDownloadAvailableQualityPolicy.cpp:16-17 | a sanitize or `asString` failure is that JSON error; otherwise the text either casts to a `uint32_t`, which is the value, or the cast fails with `bad_lexical_cast` |
| AvailableQuality.DimensionRoundTrip | backend/WebViewerLibrary/Image/AvailableQuality/OnTheFlyDownloadAvailableQualityPolicy.cpp:16-17 | a `Columns` or `Rows` tag holding a rendered number below 2^32, alone or followed by a backslash and anything, reads back as that number |
| AvailableQuality.IsLargerThan | backend/WebViewerLibrary/Image/AvailableQuality/OnTheFlyDownloadAvailableQualityPolicy.cpp:11-20 | `_isLargerThan` fails exactly when a dimension cannot be read, and is true exactly when columns exceed the width and rows the height |
| AvailableQuality.JpegProcessCode | backend/WebViewerLibrary/Image/AvailableQuality/OnTheFlyDownloadAvailableQualityPolicy.cpp:31-36 | the regex `^1\.2\.840\.10008\.1\.2\.4\.(\d\d)$` yields a two-digit process code below 100 |
| AvailableQuality.JpegProcessCodeSpelling | backend/WebViewerLibrary/Image/AvailableQuality/OnTheFlyDownloadAvailableQualityPolicy.cpp:31-41 | the code is 50 exactly for the JPEG baseline syntax and 70 exactly for the lossless first-order one |
| AvailableQuality.CanBeDecompressedInFrontend | backend/WebViewerLibrary/Image/AvailableQuality/OnTheFlyDownloadAvailableQualityPolicy.cpp:22-67 | true exactly for baseline JPEG in MONOCHROME1/2 or first-order lossless JPEG, in both cases not PALETTE COLOR; it fails only when the photometric tag cannot be read |
| AvailableQuality.Retrieve | backend/WebViewerLibrary/Image/AvailableQuality/OnTheFlyDownloadAvailableQualityPolicy.cpp:69-109 | decodable images get PIXELDATA plus LOW when over 750x750; others get LOSSLESS, plus LOW over 750x750 and MEDIUM over 2000x2000; PIXELDATA and LOSSLESS never come together |
| AvailableQuality.DecodableQualities | backend/WebViewerLibrary/Image/AvailableQuality/OnTheFlyDownloadAvailableQualityPolicy.cpp:78-88 | the first branch: PIXELDATA always, LOW exactly when the image is over 750x750, nothing else |
| AvailableQuality.TranscodedQualities | backend/WebViewerLibrary/Image/AvailableQuality/OnTheFlyDownloadAvailableQualityPolicy.cpp:90-106 | the second branch: LOSSLESS always, LOW exactly over 750x750, MEDIUM exactly over 2000x2000 |
| AvailableQuality.MediumImpliesLow | backend/WebViewerLibrary/Image/AvailableQuality/OnTheFlyDownloadAvailableQualityPolicy.cpp:91-101 | MEDIUM is never offered without LOW |
| Quality.QualityOrder | backend/WebViewerLibrary/Image/AvailableQuality/ImageQuality.h:15-31 | the comparison operators order NONE < LOW < MEDIUM < LOSSLESS < PIXELDATA, strictly and totally |
| Quality.StringRoundTrip | backend/WebViewerLibrary/Image/AvailableQuality/ImageQuality.h:37-65 | `fromString(toString(q)) == q` for every quality, NONE ("unknown") included |
| Quality.ToString | backend/WebViewerLibrary/Image/AvailableQuality/ImageQuality.h:37-52 | "unknown" is the name of NONE and of no real quality |
| Quality.FromString | backend/WebViewerLibrary/Image/AvailableQuality/ImageQuality.h:54-65 | a string that decodes to a real quality is exactly that quality's name |
| Quality.ToProcessingPolicyString | backend/WebViewerLibrary/Image/AvailableQuality/ImageQuality.h:67-81 | the policy names of the qualities; it carries no contract of its own, and `Quality.ProcessingPolicyStringRoundTrip` and `Quality.FromProcessingPolicyString` state that it inverts the decoder |
| Quality.FromProcessingPolicyString | backend/WebViewerLibrary/Image/AvailableQuality/ImageQuality.h:83-94 | a string that decodes to a real quality is exactly that quality's policy name |
| Quality.FromStringInverse | backend/WebViewerLibrary/Image/AvailableQuality/ImageQuality.h:37-65 | a recognised name re-encodes to itself, and a string decodes to NONE exactly when no real quality has that name |
| Quality.ProcessingPolicyStringRoundTrip | backend/WebViewerLibrary/Image/AvailableQuality/ImageQuality.h:67-94 | the processing-policy codec gives every quality back |
| Quality.FromProcessingPolicyStringInverse | backend/WebViewerLibrary/Image/AvailableQuality/ImageQuality.h:67-94 | a recognised policy name re-encodes to itself, and a string decodes to NONE exactly when no real quality's policy has that name |
| BinariesCache.NewCache | frontend/src/app/image/image-binary/image-binaries-cache.class.js:33-74 | the empty cache is well formed: no request, size or reference count |
| BinariesCache.ScopeOf | frontend/src/app/image/image-binary/image-binaries-cache.class.js:282-299 | `_getCacheScopeFromQuality`: LOW and MEDIUM keep their own scope; LOSSLESS, PIXELDATA and the HIGH code 14312 share the HIGH scope; any other value throws |
| BinariesCache.ScopeCodeRoundTrip | frontend/src/app/image/image-binary/image-binaries-cache.class.js:68-73 | the value `flush` passes back for each scope maps to that same scope |
| BinariesCache.KeptCount | frontend/src/app/image/image-binary/image-binaries-cache.class.js:117 | the `or 0` default of `add`: a non-zero count is kept, zero or undefined becomes 0 |
| BinariesCache.Insert | frontend/src/app/image/image-binary/image-binaries-cache.class.js:99-120 | `add`'s state change: the request is cached, its size is unknown, its count is kept or set to 0, and the cache stays well formed |
| BinariesCache.Register | frontend/src/app/image/image-binary/image-binaries-cache.class.js:100 | a new image id is appended to the key order once; a known one keeps its place |
| BinariesCache.InsertFrame | frontend/src/app/image/image-binary/image-binaries-cache.class.js:99-120 | `add` changes no other image's or scope's request, size or count |
| BinariesCache.Add | frontend/src/app/image/image-binary/image-binaries-cache.class.js:93-121 | `add` throws on an unknown quality, throws for a request already cached in the scope, and otherwise performs `Insert` |
| BinariesCache.Clear | frontend/src/app/image/image-binary/image-binaries-cache.class.js:146-150 | `remove`'s state change: the request and its size are gone, the counts and key order are kept |
| BinariesCache.ClearFrame | frontend/src/app/image/image-binary/image-binaries-cache.class.js:146-150 | `remove` changes no other image's or scope's request or size |
| BinariesCache.Remove | frontend/src/app/image/image-binary/image-binaries-cache.class.js:136-156 | `remove` clears even an uncached entry and then throws; an image id never added throws before any change; the counts are never touched |
| BinariesCache.Get | frontend/src/app/image/image-binary/image-binaries-cache.class.js:170-175 | `get` is the cached request (null when absent) and fails only on an unknown quality |
| BinariesCache.Push | frontend/src/app/image/image-binary/image-binaries-cache.class.js:188-193 | `push` adds one to the count of exactly that entry and changes nothing else; an unknown image id throws |
| BinariesCache.Pop | frontend/src/app/image/image-binary/image-binaries-cache.class.js:213-222 | `pop` subtracts one from the count and throws exactly when it went below 0, after the change; requests and sizes are untouched |
| BinariesCache.GetRefCount | frontend/src/app/image/image-binary/image-binaries-cache.class.js:235-240 | `getRefCount` is the count, or 0 for an unknown image, scope or undefined count |
| BinariesCache.SetBinarySize | frontend/src/app/image/image-binary/image-binaries-cache.class.js:256-262 | `setBinarySize` records the size of a cached request and changes no request, no count and the size of no other entry; an image id unknown to the size map throws |
| BinariesCache.Reset | frontend/src/app/image/image-binary/image-binaries-cache.class.js:410-414 | `reset` forgets every request and size and keeps every reference count |
| BinariesCache.ScopeSize | frontend/src/app/image/image-binary/image-binaries-cache.class.js:301-320 | `_getCacheScopeSize`: the sum of the sizes over the key order; it carries no contract of its own, and `BinariesCache.SumSizesBounds` states its bounds |
| BinariesCache.SumSizesBounds | frontend/src/app/image/image-binary/image-binaries-cache.class.js:301-320 | each image's size is part of the sum over the ids, which is 0 exactly when every size is |
| BinariesCache.FlushLoop | frontend/src/app/image/image-binary/image-binaries-cache.class.js:374-395 | the flush loop keeps the cache well formed and changes no reference count and not the key order |
| BinariesCache.Flush | frontend/src/app/image/image-binary/image-binaries-cache.class.js:346-361 | `flush` keeps the cache well formed and changes no reference count and not the key order |
| BinariesCache.FlushScope | frontend/src/app/image/image-binary/image-binaries-cache.class.js:363-371 | a scope under its limit is left alone |
| BinariesCache.FlushLoopFrame | frontend/src/app/image/image-binary/image-binaries-cache.class.js:374-395 | the flush loop over one scope changes no entry of another scope and no referenced entry |
| BinariesCache.FlushScopeFrame | frontend/src/app/image/image-binary/image-binaries-cache.class.js:363-398 | `_flushCache` changes no entry of another scope and no referenced entry |
| BinariesCache.FlushKeepsReferenced | frontend/src/app/image/image-binary/image-binaries-cache.class.js:346-399 | `flush` never drops a request whose reference count is positive |
| BinariesCache.FlushSparesSmallScope | frontend/src/app/image/image-binary/image-binaries-cache.class.js:346-399 | `flush` keeps every request of a scope whose size is under its limit |
| BinariesCache.ScopeSizeFrame | frontend/src/app/image/image-binary/image-binaries-cache.class.js:301-320 | flushing one scope leaves the size of another as it was |
| BinariesCache.SumSizesClear | frontend/src/app/image/image-binary/image-binaries-cache.class.js:301-320 | removing one entry lowers its scope's size by exactly that entry's size |
| BinariesCache.FlushLoopClears | frontend/src/app/image/image-binary/image-binaries-cache.class.js:374-395 | the flush loop only removes: an entry absent before is absent after |
| BinariesCache.FlushLoopResult | frontend/src/app/image/image-binary/image-binaries-cache.class.js:374-395 | started with a running total equal to the scope's size, a flush loop over distinct known ids that does not throw ends with the scope under the limit or with every unreferenced walked entry removed |
| BinariesCache.FlushScopeResult | frontend/src/app/image/image-binary/image-binaries-cache.class.js:363-398 | `_flushCache` that does not throw leaves the scope under its limit or with every unreferenced entry of the key order removed |
| BinariesCache.FlushResult | frontend/src/app/image/image-binary/image-binaries-cache.class.js:346-361 | `flush` that does not throw leaves each of the three scopes under its limit or with every unreferenced entry removed |
| BinaryRequest.NewRequest | frontend/src/app/image/loading/image-binary-request.class.js:12-60 | a new request has reference count 0, no priority and is not waiting for display |
| BinaryRequest.PushPriorityAsWritten | frontend/src/app/image/loading/image-binary-request.class.js:85-99 | `pushPriority` as written appends the priority, adds one reference and, since a number is never `=== 'display'`, keeps the last display time |
| BinaryRequest.PushPriority | frontend/src/app/image/loading/image-binary-request.class.js:85-99 | corrected `pushPriority`: appends the priority, adds one reference, and a display request clears the last display time |
| BinaryRequest.GetLastTimeDisplayed | frontend/src/app/image/loading/image-binary-request.class.js:67-69 | the recorded display time, or `now` when there is none or it is the falsy 0 |
| BinaryRequest.GetPriority | frontend/src/app/image/loading/image-binary-request.class.js:106-118 | `getPriority` is null exactly for an empty history, and otherwise a history entry no greater than any other |
| BinaryRequest.IsWaitingForDisplay | frontend/src/app/image/loading/image-binary-request.class.js:180-191 | true exactly when some history entry is the display priority 0 |
| BinaryRequest.LastIndexOf | frontend/src/app/image/loading/image-binary-request.class.js:145-155 | the backward scan finds the last position holding the priority, and nothing when it is absent |
| BinaryRequest.PopPriority | frontend/src/app/image/loading/image-binary-request.class.js:144-171 | `popPriority` throws exactly when the priority is absent; otherwise it removes its last occurrence only (one reference, one copy in the multiset) and stamps `now` once no display entry is left after popping one |
| BinaryRequest.PushPopRoundTrip | frontend/src/app/image/loading/image-binary-request.class.js:85-171 | popping the priority just pushed restores the history |
| BinaryRequest.WaitingIffDisplayPriority | frontend/src/app/image/loading/image-binary-request.class.js:101-118 | with priorities never below 0, an image waits for display exactly when its priority is 0 |
| BinaryRequest.RedisplayKeepsOldTime | frontend/src/app/image/loading/image-binary-request.class.js:96-98 | as written, an image displayed again keeps reporting the time its previous display ended |
| BinaryRequest.RedisplayReportsNow | frontend/src/app/image/loading/image-binary-request.class.js:95-98 | corrected, an image displayed again reports the current time |
| DicomRepository.Find | backend/WebViewerLibrary/Instance/DicomRepository.cpp:35-43 | the forward scan finds the first slot holding the instance, and nothing exactly when no slot does |
| DicomRepository.OldestEvictable | backend/WebViewerLibrary/Instance/DicomRepository.cpp:48-56 | the first slot of another instance with no reference, and nothing exactly when there is none |
| DicomRepository.Evict | backend/WebViewerLibrary/Instance/DicomRepository.cpp:46-57 | with more than 3 slots the oldest evictable slot is erased; otherwise, or when every slot is in use, the deque is unchanged |
| DicomRepository.GetDicomFile | backend/WebViewerLibrary/Instance/DicomRepository.cpp:30-65 | a hit returns the cached buffer and adds one reference; a miss evicts first, then appends the loaded file with one reference, or fails with UnknownResource keeping the eviction |
| DicomRepository.Decref | backend/WebViewerLibrary/Instance/DicomRepository.cpp:67-81 | one reference less on exactly the instance's slot; a missing instance or a slot with no reference is an error that changes nothing |
| DicomRepository.DecrefRelease | backend/WebViewerLibrary/Instance/DicomRepository.cpp:67-81 | with the `assert`s compiled away: one reference less on the instance's slot even when it had none, and an unknown instance changes nothing |
| DicomRepository.DecrefBuilds | backend/WebViewerLibrary/Instance/DicomRepository.cpp:67-81 | the release `decref` agrees with the checked one whenever that succeeds, leaves the deque as it was for an unknown instance, and takes an unreferenced slot to -1 |
| DicomRepository.Invalidate | backend/WebViewerLibrary/Instance/DicomRepository.cpp:15-28 | the instance's slot is erased whatever its count; an unknown instance changes nothing |
| DicomRepository.InvalidateRemoves | backend/WebViewerLibrary/Instance/DicomRepository.cpp:15-28 | under distinct ids, the instance is gone afterwards, the ids stay distinct and exactly one slot less is kept when it was there |
| DicomRepository.GetKeepsDistinct | backend/WebViewerLibrary/Instance/DicomRepository.cpp:30-65 | `getDicomFile` never keeps an instance twice |
| DicomRepository.EvictDistinct | backend/WebViewerLibrary/Instance/DicomRepository.cpp:46-57 | eviction keeps the ids distinct and never brings in the requested instance |
| DicomRepository.MissSize | backend/WebViewerLibrary/Instance/DicomRepository.cpp:46-64 | a miss grows the deque by one unless more than 3 slots are kept and one is unused, in which case its size is kept |
| DicomRepository.BoundedWhenUnused | backend/WebViewerLibrary/Instance/DicomRepository.cpp:46-64 | with no file in use, the deque never holds more than 4 slots |
| DicomRepository.GrowsWhenAllUsed | backend/WebViewerLibrary/Instance/DicomRepository.cpp:46-64 | when every slot is in use a miss appends regardless of the capacity |
| DicomRepository.HitDecrefRoundTrip | backend/WebViewerLibrary/Instance/DicomRepository.cpp:30-81 | a hit followed by its `decref` restores the deque |
| DicomRepository.MissDecref | backend/WebViewerLibrary/Instance/DicomRepository.cpp:59-81 | a loaded file is released by one `decref`, its slot staying with no reference |
| DicomRepository.EvictKeepsMissing | backend/WebViewerLibrary/Instance/DicomRepository.cpp:46-57 | eviction cannot bring back an instance that was missing |
| FrontendQuality.Between | src/app/viewport/quality-policies/quality-for-diagnosis.class.js:42-47 | the loop keeps exactly the available qualities within the bounds, each as often as it occurs, in their original order |
| FrontendQuality.Ascending | src/app/viewport/quality-policies/quality-for-diagnosis.class.js:50 | the comparator `a - b` orders numbers ascending |
| FrontendQuality.DesiredQuality | src/app/viewport/quality-policies/quality-for-diagnosis.class.js:23-33 | PIXELDATA when available, else LOSSLESS; an image with neither throws |
| FrontendQuality.QualityForDiagnosis | src/app/viewport/quality-policies/quality-for-diagnosis.class.js:19-53 | throws exactly when the desired quality is missing; otherwise the available qualities from the best cached one (or 0) up to the better of desired and cached, with their multiplicities, sorted ascending |
| FrontendQuality.DiagnosisEndsWithDesired | src/app/viewport/quality-policies/quality-for-diagnosis.class.js:23-50 | unless a better quality is cached, the last quality loaded is the desired one |
| FrontendQuality.DiagnosisStartsAtCached | src/app/viewport/quality-policies/quality-for-diagnosis.class.js:35-50 | a cached quality the image has is the first one loaded, so nothing below it is fetched again |
| FrontendQuality.QualityForThumbnail | frontend/src/app/viewport/quality-policies/quality-for-thumbnail.class.js:18-44 | a single available quality among LOW, PIXELDATA and LOSSLESS, LOW whenever the image has it, LOSSLESS only without PIXELDATA; an image with none of the three throws |
| FrontendQuality.ThumbnailWithinDiagnosis | frontend/src/app/viewport/quality-policies/quality-for-thumbnail.class.js:18-44 | with nothing cached, the thumbnail's quality is among those the diagnosis policy loads |
| ImageRepository.AttachmentNumber | backend/WebViewerLibrary/Image/ImageRepository.cpp:313-340 | a decimal number exactly for the four cached policies, none for any other |
| ImageRepository.AttachmentNumberValue | backend/WebViewerLibrary/Image/ImageRepository.cpp:319-337 | the number reads back as 10000 + 1000 × block + frame, blocks high 0, medium 1, low 2, pixel data 3; the quality without a policy has none |
| ImageRepository.AttachmentNumbersDistinct | backend/WebViewerLibrary/Image/ImageRepository.cpp:319-337 | below 1000 frames each (policy, frame) pair has its own number, within [10000, 14000) |
| ImageRepository.Frame1000Collides | backend/WebViewerLibrary/Image/ImageRepository.cpp:320 | the fixed 1000-frame block lets frame 1000 of the high quality share the attachment of frame 0 of the medium one |
| ImageRepository.ConvertRGB48ToRGB24 | backend/WebViewerLibrary/Image/ImageRepository.cpp:26-49 | every 16-bit channel becomes its high byte, row by row, three channels per pixel |
| ImageRepository.NarrowWiden | backend/WebViewerLibrary/Image/ImageRepository.cpp:26-49 | narrowing an 8-bit image stretched to 16 bits gives the image back |
| ImageRoute.InstantiateSimplePolicy | backend/WebViewerLibrary/Image/ImageController.cpp:296-331 | a part of a composite route becomes a resize, JPEG, PNG, 8-bit, KLV or MONOCHROME1-inversion policy, never a quality or composite one; it fails with "policy not found" exactly when no such regex matches |
| ImageRoute.InstantiateAll | backend/WebViewerLibrary/Image/ImageController.cpp:335-345 | every part is instantiated, in order, and the composite fails exactly when one part does |
| ImageRoute.InstantiatePolicyFromRoute | backend/WebViewerLibrary/Image/Utilities/ImageProcessingRouteParser.h:77-95 | a composite policy comes only from a route with a slash inside and has at least two parts |
| ImageRoute.RouteShapesDisjoint | backend/WebViewerLibrary/Image/ImageController.cpp:386-404 | no route matches two of the registered regexes, so the order of the regex map does not matter |
| ImageRoute.FixedRouteShape | backend/WebViewerLibrary/Image/ImageController.cpp:391-402 | the eight plain route names match none of the composite, resize or JPEG regexes |
| ImageRoute.JpegCompression | backend/WebViewerLibrary/Image/ImageController.cpp:296-305 | `jpeg` or `jpeg:` without digits asks for compression 100; with up to three digits, for their value |
| ImageRoute.SimpleDispatch | backend/WebViewerLibrary/Image/Utilities/ImageProcessingRouteParser.h:77-95 | a slash-free route that names no quality is instantiated as a simple policy |
| ImageRoute.CompositeRoute | backend/WebViewerLibrary/Image/ImageController.cpp:323-346 | parts joined by `/` give a composite of the parts' policies in order, and fail when a part fails |
| ImageRoute.QualityRouteRoundTrip | backend/WebViewerLibrary/Image/ImageController.cpp:391-394 | a quality's processing route instantiates its quality policy, whose name decodes back to the quality |
| ImageRoute.MatchBody | backend/WebViewerLibrary/Image/ImageController.cpp:65 | the groups `<id>/<digits>/<rest>` cut at the first two slashes, well formed and spelling the input |
| ImageRoute.MatchPostfix | backend/WebViewerLibrary/Image/ImageController.cpp:65-68 | the URL regex (an optional `nocache/` or `cleancache/`, an id without slash, digits, a non-empty subroute) yields only well-formed groups that spell the postfix |
| ImageRoute.MatchWithPrefix | backend/WebViewerLibrary/Image/ImageController.cpp:65 | the match taking one alternative of the prefix group: present only when the postfix starts with that prefix |
| ImageRoute.MatchPostfixComplete | backend/WebViewerLibrary/Image/ImageController.cpp:65-68 | every well-formed set of groups is found again, exactly, unless an unprefixed instance id reads `nocache` or `cleancache` |
| ImageRoute.MatchBodyComplete | backend/WebViewerLibrary/Image/ImageController.cpp:65 | every well-formed body is cut back into its own groups |
| ImageRoute.PrefixLookalike | backend/WebViewerLibrary/Image/ImageController.cpp:65 | a body that starts with a prefix's text has that text, without its slash, as instance id |
| ImageRoute.ParseUrlPostfix | backend/WebViewerLibrary/Image/ImageController.cpp:406-424 | `parseUrlPostfix` returns false exactly when the regex does not match; otherwise the instance id, the 32-bit frame index and the policy of the subroute |
| ImageRoute.ParseImageRequest | backend/WebViewerLibrary/Image/ImageController.cpp:56-161 | `_ParseURLPostFix`: 404 for a malformed URL or an unknown policy, 500 for a frame index or resize value beyond 32 bits; otherwise the groups, the cache flags, and an annotation request exactly when the subroute starts with `annotations` |
| Klv.BigEndianRoundTrip | backend/WebViewerLibrary/Image/Utilities/KLVWriter.cpp:36-63 | a number below 256^n written as n big-endian bytes reads back as itself |
| Klv.ReverseInvolution | backend/WebViewerLibrary/Image/Utilities/KLVWriter.cpp:40-50 | reversing the bytes of a field twice gives the field back |
| Klv.EncodedSizeAppend | backend/WebViewerLibrary/Image/Utilities/KLVWriter.cpp:21 | each tuple adds 4 + 4 + its length to the reserved size |
| Klv.NewWriter | backend/WebViewerLibrary/Image/Utilities/KLVWriter.cpp:5-8 | a new writer holds no tuple and reserves nothing |
| Klv.SetBytes | backend/WebViewerLibrary/Image/Utilities/KLVWriter.cpp:10-22 | `setValue(key, length, value)` appends the raw bytes unconverted; a length beyond 32 bits drops the tuple yet still grows the reserved size |
| Klv.SetInteger | backend/WebViewerLibrary/Image/Utilities/KLVWriter.h:40-47 | the template `setValue` appends an integer's bit pattern, to be converted to big-endian, and grows the reserved size by 8 + its width |
| Klv.Field | backend/WebViewerLibrary/Image/Utilities/KLVWriter.cpp:36-64 | the key and length fields come out big-endian on either host |
| Klv.ValueBytes | backend/WebViewerLibrary/Image/Utilities/KLVWriter.cpp:69-84 | raw values are appended as they are, integers big-endian on either host |
| Klv.Write | backend/WebViewerLibrary/Image/Utilities/KLVWriter.cpp:24-89 | `write` produces exactly as many bytes as were reserved |
| Klv.EncodeAnyHost | backend/WebViewerLibrary/Image/Utilities/KLVWriter.cpp:24-89 | little- and big-endian hosts write the same bytes |
| Klv.Encode | backend/WebViewerLibrary/Image/Utilities/KLVWriter.cpp:24-89 | the tuples take 8 header bytes each plus their values' lengths, the size `setValue` reserved |
| Klv.Parse | src/app/image/image-parser.worker/klvreader.class.js:9-91 | an empty or one-byte input reads as no key, 2 to 7 bytes throw, and a read never yields more keys than there are 8-byte headers in the input |
| Klv.ParseFrom | src/app/image/image-parser.worker/klvreader.class.js:75-91 | `_parseFile` stops with at most one byte left and throws when a header does not fit in what is left |
| Klv.ParseTuple | src/app/image/image-parser.worker/klvreader.class.js:79-89 | reading one encoded tuple records its value under its key and continues after it |
| Klv.ParseEncoded | src/app/image/image-parser.worker/klvreader.class.js:75-91 | reading encoded tuples records every key's value, later tuples overwriting earlier ones |
| Klv.RoundTrip | src/app/image/image-parser.worker/klvreader.class.js:9-15 | reading what the writer wrote gives back each key's last value, whatever the writing host's byte order |
| Klv.EntriesLastWins | src/app/image/image-parser.worker/klvreader.class.js:89 | a key keeps the value of its last tuple |
| Klv.EntriesUntouched | src/app/image/image-parser.worker/klvreader.class.js:89 | a key no tuple carries keeps its earlier value |
| Klv.GetBinary | src/app/image/image-parser.worker/klvreader.class.js:59-61 | `getBinary` is the stored value, absent exactly for an unknown key |
| Klv.GetUInt | src/app/image/image-parser.worker/klvreader.class.js:17-33 | a 1-, 2- or 4-byte value reads as its unsigned big-endian number, any other length as the raw bytes; an unknown key throws |
| Klv.Signed | src/app/image/image-parser.worker/klvreader.class.js:38-46 | a bit pattern read as two's complement lies in the signed range and differs from the pattern by 256^n exactly when negative |
| Klv.Pattern | backend/WebViewerLibrary/Image/Utilities/KLVWriter.h:40-47 | the bit pattern a signed integer is stored as reads back as that integer |
| Klv.GetInt | src/app/image/image-parser.worker/klvreader.class.js:35-51 | a 1-, 2- or 4-byte value reads as its signed big-endian number, any other length as the raw bytes; an unknown key throws |
| Klv.IntegerRoundTrip | backend/WebViewerLibrary/Image/Utilities/KLVWriter.h:40-47 | an integer written with `setValue` reads back with `getInt` and, as its bit pattern, with `getUInt` |
| Klv.BytesRoundTrip | backend/WebViewerLibrary/Image/Utilities/KLVWriter.cpp:10-22 | raw bytes written with `setValue` read back unchanged with `getBinary` |
| Listener.SameAtomsIff | src/app/utilities/osimis-listener.js:129-133 | the `&&` reduction over two arrays of one length holds exactly when they are equal |
| Listener.CompareNamespace | src/app/utilities/osimis-listener.js:123-135 | `_compareNamespace` holds exactly when the two namespaces are equal: `===` on single values, position by position on arrays |
| Listener.Listen | src/app/utilities/osimis-listener.js:31-40 | the callback is appended; a truthy namespace is written onto it, replacing the one it had; no other function's namespace changes |
| Listener.OnceName | src/app/utilities/osimis-listener.js:46 | the namespace a `once` wrapper gets is truthy |
| Listener.ListenOnce | src/app/utilities/osimis-listener.js:44-50 | `once` appends a fresh wrapper under its own numbered namespace and moves the counter on |
| Listener.Keep | src/app/utilities/osimis-listener.js:58-60 | `_.remove` keeps exactly the listeners without a namespace or under another one |
| Listener.Close | src/app/utilities/osimis-listener.js:53-63 | without a truthy namespace every listener goes; otherwise exactly those under the namespace go |
| Listener.KeepAppend | src/app/utilities/osimis-listener.js:58-60 | closing keeps the order of the listeners it keeps |
| Listener.Mute | src/app/utilities/osimis-listener.js:67-71 | the listeners under the namespace are muted, and nothing else changes |
| Listener.Unmute | src/app/utilities/osimis-listener.js:75-79 | the listeners then under the namespace are unmuted, whatever they were before |
| Listener.Ignore | src/app/utilities/osimis-listener.js:66-80 | `ignore` throws exactly when its code throws; then the registry is what the code left, the listeners under the namespace still muted; otherwise no listener under the namespace stays muted |
| Listener.IgnoreRestores | src/app/utilities/osimis-listener.js:66-80 | around code that leaves the registry alone, `ignore` gives back the registry when none under the namespace was muted before; one muted before ends up unmuted |
| Listener.IgnoreThrowKeepsMuted | src/app/utilities/osimis-listener.js:66-80 | around code that throws without touching the registry, every listener under the namespace stays muted after `ignore` and no later trigger calls it |
| Listener.Active | src/app/utilities/osimis-listener.js:98-101 | the filter keeps exactly the listeners not muted |
| Listener.Run | src/app/utilities/osimis-listener.js:102-104 | the listeners are called in order up to the first that throws; the error is rethrown exactly when some callback throws; the called functions' namespaces and mutes are untouched and nobody is added |
| Listener.AfterCall | src/app/utilities/osimis-listener.js:46-48 | calling a plain callback changes nothing; a wrapper's call can only remove listeners |
| Listener.Trigger | src/app/utilities/osimis-listener.js:83-117 | only registered listeners that are not muted are called |
| Listener.TriggerCallsActive | src/app/utilities/osimis-listener.js:97-104 | without a throwing callback, every listener not muted is called, in registration order, and nothing is rethrown |
| Listener.MutedNotCalled | src/app/utilities/osimis-listener.js:66-104 | while `ignore` runs its code, a trigger calls nobody under the namespace |
| Listener.ValidEmpty | src/app/utilities/osimis-listener.js:26-27 | a new listener has no wrapper to break the `once` bookkeeping |
| Listener.ListenValid | src/app/utilities/osimis-listener.js:31-40 | listening keeps the `once` bookkeeping |
| Listener.ListenOnceValid | src/app/utilities/osimis-listener.js:44-50 | `once` keeps its wrappers registered at most once, each under its own namespace |
| Listener.ActiveCount | src/app/utilities/osimis-listener.js:98-101 | a function registered once is among the listeners not muted at most once |
| Listener.RunClosesWrapper | src/app/utilities/osimis-listener.js:46-48 | a wrapper that was called and whose callback returned is no longer registered |
| Listener.OnceAtMostOnce | src/app/utilities/osimis-listener.js:44-50 | a `once` wrapper is called at most once by a trigger, and once called (its callback not throwing) no later trigger calls it |
| Pane.NewPane | src/app/splitpane/pane.class.js:23-53 | a new pane is empty, at its position and not selected |
| Pane.IsEmpty | src/app/splitpane/pane.class.js:71-73 | a pane is empty exactly when each of its series, video and report ids is absent or the empty string |
| Pane.ApplyWindowing | src/app/splitpane/pane.class.js:147-152 | the width and center are set and marked as modified by hand; nothing else changes; without a viewport it throws |
| Pane.MapViewport | src/app/splitpane/pane.class.js:177-195 | a viewport change touches only the viewport, and throws without one |
| Pane.RotateLeft | src/app/splitpane/pane.class.js:177-179 | the rotation goes down by 90 degrees; without a viewport it throws |
| Pane.RotateRight | src/app/splitpane/pane.class.js:181-183 | the rotation goes up by 90 degrees; without a viewport it throws |
| Pane.FlipVertical | src/app/splitpane/pane.class.js:185-187 | the vertical flip is toggled; without a viewport it throws |
| Pane.FlipHorizontal | src/app/splitpane/pane.class.js:189-191 | the horizontal flip is toggled; without a viewport it throws |
| Pane.InvertColor | src/app/splitpane/pane.class.js:193-195 | the inversion is toggled; without a viewport it throws |
| Pane.RotateRoundTrip | src/app/splitpane/pane.class.js:177-183 | rotating left then right, or right then left, restores the pane |
| Pane.FullTurn | src/app/splitpane/pane.class.js:181-183 | four right turns add 360 degrees and change nothing else |
| Pane.FlipsAreInvolutions | src/app/splitpane/pane.class.js:185-195 | both flips and the inversion undo themselves and change nothing but their own flag |
| Pane.WindowingLastWins | src/app/splitpane/pane.class.js:147-152 | windowing twice keeps the second setting and leaves the orientation alone |
| Pane.ContentDecidesEmptiness | src/app/splitpane/pane.class.js:71-73 | a pane is empty exactly when its series, video and report ids are all falsy, and viewport changes keep that |
| PaneManager.NewManager | frontend/src/app/splitpane/pane.manager.js:14-41 | a one-cell layout holding one empty pane, selected, in a well-formed state |
| PaneManager.GetPane | frontend/src/app/splitpane/pane.manager.js:274-285 | `getPane` is the first pane at the position, null exactly when no pane is there |
| PaneManager.GetSelectedPane | frontend/src/app/splitpane/pane.manager.js:312-325 | the first selected pane; with none it throws |
| PaneManager.FirstNonEmpty | frontend/src/app/splitpane/pane.manager.js:144-151 | the first pane with content, none exactly when every pane is empty |
| PaneManager.SelectPane | frontend/src/app/splitpane/pane.manager.js:354-368 | `selectPane` throws without a selected pane, and throws after clearing the old selection when no pane is at the position |
| PaneManager.SelectPaneFacts | frontend/src/app/splitpane/pane.manager.js:354-368 | on a cell of a well-formed state, the pane there becomes the only selected one; outside the grid it throws leaving none selected |
| PaneManager.NextPreviousInverse | frontend/src/app/splitpane/pane.manager.js:380-410 | the next and previous positions stay in the grid and undo each other |
| PaneManager.NextPanePosition | frontend/src/app/splitpane/pane.manager.js:380-394 | from a cell of the grid, the next position is a cell of the grid, and the same cell only when the layout has a single cell |
| PaneManager.PreviousPanePosition | frontend/src/app/splitpane/pane.manager.js:396-410 | from a cell of the grid, the previous position is a cell of the grid from which `next` leads back |
| PaneManager.NextIsReadingOrder | frontend/src/app/splitpane/pane.manager.js:380-394 | the next position is the following cell in reading order, the last cell wrapping to the first |
| PaneManager.SetPane | frontend/src/app/splitpane/pane.manager.js:179-242 | `setPane` throws exactly when two kinds of content are given, or a viewport or non-zero image index comes without a series; the layout is kept |
| PaneManager.SetPaneFacts | frontend/src/app/splitpane/pane.manager.js:179-242 | on a cell of a well-formed state, `setPane` writes the config's content into that pane, keeps the state well-formed, and selects the pane exactly when asked |
| PaneManager.RemoveOutside | frontend/src/app/splitpane/pane.manager.js:74-95 | after the first step no pane lies outside the new grid |
| PaneManager.Place | frontend/src/app/splitpane/pane.manager.js:117-136 | a cell gets the last removed pane with content, moved there, or a fresh pane, appended at the end |
| PaneManager.Reselect | frontend/src/app/splitpane/pane.manager.js:141-157 | when the selected pane went away, the first pane with content is selected, or else the first pane; otherwise nothing changes |
| PaneManager.ReselectFacts | frontend/src/app/splitpane/pane.manager.js:141-157 | after a pending reselection exactly one pane is selected and every pane keeps its place |
| PaneManager.SetLayout | frontend/src/app/splitpane/pane.manager.js:64-71 | the layout is the new column and row count |
| PaneManager.SetLayoutWellFormed | frontend/src/app/splitpane/pane.manager.js:64-158 | from a well-formed state, `setLayout` to any grid of at least one cell succeeds, leaves exactly one pane per cell and none outside, and exactly one selected |
| PaneManager.SameLayoutKeepsPanes | frontend/src/app/splitpane/pane.manager.js:98-100 | a layout of the same size changes nothing in a well-formed state |
| Prefetch.Row | backend/WebViewerLibrary/ShortTermCache/ViewerPrefetchPolicy.cpp:64-67 | one pass of the inner loop lists every slice of the window, in order, at one quality |
| Prefetch.PrefetchedLength | backend/WebViewerLibrary/ShortTermCache/ViewerPrefetchPolicy.cpp:62-70 | the nested loops schedule exactly one entry per slice of the window and quality |
| Prefetch.PrefetchedAt | backend/WebViewerLibrary/ShortTermCache/ViewerPrefetchPolicy.cpp:62-70 | the j-th slice at the k-th quality is scheduled at position k times the window size plus j: quality by quality, slices in order within each |
| Prefetch.PrefetchedCovers | backend/WebViewerLibrary/ShortTermCache/ViewerPrefetchPolicy.cpp:62-70 | every slice of the window is scheduled at every listed quality |
| Prefetch.Expand | backend/WebViewerLibrary/ShortTermCache/ViewerPrefetchPolicy.cpp:62-70 | the loops build exactly the quality-major reference list |
| Prefetch.ExpandRow | backend/WebViewerLibrary/ShortTermCache/ViewerPrefetchPolicy.cpp:64-67 | the inner loop builds exactly the row of one quality |
| Prefetch.PrefetchedStep | backend/WebViewerLibrary/ShortTermCache/ViewerPrefetchPolicy.cpp:62-70 | each pass of the outer loop appends one quality's row after those of the qualities before it |
| Prefetch.ReadSeries | backend/WebViewerLibrary/ShortTermCache/ViewerPrefetchPolicy.cpp:40-56 | the series information yields its slices and ID exactly when it is an object whose `Slices` is an array; a missing, null or slice-less value schedules nothing; a value that is neither object nor null throws |
| Prefetch.Window | backend/WebViewerLibrary/ShortTermCache/ViewerPrefetchPolicy.cpp:64-66 | the window holds exactly the slices from the start index up to the end index or the end of the series, in order |
| Prefetch.SliceNames | backend/WebViewerLibrary/ShortTermCache/ViewerPrefetchPolicy.cpp:68 | the window's slice names are read exactly when every slice is a string, one name per slice |
| Prefetch.SeriesQualities | backend/WebViewerLibrary/ShortTermCache/ViewerPrefetchPolicy.cpp:59-62 | the qualities listed are exactly those the series has other than NONE; an ID that is not a string throws |
| Prefetch.WindowPrefetch | backend/WebViewerLibrary/ShortTermCache/ViewerPrefetchPolicy.cpp:49-71 | for a series that was read: an `ID` that is not a string is an error; a series with no quality but NONE schedules nothing; otherwise it fails exactly when a slice of the window is not a string; any list it gives schedules every slice of the window at every quality of the series |
| Prefetch.PrefetchSeries | backend/WebViewerLibrary/ShortTermCache/ViewerPrefetchPolicy.cpp:40-71 | `PrefetchSeries` fails with the JSON's error, returns nothing for a text without `Slices`, and otherwise returns exactly `WindowPrefetch` of the series: the quality-major list, which schedules every slice of the window at every quality of the series |
| Prefetch.PrefetchedSchedulesWindow | backend/WebViewerLibrary/ShortTermCache/ViewerPrefetchPolicy.cpp:59-70 | the list built from the window's names covers every slice of the window at every quality of the series |
| Prefetch.ApplySeries | backend/WebViewerLibrary/ShortTermCache/ViewerPrefetchPolicy.cpp:74-80 | reading a series schedules its first ten slices at every quality, never more than forty entries |
| Prefetch.SeriesPrefetchBound | backend/WebViewerLibrary/ShortTermCache/ViewerPrefetchPolicy.cpp:74-80 | what `ApplySeries` schedules is at most four qualities times ten slices |
| Prefetch.WindowCovers | backend/WebViewerLibrary/ShortTermCache/ViewerPrefetchPolicy.cpp:64-68 | a slice inside the window is a string whose name is among the names read |
| Prefetch.PrefetchBound | backend/WebViewerLibrary/ShortTermCache/ViewerPrefetchPolicy.cpp:62-70 | a window of at most ten slices at ascending qualities other than NONE gives at most forty entries |
| Prefetch.OrderedLength | backend/WebViewerLibrary/ShortTermCache/ViewerPrefetchPolicy.cpp:62 | a strictly ascending list of qualities above NONE has at most four entries |
| Prefetch.SlicePosition | backend/WebViewerLibrary/ShortTermCache/ViewerPrefetchPolicy.cpp:132-139 | the scan stops at the first slice equal to the accessed one, or at the end of the series when there is none |
| Prefetch.StartAsWritten | backend/WebViewerLibrary/ShortTermCache/ViewerPrefetchPolicy.cpp:143 | the window start as written is computed modulo 2^32 |
| Prefetch.EndAsWritten | backend/WebViewerLibrary/ShortTermCache/ViewerPrefetchPolicy.cpp:143 | the window end as written is the position plus ten whenever that fits in 32 bits |
| Prefetch.FirstSlicesGetNoNeighbours | backend/WebViewerLibrary/ShortTermCache/ViewerPrefetchPolicy.cpp:33-143 | as written, an access to one of the first three slices wraps the start past any series and prefetches no neighbour |
| Prefetch.PrefetchStart | backend/WebViewerLibrary/ShortTermCache/ViewerPrefetchPolicy.cpp:143 | the clamped start is never past the position and never more than three before it, and agrees with the source wherever the subtraction does not wrap |
| Prefetch.NeighbourWindow | backend/WebViewerLibrary/ShortTermCache/ViewerPrefetchPolicy.cpp:33-143 | with the clamped start, every slice from three before the accessed one to nine after it lies in the window |
| Prefetch.MissingSliceWindow | backend/WebViewerLibrary/ShortTermCache/ViewerPrefetchPolicy.cpp:132-143 | a slice absent from the series puts the position at the end, and the window then holds the last three slices |
| Prefetch.ParsedUrl | backend/WebViewerLibrary/ShortTermCache/ViewerPrefetchPolicy.cpp:91 | the URL of the decoded image is read exactly when its path matches a route |
| Prefetch.HigherQualities | backend/WebViewerLibrary/ShortTermCache/ViewerPrefetchPolicy.cpp:102-109 | the qualities scheduled for the accessed frame are exactly those of its series above the one it was decoded at |
| Prefetch.NeighbourPrefetch | backend/WebViewerLibrary/ShortTermCache/ViewerPrefetchPolicy.cpp:114-143 | a cached text that is not an object fails with that error, one without `Slices` schedules nothing, and otherwise the result is exactly `WindowPrefetch` over the window around the accessed slice, its start wrapping as written or clamped; every slice of that window is scheduled at every quality, and an empty window schedules nothing |
| Prefetch.InstanceList | backend/WebViewerLibrary/ShortTermCache/ViewerPrefetchPolicy.cpp:96-143 | what `ApplyInstance` schedules once the parent series is known: the frame at the qualities above the one asked for, alone when the series information is not cached or has no `Slices`; a cached text that is not an object is that error; otherwise any list begins with those qualities and then schedules every slice of the window around the accessed one at every quality of the series |
| Prefetch.InstancePrefetch | backend/WebViewerLibrary/ShortTermCache/ViewerPrefetchPolicy.cpp:96-143 | an instance without a parent series schedules nothing; otherwise the result is exactly `InstanceList`: the higher qualities of the accessed frame first, alone when the series is not cached, its text has no `Slices` or the neighbour window is empty, followed by the `WindowPrefetch` list of its neighbours, and the cached text's errors propagate |
| Prefetch.ApplyInstance | backend/WebViewerLibrary/ShortTermCache/ViewerPrefetchPolicy.cpp:83-143 | `ApplyInstance` for a decoded-image path: route errors propagate; for an instance of a series the result is exactly `InstanceList` with the window from the unsigned `position - 3` to `position + 10`, so the higher qualities come first and an access to one of the first three slices schedules only them |
| Prefetch.ApplyInstanceIntended | backend/WebViewerLibrary/ShortTermCache/ViewerPrefetchPolicy.cpp:60-143 | the same with the start clamped at the first slice, as the `std::max(0u, startIndex)` of the window loop intends: the result is exactly `InstanceList` with the clamped window, and the neighbours of every slice are scheduled |
| Prefetch.SchedulesWindowAppend | backend/WebViewerLibrary/ShortTermCache/ViewerPrefetchPolicy.cpp:107-150 | putting the higher qualities first keeps every neighbour scheduled |
| Prefetch.Apply | backend/WebViewerLibrary/ShortTermCache/ViewerPrefetchPolicy.cpp:194-212 | any other bundle schedules nothing; series information schedules at most 40 entries, covering each of the first 10 slices at every quality but NONE; a decoded image gets exactly what `ApplyInstance` promises: the `InstanceList` of the unsigned window from `position - 3` to `position + 10`, and its errors |
| Series.MiddleInstanceId | backend/WebViewerLibrary/Series/Series.cpp:66-74 | the id returned is that of an ordered instance with as many instances before it as after it, or one more before; an empty series gives the empty string |
| Series.OrderedImageQualities | backend/WebViewerLibrary/Series/Series.cpp:86-100 | the list holds exactly the available qualities above the argument, strictly ascending |
| Series.OrderedImageQualitiesDefault | backend/WebViewerLibrary/Series/Series.cpp:86-100 | with the default NONE every available quality but NONE is listed |
| Series.OrderedImageQualitiesDistinct | backend/WebViewerLibrary/Series/Series.cpp:86-100 | no quality is listed twice |
| Series.QualitiesToJson | backend/WebViewerLibrary/Series/Series.cpp:51-54 | the JSON names exactly the qualities of the set, and each name reads back to a member of the set |
| Series.QualitiesFromJson | backend/WebViewerLibrary/Series/Series.cpp:78-82 | the set read holds the quality of every name and nothing else |
| Series.QualitiesJsonRoundTrip | backend/WebViewerLibrary/Series/Series.cpp:51-82 | writing the quality set to JSON and reading it back gives the same set |
| SeriesHelpers.StripLeading | backend/WebViewerLibrary/Series/SeriesHelpers.cpp:142 | what remains is a suffix that does not start with white space, and everything dropped is white space |
| SeriesHelpers.StripTrailing | backend/WebViewerLibrary/Series/SeriesHelpers.cpp:142 | what remains is a prefix that does not end with white space, and everything dropped is white space |
| SeriesHelpers.StripSpaces | backend/WebViewerLibrary/Series/SeriesHelpers.cpp:142-154 | the result is a slice of the input with a white-space run removed at each end and no white space left at either end |
| SeriesHelpers.TagNumber | backend/WebViewerLibrary/Series/SeriesHelpers.cpp:112-159 | an absent tag reads as nothing, a tag that `asString` rejects is an error, and any other tag is its text, stripped when asked, read as `lexical_cast<unsigned int>` reads it, so a parsed tag fits in 32 bits |
| SeriesHelpers.CheckVectorTag | backend/WebViewerLibrary/Series/SeriesHelpers.cpp:124-133 | reading a position or orientation tag fails exactly when it is present and `asString` rejects it |
| SeriesHelpers.ParseInstance | backend/WebViewerLibrary/Series/SeriesHelpers.cpp:107-161 | the constructor throws exactly when `asString` rejects the `ID`, `NumberOfFrames`, `ImagePositionPatient`, `ImageOrientationPatient` or `InstanceNumber`, or the `ImageIndex` it falls back on; otherwise the id is the `ID`, the frame count is `NumberOfFrames` or 1, and the index is `InstanceNumber`, or `ImageIndex` when that is absent or does not parse |
| SeriesHelpers.SignedTags | backend/WebViewerLibrary/Series/SeriesHelpers.cpp:107-161 | an instance whose `NumberOfFrames` is `+2` and whose `InstanceNumber` is `-1` has two frames and the index 2^32 - 1, whatever its `ImageIndex` |
| SeriesHelpers.NumberTagsRoundTrip | backend/WebViewerLibrary/Series/SeriesHelpers.cpp:107-161 | an instance whose `NumberOfFrames` and `InstanceNumber` hold rendered numbers below 2^32 reads back that frame count and that index, whatever its `ImageIndex` |
| SeriesHelpers.IndexLe | backend/WebViewerLibrary/Series/SeriesHelpers.cpp:240-244 | the comparator orders instances by their index and is a total preorder |
| SeriesHelpers.IndexLeIsPreorder | backend/WebViewerLibrary/Series/SeriesHelpers.cpp:240-244 | comparing by index in series is a total preorder, as `std::sort` requires |
| SeriesHelpers.Indexed | backend/WebViewerLibrary/Series/SeriesHelpers.cpp:313-321 | the instances kept all have an index, and every instance with an index is kept |
| SeriesHelpers.SortedByIndex | backend/WebViewerLibrary/Series/SeriesHelpers.cpp:329 | a sorted permutation of indexed instances is in ascending index order |
| SeriesHelpers.SortUsingIndexInSeries | backend/WebViewerLibrary/Series/SeriesHelpers.cpp:302-343 | zero or one instance, or none with an index, is kept as is; otherwise the result is a permutation of the indexed instances in ascending index order |
| SeriesHelpers.OrderSlices | backend/WebViewerLibrary/Series/SeriesHelpers.cpp:347-365 | the ordering fails exactly when some instance's JSON cannot be read, and never with `CannotOrderSlices` |
| SeriesHelpers.ParseInstances | backend/WebViewerLibrary/Series/SeriesHelpers.cpp:352-356 | every instance is parsed, in order, and the loop fails exactly when one of them does |
| SeriesHelpers.Format | backend/WebViewerLibrary/Series/SeriesHelpers.cpp:409-422 | one entry `[id, 0, framesCount]` per ordered instance, in order |
| SeriesModel.BrowserQualitiesAsWritten | frontend/src/app/series/series.model.js:28-37 | as written, on Safari and IE, and on Edge when PIXELDATA is offered, PIXELDATA is deleted and LOSSLESS set to its code with every other quality kept; anywhere else the qualities are unchanged |
| SeriesModel.BrowserQualities | frontend/src/app/series/series.model.js:28-37 | on Safari, IE or Edge an offered PIXELDATA is deleted and LOSSLESS set to its code, every other quality keeping its code and none added; a series without PIXELDATA, or on another browser, is left alone |
| SeriesModel.NewSeries | frontend/src/app/series/series.model.js:25-49 | a new series shows its first image, null when it has none; as written, on Safari and IE, and on Edge when PIXELDATA is offered, its qualities lose PIXELDATA and gain LOSSLESS with every other quality kept; Edge without PIXELDATA and unnamed browsers keep the offered qualities |
| SeriesModel.NewSeriesIntended | frontend/src/app/series/series.model.js:25-49 | the constructor with the browser test its comment means: a series offered no PIXELDATA keeps exactly its qualities, and on a named browser an offered PIXELDATA is replaced by LOSSLESS with every other quality kept |
| SeriesModel.BrowserTestsAgree | frontend/src/app/series/series.model.js:28-37 | the test as written and as meant agree whenever PIXELDATA is offered, and on every browser but Safari and IE |
| SeriesModel.SafariGainsLossless | frontend/src/app/series/series.model.js:28-37 | as written, a Safari series offered only LOW is given LOSSLESS, and `hasQuality` then answers yes for the LOSSLESS code |
| SeriesModel.NoPixelDataUnchanged | frontend/src/app/series/series.model.js:28-37 | corrected, a series without PIXELDATA keeps exactly its qualities, and `hasQuality` answers yes exactly for their codes |
| SeriesModel.CurrentImageId | frontend/src/app/series/series.model.js:188-194 | the current image id exists exactly when the index is inside the series, and it is the id at that index |
| SeriesModel.GoToNextImage | frontend/src/app/series/series.model.js:222-236 | the index moves one forward inside the series, back to the first image at the end with restart, and otherwise stays put without notice; a notice reports the new current image |
| SeriesModel.GoToPreviousImage | frontend/src/app/series/series.model.js:238-252 | the index moves one back, to the last image at the start with restart, and otherwise stays put without notice; a notice reports the new current image |
| SeriesModel.GoToImage | frontend/src/app/series/series.model.js:254-275 | the index becomes the floor of the argument, -1 below zero; past the end nothing moves; a notice is sent exactly when the index changes |
| SeriesModel.MovesKeepBounds | frontend/src/app/series/series.model.js:222-275 | no move takes the index outside the range from -1 to the last image |
| SeriesModel.NextPreviousRoundTrip | frontend/src/app/series/series.model.js:222-252 | inside the series, a step forward then back, or back then forward, returns to the same series state |
| SeriesModel.RestartWraps | frontend/src/app/series/series.model.js:225-247 | with restart, the image after the last is the first and the one before the first is the last |
| SeriesModel.GoToImageShows | frontend/src/app/series/series.model.js:254-275 | going to an image inside the series shows it, and going there again sends no notice |
| SeriesModel.InstanceIds | frontend/src/app/series/series.model.js:108-111 | one instance id per image id: the part before its first colon |
| SeriesModel.ListInstanceIds | frontend/src/app/series/series.model.js:102-122 | `listInstanceIds` keeps one instance id per run of images of the same instance, in order |
| SeriesModel.CollapseStep | frontend/src/app/series/series.model.js:113-119 | each image either repeats the previous instance and is skipped, or appends its instance |
| SeriesModel.HasQuality | frontend/src/app/series/series.model.js:130-140 | `hasQuality` is true exactly when some quality of the series has that code |
| SeriesModel.CollapseNoRepeats | frontend/src/app/series/series.model.js:102-122 | no two neighbouring instance ids listed are equal, and the last one listed is that of the last image |
| SeriesModel.CollapseSameValues | frontend/src/app/series/series.model.js:102-122 | the instance ids listed are exactly those of the images |
| SeriesModel.CollapseFixed | frontend/src/app/series/series.model.js:102-122 | a list without equal neighbours is listed unchanged |
| SeriesModel.CollapseRun | frontend/src/app/series/series.model.js:102-122 | a run of frames of one new instance adds that instance once |
| SeriesModel.FrameInstanceIds | frontend/src/app/series/series.model.js:108-111 | the frame ids of one instance all read back as that instance's id |
| SeriesModel.ListInstancesRoundTrip | frontend/src/app/series/series.model.js:102-122 | the flattened frames of instances with colon-free ids, at least one frame each and no neighbour repeated, list back exactly those instances |
| SeriesModel.AdaptedInstances | frontend/src/app/series/series.model.js:102-122 | a single-frame series built by the adapter lists back all its instances, and each multi-frame series lists back its one instance |
| SeriesAdapter.FrameIds | src/app/series/orthanc-series.adapter.js:29-39 | an instance gives one image id per frame, `<instance>:<frame>`, frames in order |
| SeriesAdapter.ImageIdsByInstance | src/app/series/orthanc-series.adapter.js:28-39 | one group of image ids per instance, in instance order |
| SeriesAdapter.UpperNames | src/app/series/orthanc-series.adapter.js:62-65 | every quality name is compared in upper case |
| SeriesAdapter.PickQualities | src/app/series/orthanc-series.adapter.js:60-72 | the qualities kept are exactly the frontend qualities whose name some listed name spells once upper-cased, each with its frontend code |
| SeriesAdapter.Process | src/app/series/orthanc-series.adapter.js:23-87 | the k-th series built is named `<series>:k`, belongs to the study and carries the picked qualities; the call throws exactly when fewer qualities are picked than names are listed |
| SeriesAdapter.IndexedRoundTrip | src/app/series/orthanc-series.adapter.js:35 | an id of the form `<id>:<index>` splits back into the colon-free id and the index |
| SeriesAdapter.FlattenSingles | src/app/series/orthanc-series.adapter.js:48-52 | flattening groups of one image lists those images in order |
| SeriesAdapter.SingleFrameIff | src/app/series/orthanc-series.adapter.js:42-46 | every group holds one image exactly when every instance has one frame |
| SeriesAdapter.SingleFrameSeries | src/app/series/orthanc-series.adapter.js:48-84 | a series of single-frame instances, or of none, becomes one series holding frame 0 of each instance, in instance order |
| SeriesAdapter.MultiFrameSeries | src/app/series/orthanc-series.adapter.js:53-84 | any other series becomes one series per instance, holding its frames in order |
| SeriesAdapter.SetSize | src/app/series/orthanc-series.adapter.js:75 | a list has as many distinct names as entries exactly when no name repeats |
| SeriesAdapter.AcceptedIff | src/app/series/orthanc-series.adapter.js:58-77 | a series is accepted exactly when each quality name, upper-cased, names a frontend quality and no two of them name the same one |
| SeriesAdapter.PickedSize | src/app/series/orthanc-series.adapter.js:60-77 | the picked qualities are as many as the names exactly when every name is a quality and none repeats |
| Study.NewStudy | frontend/src/app/study/study.class.js:13-47 | a new study has no colour of its own |
| Study.SetColor | frontend/src/app/study/study.class.js:119-121 | `setColor` changes the colour and nothing else |
| Study.Find | frontend/src/app/study/study.class.js:157-159 | `indexOf`: absent exactly when the id is not listed, otherwise its first position |
| Study.Take | frontend/src/app/study/study.class.js:192-211 | a slot yields its id, and an empty id keeps the loop reading the same slot for ever |
| Study.NextScan | frontend/src/app/study/study.class.js:192-217 | the forward loop only ever yields a non-empty id from the list of the kind it reports, and never throws |
| Study.PreviousScan | frontend/src/app/study/study.class.js:276-301 | the backward loop only ever yields a non-empty id from the list of the kind it reports, and never throws |
| Study.Locate | frontend/src/app/study/study.class.js:157-186 | the id is looked up in the series, then the videos, then the reports; absent exactly when no list holds it |
| Study.NextItem | frontend/src/app/study/study.class.js:151-221 | `getNextItemId` throws exactly when a given id is in no list, and any item it returns belongs to the list of its kind |
| Study.PreviousItem | frontend/src/app/study/study.class.js:234-303 | `getPreviousItemId` throws exactly when a given id is in no list, and any item it returns belongs to the list of its kind |
| Study.ColorIff | frontend/src/app/study/study.class.js:119-137 | `hasColor` holds exactly when a non-empty colour other than gray was set; no colour resets to gray |
| Study.HasColor | frontend/src/app/study/study.class.js:135-137 | `hasColor` is true exactly when the colour is not the default gray; it carries no separate contract |
| Study.NextFromNothing | frontend/src/app/study/study.class.js:151-221 | with no id the first item of the first non-empty list comes back, the empty id counts as none, and the loop never ends exactly when the study is empty |
| Study.NeverLoops | frontend/src/app/study/study.class.js:192-301 | in a study with at least one item, all ids distinct and none empty, both loops end |
| Study.NextScanFinds | frontend/src/app/study/study.class.js:192-217 | from any slot, the forward loop of a non-empty study without empty ids ends within three list changes |
| Study.PreviousScanFinds | frontend/src/app/study/study.class.js:276-301 | from any slot, the backward loop of a non-empty study without empty ids ends within three list changes |
| Study.NextPreviousWithinList | frontend/src/app/study/study.class.js:151-303 | inside one list, next and previous step to the neighbouring item and undo each other |
| Study.WellKeyedNonEmpty | frontend/src/app/study/study.class.js:192-211 | no id of a well-keyed study is empty, so no slot stalls the loop |
| Study.LocateWellKeyed | frontend/src/app/study/study.class.js:157-186 | in a study whose ids are all distinct, each id is found at its own kind and position |
| Study.AfterLastSeries | frontend/src/app/study/study.class.js:157-217 | after the last series comes the first video, with no video the first report, and with neither the first series again |
| Study.BeforeFirstSeries | frontend/src/app/study/study.class.js:240-301 | before the first series comes the first video, not the last, and with no video the last report |
| StudyController.ParseUrlPostfix | backend/WebViewerLibrary/Study/StudyController.cpp:30-60 | a postfix is accepted only as a non-empty slash-free study id, alone or followed by `/annotations`, and the request read back spells that postfix |
| StudyController.RouteRoundTrip | backend/WebViewerLibrary/Study/StudyController.cpp:38-60 | every slash-free, non-empty study id is reached by both of its routes and read back as the same request |
| StudyController.Numbers | backend/WebViewerLibrary/Study/StudyController.cpp:143-160 | the series numbers met, each once, exactly those some series carries |
| StudyController.WithNumber | backend/WebViewerLibrary/Study/StudyController.cpp:152-157 | the series of one number are exactly those carrying it, in input order |
| StudyController.Groups | backend/WebViewerLibrary/Study/StudyController.cpp:164-172 | the groups of the listed numbers hold exactly the series carrying one of them |
| StudyController.Ids | backend/WebViewerLibrary/Study/StudyController.cpp:169-170 | one series id per entry, in order |
| StudyController.ByNumber | backend/WebViewerLibrary/Study/StudyController.cpp:138-173 | the numbered part of the order holds exactly the series that carry a number |
| StudyController.SortedNumbers | backend/WebViewerLibrary/Study/StudyController.cpp:162 | sorting loses none of the numbers met |
| StudyController.StringLeTotal | backend/WebViewerLibrary/Study/StudyController.cpp:184 | any two ids are ordered one way or the other by `std::string` comparison |
| StudyController.StringLeTransitive | backend/WebViewerLibrary/Study/StudyController.cpp:184 | `std::string` comparison is transitive |
| StudyController.StringOrderIsPreorder | backend/WebViewerLibrary/Study/StudyController.cpp:184 | comparing ids is a total preorder, as the sort requires |
| StudyController.Remaining | backend/WebViewerLibrary/Study/StudyController.cpp:176-183 | the remaining series are exactly the study series the order lacks, in study order and no more often than the study lists them |
| StudyController.DisplayOrder | backend/WebViewerLibrary/Study/StudyController.cpp:112-191 | every series of the study appears in the display order |
| StudyController.RemainingCovers | backend/WebViewerLibrary/Study/StudyController.cpp:176-190 | the numbered series and a reordering of the remaining ones together hold every study series |
| StudyController.StoredOrderFirst | backend/WebViewerLibrary/Study/StudyController.cpp:121-136 | a stored order comes first, untouched, followed by each study series it lacks once; nothing else is added |
| StudyController.NumberedThenSorted | backend/WebViewerLibrary/Study/StudyController.cpp:138-190 | without a stored order, the numbered series come first by ascending number, in input order within a number, then every other study series sorted by id |
| StudyController.ByNumberStable | backend/WebViewerLibrary/Study/StudyController.cpp:152-172 | the series of any one number keep their input order |
| StudyController.ByNumberAscending | backend/WebViewerLibrary/Study/StudyController.cpp:162-172 | the numbered series come out by ascending number |
| StudyController.GroupsAscending | backend/WebViewerLibrary/Study/StudyController.cpp:164-172 | groups taken in strictly ascending number order are in ascending number order |
| StudyController.GroupsWithNumber | backend/WebViewerLibrary/Study/StudyController.cpp:164-172 | the groups of distinct numbers hold a number's series exactly once, or none when the number is not listed |
| StudyController.ProcessRequest | backend/WebViewerLibrary/Study/StudyController.cpp:99-217 | an annotation request is answered with 403 exactly when annotation storage is off, otherwise with the study's annotations; a study request lists every series of the study |
| TaskPriority.OfPriority | src/app/image/loading/task-priority-policy.class.js:43-77 | a queue holds exactly the tasks whose request, read through the cache scope of the task's quality, is cached with its priority, each with that request |
| TaskPriority.ClassifyByPriority | src/app/image/loading/task-priority-policy.class.js:43-77 | the first loop throws `Unexpected quality` exactly when some task has a quality without a cache scope; otherwise the three queues are the cached tasks of priority 0, 1 and 2, in task order, and uncached tasks and other priorities go nowhere |
| TaskPriority.Get | frontend/src/app/image/image-binary/image-binaries-cache.class.js:170-175 | `get` throws exactly for a quality other than LOW, MEDIUM, PIXELDATA, LOSSLESS and the HIGH scope code; otherwise it gives the request of the task's scope, or null when there is none |
| TaskPriority.SharedHighRequest | frontend/src/app/image/image-binary/image-binaries-cache.class.js:282-298 | the LOSSLESS and the PIXELDATA task of an image read one and the same request |
| TaskPriority.HeadPass | src/app/image/loading/task-priority-policy.class.js:88-93 | as written, a pass returns a task only when the head of its queue has the pass's quality |
| TaskPriority.HeadPasses | src/app/image/loading/task-priority-policy.class.js:88-117 | as written, the four passes over a queue return its head exactly when the head has one of the four qualities |
| TaskPriority.SelectTask | src/app/image/loading/task-priority-policy.class.js:34-191 | `selectTask` throws `Unexpected quality` exactly when some task has a quality without a cache scope; whatever it returns otherwise is one of the tasks it was given |
| TaskPriority.DisplayHeadFirst | src/app/image/loading/task-priority-policy.class.js:88-117 | when every task has a known quality, a display task of a known quality at the head of its queue is picked, whatever the free workers and other queues |
| TaskPriority.OneWorkerOnlyDisplay | src/app/image/loading/task-priority-policy.class.js:119-120 | with fewer than two free workers only a display task is ever picked |
| TaskPriority.FallbackFirstTask | src/app/image/loading/task-priority-policy.class.js:119-190 | when every task has a known quality, with free workers and no queue head of a known quality, the first task of the list is picked, or nothing from an empty list |
| TaskPriority.UncachedOnlyAsFallback | src/app/image/loading/task-priority-policy.class.js:43-190 | a task without a cached request is only ever picked as the first task of the list |
| TaskPriority.SharedRequestDecidesPass | src/app/image/loading/task-priority-policy.class.js:43-117 | a PIXELDATA display task whose image holds a LOSSLESS request is queued with that request and picked by the lossless pass |
| TaskPriority.PreloadingHighSecond | src/app/image/loading/task-priority-policy.class.js:119-153 | when every task has a known quality, with two free workers and no display head of a known quality, a high-preloading head of a known quality is picked, ahead of the low queue and the fallback |
| TaskPriority.PreloadingLowThird | src/app/image/loading/task-priority-policy.class.js:119-190 | when every task has a known quality, with two free workers and neither a display nor a high-preloading head of a known quality, a low-preloading head of a known quality is picked, ahead of the fallback |
| TaskPriority.SelectTaskIntended | src/app/image/loading/task-priority-policy.class.js:34-191 | the intended rule throws in the same cases, picks only tasks it was given, and with fewer than two free workers only a display task |
| TaskPriority.PassedCached | src/app/image/loading/task-priority-policy.class.js:43-117 | a walking pass over a queue picks a task of the list cached with that queue's priority |
| TaskPriority.FindQuality | src/app/image/loading/task-priority-policy.class.js:88-93 | a walking pass finds the first entry of its quality, and fails only when the queue holds none |
| TaskPriority.Passes | src/app/image/loading/task-priority-policy.class.js:88-117 | the intended passes pick some entry exactly when the queue holds one of the four qualities |
| TaskPriority.HeadPassesWhenHeadLightest | src/app/image/loading/task-priority-policy.class.js:88-117 | when the head of a queue has the lightest quality it holds, reading only the head gives the same pick |
| TaskPriority.HeadSufficesAgree | src/app/image/loading/task-priority-policy.class.js:88-117 | on an empty queue, one led by its lightest quality, or one with no known quality, the passes as written agree with the walking ones |
| TaskPriority.SelectTaskAgrees | src/app/image/loading/task-priority-policy.class.js:34-191 | the rule as written and the intended rule pick the same task whenever no queue hides a lighter task behind its head |
| TaskPriority.FirstIndexOfTail | src/app/image/loading/task-priority-policy.class.js:79-117 | the rank of a quality in the pass order counts from the first pass |
| TaskPriority.LightestTail | src/app/image/loading/task-priority-policy.class.js:88-117 | when no entry has the first quality, lightness is judged the same by the remaining passes |
| TaskPriority.PassesLightest | src/app/image/loading/task-priority-policy.class.js:88-117 | the intended passes pick an entry of the lightest quality the queue holds |
| TaskPriority.IntendedDisplayFirst | src/app/image/loading/task-priority-policy.class.js:85-120 | in the intended rule, any waiting display task of a known quality means a display task is picked |
| TaskPriority.HeadOnlyMissesLowQuality | src/app/image/loading/task-priority-policy.class.js:88-117 | as written, a display queue of a lossless task then a low-quality one yields the lossless task, where the intended rule yields the low-quality one |
| Toolbox.AsString | backend/WebViewerLibrary/ViewerToolbox.cpp:556 | `asString` renders null as the empty string and a string as itself, and throws exactly on arrays and objects |
| Toolbox.Get | backend/WebViewerLibrary/ViewerToolbox.cpp:390-396 | a missing member of a JSON object reads as null |
| Toolbox.SanitizeTag | backend/WebViewerLibrary/ViewerToolbox.cpp:549-563 | `Columns` and `Rows` keep what precedes their first backslash, failing only where `asString` throws; every other tag is returned unchanged |
| Toolbox.ParseAll | backend/WebViewerLibrary/ViewerToolbox.cpp:259-269 | every token is converted, in order, and the loop fails exactly when one conversion does |
| Toolbox.TokenizeVector | backend/WebViewerLibrary/ViewerToolbox.cpp:245-272 | the vector is read exactly when the string has the expected number of backslash-separated tokens and each converts, one value per token |
| Toolbox.TokenizeJoined | backend/WebViewerLibrary/ViewerToolbox.cpp:245-272 | numbers joined with backslashes tokenize back to the same numbers |
| Toolbox.LastIndexOf | backend/WebViewerLibrary/ViewerToolbox.cpp:306 | `find_last_of`: absent exactly when the character is not there, otherwise its last position |
| Toolbox.Extension | backend/WebViewerLibrary/ViewerToolbox.cpp:306-308 | the extension is empty or a dot-led, dot-free suffix of the path, and a path holding a dot has one |
| Toolbox.MimeOfExtension | backend/WebViewerLibrary/ViewerToolbox.cpp:311-350 | the chain of comparisons maps each of the ten known extensions to its type and everything else to octet-stream |
| Toolbox.GetMimeType | backend/WebViewerLibrary/ViewerToolbox.cpp:304-351 | the type is the table entry of the path's lower-cased extension, octet-stream for any other |
| Toolbox.ExtensionOfSuffix | backend/WebViewerLibrary/ViewerToolbox.cpp:306-308 | a dot-led, dot-free suffix is the extension, whatever precedes it |
| Toolbox.MimeKeysAreExtensions | backend/WebViewerLibrary/ViewerToolbox.cpp:311-346 | every extension the chain knows is a dot followed by dot-free characters |
| Toolbox.LowerKeepsDots | backend/WebViewerLibrary/ViewerToolbox.cpp:309 | lower-casing moves no dot |
| Toolbox.MimeTypeOfFileName | backend/WebViewerLibrary/ViewerToolbox.cpp:304-351 | a file name ending in a known extension, in any letter case, gets that extension's type |
| Toolbox.MimeTypeWithoutExtension | backend/WebViewerLibrary/ViewerToolbox.cpp:306-350 | a path without a dot is served as a byte stream |
| Toolbox.GetStringValue | backend/WebViewerLibrary/ViewerToolbox.cpp:384-398 | a string member is returned; anything else, a missing key or a configuration that is not an object gives the default |
| Toolbox.GetIntegerValue | backend/WebViewerLibrary/ViewerToolbox.cpp:401-415 | an integer member is returned when it fits in 32 bits and throws otherwise; anything else gives the default |
| Toolbox.GetBoolValue | backend/WebViewerLibrary/ViewerToolbox.cpp:417-431 | a boolean member is returned; anything else gives the default |
| Toolbox.ToPluginFormat | backend/WebViewerLibrary/ViewerToolbox.cpp:433-458 | the six supported core formats convert, and any other throws |
| Toolbox.FromPluginFormat | backend/WebViewerLibrary/ViewerToolbox.cpp:461-486 | the six supported plugin formats convert, and any other throws |
| Toolbox.ConvertInverse | backend/WebViewerLibrary/ViewerToolbox.cpp:433-486 | the two conversions are inverse to each other on the six supported formats |
| UrlConvertor.MatchLocation | frontend/src/app/utilities/orthanc-url-convertor.js:58-61 | the location regex cuts the url into a scheme ending at the first `://`, a slash-free host and a path that is empty or starts with a slash, and fails when the path holds a line terminator |
| UrlConvertor.LocationSplit | frontend/src/app/utilities/orthanc-url-convertor.js:59-61 | cutting after the first `://` and before the next slash rebuilds the url from a scheme, a host and a path |
| UrlConvertor.WordRun | frontend/src/app/utilities/orthanc-url-convertor.js:65 | the run of `[\w-]` characters from a position: all word characters and stopped by the first other one |
| UrlConvertor.LastEntry | frontend/src/app/utilities/orthanc-url-convertor.js:65-66 | the greedy prefix ends at the last position where the entry page can start, and nowhere after it |
| UrlConvertor.PathPrefix | frontend/src/app/utilities/orthanc-url-convertor.js:63-70 | the prefix kept is a prefix of the path: everything before the last position where `/osimis-viewer/app/<page>.html` can start, or empty when no position can |
| UrlConvertor.NoLaterEntryEmptyPrefix | frontend/src/app/utilities/orthanc-url-convertor.js:63-70 | a path whose entry page can start only at its beginning keeps an empty prefix |
| UrlConvertor.StripTrailingSlashes | frontend/src/app/utilities/orthanc-url-convertor.js:75-78 | the result is a prefix of the url that does not end with a slash, and only slashes were dropped |
| UrlConvertor.StripIdempotent | frontend/src/app/utilities/orthanc-url-convertor.js:75-78 | dropping trailing slashes twice is dropping them once |
| UrlConvertor.ToAbsoluteUrl | frontend/src/app/utilities/orthanc-url-convertor.js:44-81 | the url throws exactly when it holds no `://` and does not start with a slash; any result is non-empty and does not end with a slash |
| UrlConvertor.HasColon | frontend/src/app/utilities/orthanc-url-convertor.js:57 | a url holding `://` holds a colon, so the slash loop ends |
| UrlConvertor.AbsoluteKept | frontend/src/app/utilities/orthanc-url-convertor.js:47-80 | an absolute `x://` url is returned unchanged except for its trailing slashes |
| UrlConvertor.NetworkPathGetsProtocol | frontend/src/app/utilities/orthanc-url-convertor.js:51-54 | a network-path reference `//host/...` gets the page's protocol prefixed |
| UrlConvertor.WellFormedMatch | frontend/src/app/utilities/orthanc-url-convertor.js:28-61 | for a location the browser can produce, the regex splits off the protocol with `//`, the host with its port, and exactly the pathname |
| UrlConvertor.MatchLocationAt | frontend/src/app/utilities/orthanc-url-convertor.js:59-61 | the regex's groups are the text up to the first `://`, up to the next slash, and the rest |
| UrlConvertor.PortSuffixNoSlash | frontend/src/app/utilities/orthanc-url-convertor.js:28 | the port part of the origin holds no slash |
| UrlConvertor.NoProxyPrefixesOrigin | frontend/src/app/utilities/orthanc-url-convertor.js:56-73 | a rooted path under a page outside `/osimis-viewer/app` is prefixed with the page's origin alone |
| UrlConvertor.ReverseProxyKeepsPrefix | frontend/src/app/utilities/orthanc-url-convertor.js:63-72 | behind a reverse proxy, the path prefix before `/osimis-viewer/app/<page>.html` is kept between the origin and the url |
| UrlConvertor.RelativeUrl | frontend/src/app/utilities/orthanc-url-convertor.js:56-78 | a rooted path is prefixed with the matched scheme, host and path prefix, then loses its trailing slashes |
| UrlConvertor.EntryAtPrefix | frontend/src/app/utilities/orthanc-url-convertor.js:65 | the entry page regex matches right after the prefix |
| UrlConvertor.NoLaterEntry | frontend/src/app/utilities/orthanc-url-convertor.js:65 | no later position of a page path starts another entry page |
| Text.ParseUInt32 | backend/WebViewerLibrary/Image/ImageController.cpp:81 | an optional `+` or `-` followed by a non-empty run of digits whose value is below 2^32 reads as that value, negated modulo 2^32 after a `-` (so `-1` is 4294967295); anything else fails, as the cast throws |
| Text.ParseUInt32ToString | backend/WebViewerLibrary/Series/SeriesHelpers.cpp:116 | every 32-bit number reads back from its decimal rendering, unchanged after a `+` and as its additive inverse modulo 2^32 after a `-` |
| Text.SignedNumbers | backend/WebViewerLibrary/Series/SeriesHelpers.cpp:142 | `+2` reads as 2 and `-1` as 2^32 - 1 |
| Text.Split | backend/WebViewerLibrary/ViewerToolbox.cpp:250 | n separators give n + 1 tokens, possibly empty, none holding the separator, which glue back into the input |
| Text.SplitJoin | backend/WebViewerLibrary/ViewerToolbox.cpp:250 | tokenizing undoes joining whenever no token holds the separator |
| Sequences.AppendMissing | backend/WebViewerLibrary/Study/StudyController.cpp:130-136 | the stored order is kept as a prefix, and the result holds exactly the stored ids and the study's series |
| Sequences.AppendMissingDistinct | backend/WebViewerLibrary/Study/StudyController.cpp:130-136 | a series pushed after the stored order occurs nowhere else in the result |
| Sorting.Sort | backend/WebViewerLibrary/Study/StudyController.cpp:162 | the result is ordered by the comparator and is a permutation of the input |
| Sorting.SortStable | src/app/viewport/quality-policies/quality-for-diagnosis.class.js:50 | sorting by a numeric key keeps the elements sharing a key in their original order, as the stable `Array.prototype.sort` does |

## Left out

- Listener callbacks are opaque. The model knows only which of them throw, as the `throwing` set: `trigger` calls the listeners in order, stops at the first that throws and marks the error as rethrown. A callback that itself calls `listen`, `close` or `ignore` during a trigger is not modelled; only the close a `once` wrapper makes is.
- Listener.IgnoreRestores: stated only for a body that leaves the registry alone. `ignore` ends by unmuting rather than restoring the previous flag, and the contract says so.
- Listener namespaces that are falsy but not strings (`0`, `false`, `null`, `NaN`) are not modelled. The only falsy namespace the model has is the empty string.
- The asynchronous rethrow of `asap` is left out. It belongs to the promise machinery.
- Plain JavaScript objects enumerate integer-like keys before other keys. The model keeps insertion order for every key.
- The `busyWorkers` and `tasksInProcess` parameters of the task priority policy are left out because the source never reads them.
- Logging is left out: `console.error`, `BENCH_LOG` and the plugin's log calls.
- Prefetch.ApplyInstance: when `ParseUrlPostfix` fails, the source ignores the result and reads an empty match. The model returns an error instead.
- DicomRepository.Decref: the two `assert`s of `decrefDicomFile` are read as errors that change nothing, as in a debug build that stops there. The release build, where they compile away and a slot's `int` count can reach -1, is `DicomRepository.DecrefRelease`, tied to `Decref` by `DicomRepository.DecrefBuilds`.
- Other debug-only assertions of the source are not modelled.
- The KLV reader and writer cover unsigned and signed integers up to 4 bytes and byte strings. Floats, JSON values and wider integers are left out.
- Upper-case and lower-case conversion covers ASCII letters only.
- I/O, clocks and timestamps are parameters or are left out. That covers HTTP requests, Orthanc REST calls (`GetJsonFromOrthanc` and the others), file storage and `Date.now`.
- The `$timeout` that marks a pane's series as viewed in `setPane` is asynchronous and is left out.
- The pane methods `getStudy`, `getImage` and `downloadAsJpeg`, and the windowing presets, do I/O or floating-point work and are left out.
- Playback (`play`/`pause`) and annotations in the series model depend on timers and on the annotation service. They are left out.
- `Math.floor` on NaN does not arise with integer inputs, so NaN is not modelled.
- SeriesNumber parsing in the study controller is modelled as an optional integer. The JSON-to-int conversion itself is left out.
- Attachment numbers are 32-bit integers. The overflow for very large frame indices is not modelled.
- The study's promise-based operations are left out: related studies, dates and `setHasBeenViewed`.
- Mutexes and concurrency are left out. Every operation is one atomic step.
- `SortUsingPositions` in the series helpers works on floating-point normals and is left out, and so is its warning about duplicate indices.
- `GetTagName` and `ConvertDicomMapToJson` in the toolbox are left out. They call into Orthanc.
- `CompressUsingDeflate`, `ReadConfiguration` and the image readers are left out. They are I/O or codec work.
- The orientation helpers and `getIndexOfClosestImageFrom` in the series model use floating point and are left out.
- `std::string` comparison is modelled over code points. The source compares unsigned bytes.
- UrlConvertor.StripTrailingSlashes: the source loop never ends on an empty string. The model requires the URL to contain a colon, which every absolute URL does.
- ImageRoute.InstantiatePolicyFromRoute: stated for the shape of the result only, not for the parameters of each policy.

## Findings

| source | as written | input that shows it | evidently intended | confidence | as-written member | corrected member |
|---|---|---|---|---|---|---|
| backend/WebViewerLibrary/ShortTermCache/ViewerPrefetchPolicy.cpp:143 | the neighbour window starts at `position - 3` in unsigned 32-bit arithmetic | an access to slice 0, 1 or 2 wraps the start past the series, so no neighbour is prefetched | start at `max(0, position - 3)` | not executed | Prefetch.FirstSlicesGetNoNeighbours | Prefetch.ApplyInstanceIntended |
| frontend/src/app/image/loading/image-binary-request.class.js:96-98 | the last display time is cleared when `priority === 'display'`, a string | any redisplay, since priorities are the integers 0, 1 and 2 | compare with the integer display priority | not executed | BinaryRequest.RedisplayKeepsOldTime | BinaryRequest.RedisplayReportsNow |
| frontend/src/app/series/series.model.js:29-37 | the PIXELDATA test binds to the Edge test only, so on Safari and IE LOSSLESS is added whatever was offered | a series offering only LOW gains LOSSLESS, which it does not have | replace PIXELDATA by LOSSLESS only when PIXELDATA is offered | not executed | SeriesModel.SafariGainsLossless | SeriesModel.NoPixelDataUnchanged |
| src/app/image/loading/task-priority-policy.class.js:88-117 | every pass of the selection loop reads the head of the queue, not the entry at the loop index | a display queue with a lossless task first and a low-quality task second | scan the whole queue for a task of the wanted quality | not executed | TaskPriority.HeadOnlyMissesLowQuality | TaskPriority.IntendedDisplayFirst |

=== FILE: annotation_group.dfy ===
/** The annotation collection of the frontend
    (frontend/src/app/annotation/annotation-group.class.js): a stateless
    list of annotations that can be filtered by type or image and grouped
    by image. */
module AnnotationGroup {
  import opened Sequences

  /** An annotation: its tool type ("length", "angle", ...), the image it
      is drawn on, and the tool's own data, which the group never reads. */
  datatype Annotation = Annotation(kind: string, imageId: string, data: string)

  /** The two fields the group filters and collects by. */
  datatype Field = KindField | ImageIdField

  function Get(a: Annotation, field: Field): string {
    match field
    case KindField => a.kind
    case ImageIdField => a.imageId
  }

  /** An argument of the constructor: an annotation or a list of them. */
  datatype Item = One(annotation: Annotation) | Many(annotations: seq<Annotation>)

  datatype Group = Group(annotations: seq<Annotation>)

  /** The constructor flattens its argument by one level. */
  function Flatten(items: seq<Item>): (r: seq<Annotation>)
    ensures forall a :: a in r <==>
              exists i :: 0 <= i < |items| && (items[i] == One(a) || (items[i].Many? && a in items[i].annotations))
  {
    if |items| == 0 then []
    else
      var head := match items[0] case One(a) => [a] case Many(s) => s;
      var r := head + Flatten(items[1..]);
      assert forall a :: a in r <==> a in head || a in Flatten(items[1..]);
      assert forall i :: 0 < i < |items| ==> items[i] == items[1..][i - 1];
      r
  }

  function NewGroup(items: seq<Item>): (r: Group)
    ensures |r.annotations| == Count(items)
    ensures forall a :: a in r.annotations <==>
              exists i :: 0 <= i < |items| && (items[i] == One(a) || (items[i].Many? && a in items[i].annotations))
  {
    FlattenCount(items);
    Group(Flatten(items))
  }

  /** How many annotations the items hold together. */
  function Count(items: seq<Item>): nat {
    if |items| == 0 then 0
    else (match items[0] case One(_) => 1 case Many(s) => |s|) + Count(items[1..])
  }

  lemma {:induction false} FlattenCount(items: seq<Item>)
    ensures |Flatten(items)| == Count(items)
  {
    if |items| > 0 {
      FlattenCount(items[1..]);
    }
  }

  /** A list of plain annotations is taken as it is, so a group built from
      another group's annotations (as the filters do) holds exactly them. */
  lemma {:induction false} FlattenFlat(annotations: seq<Annotation>)
    ensures Flatten(seq(|annotations|, i requires 0 <= i < |annotations| => One(annotations[i]))) == annotations
    ensures Flatten([Many(annotations)]) == annotations
  {
    if |annotations| > 0 {
      var items := seq(|annotations|, i requires 0 <= i < |annotations| => One(annotations[i]));
      var rest := annotations[1..];
      FlattenFlat(rest);
      assert items[1..] == seq(|rest|, i requires 0 <= i < |rest| => One(rest[i]));
      assert annotations == [annotations[0]] + rest;
    }
    assert Flatten([Many(annotations)]) == annotations + Flatten([]);
  }

  // ---------------------------------------------------------------------
  // Filters

  /** `Array.prototype.filter` with `===` on one field. */
  function Where(s: seq<Annotation>, field: Field, value: string): (r: seq<Annotation>)
    ensures forall a :: a in r <==> a in s && Get(a, field) == value
    ensures |r| <= |s|
  {
    if |s| == 0 then []
    else
      var rest := Where(s[1..], field, value);
      assert s == [s[0]] + s[1..];
      if Get(s[0], field) == value then [s[0]] + rest else rest
  }

  /** Filtering keeps every matching annotation as often as it occurs and
      no other. */
  lemma {:induction false} WhereCounts(s: seq<Annotation>, field: Field, value: string)
    ensures forall a :: multiset(Where(s, field, value))[a] ==
              if Get(a, field) == value then multiset(s)[a] else 0
  {
    if |s| > 0 {
      WhereCounts(s[1..], field, value);
      assert s == [s[0]] + s[1..];
      assert multiset(s) == multiset{s[0]} + multiset(s[1..]);
    }
  }

  /** Filtering splits over concatenation, so it keeps the order of what it
      keeps. */
  lemma {:induction false} WhereAppend(s: seq<Annotation>, t: seq<Annotation>, field: Field, value: string)
    ensures Where(s + t, field, value) == Where(s, field, value) + Where(t, field, value)
  {
    if |s| > 0 {
      var st := s + t;
      assert st[0] == s[0] && st[1..] == s[1..] + t;
      WhereAppend(s[1..], t, field, value);
      var head: seq<Annotation> := if Get(s[0], field) == value then [s[0]] else [];
      assert Where(st, field, value) == head + Where(st[1..], field, value);
      assert Where(s, field, value) == head + Where(s[1..], field, value);
    } else {
      assert s + t == t;
    }
  }

  /** Nothing is dropped from a list whose entries all match. */
  lemma {:induction false} WhereAllMatch(s: seq<Annotation>, field: Field, value: string)
    requires forall i :: 0 <= i < |s| ==> Get(s[i], field) == value
    ensures Where(s, field, value) == s
  {
    if |s| > 0 {
      WhereAllMatch(s[1..], field, value);
      assert s == [s[0]] + s[1..];
    }
  }

  /** `filterByType`. */
  function FilterByType(g: Group, kind: string): (r: Group)
    ensures forall a :: a in r.annotations <==> a in g.annotations && a.kind == kind
  {
    Group(Where(g.annotations, KindField, kind))
  }

  /** `filterByImageId`. */
  function FilterByImageId(g: Group, imageId: string): (r: Group)
    ensures forall a :: a in r.annotations <==> a in g.annotations && a.imageId == imageId
  {
    Group(Where(g.annotations, ImageIdField, imageId))
  }

  /** Filtering twice by the same value changes nothing the second time. */
  lemma FilterIdempotent(g: Group, kind: string, imageId: string)
    ensures FilterByType(FilterByType(g, kind), kind) == FilterByType(g, kind)
    ensures FilterByImageId(FilterByImageId(g, imageId), imageId) == FilterByImageId(g, imageId)
  {
    var byKind := FilterByType(g, kind).annotations;
    forall i | 0 <= i < |byKind| ensures Get(byKind[i], KindField) == kind {
      assert byKind[i] in byKind;
    }
    WhereAllMatch(byKind, KindField, kind);
    var byImage := FilterByImageId(g, imageId).annotations;
    forall i | 0 <= i < |byImage| ensures Get(byImage[i], ImageIdField) == imageId {
      assert byImage[i] in byImage;
    }
    WhereAllMatch(byImage, ImageIdField, imageId);
  }

  // ---------------------------------------------------------------------
  // Collected values

  /** The field of every annotation, in order. */
  function Values(s: seq<Annotation>, field: Field): (r: seq<string>)
    ensures |r| == |s|
    ensures forall i :: 0 <= i < |s| ==> r[i] == Get(s[i], field)
  {
    seq(|s|, i requires 0 <= i < |s| => Get(s[i], field))
  }

  /** The values of a field, each once, as the `indexOf`/`push` reduction
      collects them. */
  function Distinct(s: seq<Annotation>, field: Field): (r: seq<string>)
    ensures forall x :: x in r <==> exists a :: a in s && Get(a, field) == x
  {
    var values := Values(s, field);
    var r := AppendMissing([], values);
    assert forall x :: x in values <==> exists a :: a in s && Get(a, field) == x by {
      forall x | x in values ensures exists a :: a in s && Get(a, field) == x {
        var i :| 0 <= i < |values| && values[i] == x;
        assert s[i] in s;
      }
      forall x | (exists a :: a in s && Get(a, field) == x) ensures x in values {
        var a :| a in s && Get(a, field) == x;
        var i :| 0 <= i < |s| && s[i] == a;
        assert values[i] == x;
      }
    }
    r
  }

  /** The collected values are distinct and come in the order they first
      appear in the group. */
  lemma DistinctFacts(s: seq<Annotation>, field: Field)
    ensures UniqueFrom(Distinct(s, field), 0)
    ensures InFirstOrder(Distinct(s, field), Values(s, field))
  {
    AppendMissingDistinct([], Values(s, field));
    AppendMissingFirstOrder(Values(s, field));
  }

  /** `getImageIds`. */
  function GetImageIds(g: Group): (r: seq<string>)
    ensures forall x :: x in r <==> exists a :: a in g.annotations && a.imageId == x
  {
    Distinct(g.annotations, ImageIdField)
  }

  /** `getTypes`. */
  function GetTypes(g: Group): (r: seq<string>)
    ensures forall x :: x in r <==> exists a :: a in g.annotations && a.kind == x
  {
    Distinct(g.annotations, KindField)
  }

  /** `hasType`: the `||` reduction over the annotations, seeded with
      `false`. */
  function HasType(g: Group, kind: string): (r: bool)
    ensures r <==> exists i :: 0 <= i < |g.annotations| && g.annotations[i].kind == kind
  {
    AnyOfKind(false, g.annotations, kind)
  }

  function AnyOfKind(result: bool, s: seq<Annotation>, kind: string): (r: bool)
    ensures r <==> result || exists i :: 0 <= i < |s| && s[i].kind == kind
    decreases |s|
  {
    if |s| == 0 then result
    else
      var r := AnyOfKind(result || s[0].kind == kind, s[1..], kind);
      assert forall i :: 0 < i < |s| ==> s[i] == s[1..][i - 1];
      r
  }

  /** A group has a type exactly when filtering by it leaves something,
      exactly when the type is among its types. */
  lemma HasTypeIff(g: Group, kind: string)
    ensures HasType(g, kind) <==> |FilterByType(g, kind).annotations| > 0
    ensures HasType(g, kind) <==> kind in GetTypes(g)
  {
    KindPresence(g.annotations, kind, HasType(g, kind), FilterByType(g, kind).annotations, GetTypes(g));
  }

  /** The three ways of asking whether annotations of a kind are present
      agree. */
  lemma KindPresence(s: seq<Annotation>, kind: string, has: bool, f: seq<Annotation>, types: seq<string>)
    requires has <==> exists i :: 0 <= i < |s| && s[i].kind == kind
    requires forall a :: a in f <==> a in s && a.kind == kind
    requires forall x :: x in types <==> exists a :: a in s && a.kind == x
    ensures has <==> |f| > 0
    ensures has <==> kind in types
  {
    if |f| > 0 {
      assert f[0] in f && f[0] in s;
    }
    if has {
      var i :| 0 <= i < |s| && s[i].kind == kind;
      assert s[i] in s;
      assert s[i] in f;
    }
    if kind in types {
      var a :| a in s && a.kind == kind;
      var i :| 0 <= i < |s| && s[i] == a;
    }
  }

  /** After filtering by a type, that type is the only one left, and it is
      there exactly when the group had it. */
  lemma FilteredTypes(g: Group, kind: string)
    ensures GetTypes(FilterByType(g, kind)) == if HasType(g, kind) then [kind] else []
  {
    var f := FilterByType(g, kind);
    var values := Values(f.annotations, KindField);
    forall i | 0 <= i < |values| ensures values[i] == kind {
      assert f.annotations[i] in f.annotations;
    }
    AppendMissingConstant(values, kind);
    HasTypeIff(g, kind);
  }

  // ---------------------------------------------------------------------
  // Grouping by image

  /** The object `mapByImageIds` builds: one entry per image id, in the
      order the ids are first met, holding that image's annotations. */
  datatype Bucket = Bucket(imageId: string, annotations: seq<Annotation>)

  function Keys(buckets: seq<Bucket>): (r: seq<string>)
    ensures |r| == |buckets|
    ensures forall k :: 0 <= k < |r| ==> r[k] == buckets[k].imageId
  {
    seq(|buckets|, k requires 0 <= k < |buckets| => buckets[k].imageId)
  }

  /** The reduction: a new key is added at the end, a known one gets the
      annotation pushed onto its list. */
  function Buckets(s: seq<Annotation>): (r: seq<Bucket>)
    decreases |s|
  {
    if |s| == 0 then []
    else
      var acc := Buckets(s[..|s| - 1]);
      var a := s[|s| - 1];
      var keys := Keys(acc);
      if a.imageId in keys then
        var k := FirstIndex(keys, a.imageId);
        acc[k := Bucket(a.imageId, acc[k].annotations + [a])]
      else acc + [Bucket(a.imageId, [a])]
  }

  /** The buckets are keyed by the image ids of `s` in `getImageIds` order,
      and each holds what `filterByImageId` keeps for its id. */
  ghost predicate BucketsOf(s: seq<Annotation>, buckets: seq<Bucket>) {
    Keys(buckets) == Distinct(s, ImageIdField) &&
    forall k :: 0 <= k < |buckets| ==>
      buckets[k].annotations == Where(s, ImageIdField, buckets[k].imageId)
  }

  /** One more annotation adds its value at the end when it is new. */
  lemma DistinctSnoc(s: seq<Annotation>, a: Annotation, field: Field)
    ensures Distinct(s + [a], field) ==
              if Get(a, field) in Distinct(s, field) then Distinct(s, field)
              else Distinct(s, field) + [Get(a, field)]
  {
    var values := Values(s + [a], field);
    assert values[..|values| - 1] == Values(s, field);
    assert values[|values| - 1] == Get(a, field);
  }

  /** One more annotation is kept at the end when it matches. */
  lemma WhereSnoc(s: seq<Annotation>, a: Annotation, field: Field, value: string)
    ensures Where(s + [a], field, value) ==
              Where(s, field, value) + if Get(a, field) == value then [a] else []
  {
    WhereAppend(s, [a], field, value);
    assert Where([a], field, value) == (if Get(a, field) == value then [a] else []) + Where([], field, value);
  }

  /** Filtering on a value no annotation has leaves nothing. */
  lemma {:induction false} WhereNone(s: seq<Annotation>, field: Field, value: string)
    requires forall i :: 0 <= i < |s| ==> Get(s[i], field) != value
    ensures Where(s, field, value) == []
  {
    if |s| > 0 {
      WhereNone(s[1..], field, value);
    }
  }

  /** The step of the reduction for an image id already met. */
  lemma BucketsKnown(s: seq<Annotation>, a: Annotation, acc: seq<Bucket>)
    requires BucketsOf(s, acc)
    requires a.imageId in Keys(acc)
    ensures var j := FirstIndex(Keys(acc), a.imageId);
            BucketsOf(s + [a], acc[j := Bucket(a.imageId, acc[j].annotations + [a])])
  {
    var keys := Keys(acc);
    var j := FirstIndex(keys, a.imageId);
    var r := acc[j := Bucket(a.imageId, acc[j].annotations + [a])];
    DistinctSnoc(s, a, ImageIdField);
    DistinctFacts(s, ImageIdField);
    KeysKept(acc, j, Bucket(a.imageId, acc[j].annotations + [a]));
    forall k | 0 <= k < |r| ensures r[k].annotations == Where(s + [a], ImageIdField, r[k].imageId) {
      if k != j {
        assert keys[k] != keys[j];
      }
      KnownBucketAt(s, a, acc, j, k);
    }
  }

  /** Replacing a bucket by one of the same image id keeps the keys. */
  lemma KeysKept(acc: seq<Bucket>, j: nat, b: Bucket)
    requires j < |acc| && b.imageId == acc[j].imageId
    ensures Keys(acc[j := b]) == Keys(acc)
  {
    assert forall k :: 0 <= k < |acc| ==> Keys(acc[j := b])[k] == Keys(acc)[k];
  }

  /** One bucket after the step for a known image id: the id's own bucket
      gains the annotation, every other one is left as its filter. */
  lemma KnownBucketAt(s: seq<Annotation>, a: Annotation, acc: seq<Bucket>, j: nat, k: nat)
    requires j < |acc| && k < |acc| && acc[j].imageId == a.imageId
    requires acc[j].annotations == Where(s, ImageIdField, a.imageId)
    requires acc[k].annotations == Where(s, ImageIdField, acc[k].imageId)
    requires k != j ==> acc[k].imageId != a.imageId
    ensures var r := acc[j := Bucket(a.imageId, acc[j].annotations + [a])];
            r[k].annotations == Where(s + [a], ImageIdField, r[k].imageId)
  {
    var r := acc[j := Bucket(a.imageId, acc[j].annotations + [a])];
    WhereSnoc(s, a, ImageIdField, r[k].imageId);
  }

  /** The step of the reduction for a new image id. */
  lemma BucketsNew(s: seq<Annotation>, a: Annotation, acc: seq<Bucket>)
    requires BucketsOf(s, acc)
    requires a.imageId !in Keys(acc)
    ensures BucketsOf(s + [a], acc + [Bucket(a.imageId, [a])])
  {
    var keys := Keys(acc);
    var r := acc + [Bucket(a.imageId, [a])];
    DistinctSnoc(s, a, ImageIdField);
    assert Keys(r) == keys + [a.imageId];
    forall k | 0 <= k < |r| ensures r[k].annotations == Where(s + [a], ImageIdField, r[k].imageId) {
      WhereSnoc(s, a, ImageIdField, r[k].imageId);
      if k == |acc| {
        forall i | 0 <= i < |s| ensures Get(s[i], ImageIdField) != a.imageId {
          assert s[i] in s;
        }
        WhereNone(s, ImageIdField, a.imageId);
      } else {
        assert keys[k] != a.imageId;
      }
    }
  }

  /** The reduction builds the buckets of its input. */
  lemma {:induction false} BucketsByImageId(s: seq<Annotation>)
    ensures BucketsOf(s, Buckets(s))
    decreases |s|
  {
    if |s| == 0 {
      assert Values(s, ImageIdField) == [];
    } else {
      var init := s[..|s| - 1];
      var a := s[|s| - 1];
      assert s == init + [a];
      BucketsByImageId(init);
      if a.imageId in Keys(Buckets(init)) {
        BucketsKnown(init, a, Buckets(init));
      } else {
        BucketsNew(init, a, Buckets(init));
      }
    }
  }

  /** `mapByImageIds`: `fn` applied to each image's group and its id, in
      first-appearance order of the ids. */
  function MapByImageIds<R>(g: Group, fn: (Group, string) -> R): (r: seq<R>)
    ensures |r| == |GetImageIds(g)|
    ensures forall k :: 0 <= k < |r| ==>
              r[k] == fn(FilterByImageId(g, GetImageIds(g)[k]), GetImageIds(g)[k])
  {
    var buckets := Buckets(g.annotations);
    BucketsByImageId(g.annotations);
    seq(|buckets|, k requires 0 <= k < |buckets| => fn(Group(buckets[k].annotations), buckets[k].imageId))
  }
}

=== FILE: available_quality.dfy ===
/** Which qualities the backend offers for an image
    (backend/WebViewerLibrary/Image/AvailableQuality/OnTheFlyDownloadAvailableQualityPolicy.cpp):
    a compressed transfer syntax the browser can decode is served as it is,
    anything else is recompressed; small images get no thumbnail quality. */
module AvailableQuality {
  import opened Wrappers
  import opened Text
  import opened Toolbox
  import opened Quality

  const TRANSFER_SYNTAX_PREFIX := "1.2.840.10008.1.2.4."
  /** JPEG Baseline (Process 1). */
  const JPEG_BASELINE := "1.2.840.10008.1.2.4.50"
  /** JPEG Lossless, Non-Hierarchical, First-Order Prediction. */
  const JPEG_LOSSLESS_FIRST_ORDER := "1.2.840.10008.1.2.4.70"

  const THUMBNAIL_MIN_SIZE: nat := 750
  const MEDIUM_MIN_SIZE: nat := 2000

  datatype PolicyError = BadLexicalCast | JsonFailure(e: JsonError)

  /** `Columns` or `Rows` of the instance, sanitized and read as uint32. */
  function ImageDimension(tags: map<string, Json>, name: string): (r: Result<nat, PolicyError>)
    ensures r.Ok? ==> r.value < UINT32_LIMIT
    ensures SanitizeTag(name, Get(tags, name)).Err? ==> r == Err(JsonFailure(SanitizeTag(name, Get(tags, name)).error))
    ensures SanitizeTag(name, Get(tags, name)).Ok? ==>
              var text := AsString(SanitizeTag(name, Get(tags, name)).value);
              (text.Err? ==> r == Err(JsonFailure(text.error))) &&
              (text.Ok? && ParseUInt32(text.value).None? ==> r == Err(BadLexicalCast)) &&
              (text.Ok? && ParseUInt32(text.value).Some? ==> r == Ok(ParseUInt32(text.value).value))
  {
    var sanitized := SanitizeTag(name, Get(tags, name));
    if sanitized.Err? then Err(JsonFailure(sanitized.error))
    else
      var text := AsString(sanitized.value);
      if text.Err? then Err(JsonFailure(text.error))
      else
        match ParseUInt32(text.value)
        case Some(n) => Ok(n)
        case None => Err(BadLexicalCast)
  }

  /** A dimension tag holding a rendered number, alone or followed by a
      backslash and anything, reads back as that number. */
  lemma DimensionRoundTrip(tags: map<string, Json>, name: string, n: nat, rest: string)
    requires name == "Columns" || name == "Rows"
    requires n < UINT32_LIMIT && (rest == [] || rest[0] == '\\')
    requires name in tags && tags[name] == JString(NatToString(n) + rest)
    ensures ImageDimension(tags, name) == Ok(n)
  {
    var digits := NatToString(n);
    var s := digits + rest;
    var sanitized := SanitizeTag(name, tags[name]);
    var t := AsString(sanitized.value).value;
    assert s[..|digits|] == digits;
    assert t == digits;
    ParseUInt32ToString(n);
  }

  /** `_isLargerThan`: strictly wider AND strictly taller. */
  function IsLargerThan(width: nat, height: nat, tags: map<string, Json>): (r: Result<bool, PolicyError>)
    ensures r.Err? <==> ImageDimension(tags, "Columns").Err? || ImageDimension(tags, "Rows").Err?
    ensures r.Ok? ==> (r.value <==> ImageDimension(tags, "Columns").value > width &&
                                    ImageDimension(tags, "Rows").value > height)
  {
    var columns :- ImageDimension(tags, "Columns");
    var rows :- ImageDimension(tags, "Rows");
    Ok(columns > width && rows > height)
  }

  function Photometric(tags: map<string, Json>): Result<string, JsonError> {
    AsString(Get(tags, "PhotometricInterpretation"))
  }

  /** The two digits of a transfer syntax matching
      `^1\.2\.840\.10008\.1\.2\.4\.(\d\d)$`, as a number. */
  function JpegProcessCode(transferSyntax: string): (r: Option<nat>)
    ensures r.Some? ==> r.value < 100
  {
    if StartsWith(transferSyntax, TRANSFER_SYNTAX_PREFIX) &&
       |transferSyntax| == |TRANSFER_SYNTAX_PREFIX| + 2 &&
       AllDigits(transferSyntax[|TRANSFER_SYNTAX_PREFIX|..])
    then
      var n := |TRANSFER_SYNTAX_PREFIX|;
      assert IsDigit(transferSyntax[n..][0]) && IsDigit(transferSyntax[n..][1]);
      Some(DigitValue(transferSyntax[n]) * 10 + DigitValue(transferSyntax[n + 1]))
    else None
  }

  /** The code 50 is only spelled "50" and 70 only "70". */
  lemma JpegProcessCodeSpelling(transferSyntax: string)
    ensures JpegProcessCode(transferSyntax) == Some(50) <==> transferSyntax == JPEG_BASELINE
    ensures JpegProcessCode(transferSyntax) == Some(70) <==> transferSyntax == JPEG_LOSSLESS_FIRST_ORDER
  {
    var n := |TRANSFER_SYNTAX_PREFIX|;
    if JpegProcessCode(transferSyntax).Some? {
      assert transferSyntax == TRANSFER_SYNTAX_PREFIX + [transferSyntax[n], transferSyntax[n + 1]];
    }
    assert JPEG_BASELINE[n..] == "50";
    assert JPEG_LOSSLESS_FIRST_ORDER[n..] == "70";
  }

  /** `_canBeDecompressedInFrontend` */
  function CanBeDecompressedInFrontend(transferSyntax: string, tags: map<string, Json>): (r: Result<bool, PolicyError>)
    ensures r == Ok(true) <==>
              (transferSyntax == JPEG_BASELINE &&
                 (Photometric(tags) == Ok("MONOCHROME1") || Photometric(tags) == Ok("MONOCHROME2"))) ||
              (transferSyntax == JPEG_LOSSLESS_FIRST_ORDER &&
                 Photometric(tags).Ok? && Photometric(tags).value != "PALETTE COLOR")
    ensures r.Err? ==> Photometric(tags).Err?
  {
    JpegProcessCodeSpelling(transferSyntax);
    match JpegProcessCode(transferSyntax)
    case None => Ok(false)
    case Some(code) =>
      var supported :-
        if code == 50 then
          match Photometric(tags)
          case Ok(p) => Ok(p == "MONOCHROME1" || p == "MONOCHROME2")
          case Err(e) => Err(JsonFailure(e))
        else Ok(code == 70);
      if !supported then Ok(false)
      else
        match Photometric(tags)
        case Ok(p) => Ok(p != "PALETTE COLOR")
        case Err(e) => Err(JsonFailure(e))
  }

  /** `retrieve`: the set of qualities the frontend may ask for. */
  function Retrieve(transferSyntax: string, tags: map<string, Json>): (r: Result<set<ImageQuality>, PolicyError>)
    ensures r.Err? <==> CanBeDecompressedInFrontend(transferSyntax, tags).Err? ||
                        IsLargerThan(THUMBNAIL_MIN_SIZE, THUMBNAIL_MIN_SIZE, tags).Err?
    ensures r.Ok? && CanBeDecompressedInFrontend(transferSyntax, tags) == Ok(true) ==>
              PIXELDATA in r.value && r.value <= {LOW, PIXELDATA} &&
              (LOW in r.value <==> IsLargerThan(THUMBNAIL_MIN_SIZE, THUMBNAIL_MIN_SIZE, tags) == Ok(true))
    ensures r.Ok? && CanBeDecompressedInFrontend(transferSyntax, tags) == Ok(false) ==>
              LOSSLESS in r.value && r.value <= {LOW, MEDIUM, LOSSLESS} &&
              (LOW in r.value <==> IsLargerThan(THUMBNAIL_MIN_SIZE, THUMBNAIL_MIN_SIZE, tags) == Ok(true)) &&
              (MEDIUM in r.value <==> IsLargerThan(MEDIUM_MIN_SIZE, MEDIUM_MIN_SIZE, tags) == Ok(true))
    ensures r.Ok? ==> !(PIXELDATA in r.value && LOSSLESS in r.value)
  {
    var decodable :- CanBeDecompressedInFrontend(transferSyntax, tags);
    if decodable then DecodableQualities(tags) else TranscodedQualities(tags)
  }

  /** The qualities of an image the frontend decodes itself: its pixel
      data, and a thumbnail when it is large enough. */
  function DecodableQualities(tags: map<string, Json>): (r: Result<set<ImageQuality>, PolicyError>)
    ensures r.Err? <==> IsLargerThan(THUMBNAIL_MIN_SIZE, THUMBNAIL_MIN_SIZE, tags).Err?
    ensures r.Ok? ==>
              PIXELDATA in r.value && r.value <= {LOW, PIXELDATA} &&
              (LOW in r.value <==> IsLargerThan(THUMBNAIL_MIN_SIZE, THUMBNAIL_MIN_SIZE, tags) == Ok(true))
  {
    var thumbnail :- IsLargerThan(THUMBNAIL_MIN_SIZE, THUMBNAIL_MIN_SIZE, tags);
    Ok(QualitySet(thumbnail, false, PIXELDATA))
  }

  /** The qualities of an image the backend transcodes: lossless, and
      the lower qualities the image is large enough for. */
  function TranscodedQualities(tags: map<string, Json>): (r: Result<set<ImageQuality>, PolicyError>)
    ensures r.Err? <==> IsLargerThan(THUMBNAIL_MIN_SIZE, THUMBNAIL_MIN_SIZE, tags).Err?
    ensures r.Ok? ==>
              LOSSLESS in r.value && r.value <= {LOW, MEDIUM, LOSSLESS} &&
              (LOW in r.value <==> IsLargerThan(THUMBNAIL_MIN_SIZE, THUMBNAIL_MIN_SIZE, tags) == Ok(true)) &&
              (MEDIUM in r.value <==> IsLargerThan(MEDIUM_MIN_SIZE, MEDIUM_MIN_SIZE, tags) == Ok(true))
  {
    var thumbnail :- IsLargerThan(THUMBNAIL_MIN_SIZE, THUMBNAIL_MIN_SIZE, tags);
    // Parses the same two tags as the call above, so it cannot fail here.
    var mediumCheck := IsLargerThan(MEDIUM_MIN_SIZE, MEDIUM_MIN_SIZE, tags);
    var medium := mediumCheck.Ok? && mediumCheck.value;
    Ok(QualitySet(thumbnail, medium, LOSSLESS))
  }

  /** The top quality, with LOW and MEDIUM as the flags say. */
  function QualitySet(low: bool, medium: bool, top: ImageQuality): (r: set<ImageQuality>)
    ensures forall q :: q in r <==> q == top || (low && q == LOW) || (medium && q == MEDIUM)
  {
    (if low then {LOW} else {}) + (if medium then {MEDIUM} else {}) + {top}
  }

  /** An image large enough for the medium quality is large enough for a
      thumbnail, so MEDIUM never comes without LOW. */
  lemma MediumImpliesLow(transferSyntax: string, tags: map<string, Json>)
    requires Retrieve(transferSyntax, tags).Ok?
    ensures MEDIUM in Retrieve(transferSyntax, tags).value ==> LOW in Retrieve(transferSyntax, tags).value
  {
  }
}

=== FILE: binaries_cache.dfy ===
/** The browser-side cache of binary requests
    (frontend/src/app/image/image-binary/image-binaries-cache.class.js).
    Requests are kept per image id and per scope (LOW, MEDIUM, and HIGH for
    both LOSSLESS and PIXELDATA), with a binary size and a manual reference
    count each; `flush` frees unreferenced entries of a scope over its size
    limit.

    The three JavaScript hashmaps are kept apart because the source treats
    them apart: `reset` empties two of them, `remove` clears two of them, and
    a missing inner key behaves differently from an inner key holding
    `undefined`. An operation that throws after changing the state returns
    the changed state together with the error. Requests are opaque handles. */
module BinariesCache {
  import opened Wrappers
  import FrontendQuality

  /** A cached request, by identity. */
  type Handle = nat

  datatype Scope = LowScope | MediumScope | HighScope

  /** The number `_scopes.HIGH` stands for; `flush` passes scopes back in as
      qualities. */
  const HIGH_SCOPE_CODE: int := 14312

  const MIB: nat := 1024 * 1024
  const HIGH_LIMIT: nat := 700 * MIB
  const MEDIUM_LIMIT: nat := 700 * MIB
  const LOW_LIMIT: nat := 300 * MIB

  /** A JavaScript number as the reference counts and running totals use
      it: `++` or `-=` on `undefined` gives NaN. */
  datatype Num = Finite(n: int) | NaN

  datatype CacheError = UnexpectedQuality | DualCaching | RemovingUncached | BelowZero | TypeError

  datatype Cache = Cache(
    requests: map<string, map<Scope, Option<Handle>>>,
    sizes: map<string, map<Scope, Option<nat>>>,
    refs: map<string, map<Scope, Num>>,
    /** the keys of `refs`, in insertion order (the order of `for ... in`) */
    order: seq<string>)

  /** What an operation that may throw midway leaves behind. */
  datatype Outcome = Outcome(cache: Cache, failure: Option<CacheError>)

  ghost predicate Distinct(s: seq<string>) {
    forall i, j :: 0 <= i < j < |s| ==> s[i] != s[j]
  }

  /** The shape every operation keeps: `order` lists the keys of `refs`
      once each, and `requests` and `sizes` have the same image ids, all of
      them with a reference-count map. */
  ghost predicate Valid(c: Cache) {
    Distinct(c.order) &&
    (forall id :: id in c.refs <==> id in c.order) &&
    c.requests.Keys == c.sizes.Keys && c.requests.Keys <= c.refs.Keys
  }

  function NewCache(): (c: Cache)
    ensures Valid(c)
  {
    Cache(map[], map[], map[], [])
  }

  /** `_getCacheScopeFromQuality`. */
  function ScopeOf(quality: int): (r: Result<Scope, CacheError>)
    ensures r == Ok(LowScope) <==> quality == FrontendQuality.LOW
    ensures r == Ok(MediumScope) <==> quality == FrontendQuality.MEDIUM
    ensures r == Ok(HighScope) <==>
              quality == FrontendQuality.LOSSLESS || quality == FrontendQuality.PIXELDATA ||
              quality == HIGH_SCOPE_CODE
    ensures r.Err? ==> r.error == UnexpectedQuality
  {
    if quality == FrontendQuality.LOW then Ok(LowScope)
    else if quality == FrontendQuality.MEDIUM then Ok(MediumScope)
    else if quality == HIGH_SCOPE_CODE then Ok(HighScope)
    else if quality == FrontendQuality.LOSSLESS then Ok(HighScope)
    else if quality == FrontendQuality.PIXELDATA then Ok(HighScope)
    else Err(UnexpectedQuality)
  }

  /** The quality `flush` passes to `remove` for a scope. */
  function ScopeCode(s: Scope): int {
    match s
    case LowScope => FrontendQuality.LOW
    case MediumScope => FrontendQuality.MEDIUM
    case HighScope => HIGH_SCOPE_CODE
  }

  lemma ScopeCodeRoundTrip(s: Scope)
    ensures ScopeOf(ScopeCode(s)) == Ok(s)
  {
  }

  // ---------------------------------------------------------------------
  // Reading the state

  /** The cached request, if there is one (a missing key and `undefined`
      alike). */
  function Lookup(c: Cache, id: string, s: Scope): Option<Handle> {
    if id in c.requests && s in c.requests[id] then c.requests[id][s] else None
  }

  /** The reference count's value; a missing one reads as `undefined`, here
      NaN, which no comparison satisfies. */
  function RefOf(c: Cache, id: string, s: Scope): Num {
    if id in c.refs && s in c.refs[id] then c.refs[id][s] else NaN
  }

  /** `refCount > 0` */
  predicate Referenced(c: Cache, id: string, s: Scope) {
    RefOf(c, id, s).Finite? && RefOf(c, id, s).n > 0
  }

  /** The size `_getCacheScopeSize` counts for an image: its binary size
      when the scope key is present, `undefined` counting as 0. */
  function SizeOf(c: Cache, id: string, s: Scope): nat {
    if id in c.requests && s in c.requests[id] && id in c.sizes && s in c.sizes[id] &&
       c.sizes[id][s].Some?
    then c.sizes[id][s].value
    else 0
  }

  function SumSizes(c: Cache, s: Scope, ids: seq<string>): nat {
    if |ids| == 0 then 0 else SizeOf(c, ids[0], s) + SumSizes(c, s, ids[1..])
  }

  /** `_getCacheScopeSize`: the sum over every image id. */
  function ScopeSize(c: Cache, s: Scope): nat {
    SumSizes(c, s, c.order)
  }

  /** Every image's size is part of the sum, which is 0 exactly when every
      size is. */
  lemma {:induction false} SumSizesBounds(c: Cache, s: Scope, ids: seq<string>)
    ensures forall i :: 0 <= i < |ids| ==> SizeOf(c, ids[i], s) <= SumSizes(c, s, ids)
    ensures SumSizes(c, s, ids) == 0 <==> forall i :: 0 <= i < |ids| ==> SizeOf(c, ids[i], s) == 0
  {
    if |ids| > 0 {
      SumSizesBounds(c, s, ids[1..]);
      assert forall i :: 0 < i < |ids| ==> ids[i] == ids[1..][i - 1];
    }
  }

  // ---------------------------------------------------------------------
  // Operations

  /** The entry of one image with one key replaced. */
  function SetIn<V>(m: map<string, map<Scope, V>>, id: string, s: Scope, v: V): (m': map<string, map<Scope, V>>)
    ensures m'.Keys == m.Keys + {id} && s in m'[id] && m'[id][s] == v
  {
    m[id := (if id in m then m[id] else map[])[s := v]]
  }

  lemma SetInOther<V>(m: map<string, map<Scope, V>>, id: string, s: Scope, v: V, id': string, s': Scope)
    requires id' != id || s' != s
    ensures var m' := SetIn(m, id, s, v);
            (id' in m' && s' in m'[id'] <==> id' in m && s' in m[id']) &&
            (id' in m && s' in m[id'] ==> m'[id'][s'] == m[id'][s'])
  {
  }

  /** The count `add` leaves: kept when it is a non-zero number, else 0. */
  function KeptCount(x: Num): (y: Num)
    ensures y.Finite?
    ensures x.Finite? && x.n != 0 ==> y == x
    ensures x.NaN? || x == Finite(0) ==> y == Finite(0)
  {
    match x
    case Finite(n) => if n != 0 then Finite(n) else Finite(0)
    case NaN => Finite(0)
  }

  /** The state change of `add` in a resolved scope. */
  function Insert(c: Cache, id: string, s: Scope, request: Handle): (c': Cache)
    requires Valid(c)
    ensures Valid(c')
    ensures Lookup(c', id, s) == Some(request) && SizeOf(c', id, s) == 0
    ensures RefOf(c', id, s) == KeptCount(RefOf(c, id, s))
  {
    var order := Register(c.order, id);
    var refs := SetIn(c.refs, id, s, KeptCount(RefOf(c, id, s)));
    Cache(SetIn(c.requests, id, s, Some(request)), SetIn(c.sizes, id, s, None), refs, order)
  }

  /** The image ids after `add` of `id`: a new one goes last. */
  function Register(order: seq<string>, id: string): (r: seq<string>)
    requires Distinct(order)
    ensures Distinct(r) && forall x :: x in r <==> x in order || x == id
  {
    if id in order then order else order + [id]
  }

  /** `add` touches no other entry. */
  lemma InsertFrame(c: Cache, id: string, s: Scope, request: Handle, id': string, s': Scope)
    requires Valid(c) && (id' != id || s' != s)
    ensures var c' := Insert(c, id, s, request);
            Lookup(c', id', s') == Lookup(c, id', s') && SizeOf(c', id', s') == SizeOf(c, id', s') &&
            RefOf(c', id', s') == RefOf(c, id', s')
  {
    var c' := Insert(c, id, s, request);
    InsertParts(c, id, s, request);
    EntryFrame(c, c', id, s, Some(request), None, id', s');
    RefFrame(c, c', id, s, KeptCount(RefOf(c, id, s)), id', s');
  }

  lemma InsertParts(c: Cache, id: string, s: Scope, request: Handle)
    requires Valid(c)
    ensures var c' := Insert(c, id, s, request);
            c'.requests == SetIn(c.requests, id, s, Some(request)) &&
            c'.sizes == SetIn(c.sizes, id, s, None) &&
            c'.refs == SetIn(c.refs, id, s, KeptCount(RefOf(c, id, s)))
  {
  }

  /** Setting one request and its size leaves every other entry as it was. */
  lemma EntryFrame(c: Cache, c': Cache, id: string, s: Scope, request: Option<Handle>, size: Option<nat>,
                   id': string, s': Scope)
    requires id' != id || s' != s
    requires c'.requests == SetIn(c.requests, id, s, request) && c'.sizes == SetIn(c.sizes, id, s, size)
    ensures Lookup(c', id', s') == Lookup(c, id', s') && SizeOf(c', id', s') == SizeOf(c, id', s')
  {
    SetInOther(c.requests, id, s, request, id', s');
    SetInOther(c.sizes, id, s, size, id', s');
    SizeFrame(c, c', id', s');
  }

  /** The size read depends on the two entries only. */
  lemma SizeFrame(c: Cache, c': Cache, id: string, s: Scope)
    requires (id in c'.requests && s in c'.requests[id]) == (id in c.requests && s in c.requests[id])
    requires (id in c'.sizes && s in c'.sizes[id]) == (id in c.sizes && s in c.sizes[id])
    requires id in c.sizes && s in c.sizes[id] ==> c'.sizes[id][s] == c.sizes[id][s]
    ensures SizeOf(c', id, s) == SizeOf(c, id, s)
  {
  }

  /** Setting one reference count leaves every other as it was. */
  lemma RefFrame(c: Cache, c': Cache, id: string, s: Scope, count: Num, id': string, s': Scope)
    requires id' != id || s' != s
    requires c'.refs == SetIn(c.refs, id, s, count)
    ensures RefOf(c', id', s') == RefOf(c, id', s')
  {
    SetInOther(c.refs, id, s, count, id', s');
  }

  /** `add`: registers a request with an unknown size; the reference count
      keeps its value if it had one (`|| 0`). A request already cached in the
      scope throws, and changes nothing. */
  function Add(c: Cache, id: string, quality: int, request: Handle): (r: Result<Cache, CacheError>)
    requires Valid(c)
    ensures ScopeOf(quality).Err? ==> r == Err(UnexpectedQuality)
    ensures ScopeOf(quality).Ok? ==>
              (r.Err? <==> Lookup(c, id, ScopeOf(quality).value).Some?) &&
              (r.Err? ==> r.error == DualCaching) &&
              (r.Ok? ==> r.value == Insert(c, id, ScopeOf(quality).value, request))
  {
    var s :- ScopeOf(quality);
    if Lookup(c, id, s).Some? then Err(DualCaching)
    else Ok(Insert(c, id, s, request))
  }

  /** The state change of `remove` in a resolved scope. */
  function Clear(c: Cache, id: string, s: Scope): (c': Cache)
    requires Valid(c) && id in c.requests
    ensures Valid(c') && c'.refs == c.refs && c'.order == c.order
    ensures Lookup(c', id, s).None? && SizeOf(c', id, s) == 0
  {
    c.(requests := SetIn(c.requests, id, s, None), sizes := SetIn(c.sizes, id, s, None))
  }

  /** `remove` touches no other entry. */
  lemma ClearFrame(c: Cache, id: string, s: Scope, id': string, s': Scope)
    requires Valid(c) && id in c.requests && (id' != id || s' != s)
    ensures var c' := Clear(c, id, s);
            Lookup(c', id', s') == Lookup(c, id', s') && SizeOf(c', id', s') == SizeOf(c, id', s')
  {
    EntryFrame(c, Clear(c, id, s), id, s, None, None, id', s');
  }

  /** `remove`: clears the request and its size but keeps the reference
      count; removing what is not cached throws, after the clearing. An
      image id never added throws before any change. */
  function Remove(c: Cache, id: string, quality: int): (o: Outcome)
    requires Valid(c)
    ensures Valid(o.cache)
    ensures o.cache.refs == c.refs && o.cache.order == c.order
    ensures ScopeOf(quality).Err? ==> o == Outcome(c, Some(UnexpectedQuality))
    ensures ScopeOf(quality).Ok? && id !in c.requests ==> o == Outcome(c, Some(TypeError))
    ensures ScopeOf(quality).Ok? && id in c.requests ==>
              o.cache == Clear(c, id, ScopeOf(quality).value) &&
              (o.failure.Some? <==> Lookup(c, id, ScopeOf(quality).value).None?) &&
              (o.failure.Some? ==> o.failure.value == RemovingUncached)
  {
    match ScopeOf(quality)
    case Err(e) => Outcome(c, Some(e))
    case Ok(s) =>
      if id !in c.requests then Outcome(c, Some(TypeError))
      else Outcome(Clear(c, id, s), if Lookup(c, id, s).None? then Some(RemovingUncached) else None)
  }

  /** `get`: the cached request or null. */
  function Get(c: Cache, id: string, quality: int): (r: Result<Option<Handle>, CacheError>)
    ensures r.Err? <==> ScopeOf(quality).Err?
    ensures r.Ok? ==> r.value == Lookup(c, id, ScopeOf(quality).value)
  {
    var s :- ScopeOf(quality);
    Ok(Lookup(c, id, s))
  }

  function Increment(x: Num): Num {
    match x
    case Finite(n) => Finite(n + 1)
    case NaN => NaN
  }

  function Decrement(x: Num): Num {
    match x
    case Finite(n) => Finite(n - 1)
    case NaN => NaN
  }

  /** `push`: one more reference. An image id never added throws. */
  function Push(c: Cache, id: string, quality: int): (r: Result<Cache, CacheError>)
    requires Valid(c)
    ensures r.Err? <==> ScopeOf(quality).Err? || id !in c.refs
    ensures r.Ok? ==>
              var s := ScopeOf(quality).value;
              Valid(r.value) && RefOf(r.value, id, s) == Increment(RefOf(c, id, s)) &&
              r.value.requests == c.requests && r.value.sizes == c.sizes &&
              (forall id', s' :: id' != id || s' != s ==> RefOf(r.value, id', s') == RefOf(c, id', s'))
  {
    var s :- ScopeOf(quality);
    if id !in c.refs then Err(TypeError)
    else Ok(c.(refs := SetIn(c.refs, id, s, Increment(RefOf(c, id, s)))))
  }

  /** `pop`: one reference less; going below 0 throws, after the decrement. */
  function Pop(c: Cache, id: string, quality: int): (o: Outcome)
    requires Valid(c)
    ensures Valid(o.cache)
    ensures ScopeOf(quality).Err? || id !in c.refs ==> o.cache == c && o.failure.Some?
    ensures ScopeOf(quality).Ok? && id in c.refs ==>
              var s := ScopeOf(quality).value;
              RefOf(o.cache, id, s) == Decrement(RefOf(c, id, s)) &&
              (o.failure.Some? <==> RefOf(o.cache, id, s).Finite? && RefOf(o.cache, id, s).n < 0) &&
              o.cache.requests == c.requests && o.cache.sizes == c.sizes
  {
    match ScopeOf(quality)
    case Err(e) => Outcome(c, Some(e))
    case Ok(s) =>
      if id !in c.refs then Outcome(c, Some(TypeError))
      else
        var count := Decrement(RefOf(c, id, s));
        var popped := c.(refs := SetIn(c.refs, id, s, count));
        Outcome(popped, if count.Finite? && count.n < 0 then Some(BelowZero) else None)
  }

  /** `getRefCount`: the count, with an unknown image or scope (or NaN)
      reading as 0. */
  function GetRefCount(c: Cache, id: string, quality: int): (r: Result<int, CacheError>)
    ensures r.Err? <==> ScopeOf(quality).Err?
    ensures r.Ok? && RefOf(c, id, ScopeOf(quality).value).NaN? ==> r.value == 0
    ensures r.Ok? && RefOf(c, id, ScopeOf(quality).value).Finite? ==>
              r.value == RefOf(c, id, ScopeOf(quality).value).n
  {
    var s :- ScopeOf(quality);
    match RefOf(c, id, s)
    case Finite(n) => Ok(n)
    case NaN => Ok(0)
  }

  /** `setBinarySize`. An image id unknown to the size map throws. */
  function SetBinarySize(c: Cache, id: string, quality: int, size: nat): (r: Result<Cache, CacheError>)
    requires Valid(c)
    ensures r.Err? <==> ScopeOf(quality).Err? || id !in c.sizes
    ensures r.Ok? ==>
              var s := ScopeOf(quality).value;
              Valid(r.value) && r.value.requests == c.requests && r.value.refs == c.refs &&
              (Lookup(c, id, s).Some? ==> SizeOf(r.value, id, s) == size)
    ensures r.Ok? ==>
              forall id', s' :: (id', s') != (id, ScopeOf(quality).value) ==>
                SizeOf(r.value, id', s') == SizeOf(c, id', s')
  {
    var s :- ScopeOf(quality);
    if id !in c.sizes then Err(TypeError)
    else
      SetSizeFrame(c, id, s, size);
      Ok(c.(sizes := SetIn(c.sizes, id, s, Some(size))))
  }

  /** Setting one size leaves the size of every other entry as it was. */
  lemma SetSizeFrame(c: Cache, id: string, s: Scope, size: nat)
    ensures var c' := c.(sizes := SetIn(c.sizes, id, s, Some(size)));
            forall id', s' :: (id', s') != (id, s) ==> SizeOf(c', id', s') == SizeOf(c, id', s')
  {
    var c' := c.(sizes := SetIn(c.sizes, id, s, Some(size)));
    forall id', s' | (id', s') != (id, s) ensures SizeOf(c', id', s') == SizeOf(c, id', s') {
      SetInOther(c.sizes, id, s, Some(size), id', s');
    }
  }

  /** `reset`: forgets the requests and their sizes, not the reference
      counts. */
  function Reset(c: Cache): (r: Cache)
    requires Valid(c)
    ensures Valid(r) && r.refs == c.refs
    ensures forall id, s :: Lookup(r, id, s).None? && SizeOf(r, id, s) == 0
  {
    c.(requests := map[], sizes := map[])
  }

  // ---------------------------------------------------------------------
  // Flushing

  /** `total -= flushedSize`, with an undefined size giving NaN. */
  function Subtract(total: Num, size: Option<nat>): Num {
    if total.Finite? && size.Some? then Finite(total.n - size.value) else NaN
  }

  predicate Below(total: Num, limit: nat) {
    total.Finite? && total.n < limit
  }

  /** The loop of `_flushCache` over the image ids, with the running total
      of the scope. */
  function FlushLoop(c: Cache, s: Scope, limit: nat, ids: seq<string>, total: Num): (o: Outcome)
    requires Valid(c)
    ensures Valid(o.cache) && o.cache.refs == c.refs && o.cache.order == c.order
    decreases |ids|
  {
    if |ids| == 0 || Below(total, limit) then Outcome(c, None)
    else
      var id := ids[0];
      if Referenced(c, id, s) then FlushLoop(c, s, limit, ids[1..], total)
      else if id !in c.sizes then Outcome(c, Some(TypeError))
      else
        var flushedSize := if s in c.sizes[id] then c.sizes[id][s] else None;
        var removed := Remove(c, id, ScopeCode(s));
        ScopeCodeRoundTrip(s);
        if removed.failure.Some? then removed
        else FlushLoop(removed.cache, s, limit, ids[1..], Subtract(total, flushedSize))
  }

  /** `_flushCache(scope, limit)`. */
  function FlushScope(c: Cache, s: Scope, limit: nat): (o: Outcome)
    requires Valid(c)
    ensures Valid(o.cache) && o.cache.refs == c.refs && o.cache.order == c.order
    ensures ScopeSize(c, s) < limit ==> o == Outcome(c, None)
  {
    var total := ScopeSize(c, s);
    if total < limit then Outcome(c, None)
    else FlushLoop(c, s, limit, c.order, Finite(total))
  }

  /** `flush`: HIGH, then MEDIUM, then LOW; an exception ends it. */
  function Flush(c: Cache): (o: Outcome)
    requires Valid(c)
    ensures Valid(o.cache) && o.cache.refs == c.refs && o.cache.order == c.order
  {
    var high := FlushScope(c, HighScope, HIGH_LIMIT);
    if high.failure.Some? then high
    else
      var medium := FlushScope(high.cache, MediumScope, MEDIUM_LIMIT);
      if medium.failure.Some? then medium
      else FlushScope(medium.cache, LowScope, LOW_LIMIT)
  }

  function Limit(s: Scope): nat {
    match s
    case HighScope => HIGH_LIMIT
    case MediumScope => MEDIUM_LIMIT
    case LowScope => LOW_LIMIT
  }

  // ---------------------------------------------------------------------
  // What flushing keeps

  /** The turns of the loop of `_flushCache`: it stops once the ids run
      out or the total is under the limit, skips a referenced entry, and
      throws for an image id missing from the size map. */
  lemma LoopStops(c: Cache, s: Scope, limit: nat, ids: seq<string>, total: Num)
    requires Valid(c) && (|ids| == 0 || Below(total, limit))
    ensures FlushLoop(c, s, limit, ids, total) == Outcome(c, None)
  {
  }

  lemma LoopSkips(c: Cache, s: Scope, limit: nat, ids: seq<string>, total: Num)
    requires Valid(c) && |ids| > 0 && !Below(total, limit) && Referenced(c, ids[0], s)
    ensures FlushLoop(c, s, limit, ids, total) == FlushLoop(c, s, limit, ids[1..], total)
  {
  }

  lemma LoopThrows(c: Cache, s: Scope, limit: nat, ids: seq<string>, total: Num)
    requires Valid(c) && |ids| > 0 && !Below(total, limit) && !Referenced(c, ids[0], s) && ids[0] !in c.sizes
    ensures FlushLoop(c, s, limit, ids, total) == Outcome(c, Some(TypeError))
  {
  }

  /** Flushing one scope changes no entry of another scope and no
      referenced entry. */
  lemma {:induction false} FlushLoopFrame(c: Cache, s: Scope, limit: nat, ids: seq<string>, total: Num,
                                          id: string, s': Scope)
    requires Valid(c)
    requires s' != s || Referenced(c, id, s)
    ensures var o := FlushLoop(c, s, limit, ids, total);
            Lookup(o.cache, id, s') == Lookup(c, id, s') && SizeOf(o.cache, id, s') == SizeOf(c, id, s')
    decreases |ids|, 1
  {
    if |ids| == 0 || Below(total, limit) {
      LoopStops(c, s, limit, ids, total);
    } else if Referenced(c, ids[0], s) {
      LoopSkips(c, s, limit, ids, total);
      FlushLoopFrame(c, s, limit, ids[1..], total, id, s');
    } else if ids[0] !in c.sizes {
      LoopThrows(c, s, limit, ids, total);
    } else {
      FrameRemoveTurn(c, s, limit, ids, total, id, s');
    }
  }

  /** The turn of `FlushLoopFrame` that clears the first image's entry. */
  lemma {:induction false} FrameRemoveTurn(c: Cache, s: Scope, limit: nat, ids: seq<string>, total: Num,
                                           id: string, s': Scope)
    requires Valid(c) && |ids| > 0 && !Below(total, limit) && !Referenced(c, ids[0], s) && ids[0] in c.sizes
    requires s' != s || Referenced(c, id, s)
    ensures var o := FlushLoop(c, s, limit, ids, total);
            Lookup(o.cache, id, s') == Lookup(c, id, s') && SizeOf(o.cache, id, s') == SizeOf(c, id, s')
    decreases |ids|, 0
  {
    RemoveTurn(c, s, limit, ids, total);
    var cleared := Clear(c, ids[0], s);
    ClearFrame(c, ids[0], s, id, s');
    if Lookup(c, ids[0], s).Some? {
      FlushLoopFrame(cleared, s, limit, ids[1..], Subtract(total, FlushedSize(c, ids[0], s)), id, s');
    }
  }

  lemma FlushScopeFrame(c: Cache, s: Scope, limit: nat, id: string, s': Scope)
    requires Valid(c)
    requires s' != s || Referenced(c, id, s)
    ensures var o := FlushScope(c, s, limit);
            Lookup(o.cache, id, s') == Lookup(c, id, s') && SizeOf(o.cache, id, s') == SizeOf(c, id, s')
  {
    if ScopeSize(c, s) >= limit {
      FlushLoopFrame(c, s, limit, c.order, Finite(ScopeSize(c, s)), id, s');
    }
  }

  /** `flush` never drops a request that is still referenced. */
  lemma FlushKeepsReferenced(c: Cache, id: string, s: Scope)
    requires Valid(c) && Referenced(c, id, s)
    ensures Lookup(Flush(c).cache, id, s) == Lookup(c, id, s)
  {
    var high := FlushScope(c, HighScope, HIGH_LIMIT);
    FlushScopeFrame(c, HighScope, HIGH_LIMIT, id, s);
    if high.failure.None? {
      var medium := FlushScope(high.cache, MediumScope, MEDIUM_LIMIT);
      FlushScopeFrame(high.cache, MediumScope, MEDIUM_LIMIT, id, s);
      if medium.failure.None? {
        FlushScopeFrame(medium.cache, LowScope, LOW_LIMIT, id, s);
      }
    }
  }

  /** A scope under its limit keeps every entry. */
  lemma FlushSparesSmallScope(c: Cache, s: Scope, id: string)
    requires Valid(c) && ScopeSize(c, s) < Limit(s)
    ensures Lookup(Flush(c).cache, id, s) == Lookup(c, id, s)
  {
    var high := FlushScope(c, HighScope, HIGH_LIMIT);
    FlushStepKeeps(c, HighScope, id, s);
    if high.failure.Some? {
      assert Flush(c) == high;
    } else {
      var medium := FlushScope(high.cache, MediumScope, MEDIUM_LIMIT);
      FlushStepKeeps(high.cache, MediumScope, id, s);
      if medium.failure.Some? {
        assert Flush(c) == medium;
      } else {
        FlushStepKeeps(medium.cache, LowScope, id, s);
        assert Flush(c) == FlushScope(medium.cache, LowScope, LOW_LIMIT);
      }
    }
  }

  /** One step of `flush` keeps a small scope's entries and keeps it small. */
  lemma FlushStepKeeps(c: Cache, flushed: Scope, id: string, s: Scope)
    requires Valid(c) && ScopeSize(c, s) < Limit(s)
    ensures var o := FlushScope(c, flushed, Limit(flushed));
            Lookup(o.cache, id, s) == Lookup(c, id, s) && ScopeSize(o.cache, s) < Limit(s)
  {
    if s != flushed {
      var o := FlushScope(c, flushed, Limit(flushed));
      FlushScopeFrame(c, flushed, Limit(flushed), id, s);
      ScopeSizeFrame(c, o.cache, s, flushed, c.order);
    }
  }

  /** Flushing another scope leaves this scope's size as it was. */
  lemma {:induction false} ScopeSizeFrame(c: Cache, c': Cache, s: Scope, flushed: Scope, ids: seq<string>)
    requires Valid(c) && s != flushed && c' == FlushScope(c, flushed, Limit(flushed)).cache
    ensures SumSizes(c', s, ids) == SumSizes(c, s, ids)
    decreases |ids|
  {
    if |ids| > 0 {
      FlushScopeFrame(c, flushed, Limit(flushed), ids[0], s);
      ScopeSizeFrame(c, c', s, flushed, ids[1..]);
    }
  }

  /** Clearing one image's entry lowers the scope's sum by that entry's
      size and no more. */
  lemma SumSizesClear(c: Cache, id: string, s: Scope, ids: seq<string>)
    requires Valid(c) && id in c.requests && Distinct(ids)
    ensures SumSizes(Clear(c, id, s), s, ids) + (if id in ids then SizeOf(c, id, s) else 0) == SumSizes(c, s, ids)
  {
    var c' := Clear(c, id, s);
    forall x | x != id ensures SizeOf(c', x, s) == SizeOf(c, x, s) {
      ClearFrame(c, id, s, x, s);
    }
    SumSizesDrop(c, c', id, s, ids);
  }

  /** A cache whose entry for `id` is empty and every other entry as in
      `c` sums to `c`'s sum less that entry. */
  lemma {:induction false} SumSizesDrop(c: Cache, c': Cache, id: string, s: Scope, ids: seq<string>)
    requires Distinct(ids) && SizeOf(c', id, s) == 0
    requires forall x :: x != id ==> SizeOf(c', x, s) == SizeOf(c, x, s)
    ensures SumSizes(c', s, ids) + (if id in ids then SizeOf(c, id, s) else 0) == SumSizes(c, s, ids)
    decreases |ids|
  {
    if |ids| > 0 {
      DistinctTail(ids);
      SumSizesDrop(c, c', id, s, ids[1..]);
      assert id in ids <==> id == ids[0] || id in ids[1..] by {
        assert ids == [ids[0]] + ids[1..];
      }
    }
  }

  /** Flushing only clears: an entry absent before is absent after. */
  lemma {:induction false} FlushLoopClears(c: Cache, s: Scope, limit: nat, ids: seq<string>, total: Num,
                                           id: string, s': Scope)
    requires Valid(c) && Lookup(c, id, s').None?
    ensures Lookup(FlushLoop(c, s, limit, ids, total).cache, id, s').None?
    decreases |ids|, 1
  {
    if |ids| == 0 || Below(total, limit) {
      LoopStops(c, s, limit, ids, total);
    } else if Referenced(c, ids[0], s) {
      LoopSkips(c, s, limit, ids, total);
      FlushLoopClears(c, s, limit, ids[1..], total, id, s');
    } else if ids[0] !in c.sizes {
      LoopThrows(c, s, limit, ids, total);
    } else {
      ClearsRemoveTurn(c, s, limit, ids, total, id, s');
    }
  }

  /** The turn of `FlushLoopClears` that clears the first image's entry. */
  lemma {:induction false} ClearsRemoveTurn(c: Cache, s: Scope, limit: nat, ids: seq<string>, total: Num,
                                            id: string, s': Scope)
    requires Valid(c) && |ids| > 0 && !Below(total, limit) && !Referenced(c, ids[0], s) && ids[0] in c.sizes
    requires Lookup(c, id, s').None?
    ensures Lookup(FlushLoop(c, s, limit, ids, total).cache, id, s').None?
    decreases |ids|, 0
  {
    RemoveTurn(c, s, limit, ids, total);
    var cleared := Clear(c, ids[0], s);
    if id != ids[0] || s' != s {
      ClearFrame(c, ids[0], s, id, s');
    }
    if Lookup(c, ids[0], s).Some? {
      FlushLoopClears(cleared, s, limit, ids[1..], Subtract(total, FlushedSize(c, ids[0], s)), id, s');
    }
  }

  /** Every entry of `ids` in scope `s` that `c` does not reference is gone
      from `after`. */
  predicate FlushedAll(c: Cache, s: Scope, ids: seq<string>, after: Cache) {
    forall i :: 0 <= i < |ids| ==> Referenced(c, ids[i], s) || Lookup(after, ids[i], s).None?
  }

  lemma FlushedAllCons(c: Cache, s: Scope, ids: seq<string>, after: Cache)
    requires |ids| > 0 && FlushedAll(c, s, ids[1..], after)
    requires Referenced(c, ids[0], s) || Lookup(after, ids[0], s).None?
    ensures FlushedAll(c, s, ids, after)
  {
    forall i | 0 <= i < |ids| ensures Referenced(c, ids[i], s) || Lookup(after, ids[i], s).None? {
      if i > 0 {
        assert ids[i] == ids[1..][i - 1];
      }
    }
  }

  /** Only the reference counts of the earlier state matter. */
  lemma FlushedAllSameRefs(c: Cache, c': Cache, s: Scope, ids: seq<string>, after: Cache)
    requires c.refs == c'.refs && FlushedAll(c, s, ids, after)
    ensures FlushedAll(c', s, ids, after)
  {
    assert forall id :: RefOf(c, id, s) == RefOf(c', id, s);
  }

  lemma DistinctTail(ids: seq<string>)
    requires |ids| > 0 && Distinct(ids)
    ensures Distinct(ids[1..]) && ids[0] !in ids[1..]
  {
    forall i, j | 0 <= i < j < |ids[1..]| ensures ids[1..][i] != ids[1..][j] {
      assert ids[1..][i] == ids[i + 1] && ids[1..][j] == ids[j + 1];
    }
    forall k | 0 <= k < |ids[1..]| ensures ids[1..][k] != ids[0] {
      assert ids[1..][k] == ids[k + 1];
    }
  }

  /** What the loop of `_flushCache` achieves when nothing throws: the
      running total is the scope's true size while it is a number, and the
      loop ends either with the scope under its limit or with every
      unreferenced entry of the walked ids removed. */
  lemma {:induction false} FlushLoopResult(c: Cache, s: Scope, limit: nat, ids: seq<string>, total: Num)
    requires Valid(c) && Distinct(ids) && (forall i :: 0 <= i < |ids| ==> ids[i] in c.order)
    requires total.Finite? ==> total.n == ScopeSize(c, s)
    ensures var o := FlushLoop(c, s, limit, ids, total);
            o.failure.None? ==> ScopeSize(o.cache, s) < limit || FlushedAll(c, s, ids, o.cache)
    decreases |ids|, 1
  {
    if |ids| == 0 || Below(total, limit) {
    } else if Referenced(c, ids[0], s) {
      DistinctTail(ids);
      FlushLoopResult(c, s, limit, ids[1..], total);
      var o := FlushLoop(c, s, limit, ids, total);
      if o.failure.None? && ScopeSize(o.cache, s) >= limit {
        FlushedAllCons(c, s, ids, o.cache);
      }
    } else if ids[0] in c.sizes {
      FlushRemoveStep(c, s, limit, ids, total);
    }
  }

  /** The size `_flushCache` reads before removing an entry. */
  function FlushedSize(c: Cache, id: string, s: Scope): Option<nat>
    requires id in c.sizes
  {
    if s in c.sizes[id] then c.sizes[id][s] else None
  }

  /** One turn of the loop that removes the first image's entry. */
  lemma RemoveTurn(c: Cache, s: Scope, limit: nat, ids: seq<string>, total: Num)
    requires Valid(c) && |ids| > 0 && !Below(total, limit) && !Referenced(c, ids[0], s) && ids[0] in c.sizes
    ensures ids[0] in c.requests
    ensures Lookup(c, ids[0], s).None? ==>
              FlushLoop(c, s, limit, ids, total) == Outcome(Clear(c, ids[0], s), Some(RemovingUncached))
    ensures Lookup(c, ids[0], s).Some? ==>
              FlushLoop(c, s, limit, ids, total) ==
              FlushLoop(Clear(c, ids[0], s), s, limit, ids[1..], Subtract(total, FlushedSize(c, ids[0], s)))
  {
    LoopRemoves(c, s, limit, ids, total);
    RemoveScope(c, ids[0], s);
  }

  lemma LoopRemoves(c: Cache, s: Scope, limit: nat, ids: seq<string>, total: Num)
    requires Valid(c) && |ids| > 0 && !Below(total, limit) && !Referenced(c, ids[0], s) && ids[0] in c.sizes
    ensures var removed := Remove(c, ids[0], ScopeCode(s));
            FlushLoop(c, s, limit, ids, total) ==
              if removed.failure.Some? then removed
              else FlushLoop(removed.cache, s, limit, ids[1..], Subtract(total, FlushedSize(c, ids[0], s)))
  {
  }

  /** `remove` of a scope's own code clears that scope's entry. */
  lemma RemoveScope(c: Cache, id: string, s: Scope)
    requires Valid(c) && id in c.requests
    ensures Remove(c, id, ScopeCode(s)) ==
            Outcome(Clear(c, id, s), if Lookup(c, id, s).None? then Some(RemovingUncached) else None)
  {
    ScopeCodeRoundTrip(s);
  }

  /** The running total after a removal is still the scope's size. */
  lemma TotalAfterRemoval(c: Cache, s: Scope, id: string, total: Num)
    requires Valid(c) && id in c.order && id in c.sizes && Lookup(c, id, s).Some?
    requires total.Finite? ==> total.n == ScopeSize(c, s)
    ensures var next := Subtract(total, FlushedSize(c, id, s));
            next.Finite? ==> next.n == ScopeSize(Clear(c, id, s), s)
  {
    if Subtract(total, FlushedSize(c, id, s)).Finite? {
      assert SizeOf(c, id, s) == FlushedSize(c, id, s).value;
      SumSizesClear(c, id, s, c.order);
    }
  }

  /** The step of `FlushLoopResult` that removes the first image's entry. */
  lemma {:induction false} FlushRemoveStep(c: Cache, s: Scope, limit: nat, ids: seq<string>, total: Num)
    requires Valid(c) && Distinct(ids) && (forall i :: 0 <= i < |ids| ==> ids[i] in c.order)
    requires total.Finite? ==> total.n == ScopeSize(c, s)
    requires |ids| > 0 && !Below(total, limit) && !Referenced(c, ids[0], s) && ids[0] in c.sizes
    ensures var o := FlushLoop(c, s, limit, ids, total);
            o.failure.None? ==> ScopeSize(o.cache, s) < limit || FlushedAll(c, s, ids, o.cache)
    decreases |ids|, 0
  {
    var id := ids[0];
    RemoveTurn(c, s, limit, ids, total);
    if Lookup(c, id, s).Some? {
      var cleared := Clear(c, id, s);
      var next := Subtract(total, FlushedSize(c, id, s));
      TotalAfterRemoval(c, s, id, total);
      DistinctTail(ids);
      TailInOrder(ids, c.order);
      FlushLoopResult(cleared, s, limit, ids[1..], next);
      FlushLoopClears(cleared, s, limit, ids[1..], next, id, s);
      RemoveStepDone(c, cleared, s, limit, ids, total, next);
    } else {
      assert FlushLoop(c, s, limit, ids, total).failure.Some?;
    }
  }

  lemma TailInOrder(ids: seq<string>, order: seq<string>)
    requires |ids| > 0 && forall i :: 0 <= i < |ids| ==> ids[i] in order
    ensures forall i :: 0 <= i < |ids[1..]| ==> ids[1..][i] in order
  {
    forall i | 0 <= i < |ids[1..]| ensures ids[1..][i] in order {
      assert ids[1..][i] == ids[i + 1];
    }
  }

  /** What the rest of the loop achieves, with the first entry cleared,
      holds of the whole walk. */
  lemma RemoveStepDone(c: Cache, cleared: Cache, s: Scope, limit: nat, ids: seq<string>, total: Num, next: Num)
    requires Valid(c) && Valid(cleared) && cleared.refs == c.refs && |ids| > 0
    requires FlushLoop(c, s, limit, ids, total) == FlushLoop(cleared, s, limit, ids[1..], next)
    requires Lookup(FlushLoop(cleared, s, limit, ids[1..], next).cache, ids[0], s).None?
    requires var o := FlushLoop(cleared, s, limit, ids[1..], next);
             o.failure.None? ==> ScopeSize(o.cache, s) < limit || FlushedAll(cleared, s, ids[1..], o.cache)
    ensures var o := FlushLoop(c, s, limit, ids, total);
            o.failure.None? ==> ScopeSize(o.cache, s) < limit || FlushedAll(c, s, ids, o.cache)
  {
    var o := FlushLoop(c, s, limit, ids, total);
    if o.failure.None? && ScopeSize(o.cache, s) >= limit {
      FlushedAllSameRefs(cleared, c, s, ids[1..], o.cache);
      FlushedAllCons(c, s, ids, o.cache);
    }
  }

  /** `_flushCache` when nothing throws: the scope ends under its limit, or
      every entry of it that no one references has been removed. */
  lemma FlushScopeResult(c: Cache, s: Scope, limit: nat)
    requires Valid(c)
    ensures var o := FlushScope(c, s, limit);
            o.failure.None? ==>
              ScopeSize(o.cache, s) < limit ||
              forall id :: id in c.order ==> Referenced(c, id, s) || Lookup(o.cache, id, s).None?
  {
    if ScopeSize(c, s) >= limit {
      FlushLoopResult(c, s, limit, c.order, Finite(ScopeSize(c, s)));
    }
  }

  /** The condition `flush` leaves a scope in when nothing throws. */
  ghost predicate Flushed(before: Cache, s: Scope, after: Cache) {
    ScopeSize(after, s) < Limit(s) ||
    forall id :: id in before.order ==> Referenced(before, id, s) || Lookup(after, id, s).None?
  }

  /** Flushing another scope keeps this scope's condition. */
  lemma FlushedKept(before: Cache, c: Cache, s: Scope, flushed: Scope)
    requires Valid(c) && s != flushed && c.refs == before.refs && Flushed(before, s, c)
    ensures Flushed(before, s, FlushScope(c, flushed, Limit(flushed)).cache)
  {
    var c' := FlushScope(c, flushed, Limit(flushed)).cache;
    ScopeSizeFrame(c, c', s, flushed, c.order);
    forall id | id in before.order
      ensures Referenced(before, id, s) || Lookup(c', id, s).None? || ScopeSize(c, s) < Limit(s)
    {
      FlushScopeFrame(c, flushed, Limit(flushed), id, s);
    }
  }

  /** `flush`, when nothing throws, leaves every scope under its limit or
      with only referenced entries. */
  lemma FlushResult(c: Cache, s: Scope)
    requires Valid(c)
    ensures Flush(c).failure.None? ==> Flushed(c, s, Flush(c).cache)
  {
    var high := FlushScope(c, HighScope, HIGH_LIMIT);
    FlushScopeResult(c, HighScope, HIGH_LIMIT);
    if high.failure.None? {
      var medium := FlushScope(high.cache, MediumScope, MEDIUM_LIMIT);
      FlushScopeResult(high.cache, MediumScope, MEDIUM_LIMIT);
      if medium.failure.None? {
        var low := FlushScope(medium.cache, LowScope, LOW_LIMIT);
        FlushScopeResult(medium.cache, LowScope, LOW_LIMIT);
        if low.failure.None? {
          match s
          case HighScope =>
            FlushedKept(c, high.cache, HighScope, MediumScope);
            FlushedKept(c, medium.cache, HighScope, LowScope);
          case MediumScope =>
            FlushedAllRefsOrder(c, high.cache, MediumScope, medium.cache);
            FlushedKept(c, medium.cache, MediumScope, LowScope);
          case LowScope =>
            FlushedAllRefsOrder(c, medium.cache, LowScope, low.cache);
        }
      }
    }
  }

  /** A scope's condition stated against an intermediate state (same
      reference counts, same ids) holds against the original one. */
  lemma FlushedAllRefsOrder(c: Cache, mid: Cache, s: Scope, after: Cache)
    requires mid.refs == c.refs && mid.order == c.order && Flushed(mid, s, after)
    ensures Flushed(c, s, after)
  {
    assert forall id :: RefOf(c, id, s) == RefOf(mid, id, s);
  }
}

=== FILE: binary_request.dfy ===
/** The reference history of a cached binary request
    (frontend/src/app/image/loading/image-binary-request.class.js): every
    `pushPriority` records who wants the binary and how urgently (0 for an
    image on display, 1 and 2 for preloading), every `popPriority` takes one
    such record back. Timestamps of the history entries are left out; the
    clock is a parameter where the source reads it. */
module BinaryRequest {
  import opened Wrappers

  /** The display priority. */
  const DISPLAY: int := 0

  datatype Request = Request(imageId: string, quality: int, history: seq<int>, lastTimeDisplayed: Option<int>)

  datatype RequestError = PriorityNotFound

  function NewRequest(imageId: string, quality: int): (r: Request)
    ensures ReferenceCount(r) == 0 && GetPriority(r).None? && !IsWaitingForDisplay(r)
  {
    Request(imageId, quality, [], None)
  }

  function ReferenceCount(r: Request): nat {
    |r.history|
  }

  /** `pushPriority` as written: the `=== 'display'` test compares a number
      with a string and never holds, so `_lastTimeDisplayed` is kept. */
  function PushPriorityAsWritten(r: Request, priority: int): (r': Request)
    ensures r'.history == r.history + [priority]
    ensures ReferenceCount(r') == ReferenceCount(r) + 1
    ensures r'.lastTimeDisplayed == r.lastTimeDisplayed
  {
    r.(history := r.history + [priority])
  }

  /** `pushPriority` as its comment intends: a display request clears the
      last display time. */
  function PushPriority(r: Request, priority: int): (r': Request)
    ensures r'.history == r.history + [priority]
    ensures ReferenceCount(r') == ReferenceCount(r) + 1
    ensures r'.lastTimeDisplayed == if priority == DISPLAY then None else r.lastTimeDisplayed
  {
    r.(history := r.history + [priority],
       lastTimeDisplayed := if priority == DISPLAY then None else r.lastTimeDisplayed)
  }

  /** `getLastTimeDisplayed`: the recorded time, or `now` when there is none
      (or it is 0, which `||` treats alike). */
  function GetLastTimeDisplayed(r: Request, now: int): (t: int)
    ensures r.lastTimeDisplayed.None? ==> t == now
    ensures r.lastTimeDisplayed.Some? ==> t == if r.lastTimeDisplayed.value == 0 then now else r.lastTimeDisplayed.value
  {
    match r.lastTimeDisplayed
    case Some(time) => if time != 0 then time else now
    case None => now
  }

  /** The smallest of a non-empty list of priorities. */
  function MinOf(s: seq<int>): (m: int)
    requires |s| > 0
    ensures m in s && forall i :: 0 <= i < |s| ==> m <= s[i]
  {
    if |s| == 1 then s[0]
    else
      var rest := MinOf(s[1..]);
      assert forall i :: 1 <= i < |s| ==> s[i] == s[1..][i - 1];
      if s[0] <= rest then s[0] else rest
  }

  /** `getPriority`: the most urgent priority in the history, null when it
      is empty. */
  function GetPriority(r: Request): (p: Option<int>)
    ensures p.None? <==> |r.history| == 0
    ensures p.Some? ==> p.value in r.history && forall i :: 0 <= i < |r.history| ==> p.value <= r.history[i]
  {
    if |r.history| == 0 then None else Some(MinOf(r.history))
  }

  function HasPriorityInHistory(r: Request, priority: int): bool {
    priority in r.history
  }

  /** `isWaitingForDisplay`, scanning the history from its end. */
  function IsWaitingForDisplay(r: Request): (b: bool)
    ensures b <==> exists i :: 0 <= i < |r.history| && r.history[i] == DISPLAY
  {
    LastIndexOf(r.history, DISPLAY).Some?
  }

  /** The last position holding `priority`. */
  function LastIndexOf(s: seq<int>, priority: int): (i: Option<nat>)
    ensures i.None? <==> priority !in s
    ensures i.Some? ==> i.value < |s| && s[i.value] == priority &&
                        forall j :: i.value < j < |s| ==> s[j] != priority
  {
    if |s| == 0 then None
    else if s[|s| - 1] == priority then Some(|s| - 1)
    else
      assert forall j :: 0 <= j < |s| - 1 ==> s[..|s| - 1][j] == s[j];
      assert s == s[..|s| - 1] + [s[|s| - 1]];
      LastIndexOf(s[..|s| - 1], priority)
  }

  /** `popPriority`: removes the latest entry with that priority; with none
      it throws. Once no display entry is left after popping one, the
      display time is set to `now`. */
  function PopPriority(r: Request, priority: int, now: int): (r': Result<Request, RequestError>)
    ensures r'.Err? <==> priority !in r.history
    ensures r'.Ok? ==>
              ReferenceCount(r'.value) == ReferenceCount(r) - 1 &&
              multiset(r'.value.history) == multiset(r.history) - multiset{priority} &&
              (exists i :: 0 <= i < |r.history| && r.history[i] == priority &&
                           (forall j :: i < j < |r.history| ==> r.history[j] != priority) &&
                           r'.value.history == r.history[..i] + r.history[i + 1..])
    ensures r'.Ok? ==>
              (r'.value.lastTimeDisplayed ==
                 if priority == DISPLAY && DISPLAY !in r'.value.history then Some(now) else r.lastTimeDisplayed)
  {
    match LastIndexOf(r.history, priority)
    case None => Err(PriorityNotFound)
    case Some(i) =>
      var history := r.history[..i] + r.history[i + 1..];
      RemoveAt(r.history, i);
      var displayed := if priority == DISPLAY && DISPLAY !in history then Some(now) else r.lastTimeDisplayed;
      Ok(Request(r.imageId, r.quality, history, displayed))
  }

  /** Dropping position `i` drops one copy of its entry. */
  lemma RemoveAt(s: seq<int>, i: nat)
    requires i < |s|
    ensures |s[..i] + s[i + 1..]| == |s| - 1
    ensures multiset(s[..i] + s[i + 1..]) == multiset(s) - multiset{s[i]}
  {
    assert s == s[..i] + [s[i]] + s[i + 1..];
  }

  /** Popping what was just pushed restores the history. */
  lemma PushPopRoundTrip(r: Request, priority: int, now: int)
    ensures PopPriority(PushPriority(r, priority), priority, now).Ok?
    ensures PopPriority(PushPriority(r, priority), priority, now).value.history == r.history
  {
    var pushed := PushPriority(r, priority);
    assert pushed.history[|r.history|] == priority;
    assert LastIndexOf(pushed.history, priority) == Some(|r.history|);
    assert pushed.history[..|r.history|] == r.history;
  }

  /** With the display priority 0 the most urgent possible, an image waits
      for display exactly when its priority is 0. */
  lemma WaitingIffDisplayPriority(r: Request)
    requires forall i :: 0 <= i < |r.history| ==> r.history[i] >= DISPLAY
    ensures IsWaitingForDisplay(r) <==> GetPriority(r) == Some(DISPLAY)
  {
    if GetPriority(r) == Some(DISPLAY) {
      var i :| 0 <= i < |r.history| && r.history[i] == DISPLAY;
    }
  }

  /** As written, an image displayed again keeps reporting the time its
      previous display ended. */
  lemma RedisplayKeepsOldTime(r: Request, ended: int, now: int)
    requires ended != 0 && r.lastTimeDisplayed == Some(ended)
    ensures var again := PushPriorityAsWritten(r, DISPLAY);
            IsWaitingForDisplay(again) && GetLastTimeDisplayed(again, now) == ended
  {
    var again := PushPriorityAsWritten(r, DISPLAY);
    assert again.history[|r.history|] == DISPLAY;
  }

  /** Corrected, an image on display reports the current time. */
  lemma RedisplayReportsNow(r: Request, now: int)
    ensures var again := PushPriority(r, DISPLAY);
            IsWaitingForDisplay(again) && GetLastTimeDisplayed(again, now) == now
  {
    var again := PushPriority(r, DISPLAY);
    assert again.history[|r.history|] == DISPLAY;
  }
}

=== FILE: dicom_repository.dfy ===
/** The backend's short list of DICOM files kept in memory
    (backend/WebViewerLibrary/Instance/DicomRepository.cpp): a deque of
    slots, each with an instance id, its file buffer and a reference count.
    A lookup that misses may evict the oldest unused slot once more than
    three are kept, then loads the file and appends it.

    Loading from Orthanc is a parameter: the buffer the load produced, or
    `None` when it failed. The mutex is left out, as every operation runs
    under it. The `assert`s of `decrefDicomFile` are modelled as errors
    that leave the deque as it was. */
module DicomRepository {
  import opened Wrappers

  /** An Orthanc memory buffer, by identity. */
  type Buffer = nat

  /** More than this many slots makes a miss evict one. */
  const CAPACITY: nat := 3

  datatype Slot = Slot(instanceId: string, buffer: Buffer, refCount: int)

  datatype RepositoryError = UnknownResource | NotFound | NotReferenced

  /** What `getDicomFile` leaves behind: the deque, and the buffer or the
      load's exception. */
  datatype Fetched = Fetched(files: seq<Slot>, result: Result<Buffer, RepositoryError>)

  /** No instance is kept twice; every operation keeps this. */
  ghost predicate DistinctIds(files: seq<Slot>) {
    forall i, j :: 0 <= i < j < |files| ==> files[i].instanceId != files[j].instanceId
  }

  /** The first slot of an instance. */
  function Find(files: seq<Slot>, instanceId: string): (r: Option<nat>)
    ensures r.None? <==> forall i :: 0 <= i < |files| ==> files[i].instanceId != instanceId
    ensures r.Some? ==> r.value < |files| && files[r.value].instanceId == instanceId &&
                        forall i :: 0 <= i < r.value ==> files[i].instanceId != instanceId
  {
    if |files| == 0 then None
    else if files[0].instanceId == instanceId then Some(0)
    else
      match Find(files[1..], instanceId)
      case None => None
      case Some(i) => Some(i + 1)
  }

  /** A slot a miss for `instanceId` may evict. */
  predicate Evictable(slot: Slot, instanceId: string) {
    slot.instanceId != instanceId && slot.refCount == 0
  }

  /** The oldest evictable slot. */
  function OldestEvictable(files: seq<Slot>, instanceId: string): (r: Option<nat>)
    ensures r.None? <==> forall i :: 0 <= i < |files| ==> !Evictable(files[i], instanceId)
    ensures r.Some? ==> r.value < |files| && Evictable(files[r.value], instanceId) &&
                        forall i :: 0 <= i < r.value ==> !Evictable(files[i], instanceId)
  {
    if |files| == 0 then None
    else if Evictable(files[0], instanceId) then Some(0)
    else
      match OldestEvictable(files[1..], instanceId)
      case None => None
      case Some(i) => Some(i + 1)
  }

  function RemoveAt<T>(s: seq<T>, i: nat): (r: seq<T>)
    requires i < |s|
    ensures |r| == |s| - 1
    ensures forall k :: 0 <= k < i ==> r[k] == s[k]
    ensures forall k :: i <= k < |r| ==> r[k] == s[k + 1]
  {
    s[..i] + s[i + 1..]
  }

  /** The deque before a miss appends: one slot fewer when more than
      `CAPACITY` are kept and one is evictable. */
  function Evict(files: seq<Slot>, instanceId: string): (r: seq<Slot>)
    ensures |files| <= CAPACITY ==> r == files
    ensures |files| > CAPACITY && OldestEvictable(files, instanceId).None? ==> r == files
    ensures |files| > CAPACITY && OldestEvictable(files, instanceId).Some? ==>
              r == RemoveAt(files, OldestEvictable(files, instanceId).value)
  {
    if |files| > CAPACITY then
      match OldestEvictable(files, instanceId)
      case Some(i) => RemoveAt(files, i)
      case None => files
    else files
  }

  /** `getDicomFile`. `loaded` is what loading the instance gives. */
  function GetDicomFile(files: seq<Slot>, instanceId: string, loaded: Option<Buffer>): (f: Fetched)
    ensures Find(files, instanceId).Some? ==>
              var i := Find(files, instanceId).value;
              f.result == Ok(files[i].buffer) &&
              f.files == files[i := files[i].(refCount := files[i].refCount + 1)]
    ensures Find(files, instanceId).None? ==>
              f.result == (if loaded.Some? then Ok(loaded.value) else Err(UnknownResource)) &&
              f.files == Evict(files, instanceId) + (if loaded.Some? then [Slot(instanceId, loaded.value, 1)] else [])
  {
    match Find(files, instanceId)
    case Some(i) => Fetched(files[i := files[i].(refCount := files[i].refCount + 1)], Ok(files[i].buffer))
    case None =>
      var kept := Evict(files, instanceId);
      match loaded
      case None => Fetched(kept, Err(UnknownResource))
      case Some(buffer) => Fetched(kept + [Slot(instanceId, buffer, 1)], Ok(buffer))
  }

  /** `decrefDicomFile`: one reference less on the instance's slot. */
  function Decref(files: seq<Slot>, instanceId: string): (r: Result<seq<Slot>, RepositoryError>)
    ensures r == Err(NotFound) <==> Find(files, instanceId).None?
    ensures r == Err(NotReferenced) <==>
              Find(files, instanceId).Some? && files[Find(files, instanceId).value].refCount < 1
    ensures r.Ok? ==>
              var i := Find(files, instanceId).value;
              |r.value| == |files| && r.value[i].refCount == files[i].refCount - 1 &&
              r.value[i].refCount >= 0 &&
              r.value[i].instanceId == instanceId && r.value[i].buffer == files[i].buffer &&
              forall k :: 0 <= k < |files| && k != i ==> r.value[k] == files[k]
  {
    match Find(files, instanceId)
    case None => Err(NotFound)
    case Some(i) =>
      if files[i].refCount < 1 then Err(NotReferenced)
      else Ok(files[i := files[i].(refCount := files[i].refCount - 1)])
  }

  /** `decrefDicomFile` in a release build, where the `assert`s compile to
      nothing: the count of the instance's slot goes down by one even from
      0, and an unknown instance changes nothing. */
  function DecrefRelease(files: seq<Slot>, instanceId: string): (r: seq<Slot>)
    ensures |r| == |files|
    ensures Find(files, instanceId).None? ==> r == files
    ensures Find(files, instanceId).Some? ==>
              var i := Find(files, instanceId).value;
              r[i].refCount == files[i].refCount - 1 &&
              r[i].instanceId == instanceId && r[i].buffer == files[i].buffer &&
              forall k :: 0 <= k < |files| && k != i ==> r[k] == files[k]
  {
    match Find(files, instanceId)
    case None => files
    case Some(i) => files[i := files[i].(refCount := files[i].refCount - 1)]
  }

  /** The debug and release builds agree wherever the `assert`s hold; a
      release `decref` of a slot with no reference leaves it at -1. */
  lemma DecrefBuilds(files: seq<Slot>, instanceId: string)
    ensures Decref(files, instanceId).Ok? ==> DecrefRelease(files, instanceId) == Decref(files, instanceId).value
    ensures Decref(files, instanceId) == Err(NotFound) ==> DecrefRelease(files, instanceId) == files
    ensures Decref(files, instanceId) == Err(NotReferenced) && files[Find(files, instanceId).value].refCount == 0 ==>
              DecrefRelease(files, instanceId)[Find(files, instanceId).value].refCount == -1
  {
  }

  /** `invalidateDicomFile`: drops the instance's slot whatever its
      reference count. */
  function Invalidate(files: seq<Slot>, instanceId: string): (r: seq<Slot>)
    ensures Find(files, instanceId).None? ==> r == files
    ensures Find(files, instanceId).Some? ==> r == RemoveAt(files, Find(files, instanceId).value)
  {
    match Find(files, instanceId)
    case None => files
    case Some(i) => RemoveAt(files, i)
  }

  // ---------------------------------------------------------------------
  // Properties

  /** Under distinct ids, the instance is gone after `invalidate`. */
  lemma InvalidateRemoves(files: seq<Slot>, instanceId: string)
    requires DistinctIds(files)
    ensures DistinctIds(Invalidate(files, instanceId))
    ensures Find(Invalidate(files, instanceId), instanceId).None?
    ensures |Invalidate(files, instanceId)| == |files| - (if Find(files, instanceId).Some? then 1 else 0)
  {
  }

  /** `getDicomFile` keeps the instance ids distinct. */
  lemma GetKeepsDistinct(files: seq<Slot>, instanceId: string, loaded: Option<Buffer>)
    requires DistinctIds(files)
    ensures DistinctIds(GetDicomFile(files, instanceId, loaded).files)
  {
    var i := Find(files, instanceId);
    if i.Some? {
      var updated := files[i.value := files[i.value].(refCount := files[i.value].refCount + 1)];
      assert forall k :: 0 <= k < |files| ==> updated[k].instanceId == files[k].instanceId;
    } else {
      var kept := Evict(files, instanceId);
      EvictDistinct(files, instanceId);
      if loaded.Some? {
        AppendNewDistinct(kept, Slot(instanceId, loaded.value, 1));
      }
    }
  }

  /** Evicting keeps the ids distinct and adds no slot of the instance
      that missed. */
  lemma EvictDistinct(files: seq<Slot>, instanceId: string)
    requires DistinctIds(files) && Find(files, instanceId).None?
    ensures DistinctIds(Evict(files, instanceId))
    ensures forall k :: 0 <= k < |Evict(files, instanceId)| ==> Evict(files, instanceId)[k].instanceId != instanceId
  {
    if |files| > CAPACITY && OldestEvictable(files, instanceId).Some? {
      RemoveAtDistinct(files, OldestEvictable(files, instanceId).value);
    }
  }

  /** Removing a slot keeps the others, and their ids distinct. */
  lemma RemoveAtDistinct(files: seq<Slot>, e: nat)
    requires DistinctIds(files) && e < |files|
    ensures DistinctIds(RemoveAt(files, e))
    ensures forall k :: 0 <= k < |RemoveAt(files, e)| ==> RemoveAt(files, e)[k] in files
  {
    var kept := RemoveAt(files, e);
    forall i, j | 0 <= i < j < |kept| ensures kept[i].instanceId != kept[j].instanceId {
      var i' := if i < e then i else i + 1;
      var j' := if j < e then j else j + 1;
      assert kept[i] == files[i'] && kept[j] == files[j'];
    }
    forall k | 0 <= k < |kept| ensures kept[k] in files {
      assert kept[k] == files[if k < e then k else k + 1];
    }
  }

  /** A slot for a new instance keeps the ids distinct. */
  lemma AppendNewDistinct(kept: seq<Slot>, slot: Slot)
    requires DistinctIds(kept)
    requires forall k :: 0 <= k < |kept| ==> kept[k].instanceId != slot.instanceId
    ensures DistinctIds(kept + [slot])
  {
  }

  /** What a miss does to the size of the deque: it grows by one unless
      more than `CAPACITY` slots are kept and one can be evicted, in which
      case it keeps its size. */
  lemma MissSize(files: seq<Slot>, instanceId: string, buffer: Buffer)
    requires Find(files, instanceId).None?
    ensures var f := GetDicomFile(files, instanceId, Some(buffer));
            |f.files| == if |files| > CAPACITY && OldestEvictable(files, instanceId).Some?
                         then |files| else |files| + 1
  {
  }

  /** With no file in use, the deque never holds more than `CAPACITY` + 1
      slots. */
  lemma BoundedWhenUnused(files: seq<Slot>, instanceId: string, buffer: Buffer)
    requires |files| <= CAPACITY + 1 && Find(files, instanceId).None?
    requires forall i :: 0 <= i < |files| ==> files[i].refCount == 0
    ensures |GetDicomFile(files, instanceId, Some(buffer)).files| <= CAPACITY + 1
  {
    if |files| > CAPACITY {
      assert Evictable(files[0], instanceId);
    }
  }

  /** When every slot is in use, a miss grows the deque past its capacity
      rather than waiting. */
  lemma GrowsWhenAllUsed(files: seq<Slot>, instanceId: string, buffer: Buffer)
    requires Find(files, instanceId).None?
    requires forall i :: 0 <= i < |files| ==> files[i].refCount != 0
    ensures GetDicomFile(files, instanceId, Some(buffer)).files == files + [Slot(instanceId, buffer, 1)]
  {
  }

  /** A hit followed by its `decref` restores the deque. */
  lemma HitDecrefRoundTrip(files: seq<Slot>, instanceId: string, loaded: Option<Buffer>)
    requires Find(files, instanceId).Some? && files[Find(files, instanceId).value].refCount >= 0
    ensures Decref(GetDicomFile(files, instanceId, loaded).files, instanceId) == Ok(files)
  {
    var i := Find(files, instanceId).value;
    var bumped := files[i := files[i].(refCount := files[i].refCount + 1)];
    HitFiles(files, instanceId, loaded, i);
    FindSameId(files, instanceId, i, bumped[i]);
    DecrefFiles(bumped, instanceId, i);
    assert bumped[i].(refCount := bumped[i].refCount - 1) == files[i];
    assert bumped[i := files[i]] == files;
  }

  /** A hit adds one reference to the slot found. */
  lemma HitFiles(files: seq<Slot>, instanceId: string, loaded: Option<Buffer>, i: nat)
    requires Find(files, instanceId) == Some(i)
    ensures GetDicomFile(files, instanceId, loaded).files == files[i := files[i].(refCount := files[i].refCount + 1)]
  {
  }

  /** A `decref` of a referenced slot takes one reference off it. */
  lemma DecrefFiles(files: seq<Slot>, instanceId: string, i: nat)
    requires Find(files, instanceId) == Some(i) && files[i].refCount >= 1
    ensures Decref(files, instanceId) == Ok(files[i := files[i].(refCount := files[i].refCount - 1)])
  {
  }

  /** Changing a slot but not its instance id leaves lookups as they are. */
  lemma FindSameId(files: seq<Slot>, instanceId: string, i: nat, slot: Slot)
    requires Find(files, instanceId) == Some(i) && slot.instanceId == instanceId
    ensures Find(files[i := slot], instanceId) == Some(i)
  {
    var updated := files[i := slot];
    assert forall k :: 0 <= k < i ==> updated[k] == files[k];
    assert updated[i].instanceId == instanceId;
    var r := Find(updated, instanceId);
    assert r.Some?;
    assert r.value <= i;
  }

  /** A loaded file is released by one `decref`, its slot staying with no
      reference. */
  lemma MissDecref(files: seq<Slot>, instanceId: string, buffer: Buffer)
    requires Find(files, instanceId).None?
    ensures var kept := Evict(files, instanceId);
            Decref(GetDicomFile(files, instanceId, Some(buffer)).files, instanceId) ==
            Ok(kept + [Slot(instanceId, buffer, 0)])
  {
    var kept := Evict(files, instanceId);
    EvictKeepsMissing(files, instanceId);
    FindAppended(kept, Slot(instanceId, buffer, 1));
    assert (kept + [Slot(instanceId, buffer, 1)])[|kept| := Slot(instanceId, buffer, 0)] ==
           kept + [Slot(instanceId, buffer, 0)];
  }

  /** Eviction cannot bring back an instance that was missing. */
  lemma EvictKeepsMissing(files: seq<Slot>, instanceId: string)
    requires Find(files, instanceId).None?
    ensures Find(Evict(files, instanceId), instanceId).None?
  {
    var kept := Evict(files, instanceId);
    forall k | 0 <= k < |kept| ensures kept[k].instanceId != instanceId {
      if |files| > CAPACITY && OldestEvictable(files, instanceId).Some? {
        var e := OldestEvictable(files, instanceId).value;
        if k >= e {
          assert kept[k] == files[k + 1];
        }
      }
    }
  }

  /** A slot appended for a missing instance is the one found. */
  lemma FindAppended(files: seq<Slot>, slot: Slot)
    requires Find(files, slot.instanceId).None?
    ensures Find(files + [slot], slot.instanceId) == Some(|files|)
  {
    var after := files + [slot];
    assert after[|files|] == slot;
  }
}

=== FILE: frontend_quality.dfy ===
/** The frontend's quality codes and its two quality policies
    (src/app/viewport/quality-policies/quality-for-diagnosis.class.js and
    frontend/src/app/viewport/quality-policies/quality-for-thumbnail.class.js):
    which qualities of an image a viewport loads, in order. An image's
    available qualities are the values of its quality object, in that
    object's order. */
module FrontendQuality {
  import opened Wrappers
  import opened Sorting

  /** `osimis.quality`; 0 stands for "no quality". */
  const LOW: int := 1
  const MEDIUM: int := 2
  const LOSSLESS: int := 100
  const PIXELDATA: int := 101

  datatype QualityError = NoLosslessQuality | NoThumbnailQuality

  /** The qualities within `[lo, hi]`, in their original order. */
  function Between(available: seq<int>, lo: int, hi: int): (r: seq<int>)
    ensures forall q :: q in r <==> q in available && lo <= q <= hi
    ensures forall q :: multiset(r)[q] == if lo <= q <= hi then multiset(available)[q] else 0
  {
    if |available| == 0 then []
    else
      assert available == [available[0]] + available[1..];
      var rest := Between(available[1..], lo, hi);
      if lo <= available[0] <= hi then [available[0]] + rest else rest
  }

  /** `function(a, b) { return a - b; }` as an order. */
  function Ascending(): (le: (int, int) -> bool)
    ensures forall a, b :: le(a, b) <==> a <= b
  {
    (a: int, b: int) => a <= b
  }

  lemma AscendingIsPreorder()
    ensures TotalPreorder(Ascending())
  {
  }

  /** PIXELDATA when available, else LOSSLESS; an image with neither throws. */
  function DesiredQuality(available: seq<int>): (r: Result<int, QualityError>)
    ensures r.Err? <==> PIXELDATA !in available && LOSSLESS !in available
    ensures r.Ok? ==> r.value in available && (r.value == PIXELDATA || r.value == LOSSLESS)
    ensures r.Ok? && r.value == LOSSLESS ==> PIXELDATA !in available
  {
    if PIXELDATA in available then Ok(PIXELDATA)
    else if LOSSLESS in available then Ok(LOSSLESS)
    else Err(NoLosslessQuality)
  }

  function Max(a: int, b: int): int { if a > b then a else b }

  /** `QualityForDiagnosis`: the available qualities from the best one
      already cached (`bestCached`, None when nothing is cached) up to the
      desired one, or up to the cached one when that is better; ascending. */
  function QualityForDiagnosis(available: seq<int>, bestCached: Option<int>): (r: Result<seq<int>, QualityError>)
    ensures r.Err? <==> DesiredQuality(available).Err?
    ensures r.Ok? ==>
              var minimum := bestCached.GetOr(0);
              var maximum := Max(DesiredQuality(available).value, minimum);
              (forall q :: q in r.value <==> q in available && minimum <= q <= maximum) &&
              (forall q :: multiset(r.value)[q] ==
                             if minimum <= q <= maximum then multiset(available)[q] else 0) &&
              (forall i, j :: 0 <= i < j < |r.value| ==> r.value[i] <= r.value[j])
  {
    var desired :- DesiredQuality(available);
    var minimum := bestCached.GetOr(0);
    var maximum := if desired > minimum then desired else minimum;
    AscendingIsPreorder();
    var toLoad := Between(available, minimum, maximum);
    var sorted := Sort(toLoad, Ascending());
    assert forall q :: q in sorted <==> q in multiset(sorted);
    Ok(sorted)
  }

  /** Unless a better quality is cached, the last quality loaded is the
      desired one: PIXELDATA when available, else LOSSLESS. */
  lemma DiagnosisEndsWithDesired(available: seq<int>, bestCached: Option<int>)
    requires DesiredQuality(available).Ok? && bestCached.GetOr(0) <= DesiredQuality(available).value
    ensures var r := QualityForDiagnosis(available, bestCached);
            r.Ok? && |r.value| > 0 && r.value[|r.value| - 1] == DesiredQuality(available).value
  {
    var r := QualityForDiagnosis(available, bestCached).value;
    var desired := DesiredQuality(available).value;
    assert desired in r;
    var i :| 0 <= i < |r| && r[i] == desired;
    assert r[|r| - 1] in r;
  }

  /** A cached quality that the image has is the first one loaded: nothing
      below it is fetched again. */
  lemma DiagnosisStartsAtCached(available: seq<int>, cached: int)
    requires DesiredQuality(available).Ok? && cached in available
    ensures var r := QualityForDiagnosis(available, Some(cached));
            r.Ok? && |r.value| > 0 && r.value[0] == cached
  {
    var r := QualityForDiagnosis(available, Some(cached)).value;
    assert cached in r;
    assert r[0] in r;
  }

  /** `QualityForThumbnail`: a single quality, LOW when available, else
      PIXELDATA (compressed DICOM), else LOSSLESS; none of the three throws. */
  function QualityForThumbnail(available: seq<int>): (r: Result<seq<int>, QualityError>)
    ensures r.Err? <==> LOW !in available && PIXELDATA !in available && LOSSLESS !in available
    ensures r.Ok? ==> |r.value| == 1 && r.value[0] in available && r.value[0] in {LOW, PIXELDATA, LOSSLESS}
    ensures r.Ok? ==> (r.value[0] == LOW <==> LOW in available)
    ensures r.Ok? && r.value[0] == LOSSLESS ==> PIXELDATA !in available
  {
    if LOW in available then Ok([LOW])
    else if PIXELDATA in available then Ok([PIXELDATA])
    else if LOSSLESS in available then Ok([LOSSLESS])
    else Err(NoThumbnailQuality)
  }

  /** With nothing cached, the thumbnail's quality is one of those the
      diagnosis policy loads. */
  lemma ThumbnailWithinDiagnosis(available: seq<int>)
    requires DesiredQuality(available).Ok?
    ensures QualityForThumbnail(available).Ok?
    ensures QualityForThumbnail(available).value[0] in QualityForDiagnosis(available, None).value
  {
  }
}

=== FILE: image_repository.dfy ===
/** Two helpers of the image repository (backend/WebViewerLibrary/Image/ImageRepository.cpp):
    the number of the Orthanc attachment an image of a given quality and
    frame is cached under, and the conversion of 48-bit RGB pixels to
    24-bit ones. Reading and writing attachments is Orthanc I/O and is
    left out. */
module ImageRepository {
  import opened Wrappers
  import opened Text
  import Quality
  import Klv

  type Word = w: int | 0 <= w < 0x1_0000

  const ATTACHMENT_PREFIX: nat := 10000
  const MAX_FRAME_COUNT: nat := 1000

  /** The block of attachment numbers each cached policy owns. */
  function Slot(policyString: string): Option<nat> {
    if policyString == "pixeldata-quality" then Some(3)
    else if policyString == "high-quality" then Some(0)
    else if policyString == "medium-quality" then Some(1)
    else if policyString == "low-quality" then Some(2)
    else None
  }

  /** `_getAttachmentNumber`: the decimal attachment number of a frame for a
      cached policy. Any other policy is only caught by a debug assertion,
      after which the empty string is returned; that case is `None`. */
  function AttachmentNumber(frameIndex: nat, policyString: string): (r: Option<string>)
    ensures r.Some? <==> Slot(policyString).Some?
    ensures r.Some? ==> AllDigits(r.value) && |r.value| > 0
  {
    match Slot(policyString)
    case None => None
    case Some(k) =>
      Some(NatToString(ATTACHMENT_PREFIX + MAX_FRAME_COUNT * k + frameIndex))
  }

  /** The attachment number of a quality's policy reads back as
      10000 + 1000 * block + frame, the blocks being high 0, medium 1,
      low 2 and pixel data 3; the quality without a policy has none. */
  lemma AttachmentNumberValue(q: Quality.ImageQuality, frameIndex: nat)
    ensures var r := AttachmentNumber(frameIndex, Quality.ToProcessingPolicyString(q));
            var block := match q
              case LOSSLESS => 0 case MEDIUM => 1 case LOW => 2 case PIXELDATA => 3 case NONE => 0;
            (q == Quality.NONE <==> r.None?) &&
            (r.Some? ==> ParseNat(r.value) == Some(10000 + 1000 * block + frameIndex))
  {
    var k := Slot(Quality.ToProcessingPolicyString(q));
    if k.Some? {
      ParseNatToString(ATTACHMENT_PREFIX + MAX_FRAME_COUNT * k.value + frameIndex);
    }
  }

  /** Below 1000 frames every (policy, frame) pair has its own number, in
      [10000, 14000). */
  lemma AttachmentNumbersDistinct(f1: nat, p1: string, f2: nat, p2: string)
    requires f1 < MAX_FRAME_COUNT && f2 < MAX_FRAME_COUNT
    requires Slot(p1).Some? && Slot(p2).Some?
    ensures var n1 := ParseNat(AttachmentNumber(f1, p1).value);
            n1.Some? && 10000 <= n1.value < 14000 &&
            (AttachmentNumber(f1, p1) == AttachmentNumber(f2, p2) <==> f1 == f2 && Slot(p1) == Slot(p2))
  {
    var k1, k2 := Slot(p1).value, Slot(p2).value;
    var n1 := ATTACHMENT_PREFIX + MAX_FRAME_COUNT * k1 + f1;
    var n2 := ATTACHMENT_PREFIX + MAX_FRAME_COUNT * k2 + f2;
    ParseNatToString(n1);
    ParseNatToString(n2);
  }

  /** From frame 1000 on, numbers run into the next block: frame 1000 of the
      high quality shares the attachment of frame 0 of the medium one. */
  lemma Frame1000Collides()
    ensures AttachmentNumber(1000, "high-quality") == AttachmentNumber(0, "medium-quality")
  {
  }

  // ---------------------------------------------------------------------
  // Pixels

  /** `ConvertRGB48ToRGB24`: every 16-bit channel keeps its high byte. A
      row holds three channels per pixel. */
  function ConvertRGB48ToRGB24(source: seq<seq<Word>>, width: nat): (r: seq<seq<Klv.Byte>>)
    requires forall y :: 0 <= y < |source| ==> |source[y]| == 3 * width
    ensures |r| == |source|
    ensures forall y :: 0 <= y < |r| ==> |r[y]| == 3 * width
    ensures forall y, i :: 0 <= y < |r| && 0 <= i < 3 * width ==>
              (r[y][i] as int) * 256 <= source[y][i] < (r[y][i] as int) * 256 + 256
  {
    seq(|source|, y requires 0 <= y < |source| =>
      seq(3 * width, i requires 0 <= i < 3 * width => source[y][i] / 256))
  }

  /** An 8-bit channel stretched over 16 bits. */
  function Widen(image: seq<seq<Klv.Byte>>): (r: seq<seq<Word>>)
    ensures |r| == |image|
    ensures forall y :: 0 <= y < |r| ==> |r[y]| == |image[y]|
  {
    seq(|image|, y requires 0 <= y < |image| =>
      seq(|image[y]|, i requires 0 <= i < |image[y]| => (image[y][i] as int) * 257))
  }

  /** Narrowing a widened image gives the image back. */
  lemma NarrowWiden(image: seq<seq<Klv.Byte>>, width: nat)
    requires forall y :: 0 <= y < |image| ==> |image[y]| == 3 * width
    ensures ConvertRGB48ToRGB24(Widen(image), width) == image
  {
    var r := ConvertRGB48ToRGB24(Widen(image), width);
    forall y | 0 <= y < |image| ensures r[y] == image[y] {
      assert |r[y]| == |image[y]|;
    }
  }
}

=== FILE: image_route.dfy ===
/** URL parsing of the image route
    (backend/WebViewerLibrary/Image/ImageController.cpp and
    backend/WebViewerLibrary/Image/Utilities/ImageProcessingRouteParser.h):
    `[nocache/|cleancache/]<instance>/<frame>/<subroute>`, where the subroute
    is either an annotation request or an image processing policy. */
module ImageRoute {
  import opened Wrappers
  import opened Text
  import opened Quality

  /** The image processing policies a route can name. */
  datatype Policy =
    | LowQualityPolicy | MediumQualityPolicy | HighQualityPolicy | PixelDataQualityPolicy
    | Composite(chain: seq<Policy>)
    | Resize(maxWidthHeight: nat)
    | Jpeg(compression: int)
    | Png | Uint8 | Klv | InvertMonochrome1

  /** `std::invalid_argument("policy not found")` and `bad_lexical_cast`. */
  datatype RouteError = PolicyNotFound | BadLexicalCast

  const RESIZE_PREFIX := "resize:"
  const JPEG_PREFIX := "jpeg"
  const DEFAULT_JPEG_COMPRESSION: int := 100

  // ---------------------------------------------------------------------
  // Route shapes, one per registered regex

  /** `^resize:(\d+)$` */
  predicate IsResizeRoute(route: string) {
    StartsWith(route, RESIZE_PREFIX) && |route| > |RESIZE_PREFIX| && AllDigits(route[|RESIZE_PREFIX|..])
  }

  /** The digits of a route matching `^jpeg:?(\d{0,3})$`. */
  function JpegDigits(route: string): string
    requires StartsWith(route, JPEG_PREFIX)
  {
    var t := route[|JPEG_PREFIX|..];
    if |t| > 0 && t[0] == ':' then t[1..] else t
  }

  /** `^jpeg:?(\d{0,3})$` */
  predicate IsJpegRoute(route: string) {
    StartsWith(route, JPEG_PREFIX) && |JpegDigits(route)| <= 3 && AllDigits(JpegDigits(route))
  }

  /** `^(.+/.+)$`: a slash with at least one character on each side. */
  predicate IsCompositeRoute(route: string) {
    exists k :: 0 < k < |route| - 1 && route[k] == '/'
  }

  // ---------------------------------------------------------------------
  // Instantiation

  /** The routes a composite's parts may use: every registered route except
      the four qualities and composite itself. */
  function InstantiateSimplePolicy(route: string): (r: Result<Policy, RouteError>)
    ensures r.Ok? ==> !r.value.Composite? && !IsQualityPolicy(r.value)
    ensures r == Err(PolicyNotFound) <==>
              !IsResizeRoute(route) && !IsJpegRoute(route) && route != "png" &&
              route != "8bit" && route != "klv" && route != "invert-monochrome1"
  {
    if IsResizeRoute(route) then
      match ParseUInt32(route[|RESIZE_PREFIX|..])
      case Some(n) => Ok(Resize(n))
      case None => Err(BadLexicalCast)
    else if IsJpegRoute(route) then
      var digits := JpegDigits(route);
      Ok(Jpeg(if |digits| == 0 then DEFAULT_JPEG_COMPRESSION else DigitsValue(digits)))
    else if route == "png" then Ok(Png)
    else if route == "8bit" then Ok(Uint8)
    else if route == "klv" then Ok(Klv)
    else if route == "invert-monochrome1" then Ok(InvertMonochrome1)
    else Err(PolicyNotFound)
  }

  function InstantiateAll(routes: seq<string>): (r: Result<seq<Policy>, RouteError>)
    ensures r.Ok? <==> forall i :: 0 <= i < |routes| ==> InstantiateSimplePolicy(routes[i]).Ok?
    ensures r.Ok? ==> (|r.value| == |routes| &&
              forall i :: 0 <= i < |routes| ==> InstantiateSimplePolicy(routes[i]) == Ok(r.value[i]))
  {
    if |routes| == 0 then Ok([])
    else
      match InstantiateSimplePolicy(routes[0])
      case Err(e) => Err(e)
      case Ok(p) =>
        match InstantiateAll(routes[1..])
        case Err(e) =>
          assert forall i :: 1 <= i < |routes| ==> routes[1..][i - 1] == routes[i];
          Err(e)
        case Ok(ps) => Ok([p] + ps)
  }

  predicate IsQualityPolicy(p: Policy) {
    p.LowQualityPolicy? || p.MediumQualityPolicy? || p.HighQualityPolicy? || p.PixelDataQualityPolicy?
  }

  /** `InstantiatePolicyFromRoute` with the routes registered by
      `ImageControllerUrlParser::init`. The registered regexes match
      disjoint sets of routes (`RouteShapesDisjoint`), so the iteration order
      of the route map does not matter. */
  function InstantiatePolicyFromRoute(route: string): (r: Result<Policy, RouteError>)
    ensures r.Ok? && r.value.Composite? ==> IsCompositeRoute(route) && |r.value.chain| >= 2
  {
    if route == "low-quality" then Ok(LowQualityPolicy)
    else if route == "medium-quality" then Ok(MediumQualityPolicy)
    else if route == "high-quality" then Ok(HighQualityPolicy)
    else if route == "pixeldata-quality" then Ok(PixelDataQualityPolicy)
    else if IsCompositeRoute(route) then
      SplitHasTwoParts(route);
      var chain :- InstantiateAll(Split(route, '/'));
      Ok(Composite(chain))
    else InstantiateSimplePolicy(route)
  }

  lemma SplitHasTwoParts(route: string)
    requires IsCompositeRoute(route)
    ensures |Split(route, '/')| >= 2
  {
    var k :| 0 < k < |route| - 1 && route[k] == '/';
    assert '/' in route;
  }

  /** The routes registered as plain names. */
  const FIXED_ROUTES: seq<string> := ["low-quality", "medium-quality", "high-quality",
    "pixeldata-quality", "png", "8bit", "klv", "invert-monochrome1"]

  /** No route matches two of the registered regexes. */
  lemma RouteShapesDisjoint(route: string)
    ensures IsCompositeRoute(route) ==> !IsResizeRoute(route) && !IsJpegRoute(route)
    ensures IsResizeRoute(route) ==> !IsJpegRoute(route)
    ensures route in FIXED_ROUTES ==>
              !IsCompositeRoute(route) && !IsResizeRoute(route) && !IsJpegRoute(route)
  {
    if route in FIXED_ROUTES {
      FixedRouteShape(route);
    }
  }

  lemma FixedRouteShape(route: string)
    requires route in FIXED_ROUTES
    ensures !IsCompositeRoute(route) && !IsResizeRoute(route) && !IsJpegRoute(route)
  {
    assert |route| > 0 && route[0] != 'r' && route[0] != 'j' && '/' !in route;
    PlainShape(route);
  }

  /** A route without a slash that starts with neither `r` nor `j` is
      neither composite, nor resize, nor JPEG. */
  lemma PlainShape(route: string)
    requires |route| > 0 && route[0] != 'r' && route[0] != 'j' && '/' !in route
    ensures !IsCompositeRoute(route) && !IsResizeRoute(route) && !IsJpegRoute(route)
  {
    NoSlashNotComposite(route);
    assert RESIZE_PREFIX[0] == 'r' && JPEG_PREFIX[0] == 'j';
  }

  /** A route without a slash is not composite. */
  lemma NoSlashNotComposite(route: string)
    requires '/' !in route
    ensures !IsCompositeRoute(route)
  {
  }

  /** A route with a slash is none of the quality routes. */
  lemma SlashNotQuality(route: string)
    requires '/' in route
    ensures route != "low-quality" && route != "medium-quality"
    ensures route != "high-quality" && route != "pixeldata-quality"
  {
    assert '/' !in "low-quality" && '/' !in "medium-quality";
    assert '/' !in "high-quality" && '/' !in "pixeldata-quality";
  }

  lemma DigitsHaveNoSlash(digits: string)
    requires AllDigits(digits)
    ensures '/' !in digits
  {
    forall k | 0 <= k < |digits| ensures digits[k] != '/' {
      assert IsDigit(digits[k]);
    }
  }

  lemma JpegRouteSpelling(digits: string, colon: bool)
    requires AllDigits(digits)
    ensures var route := JPEG_PREFIX + (if colon then ":" else "") + digits;
            StartsWith(route, JPEG_PREFIX) && JpegDigits(route) == digits &&
            route[0] == 'j' && '/' !in route
  {
    var route := JPEG_PREFIX + (if colon then ":" else "") + digits;
    DigitsHaveNoSlash(digits);
    assert |digits| > 0 ==> IsDigit(digits[0]);
    assert route[..|JPEG_PREFIX|] == JPEG_PREFIX;
    assert route[|JPEG_PREFIX|..] == (if colon then ":" else "") + digits;
    assert route == (JPEG_PREFIX + (if colon then ":" else "")) + digits;
  }

  /** A JPEG route without digits asks for compression 100; with up to
      three digits, for that number. */
  lemma JpegCompression(digits: string, colon: bool)
    requires |digits| <= 3 && AllDigits(digits)
    ensures var route := JPEG_PREFIX + (if colon then ":" else "") + digits;
            InstantiatePolicyFromRoute(route) ==
              Ok(Jpeg(if |digits| == 0 then DEFAULT_JPEG_COMPRESSION else DigitsValue(digits)))
  {
    var route := JPEG_PREFIX + (if colon then ":" else "") + digits;
    JpegRouteSpelling(digits, colon);
    SimpleDispatch(route);
    assert !IsResizeRoute(route) by { assert RESIZE_PREFIX[0] == 'r'; }
    assert IsJpegRoute(route);
  }

  /** A route without a slash that names no quality is instantiated as a
      simple policy. */
  lemma SimpleDispatch(route: string)
    requires |route| > 0 && '/' !in route
    requires route[0] != 'l' && route[0] != 'm' && route[0] != 'h' && route[0] != 'p'
    ensures InstantiatePolicyFromRoute(route) == InstantiateSimplePolicy(route)
  {
    NoSlashNotComposite(route);
  }

  /** Parts joined with "/" give a composite of the parts' policies, in
      order. */
  lemma CompositeRoute(parts: seq<string>)
    requires |parts| >= 2
    requires forall i :: 0 <= i < |parts| ==> |parts[i]| > 0 && '/' !in parts[i]
    ensures var route := Join(parts, '/');
            InstantiateAll(parts).Ok? ==>
              InstantiatePolicyFromRoute(route) == Ok(Composite(InstantiateAll(parts).value))
    ensures InstantiateAll(parts).Err? ==>
              InstantiatePolicyFromRoute(Join(parts, '/')).Err?
  {
    var route := Join(parts, '/');
    SplitJoin(parts, '/');
    assert route == parts[0] + "/" + Join(parts[1..], '/');
    assert route[|parts[0]|] == '/';
    assert IsCompositeRoute(route);
    SlashNotQuality(route);
  }

  // ---------------------------------------------------------------------
  // Policy names

  /** `ToString` of a policy. The quality names are the processing policy
      strings of `ImageQuality`; the resize, composite and monochrome-1
      names are those of their policies' `ToString`. The JPEG, PNG, 8-bit
      and KLV policies' `ToString` is not part of this model, so their names
      here are stand-ins: all the model relies on is that none of them is
      a quality name, which is what `HigherQualities` reads back. */
  function PolicyName(p: Policy): string
    decreases p
  {
    match p
    case LowQualityPolicy => "low-quality"
    case MediumQualityPolicy => "medium-quality"
    case HighQualityPolicy => "high-quality"
    case PixelDataQualityPolicy => "pixeldata-quality"
    case Composite(chain) => JoinNames(chain)
    case Resize(n) => RESIZE_PREFIX + NatToString(n)
    case Jpeg(c) => "jpeg:" + (if c < 0 then "-" + NatToString(-c) else NatToString(c))
    case Png => "png"
    case Uint8 => "8bit"
    case Klv => "klv"
    case InvertMonochrome1 => "invert-monochrome1"
  }

  /** `boost::algorithm::join(names, "~")` */
  function JoinNames(chain: seq<Policy>): string
    decreases chain
  {
    if |chain| == 0 then ""
    else if |chain| == 1 then PolicyName(chain[0])
    else PolicyName(chain[0]) + "~" + JoinNames(chain[1..])
  }

  function QualityPolicy(q: ImageQuality): Policy
    requires q != NONE
  {
    match q
    case LOW => LowQualityPolicy
    case MEDIUM => MediumQualityPolicy
    case LOSSLESS => HighQualityPolicy
    case PIXELDATA => PixelDataQualityPolicy
  }

  /** A quality's processing route instantiates its quality policy, whose
      name decodes back to the quality. */
  lemma QualityRouteRoundTrip(q: ImageQuality)
    requires q != NONE
    ensures InstantiatePolicyFromRoute(ToProcessingPolicyString(q)) == Ok(QualityPolicy(q))
    ensures FromProcessingPolicyString(PolicyName(QualityPolicy(q))) == q
  {
  }

  // ---------------------------------------------------------------------
  // The URL postfix

  datatype CachePrefix = NoPrefix | NoCache | CleanCache

  function PrefixText(p: CachePrefix): string {
    match p
    case NoPrefix => ""
    case NoCache => "nocache/"
    case CleanCache => "cleancache/"
  }

  /** The groups of `^(nocache/|cleancache/)?([^/]+)/(\d+)(?:/(.+))$`. */
  datatype UrlMatch = UrlMatch(prefix: CachePrefix, instanceId: string, frameDigits: string, subroute: string)

  /** The groups are well formed and spell `postfix`. */
  predicate Spells(m: UrlMatch, postfix: string) {
    |m.instanceId| > 0 && '/' !in m.instanceId &&
    |m.frameDigits| > 0 && AllDigits(m.frameDigits) &&
    |m.subroute| > 0 &&
    postfix == PrefixText(m.prefix) + m.instanceId + "/" + m.frameDigits + "/" + m.subroute
  }

  /** `<id>/<digits>/<rest>` with the prefix already consumed. */
  function MatchBody(s: string, prefix: CachePrefix): (r: Option<UrlMatch>)
    ensures r.Some? ==> r.value.prefix == prefix && Spells(r.value, PrefixText(prefix) + s)
  {
    if '/' !in s then None
    else
      var i := IndexOf(s, '/');
      var t := s[i + 1..];
      if i == 0 || '/' !in t then None
      else
        var j := IndexOf(t, '/');
        if j == 0 || !AllDigits(t[..j]) || j + 1 == |t| then None
        else
          var m := UrlMatch(prefix, s[..i], t[..j], t[j + 1..]);
          SpellsAtTwoSlashes(s, prefix, i, j);
          Some(m)
  }

  /** Cutting at the first two slashes yields groups that spell the
      postfix back. */
  lemma SpellsAtTwoSlashes(s: string, prefix: CachePrefix, i: nat, j: nat)
    requires i < |s| && s[i] == '/' && '/' !in s[..i] && i > 0
    requires j + 1 < |s[i + 1..]| && s[i + 1..][j] == '/' && j > 0 && AllDigits(s[i + 1..][..j])
    ensures Spells(UrlMatch(prefix, s[..i], s[i + 1..][..j], s[i + 1..][j + 1..]), PrefixText(prefix) + s)
  {
    SplitAtTwoSlashes(s, i, j);
    var t := s[i + 1..];
    var p := PrefixText(prefix);
    assert p + s == p + s[..i] + "/" + t[..j] + "/" + t[j + 1..];
  }

  lemma SplitAtTwoSlashes(s: string, i: nat, j: nat)
    requires i < |s| && s[i] == '/' && j < |s[i + 1..]| && s[i + 1..][j] == '/'
    ensures s == s[..i] + "/" + s[i + 1..][..j] + "/" + s[i + 1..][j + 1..]
  {
    var t := s[i + 1..];
    assert t == t[..j] + "/" + t[j + 1..];
    assert s == s[..i] + "/" + t;
  }

  /** The regex tries the optional prefix group first and falls back to
      matching without it. */
  function MatchPostfix(postfix: string): (r: Option<UrlMatch>)
    ensures r.Some? ==> Spells(r.value, postfix)
  {
    var withNoCache := MatchWithPrefix(postfix, NoCache);
    if withNoCache.Some? then withNoCache
    else
      var withCleanCache := MatchWithPrefix(postfix, CleanCache);
      if withCleanCache.Some? then withCleanCache
      else MatchWithPrefix(postfix, NoPrefix)
  }

  /** The match that takes the given alternative for the prefix group. */
  function MatchWithPrefix(postfix: string, prefix: CachePrefix): (r: Option<UrlMatch>)
    ensures r.Some? ==> r.value.prefix == prefix && Spells(r.value, postfix)
    ensures r == (if StartsWith(postfix, PrefixText(prefix))
                  then MatchBody(postfix[|PrefixText(prefix)|..], prefix) else None)
  {
    var text := PrefixText(prefix);
    if StartsWith(postfix, text) then
      assert postfix == text + postfix[|text|..];
      MatchBody(postfix[|text|..], prefix)
    else None
  }

  /** A body that starts with a prefix's text has that text, without its
      slash, as instance id. */
  lemma PrefixLookalike(m: UrlMatch, body: string, prefix: string)
    requires |m.instanceId| > 0 && '/' !in m.instanceId
    requires body == m.instanceId + "/" + m.frameDigits + "/" + m.subroute
    requires |prefix| > 0 && prefix[|prefix| - 1] == '/' && '/' !in prefix[..|prefix| - 1]
    ensures StartsWith(body, prefix) ==> m.instanceId == prefix[..|prefix| - 1]
  {
    var n := |m.instanceId|;
    assert body[n] == '/';
    assert body[..n] == m.instanceId;
    assert forall k :: 0 <= k < n ==> body[k] != '/';
    assert forall k :: 0 <= k < |prefix| - 1 ==> prefix[k] != '/' by {
      assert forall k :: 0 <= k < |prefix| - 1 ==> prefix[..|prefix| - 1][k] == prefix[k];
    }
  }

  /** Every well-formed set of groups is found again; with a prefix, or
      with an instance id that cannot be mistaken for one, exactly. */
  lemma MatchPostfixComplete(m: UrlMatch)
    requires |m.instanceId| > 0 && '/' !in m.instanceId
    requires |m.frameDigits| > 0 && AllDigits(m.frameDigits) && |m.subroute| > 0
    requires m.prefix == NoPrefix ==> m.instanceId != "nocache" && m.instanceId != "cleancache"
    ensures MatchPostfix(PrefixText(m.prefix) + m.instanceId + "/" + m.frameDigits + "/" + m.subroute) == Some(m)
  {
    var body := m.instanceId + "/" + m.frameDigits + "/" + m.subroute;
    MatchBodyComplete(m);
    var postfix := PrefixText(m.prefix) + body;
    assert postfix == PrefixText(m.prefix) + m.instanceId + "/" + m.frameDigits + "/" + m.subroute;
    match m.prefix
    case NoPrefix =>
      assert postfix == body;
      NoPrefixMatch(m, body);
    case NoCache =>
      PrefixedMatch(m, body, postfix);
    case CleanCache =>
      PrefixedMatch(m, body, postfix);
  }

  lemma PrefixedMatch(m: UrlMatch, body: string, postfix: string)
    requires m.prefix != NoPrefix
    requires postfix == PrefixText(m.prefix) + body
    requires MatchBody(body, m.prefix) == Some(m)
    ensures MatchPostfix(postfix) == Some(m)
  {
    var text := PrefixText(m.prefix);
    assert StartsWith(postfix, text);
    assert postfix[|text|..] == body;
    assert MatchWithPrefix(postfix, m.prefix) == Some(m);
    if m.prefix == CleanCache {
      CleanCacheIsNotNoCache(postfix);
    }
  }

  lemma CleanCacheIsNotNoCache(postfix: string)
    requires StartsWith(postfix, PrefixText(CleanCache))
    ensures MatchWithPrefix(postfix, NoCache) == None
  {
    assert postfix[0] == PrefixText(CleanCache)[0] == 'c';
    assert PrefixText(NoCache)[0] == 'n';
  }

  lemma NoPrefixMatch(m: UrlMatch, body: string)
    requires |m.instanceId| > 0 && '/' !in m.instanceId
    requires m.instanceId != "nocache" && m.instanceId != "cleancache"
    requires body == m.instanceId + "/" + m.frameDigits + "/" + m.subroute
    ensures MatchPostfix(body) == MatchBody(body, NoPrefix)
  {
    var nc := PrefixText(NoCache);
    var cc := PrefixText(CleanCache);
    assert nc[..|nc| - 1] == "nocache";
    assert cc[..|cc| - 1] == "cleancache";
    PrefixLookalike(m, body, nc);
    PrefixLookalike(m, body, cc);
    assert MatchWithPrefix(body, NoCache) == None;
    assert MatchWithPrefix(body, CleanCache) == None;
    assert body[|PrefixText(NoPrefix)|..] == body;
  }

  lemma MatchBodyComplete(m: UrlMatch)
    requires |m.instanceId| > 0 && '/' !in m.instanceId
    requires |m.frameDigits| > 0 && AllDigits(m.frameDigits) && |m.subroute| > 0
    ensures MatchBody(m.instanceId + "/" + m.frameDigits + "/" + m.subroute, m.prefix) == Some(m)
  {
    var s := m.instanceId + "/" + m.frameDigits + "/" + m.subroute;
    var n := |m.instanceId|;
    assert s[n] == '/';
    assert s[..n] == m.instanceId;
    assert IndexOf(s, '/') == n;
    var t := s[n + 1..];
    assert t == m.frameDigits + "/" + m.subroute;
    assert t[|m.frameDigits|] == '/';
    assert t[..|m.frameDigits|] == m.frameDigits;
    assert '/' !in m.frameDigits by {
      forall k | 0 <= k < |m.frameDigits| ensures m.frameDigits[k] != '/' {
        assert IsDigit(m.frameDigits[k]);
      }
    }
    assert IndexOf(t, '/') == |m.frameDigits|;
    assert t[|m.frameDigits| + 1..] == m.subroute;
  }

  /** What `ImageControllerUrlParser::parseUrlPostfix` produces. */
  datatype ImageUrl = ImageUrl(instanceId: string, frameIndex: nat, policy: Policy)

  /** `parseUrlPostfix`: None where it returns false, an error where it
      throws. */
  function ParseUrlPostfix(postfix: string): (r: Result<Option<ImageUrl>, RouteError>)
    ensures MatchPostfix(postfix).None? <==> r == Ok(None)
    ensures r.Ok? && r.value.Some? ==>
              var m := MatchPostfix(postfix).value;
              r.value.value.instanceId == m.instanceId &&
              ParseUInt32(m.frameDigits) == Some(r.value.value.frameIndex) &&
              InstantiatePolicyFromRoute(m.subroute) == Ok(r.value.value.policy)
  {
    match MatchPostfix(postfix)
    case None => Ok(None)
    case Some(m) =>
      match ParseUInt32(m.frameDigits)
      case None => Err(BadLexicalCast)
      case Some(frame) =>
        var policy :- InstantiatePolicyFromRoute(m.subroute);
        Ok(Some(ImageUrl(m.instanceId, frame, policy)))
  }

  /** The outcome of `ImageController::_ParseURLPostFix`. */
  datatype ImageRequest =
    | AnnotationRequest(instanceId: string, frameIndex: nat, disableCache: bool, cleanCache: bool)
    | ProcessingRequest(instanceId: string, frameIndex: nat, policy: Policy, disableCache: bool, cleanCache: bool)
    | HttpError(status: nat)

  /** `_ParseURLPostFix`: 404 for a malformed URL or an unknown policy, 500
      for a frame index or resize value beyond 32 bits. */
  function ParseImageRequest(postfix: string): (r: ImageRequest)
    ensures MatchPostfix(postfix).None? ==> r == HttpError(404)
    ensures MatchPostfix(postfix).Some? && !r.HttpError? ==>
              var m := MatchPostfix(postfix).value;
              r.instanceId == m.instanceId && Some(r.frameIndex) == ParseUInt32(m.frameDigits) &&
              r.disableCache == (m.prefix == NoCache) && r.cleanCache == (m.prefix == CleanCache) &&
              (r.AnnotationRequest? <==> StartsWith(m.subroute, "annotations"))
    ensures r.ProcessingRequest? ==>
              InstantiatePolicyFromRoute(MatchPostfix(postfix).value.subroute) == Ok(r.policy)
    ensures MatchPostfix(postfix).Some? ==>
              var m := MatchPostfix(postfix).value;
              (ParseUInt32(m.frameDigits).None? ==> r == HttpError(500)) &&
              (ParseUInt32(m.frameDigits).Some? && !StartsWith(m.subroute, "annotations") ==>
                 (r == HttpError(404) <==> InstantiatePolicyFromRoute(m.subroute) == Err(PolicyNotFound)) &&
                 (r == HttpError(500) <==> InstantiatePolicyFromRoute(m.subroute) == Err(BadLexicalCast)))
    ensures r.HttpError? ==> r.status == 404 || r.status == 500
  {
    match MatchPostfix(postfix)
    case None => HttpError(404)
    case Some(m) =>
      var disableCache := m.prefix == NoCache;
      var cleanCache := m.prefix == CleanCache;
      match ParseUInt32(m.frameDigits)
      case None => HttpError(500)
      case Some(frame) =>
        if StartsWith(m.subroute, "annotations") then
          AnnotationRequest(m.instanceId, frame, disableCache, cleanCache)
        else
          match InstantiatePolicyFromRoute(m.subroute)
          case Ok(policy) => ProcessingRequest(m.instanceId, frame, policy, disableCache, cleanCache)
          case Err(PolicyNotFound) => HttpError(404)
          case Err(BadLexicalCast) => HttpError(500)
  }
}

=== FILE: klv.dfy ===
/** The key-length-value container the backend writes images in
    (backend/WebViewerLibrary/Image/Utilities/KLVWriter.cpp, KLVWriter.h)
    and the worker reads (src/app/image/image-parser.worker/klvreader.class.js).
    A tuple is a 4-byte big-endian key, a 4-byte big-endian length and the
    value bytes; integer values are stored big-endian too.

    Typed values are the integers the container actually stores: widths 1,
    2 and 4 (the conversion buffer holds 4 bytes), each as its bit pattern.
    The host's byte order is a parameter. */
module Klv {
  import opened Wrappers

  type Byte = b: int | 0 <= b < 256

  const UINT32_LIMIT: nat := 0x1_0000_0000

  type UInt32 = k: int | 0 <= k < UINT32_LIMIT

  function Pow256(n: nat): (p: nat)
    ensures p >= 1
  {
    if n == 0 then 1 else 256 * Pow256(n - 1)
  }

  /** `v` as `n` bytes, most significant first. */
  function ToBigEndian(v: nat, n: nat): (b: seq<Byte>)
    requires v < Pow256(n)
    ensures |b| == n
  {
    if n == 0 then [] else ToBigEndian(v / 256, n - 1) + [v % 256]
  }

  /** The number `DataView` reads from bytes, most significant first. */
  function FromBigEndian(b: seq<Byte>): (v: nat)
    ensures v < Pow256(|b|)
  {
    if |b| == 0 then 0 else FromBigEndian(b[..|b| - 1]) * 256 + b[|b| - 1]
  }

  lemma {:induction false} BigEndianRoundTrip(v: nat, n: nat)
    requires v < Pow256(n)
    ensures FromBigEndian(ToBigEndian(v, n)) == v
  {
    if n > 0 {
      var b := ToBigEndian(v, n);
      assert b[..n - 1] == ToBigEndian(v / 256, n - 1);
      BigEndianRoundTrip(v / 256, n - 1);
    }
  }

  function Reverse<T>(s: seq<T>): (r: seq<T>)
    ensures |r| == |s| && forall i :: 0 <= i < |s| ==> r[i] == s[|s| - 1 - i]
  {
    if |s| == 0 then [] else Reverse(s[1..]) + [s[0]]
  }

  lemma ReverseInvolution<T>(s: seq<T>)
    ensures Reverse(Reverse(s)) == s
  {
  }

  // ---------------------------------------------------------------------
  // Writer

  datatype Endianness = Little | Big

  datatype Width = W1 | W2 | W4

  function WidthBytes(w: Width): (n: nat)
    ensures n >= 1
  {
    match w
    case W1 => 1
    case W2 => 2
    case W4 => 4
  }

  /** The bytes of an integer in the host's memory. */
  function Memory(host: Endianness, v: nat, n: nat): (b: seq<Byte>)
    requires v < Pow256(n)
    ensures |b| == n
  {
    match host
    case Big => ToBigEndian(v, n)
    case Little => Reverse(ToBigEndian(v, n))
  }

  /** A stored value: raw bytes (strings and image buffers, never
      converted) or an integer's bit pattern. */
  datatype Value =
    | Bytes(data: seq<Byte>)
    | Integer(width: Width, pattern: nat)

  ghost predicate ValidValue(v: Value) {
    match v
    case Bytes(data) => |data| < UINT32_LIMIT
    case Integer(width, pattern) => pattern < Pow256(WidthBytes(width))
  }

  function Length(v: Value): nat {
    match v
    case Bytes(data) => |data|
    case Integer(width, _) => WidthBytes(width)
  }

  datatype Tuple = Tuple(key: UInt32, value: Value)

  datatype Writer = Writer(tuples: seq<Tuple>, totalSize: nat)

  /** The size `write` reserves: 8 bytes of header per tuple plus the
      values. */
  function EncodedSize(tuples: seq<Tuple>): nat {
    if |tuples| == 0 then 0 else 8 + Length(tuples[0].value) + EncodedSize(tuples[1..])
  }

  /** Appending a tuple grows the encoded size by its header and value. */
  lemma {:induction false} EncodedSizeAppend(tuples: seq<Tuple>, t: Tuple)
    ensures EncodedSize(tuples + [t]) == EncodedSize(tuples) + 8 + Length(t.value)
    decreases |tuples|
  {
    if |tuples| > 0 {
      assert (tuples + [t])[1..] == tuples[1..] + [t];
      EncodedSizeAppend(tuples[1..], t);
    } else {
      assert (tuples + [t])[1..] == [];
    }
  }

  ghost predicate ValidWriter(w: Writer) {
    (forall i :: 0 <= i < |w.tuples| ==> ValidValue(w.tuples[i].value)) &&
    w.totalSize == EncodedSize(w.tuples)
  }

  function NewWriter(): (w: Writer)
    ensures ValidWriter(w) && |w.tuples| == 0
  {
    Writer([], 0)
  }

  /** `setValue(key, length, value)`: raw bytes. A length that does not fit
      32 bits fails the cast and the tuple is dropped (the `assert` is off
      in a release build), though the reserved size still grows. */
  function SetBytes(w: Writer, key: UInt32, data: seq<Byte>): (w': Writer)
    ensures w'.totalSize == w.totalSize + 8 + |data|
    ensures |data| < UINT32_LIMIT ==> w'.tuples == w.tuples + [Tuple(key, Bytes(data))]
    ensures |data| >= UINT32_LIMIT ==> w'.tuples == w.tuples
    ensures ValidWriter(w) && |data| < UINT32_LIMIT ==> ValidWriter(w')
  {
    var tuples := if |data| < UINT32_LIMIT then w.tuples + [Tuple(key, Bytes(data))] else w.tuples;
    if |data| < UINT32_LIMIT then
      EncodedSizeAppend(w.tuples, Tuple(key, Bytes(data)));
      Writer(tuples, w.totalSize + 8 + |data|)
    else Writer(tuples, w.totalSize + 8 + |data|)
  }

  /** The template `setValue(key, value)` on an integer: its bit pattern,
      to be converted to big-endian. */
  function SetInteger(w: Writer, key: UInt32, width: Width, pattern: nat): (w': Writer)
    requires pattern < Pow256(WidthBytes(width))
    ensures w'.tuples == w.tuples + [Tuple(key, Integer(width, pattern))]
    ensures w'.totalSize == w.totalSize + 8 + WidthBytes(width)
    ensures ValidWriter(w) ==> ValidWriter(w')
  {
    var tuples := w.tuples + [Tuple(key, Integer(width, pattern))];
    EncodedSizeAppend(w.tuples, Tuple(key, Integer(width, pattern)));
    Writer(tuples, w.totalSize + 8 + WidthBytes(width))
  }

  /** A 4-byte field as `write` appends it: on a little-endian host the
      bytes of the variable in reverse, else in memory order. */
  function Field(host: Endianness, v: UInt32): (b: seq<Byte>)
    ensures b == ToBigEndian(v, 4)
  {
    match host
    case Little =>
      ReverseInvolution(ToBigEndian(v, 4));
      Reverse(Memory(host, v, 4))
    case Big => Memory(host, v, 4)
  }

  /** The value bytes `write` appends. */
  function ValueBytes(host: Endianness, v: Value): (b: seq<Byte>)
    requires ValidValue(v)
    ensures |b| == Length(v)
    ensures v.Bytes? ==> b == v.data
    ensures v.Integer? ==> b == ToBigEndian(v.pattern, WidthBytes(v.width))
  {
    match v
    case Bytes(data) => data
    case Integer(width, pattern) =>
      var memory := Memory(host, pattern, WidthBytes(width));
      match host
      case Little =>
        ReverseInvolution(ToBigEndian(pattern, WidthBytes(width)));
        Reverse(memory)
      case Big => memory
  }

  function EncodeTuple(host: Endianness, t: Tuple): (b: seq<Byte>)
    requires ValidValue(t.value)
    ensures |b| == 8 + Length(t.value)
  {
    Field(host, t.key) + Field(host, Length(t.value)) + ValueBytes(host, t.value)
  }

  /** `write`: the tuples in insertion order. */
  function Write(host: Endianness, w: Writer): (out: seq<Byte>)
    requires ValidWriter(w)
    ensures |out| == w.totalSize
  {
    Encode(host, w.tuples)
  }

  function Encode(host: Endianness, tuples: seq<Tuple>): (out: seq<Byte>)
    requires forall i :: 0 <= i < |tuples| ==> ValidValue(tuples[i].value)
    ensures |out| == EncodedSize(tuples)
  {
    if |tuples| == 0 then [] else EncodeTuple(host, tuples[0]) + Encode(host, tuples[1..])
  }

  /** Both hosts write the same bytes. */
  lemma {:induction false} EncodeAnyHost(host: Endianness, tuples: seq<Tuple>)
    requires forall i :: 0 <= i < |tuples| ==> ValidValue(tuples[i].value)
    ensures Encode(host, tuples) == Encode(Big, tuples)
    decreases |tuples|
  {
    if |tuples| > 0 {
      EncodeAnyHost(host, tuples[1..]);
    }
  }

  // ---------------------------------------------------------------------
  // Reader

  datatype ReadError = RangeError | MissingKey

  type Keys = map<UInt32, seq<Byte>>

  /** `_parseFile` from the current offset on: `data` is what is left. The
      loop stops with at most one byte left; a header that does not fit
      makes `getUint32` throw; a value running past the end is cut short,
      as `slice` does. */
  function ParseFrom(data: seq<Byte>, keys: Keys): (r: Result<Keys, ReadError>)
    ensures |data| <= 1 ==> r == Ok(keys)
    ensures 1 < |data| < 8 ==> r == Err(RangeError)
    ensures r.Ok? ==> keys.Keys <= r.value.Keys && |r.value| <= |keys| + |data| / 8
    decreases |data|
  {
    if |data| <= 1 then Ok(keys)
    else if |data| < 8 then Err(RangeError)
    else
      var key := FromBigEndian(data[..4]);
      var length := FromBigEndian(data[4..8]);
      var end := if 8 + length <= |data| then 8 + length else |data|;
      ParseFrom(data[end..], keys[key := data[8..end]])
  }

  /** `new KLVReader(binary)`: the last value of each key. */
  function Parse(data: seq<Byte>): (r: Result<Keys, ReadError>)
    ensures |data| <= 1 ==> r == Ok(map[])
    ensures 1 < |data| < 8 ==> r == Err(RangeError)
    ensures r.Ok? ==> |r.value| <= |data| / 8
  {
    ParseFrom(data, map[])
  }

  /** The keys the tuples leave, in order, each later tuple overwriting. */
  function Entries(tuples: seq<Tuple>, keys: Keys): Keys
    requires forall i :: 0 <= i < |tuples| ==> ValidValue(tuples[i].value)
    decreases |tuples|
  {
    if |tuples| == 0 then keys
    else Entries(tuples[1..], keys[tuples[0].key := ValueBytes(Big, tuples[0].value)])
  }

  /** Reading one encoded tuple. */
  lemma ParseTuple(t: Tuple, rest: seq<Byte>, keys: Keys)
    requires ValidValue(t.value)
    ensures ParseFrom(EncodeTuple(Big, t) + rest, keys) ==
            ParseFrom(rest, keys[t.key := ValueBytes(Big, t.value)])
  {
    var data := EncodeTuple(Big, t) + rest;
    var value := ValueBytes(Big, t.value);
    assert data[..4] == ToBigEndian(t.key, 4);
    assert data[4..8] == ToBigEndian(Length(t.value), 4);
    BigEndianRoundTrip(t.key, 4);
    BigEndianRoundTrip(Length(t.value), 4);
    assert data[8..8 + Length(t.value)] == value;
    assert data[8 + Length(t.value)..] == rest;
  }

  lemma {:induction false} ParseEncoded(tuples: seq<Tuple>, keys: Keys)
    requires forall i :: 0 <= i < |tuples| ==> ValidValue(tuples[i].value)
    ensures ParseFrom(Encode(Big, tuples), keys) == Ok(Entries(tuples, keys))
    decreases |tuples|
  {
    if |tuples| > 0 {
      ParseTuple(tuples[0], Encode(Big, tuples[1..]), keys);
      ParseEncoded(tuples[1..], keys[tuples[0].key := ValueBytes(Big, tuples[0].value)]);
    }
  }

  /** Reading what the writer wrote gives back each key's last value,
      whatever the writing host's byte order. */
  lemma RoundTrip(host: Endianness, w: Writer)
    requires ValidWriter(w)
    ensures Parse(Write(host, w)) == Ok(Entries(w.tuples, map[]))
  {
    EncodeAnyHost(host, w.tuples);
    ParseEncoded(w.tuples, map[]);
  }

  /** The value `Entries` keeps for a key: the last tuple's. */
  lemma {:induction false} EntriesLastWins(tuples: seq<Tuple>, keys: Keys, i: nat)
    requires forall j :: 0 <= j < |tuples| ==> ValidValue(tuples[j].value)
    requires i < |tuples| && forall j :: i < j < |tuples| ==> tuples[j].key != tuples[i].key
    ensures var e := Entries(tuples, keys);
            tuples[i].key in e && e[tuples[i].key] == ValueBytes(Big, tuples[i].value)
    decreases |tuples|
  {
    var next := keys[tuples[0].key := ValueBytes(Big, tuples[0].value)];
    if i == 0 {
      EntriesUntouched(tuples[1..], next, tuples[0].key);
    } else {
      EntriesLastWins(tuples[1..], next, i - 1);
    }
  }

  /** A key no tuple carries keeps its earlier value. */
  lemma {:induction false} EntriesUntouched(tuples: seq<Tuple>, keys: Keys, key: UInt32)
    requires forall j :: 0 <= j < |tuples| ==> ValidValue(tuples[j].value)
    requires forall j :: 0 <= j < |tuples| ==> tuples[j].key != key
    ensures var e := Entries(tuples, keys);
            (key in e <==> key in keys) && (key in keys ==> e[key] == keys[key])
    decreases |tuples|
  {
    if |tuples| > 0 {
      EntriesUntouched(tuples[1..], keys[tuples[0].key := ValueBytes(Big, tuples[0].value)], key);
    }
  }

  // ---------------------------------------------------------------------
  // Typed getters

  /** What `getUInt` and `getInt` return: a number for 1, 2 and 4 bytes,
      else the raw bytes. */
  datatype Read = Number(n: int) | Raw(bytes: seq<Byte>)

  function GetBinary(keys: Keys, key: UInt32): (r: Option<seq<Byte>>)
    ensures r.Some? <==> key in keys
    ensures r.Some? ==> r.value == keys[key]
  {
    if key in keys then Some(keys[key]) else None
  }

  /** `getUInt`; a missing key reads `undefined.buffer` and throws. */
  function GetUInt(keys: Keys, key: UInt32): (r: Result<Read, ReadError>)
    ensures r.Err? <==> key !in keys
    ensures r.Ok? && |keys[key]| in {1, 2, 4} ==> r.value == Number(FromBigEndian(keys[key]))
    ensures r.Ok? && |keys[key]| !in {1, 2, 4} ==> r.value == Raw(keys[key])
  {
    if key !in keys then Err(MissingKey)
    else
      var b := keys[key];
      if |b| == 1 || |b| == 2 || |b| == 4 then Ok(Number(FromBigEndian(b))) else Ok(Raw(b))
  }

  /** Half of the values of `n` bytes: the bound of the signed range. */
  function Half(n: nat): (h: nat)
    requires n > 0
    ensures 2 * h == Pow256(n)
  {
    128 * Pow256(n - 1)
  }

  /** A bit pattern of `n` bytes read as two's complement. */
  function Signed(pattern: nat, n: nat): (v: int)
    requires n > 0 && pattern < Pow256(n)
    ensures -(Half(n) as int) <= v < Half(n)
    ensures v >= 0 ==> v == pattern
    ensures v < 0 ==> v + Pow256(n) == pattern
  {
    if pattern < Half(n) then pattern else pattern - Pow256(n)
  }

  /** The bit pattern a signed integer of `n` bytes is stored as. */
  function Pattern(v: int, n: nat): (p: nat)
    requires n > 0 && -(Half(n) as int) <= v < Half(n)
    ensures p < Pow256(n) && Signed(p, n) == v
  {
    if v >= 0 then v else v + Pow256(n)
  }

  /** `getInt`. */
  function GetInt(keys: Keys, key: UInt32): (r: Result<Read, ReadError>)
    ensures r.Err? <==> key !in keys
    ensures r.Ok? && |keys[key]| in {1, 2, 4} ==>
              r.value == Number(Signed(FromBigEndian(keys[key]), |keys[key]|))
    ensures r.Ok? && |keys[key]| !in {1, 2, 4} ==> r.value == Raw(keys[key])
  {
    if key !in keys then Err(MissingKey)
    else
      var b := keys[key];
      if |b| == 1 || |b| == 2 || |b| == 4 then Ok(Number(Signed(FromBigEndian(b), |b|))) else Ok(Raw(b))
  }

  /** An integer written with `setValue` reads back with `getUInt` and,
      stored as its bit pattern, with `getInt`. */
  lemma IntegerRoundTrip(host: Endianness, w: Writer, key: UInt32, width: Width, v: int)
    requires ValidWriter(w)
    requires -(Half(WidthBytes(width)) as int) <= v < Half(WidthBytes(width))
    ensures var w' := SetInteger(w, key, width, Pattern(v, WidthBytes(width)));
            Parse(Write(host, w')).Ok? &&
            GetInt(Parse(Write(host, w')).value, key) == Ok(Number(v)) &&
            GetUInt(Parse(Write(host, w')).value, key) == Ok(Number(Pattern(v, WidthBytes(width))))
  {
    var n := WidthBytes(width);
    var w' := SetInteger(w, key, width, Pattern(v, n));
    RoundTrip(host, w');
    EntriesLastWins(w'.tuples, map[], |w'.tuples| - 1);
    BigEndianRoundTrip(Pattern(v, n), n);
  }

  /** Raw bytes written with `setValue` read back unchanged with
      `getBinary`. */
  lemma BytesRoundTrip(host: Endianness, w: Writer, key: UInt32, data: seq<Byte>)
    requires ValidWriter(w) && |data| < UINT32_LIMIT
    ensures var w' := SetBytes(w, key, data);
            Parse(Write(host, w')).Ok? && GetBinary(Parse(Write(host, w')).value, key) == Some(data)
  {
    var w' := SetBytes(w, key, data);
    RoundTrip(host, w');
    EntriesLastWins(w'.tuples, map[], |w'.tuples| - 1);
  }
}

=== FILE: listener.dfy ===
/** The event registry of the frontend (src/app/utilities/osimis-listener.js):
    callbacks are registered, optionally under a namespace, closed by
    namespace, muted for the duration of a piece of code, and called in
    registration order when the event is triggered.

    Callbacks are opaque: they are known by an id, and the only thing the
    model knows of what they do is whether they throw. The `namespace` and
    `ignore` properties the source stores on the function objects
    themselves are kept in maps keyed by the function. */
module Listener {
  import opened Wrappers
  import opened Text

  /** A namespace part: a string or an object, the latter compared by
      identity. */
  datatype Atom = Str(s: string) | Ref(id: nat)

  /** A namespace: a single value or an array of them. */
  datatype Namespace = Single(atom: Atom) | List(atoms: seq<Atom>)

  /** A registered function: a callback of the caller, or the wrapper
      `once` makes around one, numbered by the counter of `once` calls. */
  datatype Fn = Callback(id: nat) | Once(serial: nat, callback: nat)

  datatype Registry = Registry(
    listeners: seq<Fn>,
    namespaceOf: map<Fn, Namespace>,
    ignored: set<Fn>,
    random: nat)

  const Empty := Registry([], map[], {}, 0)

  /** The namespaces JavaScript treats as false: only the empty string among
      the ones modelled. */
  predicate Truthy(ns: Namespace) {
    ns != Single(Str(""))
  }

  function NamespaceOf(r: Registry, f: Fn): Option<Namespace> {
    if f in r.namespaceOf then Some(r.namespaceOf[f]) else None
  }

  // ---------------------------------------------------------------------
  // Namespace comparison

  /** `===` on two namespace parts. */
  predicate SameAtom(a: Atom, b: Atom) {
    match (a, b)
    case (Str(x), Str(y)) => x == y
    case (Ref(x), Ref(y)) => x == y
    case _ => false
  }

  /** The `&&` reduction over the positions of two arrays of one length. */
  predicate SameAtoms(xs: seq<Atom>, ys: seq<Atom>)
    requires |xs| == |ys|
  {
    |xs| == 0 || (SameAtom(xs[0], ys[0]) && SameAtoms(xs[1..], ys[1..]))
  }

  /** `_compareNamespace`: `===` unless both are arrays, which are compared
      shallowly, position by position. An absent namespace is `undefined`.
      Two namespaces compare equal exactly when they are the same value. */
  predicate CompareNamespace(n1: Option<Namespace>, n2: Option<Namespace>)
    ensures CompareNamespace(n1, n2) <==> n1 == n2
  {
    if n1.Some? && n2.Some? && n1.value.List? && n2.value.List? && |n1.value.atoms| == |n2.value.atoms| then
      SameAtomsIff(n1.value.atoms, n2.value.atoms);
      SameNamespace(n1, n2)
    else SameNamespace(n1, n2)
  }

  /** The comparison itself. */
  predicate SameNamespace(n1: Option<Namespace>, n2: Option<Namespace>) {
    match (n1, n2)
    case (Some(List(xs)), Some(List(ys))) => |xs| == |ys| && SameAtoms(xs, ys)
    case (Some(Single(a)), Some(Single(b))) => SameAtom(a, b)
    case (None, None) => true
    case _ => false
  }

  lemma {:induction false} SameAtomsIff(xs: seq<Atom>, ys: seq<Atom>)
    requires |xs| == |ys|
    ensures SameAtoms(xs, ys) <==> xs == ys
  {
    if |xs| > 0 {
      SameAtomsIff(xs[1..], ys[1..]);
      assert xs == [xs[0]] + xs[1..] && ys == [ys[0]] + ys[1..];
    }
  }

  /** Whether a registered function is under the namespace `ns`. */
  predicate Matches(r: Registry, f: Fn, ns: Option<Namespace>) {
    CompareNamespace(NamespaceOf(r, f), ns)
  }

  // ---------------------------------------------------------------------
  // listen, once, close

  /** The listen call: the callback is appended; a truthy namespace is
      written onto the function, replacing the one it had. */
  function Listen(r: Registry, namespace: Option<Namespace>, callback: nat): (r': Registry)
    ensures r'.listeners == r.listeners + [Callback(callback)]
    ensures NamespaceOf(r', Callback(callback)) ==
              if namespace.Some? && Truthy(namespace.value) then namespace else NamespaceOf(r, Callback(callback))
    ensures forall f :: f != Callback(callback) ==> NamespaceOf(r', f) == NamespaceOf(r, f)
    ensures r'.ignored == r.ignored && r'.random == r.random
  {
    var f := Callback(callback);
    var namespaceOf :=
      if namespace.Some? && Truthy(namespace.value) then r.namespaceOf[f := namespace.value] else r.namespaceOf;
    r.(listeners := r.listeners + [f], namespaceOf := namespaceOf)
  }

  /** The namespace `once` gives its n-th wrapper. */
  function OnceName(serial: nat): (ns: Namespace)
    ensures Truthy(ns)
  {
    Single(Str(".<_^_>. ]MONDOSHAWANS" + NatToString(serial) + "[ .<_^_>."))
  }

  /** `once`: a fresh wrapper is registered under its own namespace. */
  function ListenOnce(r: Registry, callback: nat): (r': Registry)
    ensures r'.listeners == r.listeners + [Once(r.random, callback)]
    ensures NamespaceOf(r', Once(r.random, callback)) == Some(OnceName(r.random))
    ensures r'.random == r.random + 1
  {
    var f := Once(r.random, callback);
    r.(listeners := r.listeners + [f],
       namespaceOf := r.namespaceOf[f := OnceName(r.random)],
       random := r.random + 1)
  }

  /** The listeners `_.remove` keeps: those without a namespace or under
      another one. */
  function Keep(r: Registry, fs: seq<Fn>, ns: Namespace): (kept: seq<Fn>)
    ensures forall f :: f in kept <==> f in fs && !(f in r.namespaceOf && CompareNamespace(Some(r.namespaceOf[f]), Some(ns)))
    ensures |kept| <= |fs|
  {
    if |fs| == 0 then []
    else
      var f := fs[0];
      var rest := Keep(r, fs[1..], ns);
      assert fs == [f] + fs[1..];
      if f in r.namespaceOf && CompareNamespace(Some(r.namespaceOf[f]), Some(ns)) then rest else [f] + rest
  }

  /** `close`: without a truthy namespace every listener goes; otherwise
      those under the namespace go. The functions keep their properties. */
  function Close(r: Registry, namespace: Option<Namespace>): (r': Registry)
    ensures r'.namespaceOf == r.namespaceOf && r'.ignored == r.ignored && r'.random == r.random
    ensures namespace.None? || !Truthy(namespace.value) ==> r'.listeners == []
    ensures namespace.Some? && Truthy(namespace.value) ==>
              forall f :: f in r'.listeners <==> f in r.listeners && !Matches(r, f, namespace)
  {
    if namespace.None? || !Truthy(namespace.value) then r.(listeners := [])
    else r.(listeners := Keep(r, r.listeners, namespace.value))
  }

  /** Closing keeps the order of the listeners it keeps: it splits over
      concatenation. */
  lemma {:induction false} KeepAppend(r: Registry, a: seq<Fn>, b: seq<Fn>, ns: Namespace)
    ensures Keep(r, a + b, ns) == Keep(r, a, ns) + Keep(r, b, ns)
  {
    if |a| > 0 {
      var ab := a + b;
      assert ab[0] == a[0] && ab[1..] == a[1..] + b;
      KeepAppend(r, a[1..], b, ns);
    } else {
      assert a + b == b;
    }
  }

  // ---------------------------------------------------------------------
  // ignore

  /** The listeners under `ns` when `ignore` walks the registry. */
  function MatchingNow(r: Registry, ns: Option<Namespace>): set<Fn> {
    set f | f in r.listeners && Matches(r, f, ns)
  }

  /** The first half of `ignore`: the listeners under `ns` are muted. */
  function Mute(r: Registry, ns: Option<Namespace>): (r': Registry)
    ensures r'.listeners == r.listeners && r'.namespaceOf == r.namespaceOf && r'.random == r.random
    ensures forall f :: f in r'.ignored <==> f in r.ignored || (f in r.listeners && Matches(r, f, ns))
  {
    r.(ignored := r.ignored + MatchingNow(r, ns))
  }

  /** The second half: the listeners under `ns` then registered are
      unmuted, whatever they were before `ignore`. */
  function Unmute(r: Registry, ns: Option<Namespace>): (r': Registry)
    ensures r'.listeners == r.listeners && r'.namespaceOf == r.namespaceOf && r'.random == r.random
    ensures forall f :: f in r'.ignored <==> f in r.ignored && !(f in r.listeners && Matches(r, f, ns))
  {
    r.(ignored := r.ignored - MatchingNow(r, ns))
  }

  /** What the code wrapped by `ignore` leaves: the registry, and whether
      it threw. */
  datatype Ran = Ran(registry: Registry, threw: bool)

  /** `ignore`: the wrapped code is a transformation of the registry that
      may throw. There is no `finally`: a throw leaves `ignore` before the
      second walk, so the listeners under `ns` stay muted. */
  function Ignore(r: Registry, ns: Option<Namespace>, wrapped: Registry -> Ran): (o: Ran)
    ensures o.threw == wrapped(Mute(r, ns)).threw
    ensures !o.threw ==> forall f :: f in o.registry.listeners && Matches(o.registry, f, ns) ==> f !in o.registry.ignored
    ensures o.threw ==> o.registry == wrapped(Mute(r, ns)).registry
  {
    var ran := wrapped(Mute(r, ns));
    if ran.threw then ran else Ran(Unmute(ran.registry, ns), false)
  }

  /** Around code that leaves the registry alone, `ignore` unmutes the
      listeners under the namespace, so it gives back the registry it was
      given when none of them was muted before; one muted before ends up
      unmuted. */
  lemma IgnoreRestores(r: Registry, ns: Option<Namespace>)
    ensures var o := Ignore(r, ns, x => Ran(x, false));
            var r' := o.registry;
            !o.threw && r'.listeners == r.listeners && r'.namespaceOf == r.namespaceOf &&
            (forall f :: f in r'.ignored <==> f in r.ignored && !(f in r.listeners && Matches(r, f, ns))) &&
            (r.ignored !! MatchingNow(r, ns) ==> r' == r)
  {
  }

  /** Around code that throws without touching the registry, every listener
      under the namespace stays muted after `ignore`, and so is never
      called by a later trigger. */
  lemma IgnoreThrowKeepsMuted(r: Registry, ns: Option<Namespace>, throwing: set<nat>)
    ensures var o := Ignore(r, ns, x => Ran(x, true));
            o.threw && o.registry.listeners == r.listeners &&
            (forall f :: f in r.listeners && Matches(r, f, ns) ==> f in o.registry.ignored) &&
            (forall f :: f in Trigger(o.registry, throwing).called ==> !Matches(r, f, ns))
  {
    MutedNotCalled(r, ns, throwing);
  }

  // ---------------------------------------------------------------------
  // trigger

  /** What a trigger did: the registry after it, the functions called in
      order, and whether a callback threw (the error is rethrown later and
      the remaining listeners are not called). */
  datatype Fired = Fired(registry: Registry, called: seq<Fn>, rethrown: bool)

  /** The user callback a registered function runs. */
  function Runs(f: Fn): nat {
    match f
    case Callback(id) => id
    case Once(_, callback) => callback
  }

  /** The listeners not muted, in registration order. */
  function Active(r: Registry, fs: seq<Fn>): (active: seq<Fn>)
    ensures forall f :: f in active <==> f in fs && f !in r.ignored
    ensures |active| <= |fs|
  {
    if |fs| == 0 then []
    else
      var rest := Active(r, fs[1..]);
      assert fs == [fs[0]] + fs[1..];
      if fs[0] in r.ignored then rest else [fs[0]] + rest
  }

  /** The calls, one by one. A wrapper closes its namespace once its
      callback returns. */
  function Run(r: Registry, pending: seq<Fn>, throwing: set<nat>): (fired: Fired)
    ensures |fired.called| <= |pending| && fired.called == pending[..|fired.called|]
    ensures fired.registry.namespaceOf == r.namespaceOf && fired.registry.ignored == r.ignored
    ensures fired.registry.random == r.random
    ensures forall f :: f in fired.registry.listeners ==> f in r.listeners
    ensures fired.rethrown <==> exists i :: 0 <= i < |pending| && Runs(pending[i]) in throwing
    ensures !fired.rethrown ==> fired.called == pending
    ensures fired.rethrown ==> |fired.called| > 0 && Runs(fired.called[|fired.called| - 1]) in throwing
    decreases |pending|
  {
    if |pending| == 0 then Fired(r, [], false)
    else
      var f := pending[0];
      if Runs(f) in throwing then Fired(r, [f], true)
      else
        var rest := Run(AfterCall(r, f), pending[1..], throwing);
        RunCons(pending, rest.called, rest.rethrown, throwing);
        Fired(rest.registry, [f] + rest.called, rest.rethrown)
  }

  /** The registry once `f` has returned: a wrapper closes its namespace,
      which only drops listeners. */
  function AfterCall(r: Registry, f: Fn): (r': Registry)
    ensures r'.namespaceOf == r.namespaceOf && r'.ignored == r.ignored && r'.random == r.random
    ensures forall g :: g in r'.listeners ==> g in r.listeners
    ensures f.Callback? ==> r' == r
  {
    if f.Once? then Close(r, Some(OnceName(f.serial))) else r
  }

  /** A first call that does not throw, put before the calls of the rest. */
  lemma RunCons(pending: seq<Fn>, called: seq<Fn>, rethrown: bool, throwing: set<nat>)
    requires |pending| > 0 && Runs(pending[0]) !in throwing
    requires |called| <= |pending| - 1 && called == pending[1..][..|called|]
    requires rethrown <==> exists i :: 0 <= i < |pending| - 1 && Runs(pending[1..][i]) in throwing
    ensures [pending[0]] + called == pending[..|called| + 1]
    ensures rethrown <==> exists i :: 0 <= i < |pending| && Runs(pending[i]) in throwing
    ensures called == pending[1..] ==> [pending[0]] + called == pending
    ensures |called| > 0 ==> ([pending[0]] + called)[|called|] == called[|called| - 1]
  {
    assert forall i :: 0 < i < |pending| ==> pending[i] == pending[1..][i - 1];
    assert pending == [pending[0]] + pending[1..];
  }

  /** `trigger`: the listeners not muted are called in registration order;
      the list is taken before the first call, so a close by a wrapper
      does not change who is called. */
  function Trigger(r: Registry, throwing: set<nat>): (fired: Fired)
    ensures forall f :: f in fired.called ==> f in r.listeners && f !in r.ignored
  {
    Run(r, Active(r, r.listeners), throwing)
  }

  /** Without a throwing callback, every listener not muted is called, in
      registration order. */
  lemma TriggerCallsActive(r: Registry, throwing: set<nat>)
    requires forall f :: f in r.listeners ==> Runs(f) !in throwing
    ensures Trigger(r, throwing).called == Active(r, r.listeners)
    ensures !Trigger(r, throwing).rethrown
  {
    var active := Active(r, r.listeners);
    forall i | 0 <= i < |active| ensures Runs(active[i]) !in throwing {
      assert active[i] in active;
    }
  }

  /** While `ignore` runs its code, a trigger calls nobody under the
      namespace. */
  lemma MutedNotCalled(r: Registry, ns: Option<Namespace>, throwing: set<nat>)
    ensures forall f :: f in Trigger(Mute(r, ns), throwing).called ==> !Matches(r, f, ns)
  {
    var muted := Mute(r, ns);
    forall f | f in Trigger(muted, throwing).called ensures !Matches(r, f, ns) {
      assert f in muted.listeners && f !in muted.ignored;
    }
  }

  // ---------------------------------------------------------------------
  // once

  /** What the registry keeps true of `once` wrappers: each is registered
      at most once, under its own namespace, and was numbered before the
      counter. */
  ghost predicate Valid(r: Registry) {
    (forall i, j :: (0 <= i < |r.listeners| && 0 <= j < |r.listeners| && r.listeners[i].Once? &&
                     r.listeners[i] == r.listeners[j]) ==> i == j) &&
    (forall f :: f in r.namespaceOf && f.Once? ==> f.serial < r.random) &&
    (forall f :: f in r.listeners && f.Once? ==> NamespaceOf(r, f) == Some(OnceName(f.serial)))
  }

  lemma ValidEmpty()
    ensures Valid(Empty)
  {
  }

  lemma ListenValid(r: Registry, namespace: Option<Namespace>, callback: nat)
    requires Valid(r)
    ensures Valid(Listen(r, namespace, callback))
  {
    var r' := Listen(r, namespace, callback);
    forall f | f in r'.listeners && f.Once? ensures NamespaceOf(r', f) == Some(OnceName(f.serial)) {
      assert f in r.listeners;
    }
  }

  lemma {:induction false} ListenOnceValid(r: Registry, callback: nat)
    requires Valid(r)
    ensures Valid(ListenOnce(r, callback))
  {
    var r' := ListenOnce(r, callback);
    var w := Once(r.random, callback);
    forall f | f in r.listeners && f.Once? ensures f.serial < r.random {
      assert f in r.namespaceOf;
    }
    assert w !in r.listeners;
    var ls := r'.listeners;
    forall i, j | 0 <= i < |ls| && 0 <= j < |ls| && ls[i].Once? && ls[i] == ls[j] ensures i == j {
      if i < |r.listeners| && j < |r.listeners| {
        assert ls[i] == r.listeners[i] && ls[j] == r.listeners[j];
      }
    }
  }

  /** A function registered once is among the listeners not muted at most
      once. */
  lemma {:induction false} ActiveCount(r: Registry, fs: seq<Fn>, w: Fn)
    requires forall i, j :: 0 <= i < |fs| && 0 <= j < |fs| && fs[i] == w && fs[j] == w ==> i == j
    ensures multiset(Active(r, fs))[w] <= 1
  {
    if |fs| > 0 {
      var tail := fs[1..];
      forall i, j | 0 <= i < |tail| && 0 <= j < |tail| && tail[i] == w && tail[j] == w ensures i == j {
        assert fs[i + 1] == w && fs[j + 1] == w;
      }
      ActiveCount(r, tail, w);
      if fs[0] == w {
        assert w !in tail;
        assert w !in Active(r, tail);
      }
    }
  }

  /** Once a wrapper has been called and its callback returned, it is no
      longer registered. */
  lemma {:induction false} RunClosesWrapper(r: Registry, pending: seq<Fn>, throwing: set<nat>, w: Fn)
    requires w.Once? && NamespaceOf(r, w) == Some(OnceName(w.serial))
    requires w in Run(r, pending, throwing).called && Runs(w) !in throwing
    ensures w !in Run(r, pending, throwing).registry.listeners
    decreases |pending|
  {
    var f := pending[0];
    if Runs(f) !in throwing {
      var next := if f.Once? then Close(r, Some(OnceName(f.serial))) else r;
      if f == w {
        assert CompareNamespace(NamespaceOf(r, w), Some(OnceName(w.serial)));
        assert w !in next.listeners;
      } else {
        RunClosesWrapper(next, pending[1..], throwing, w);
      }
    }
  }

  /** `once` keeps its promise: a wrapper is called at most once by a
      trigger, and once called (its callback not throwing) it is gone, so
      no later trigger calls it. */
  lemma OnceAtMostOnce(r: Registry, throwing: set<nat>, w: Fn)
    requires Valid(r) && w.Once? && w in r.listeners
    ensures multiset(Trigger(r, throwing).called)[w] <= 1
    ensures w in Trigger(r, throwing).called && Runs(w) !in throwing ==>
              w !in Trigger(Trigger(r, throwing).registry, throwing).called
  {
    var active := Active(r, r.listeners);
    ActiveCount(r, r.listeners, w);
    var fired := Run(r, active, throwing);
    assert fired.called == active[..|fired.called|];
    assert active == fired.called + active[|fired.called|..];
    assert multiset(active) == multiset(fired.called) + multiset(active[|fired.called|..]);
    if w in fired.called && Runs(w) !in throwing {
      RunClosesWrapper(r, active, throwing, w);
    }
  }
}

=== FILE: pane.dfy ===
/** The content of one pane of the split view (src/app/splitpane/pane.class.js):
    a series, a report or a video, where it sits in the grid, whether it is
    selected, and the state of its viewport. Fetching the study, the image
    and the windowing presets goes through promises and is left out. */
module Pane {
  import opened Wrappers
  import opened Text

  /** The windowing of a viewport (`csViewport.voi`). */
  datatype Voi = Voi(windowWidth: real, windowCenter: real, hasModifiedWindowing: bool)

  /** The cornerstone viewport state a pane keeps; rotation in degrees. */
  datatype Viewport = Viewport(rotation: int, vflip: bool, hflip: bool, invert: bool, voi: Voi)

  /** An undefined property is `None`. */
  datatype Pane = Pane(x: int, y: int,
                       seriesId: Option<string>, reportId: Option<string>, videoId: Option<string>,
                       csViewport: Option<Viewport>, imageIndex: Option<int>,
                       isSelected: bool, studyColor: Option<string>)

  /** Reading through an undefined viewport throws a `TypeError`. */
  datatype PaneError = NoViewport

  /** `new Pane(…, x, y, …)`: empty and not selected. */
  function NewPane(x: int, y: int): (p: Pane)
    ensures IsEmpty(p) && IsAtPosition(p, x, y) && !p.isSelected
  {
    Pane(x, y, None, None, None, None, None, false, None)
  }

  /** `isEmpty`: no content id that JavaScript takes as true; an empty
      string counts as no content. */
  predicate IsEmpty(p: Pane)
    ensures IsEmpty(p) <==> (p.seriesId.None? || p.seriesId == Some("")) &&
                            (p.videoId.None? || p.videoId == Some("")) &&
                            (p.reportId.None? || p.reportId == Some(""))
  {
    !Truthy(p.seriesId) && !Truthy(p.videoId) && !Truthy(p.reportId)
  }

  predicate IsAtPosition(p: Pane, x: int, y: int) {
    p.x == x && p.y == y
  }

  /** `applyWindowing`: the given width and center, marked as set by hand. */
  function ApplyWindowing(p: Pane, width: real, center: real): (r: Result<Pane, PaneError>)
    ensures r.Err? <==> p.csViewport.None?
    ensures r.Ok? ==>
              (r.value.csViewport.Some? &&
               r.value.csViewport.value.voi == Voi(width, center, true) &&
               r.value == p.(csViewport := Some(p.csViewport.value.(voi := Voi(width, center, true)))))
  {
    match p.csViewport
    case None => Err(NoViewport)
    case Some(v) => Ok(p.(csViewport := Some(v.(voi := Voi(width, center, true)))))
  }

  /** The viewport changes `f` makes, when there is a viewport. */
  function MapViewport(p: Pane, f: Viewport -> Viewport): (r: Result<Pane, PaneError>)
    ensures r.Err? <==> p.csViewport.None?
    ensures r.Ok? ==> r.value == p.(csViewport := Some(f(p.csViewport.value)))
  {
    match p.csViewport
    case None => Err(NoViewport)
    case Some(v) => Ok(p.(csViewport := Some(f(v))))
  }

  function RotateLeft(p: Pane): (r: Result<Pane, PaneError>)
    ensures r.Err? <==> p.csViewport.None?
    ensures r.Ok? ==> p.csViewport.Some? && r.value.csViewport.Some? &&
                      r.value.csViewport.value.rotation == p.csViewport.value.rotation - 90
  {
    MapViewport(p, (v: Viewport) => v.(rotation := v.rotation - 90))
  }

  function RotateRight(p: Pane): (r: Result<Pane, PaneError>)
    ensures r.Err? <==> p.csViewport.None?
    ensures r.Ok? ==> p.csViewport.Some? && r.value.csViewport.Some? &&
                      r.value.csViewport.value.rotation == p.csViewport.value.rotation + 90
  {
    MapViewport(p, (v: Viewport) => v.(rotation := v.rotation + 90))
  }

  function FlipVertical(p: Pane): (r: Result<Pane, PaneError>)
    ensures r.Err? <==> p.csViewport.None?
    ensures r.Ok? ==> p.csViewport.Some? && r.value.csViewport.Some? &&
                      r.value.csViewport.value.vflip == !p.csViewport.value.vflip
  {
    MapViewport(p, (v: Viewport) => v.(vflip := !v.vflip))
  }

  function FlipHorizontal(p: Pane): (r: Result<Pane, PaneError>)
    ensures r.Err? <==> p.csViewport.None?
    ensures r.Ok? ==> p.csViewport.Some? && r.value.csViewport.Some? &&
                      r.value.csViewport.value.hflip == !p.csViewport.value.hflip
  {
    MapViewport(p, (v: Viewport) => v.(hflip := !v.hflip))
  }

  function InvertColor(p: Pane): (r: Result<Pane, PaneError>)
    ensures r.Err? <==> p.csViewport.None?
    ensures r.Ok? ==> p.csViewport.Some? && r.value.csViewport.Some? &&
                      r.value.csViewport.value.invert == !p.csViewport.value.invert
  {
    MapViewport(p, (v: Viewport) => v.(invert := !v.invert))
  }

  // ---------------------------------------------------------------------
  // Properties

  /** Rotating left then right, or right then left, restores the pane;
      without a viewport both throw. */
  lemma RotateRoundTrip(p: Pane)
    ensures RotateLeft(p).Err? <==> p.csViewport.None?
    ensures RotateRight(p).Err? <==> p.csViewport.None?
    ensures RotateLeft(p).Ok? ==> RotateRight(RotateLeft(p).value) == Ok(p)
    ensures RotateRight(p).Ok? ==> RotateLeft(RotateRight(p).value) == Ok(p)
  {
  }

  /** Four quarter turns to the right make a full turn. */
  lemma FullTurn(p: Pane)
    requires p.csViewport.Some?
    ensures var r1 := RotateRight(p).value;
            var r2 := RotateRight(r1).value;
            var r3 := RotateRight(r2).value;
            var r4 := RotateRight(r3).value;
            r4.csViewport.value.rotation == p.csViewport.value.rotation + 360 &&
            r4.csViewport.value.(rotation := 0) == p.csViewport.value.(rotation := 0)
  {
  }

  /** Both flips and the colour inversion undo themselves and change
      nothing but their own flag. */
  lemma FlipsAreInvolutions(p: Pane)
    requires p.csViewport.Some?
    ensures FlipVertical(FlipVertical(p).value) == Ok(p)
    ensures FlipHorizontal(FlipHorizontal(p).value) == Ok(p)
    ensures InvertColor(InvertColor(p).value) == Ok(p)
    ensures FlipVertical(p).value.csViewport.value.(vflip := p.csViewport.value.vflip) == p.csViewport.value
    ensures FlipHorizontal(p).value.csViewport.value.(hflip := p.csViewport.value.hflip) == p.csViewport.value
    ensures InvertColor(p).value.csViewport.value.(invert := p.csViewport.value.invert) == p.csViewport.value
  {
  }

  /** Windowing twice keeps the second setting, and leaves the pane's
      orientation alone. */
  lemma WindowingLastWins(p: Pane, w1: real, c1: real, w2: real, c2: real)
    requires p.csViewport.Some?
    ensures ApplyWindowing(ApplyWindowing(p, w1, c1).value, w2, c2) == ApplyWindowing(p, w2, c2)
    ensures var v := ApplyWindowing(p, w1, c1).value.csViewport.value;
            v.rotation == p.csViewport.value.rotation && v.vflip == p.csViewport.value.vflip &&
            v.hflip == p.csViewport.value.hflip && v.invert == p.csViewport.value.invert
  {
  }

  /** A pane with any content is not empty, and viewport changes keep the
      content. */
  lemma ContentDecidesEmptiness(p: Pane)
    ensures Truthy(p.seriesId) || Truthy(p.videoId) || Truthy(p.reportId) <==> !IsEmpty(p)
    ensures RotateLeft(p).Ok? ==> (IsEmpty(RotateLeft(p).value) <==> IsEmpty(p))
    ensures ApplyWindowing(p, 0.0, 0.0).Ok? ==> (IsEmpty(ApplyWindowing(p, 0.0, 0.0).value) <==> IsEmpty(p))
  {
  }
}

=== FILE: pane_manager.dfy ===
/** The split view's pane manager (frontend/src/app/splitpane/pane.manager.js):
    a grid layout of `layoutX` columns and `layoutY` rows and the list of
    panes filling it, one of them selected. Changing the layout drops the
    panes outside the new grid, moves their content into new cells and
    makes sure a pane stays selected.

    The list order matters: `getPane` and `getSelectedPane` return the first
    match, and new or moved panes are appended. A `TypeError` the source
    would raise on a null pane, and its own thrown errors, are the
    `failure` of an `Outcome`, with the state as far as it got. The
    selection event and the delayed marking of viewed items are left out. */
module PaneManager {
  import opened Wrappers
  import opened Text
  import opened Pane

  datatype Pos = Pos(x: int, y: int)

  datatype Manager = Manager(layoutX: int, layoutY: int, panes: seq<Pane>)

  datatype ManagerError = NoPaneAtPosition | NoSelectedPane | MultipleContents | ViewportWithoutSeries

  datatype Outcome = Outcome(manager: Manager, failure: Option<ManagerError>)

  /** What `setPane` is given; an undefined property is `None`. */
  datatype Config = Config(seriesId: Option<string>, reportId: Option<string>, videoId: Option<string>,
                           csViewport: Option<Viewport>, imageIndex: Option<int>,
                           studyColor: Option<string>, isSelected: bool)

  function PosOf(p: Pane): Pos { Pos(p.x, p.y) }

  predicate InGrid(c: Pos, columns: int, rows: int) {
    0 <= c.x < columns && 0 <= c.y < rows
  }

  function PosSeq(panes: seq<Pane>): seq<Pos> {
    seq(|panes|, i requires 0 <= i < |panes| => PosOf(panes[i]))
  }

  function SelSeq(panes: seq<Pane>): seq<bool> {
    seq(|panes|, i requires 0 <= i < |panes| => panes[i].isSelected)
  }

  /** The number of panes at each position. */
  function Positions(panes: seq<Pane>): multiset<Pos> {
    multiset(PosSeq(panes))
  }

  /** The number of selected panes. */
  function SelCount(panes: seq<Pane>): nat {
    multiset(SelSeq(panes))[true]
  }

  /** One pane in each cell of the grid and none elsewhere. */
  ghost predicate OnePerCell(panes: seq<Pane>, columns: int, rows: int) {
    forall c: Pos :: Positions(panes)[c] == if InGrid(c, columns, rows) then 1 else 0
  }

  /** The state the manager keeps between calls. */
  ghost predicate WellFormed(m: Manager) {
    m.layoutX >= 1 && m.layoutY >= 1 && OnePerCell(m.panes, m.layoutX, m.layoutY) && SelCount(m.panes) == 1
  }

  /** A one-pane layout, its pane selected. */
  function NewManager(): (m: Manager)
    ensures m.layoutX == 1 && m.layoutY == 1 && |m.panes| == 1 && IsEmpty(m.panes[0])
    ensures WellFormed(m)
  {
    var panes := [NewPane(0, 0).(isSelected := true)];
    assert PosSeq(panes) == [Pos(0, 0)] && SelSeq(panes) == [true];
    Manager(1, 1, panes)
  }

  /** `getPane`: the first pane at the position, null when none is. */
  function GetPane(panes: seq<Pane>, x: int, y: int): (r: Option<nat>)
    ensures r.None? <==> forall i :: 0 <= i < |panes| ==> !IsAtPosition(panes[i], x, y)
    ensures r.Some? ==> r.value < |panes| && IsAtPosition(panes[r.value], x, y) &&
                        forall i :: 0 <= i < r.value ==> !IsAtPosition(panes[i], x, y)
  {
    if |panes| == 0 then None
    else if IsAtPosition(panes[0], x, y) then Some(0)
    else
      match GetPane(panes[1..], x, y)
      case None => None
      case Some(i) => Some(i + 1)
  }

  /** `getSelectedPane`: the first selected pane; with none it throws. */
  function GetSelectedPane(panes: seq<Pane>): (r: Option<nat>)
    ensures r.None? <==> forall i :: 0 <= i < |panes| ==> !panes[i].isSelected
    ensures r.Some? ==> r.value < |panes| && panes[r.value].isSelected &&
                        forall i :: 0 <= i < r.value ==> !panes[i].isSelected
  {
    if |panes| == 0 then None
    else if panes[0].isSelected then Some(0)
    else
      match GetSelectedPane(panes[1..])
      case None => None
      case Some(i) => Some(i + 1)
  }

  function FirstNonEmpty(panes: seq<Pane>): (r: Option<nat>)
    ensures r.None? <==> forall i :: 0 <= i < |panes| ==> IsEmpty(panes[i])
    ensures r.Some? ==> r.value < |panes| && !IsEmpty(panes[r.value]) &&
                        forall i :: 0 <= i < r.value ==> IsEmpty(panes[i])
  {
    if |panes| == 0 then None
    else if !IsEmpty(panes[0]) then Some(0)
    else
      match FirstNonEmpty(panes[1..])
      case None => None
      case Some(i) => Some(i + 1)
  }

  function Select(p: Pane): Pane { p.(isSelected := true) }

  function Unselect(p: Pane): Pane { p.(isSelected := false) }

  // ---------------------------------------------------------------------
  // Selection and navigation

  /** `selectPane`: the selected pane is unset first, then the pane at the
      position is set; a position without a pane throws only then. */
  function SelectPane(m: Manager, x: int, y: int): (o: Outcome)
    ensures o.manager.layoutX == m.layoutX && o.manager.layoutY == m.layoutY
    ensures o.failure == Some(NoSelectedPane) <==> GetSelectedPane(m.panes).None?
    ensures o.failure == Some(NoPaneAtPosition) <==> GetSelectedPane(m.panes).Some? && GetPane(m.panes, x, y).None?
  {
    match GetSelectedPane(m.panes)
    case None => Outcome(m, Some(NoSelectedPane))
    case Some(i) =>
      var cleared := m.panes[i := Unselect(m.panes[i])];
      SamePlaces(m.panes, i, Unselect(m.panes[i]), x, y);
      match GetPane(cleared, x, y)
      case None => Outcome(m.(panes := cleared), Some(NoPaneAtPosition))
      case Some(j) => Outcome(m.(panes := cleared[j := Select(cleared[j])]), None)
  }

  /** Changing a pane but not its place changes no `getPane` answer. */
  lemma SamePlaces(s: seq<Pane>, i: nat, p: Pane, x: int, y: int)
    requires i < |s| && PosOf(p) == PosOf(s[i])
    ensures GetPane(s[i := p], x, y) == GetPane(s, x, y)
  {
    assert forall k :: 0 <= k < |s| ==> (IsAtPosition(s[i := p][k], x, y) <==> IsAtPosition(s[k], x, y));
  }

  /** `getNextPanePosition`: the next cell in reading order, wrapping
      to the first one. */
  function NextPanePosition(m: Manager, p: Pos): (r: Pos)
    ensures m.layoutX >= 1 && m.layoutY >= 1 && InGrid(p, m.layoutX, m.layoutY) ==>
              InGrid(r, m.layoutX, m.layoutY) && (r == p <==> m.layoutX == 1 && m.layoutY == 1)
  {
    var (nx, ny) := if p.x + 1 >= m.layoutX then (0, p.y + 1) else (p.x + 1, p.y);
    Pos(nx, if ny >= m.layoutY then 0 else ny)
  }

  /** `getPreviousPanePosition`: the previous cell in reading order,
      wrapping to the last one. */
  function PreviousPanePosition(m: Manager, p: Pos): (r: Pos)
    ensures m.layoutX >= 1 && m.layoutY >= 1 && InGrid(p, m.layoutX, m.layoutY) ==>
              InGrid(r, m.layoutX, m.layoutY) && NextPanePosition(m, r) == p
  {
    var (nx, ny) := if p.x - 1 < 0 then (m.layoutX - 1, p.y - 1) else (p.x - 1, p.y);
    Pos(nx, if ny < 0 then m.layoutY - 1 else ny)
  }

  /** The place of a cell in reading order. */
  function Rank(m: Manager, p: Pos): int { p.y * m.layoutX + p.x }

  // ---------------------------------------------------------------------
  // setPane

  /** Whether a config names more than one kind of content. */
  predicate SeveralContents(config: Config) {
    (config.seriesId.Some? && config.reportId.Some?) ||
    (config.seriesId.Some? && config.videoId.Some?) ||
    (config.reportId.Some? && config.videoId.Some?)
  }

  /** The pane after `setPane` has written the config into it. */
  function Configured(p: Pane, config: Config): Pane {
    p.(seriesId := config.seriesId, reportId := config.reportId, videoId := config.videoId,
       csViewport := config.csViewport, imageIndex := config.imageIndex, studyColor := config.studyColor)
  }

  /** `setPane`: checks the config, writes it into the pane at the
      position and, when asked, moves the selection to that pane. */
  function SetPane(m: Manager, x: int, y: int, config: Config): (o: Outcome)
    ensures o.failure == Some(MultipleContents) <==> SeveralContents(config)
    ensures o.failure == Some(ViewportWithoutSeries) <==>
              !SeveralContents(config) && !Truthy(config.seriesId) &&
              (config.csViewport.Some? || (config.imageIndex.Some? && config.imageIndex.value != 0))
    ensures o.manager.layoutX == m.layoutX && o.manager.layoutY == m.layoutY
  {
    if SeveralContents(config) then Outcome(m, Some(MultipleContents))
    else if !Truthy(config.seriesId) && (config.csViewport.Some? || (config.imageIndex.Some? && config.imageIndex.value != 0)) then
      Outcome(m, Some(ViewportWithoutSeries))
    else
      match GetPane(m.panes, x, y)
      case None => Outcome(m, Some(NoPaneAtPosition))
      case Some(j) =>
        var written := m.panes[j := Configured(m.panes[j], config)];
        if !config.isSelected then Outcome(m.(panes := written), None)
        else
          match GetSelectedPane(written)
          case None => Outcome(m.(panes := written), Some(NoSelectedPane))
          case Some(i) =>
            var cleared := written[i := Unselect(written[i])];
            Outcome(m.(panes := cleared[j := Select(cleared[j])]), None)
  }

  // ---------------------------------------------------------------------
  // setLayout

  /** The panes while `setLayout` works: the list, the content-holding
      panes taken out of it (a stack), and whether a pane must be
      selected again at the end. */
  datatype Relayout = Relayout(panes: seq<Pane>, removed: seq<Pane>, reselect: bool)

  /** Step 1, from the last pane to the first: panes outside the new grid
      leave the list; those with content are pushed on the stack. */
  function RemoveOutside(panes: seq<Pane>, columns: int, rows: int): (st: Relayout)
    ensures forall i :: 0 <= i < |st.panes| ==> st.panes[i].x < columns && st.panes[i].y < rows
    decreases |panes|
  {
    if |panes| == 0 then Relayout([], [], false)
    else
      var last := panes[|panes| - 1];
      var rest := RemoveOutside(panes[..|panes| - 1], columns, rows);
      if last.x >= columns || last.y >= rows then
        Relayout(rest.panes, (if IsEmpty(last) then [] else [last]) + rest.removed, rest.reselect || last.isSelected)
      else
        Relayout(rest.panes + [last], rest.removed, rest.reselect)
  }

  /** A new pane for the cell: the most recently pushed removed pane moved
      there, or a fresh empty one. Moving the selected pane makes a
      reselection needless. */
  function Place(st: Relayout, x: int, y: int): (r: Relayout)
    ensures |r.panes| == |st.panes| + 1 && r.panes[..|st.panes|] == st.panes
    ensures PosOf(r.panes[|st.panes|]) == Pos(x, y)
  {
    if |st.removed| == 0 then Relayout(st.panes + [NewPane(x, y)], st.removed, st.reselect)
    else
      var moved := st.removed[|st.removed| - 1];
      Relayout(st.panes + [moved.(x := x, y := y)], st.removed[..|st.removed| - 1],
               if moved.isSelected then false else st.reselect)
  }

  /** Step 3 for one cell: a cell of the old grid whose pane has content is
      kept; an empty one is taken out and refilled; a new cell is filled. */
  function Cell(st: Relayout, oldColumns: int, oldRows: int, x: int, y: int): Result<Relayout, ManagerError> {
    if y < oldRows && x < oldColumns then
      match GetPane(st.panes, x, y)
      case None => Err(NoPaneAtPosition)
      case Some(i) =>
        if !IsEmpty(st.panes[i]) then Ok(st)
        else
          var emptied := Relayout(RemoveAt(st.panes, i), st.removed, st.reselect || st.panes[i].isSelected);
          Ok(Place(emptied, x, y))
    else Ok(Place(st, x, y))
  }

  function RemoveAt<T>(s: seq<T>, i: nat): (r: seq<T>)
    requires i < |s|
    ensures |r| == |s| - 1
  {
    s[..i] + s[i + 1..]
  }

  datatype Filled = Filled(state: Relayout, failure: Option<ManagerError>)

  /** Step 3, row by row and column by column from cell (x, y). */
  function Fill(st: Relayout, oldColumns: int, oldRows: int, columns: int, rows: int, x: int, y: int): Filled
    decreases rows - y, columns - x
  {
    if y >= rows then Filled(st, None)
    else if x >= columns then Fill(st, oldColumns, oldRows, columns, rows, 0, y + 1)
    else
      match Cell(st, oldColumns, oldRows, x, y)
      case Err(e) => Filled(st, Some(e))
      case Ok(next) => Fill(next, oldColumns, oldRows, columns, rows, x + 1, y)
  }

  /** Step 4: when the selected pane went away, the first pane with content
      is selected, or else the first pane. */
  function Reselect(panes: seq<Pane>, reselect: bool): (r: seq<Pane>)
    ensures |r| == |panes|
    ensures !reselect ==> r == panes
    ensures reselect && FirstNonEmpty(panes).Some? ==>
              r == panes[FirstNonEmpty(panes).value := Select(panes[FirstNonEmpty(panes).value])]
    ensures reselect && FirstNonEmpty(panes).None? && |panes| > 0 ==> r == panes[0 := Select(panes[0])]
  {
    if !reselect then panes
    else
      match FirstNonEmpty(panes)
      case Some(i) => panes[i := Select(panes[i])]
      case None => if |panes| > 0 then panes[0 := Select(panes[0])] else panes
  }

  /** `setLayout`. */
  function SetLayout(m: Manager, columns: int, rows: int): (o: Outcome)
    ensures o.manager.layoutX == columns && o.manager.layoutY == rows
  {
    var kept := RemoveOutside(m.panes, columns, rows);
    var filled := if columns != m.layoutX || rows != m.layoutY
                  then Fill(kept, m.layoutX, m.layoutY, columns, rows, 0, 0)
                  else Filled(kept, None);
    if filled.failure.Some? then Outcome(Manager(columns, rows, filled.state.panes), filled.failure)
    else Outcome(Manager(columns, rows, Reselect(filled.state.panes, filled.state.reselect)), None)
  }

  // ---------------------------------------------------------------------
  // Counting lemmas

  lemma AppendFacts(s: seq<Pane>, p: Pane)
    ensures Positions(s + [p]) == Positions(s) + multiset{PosOf(p)}
    ensures SelCount(s + [p]) == SelCount(s) + (if p.isSelected then 1 else 0)
  {
    assert PosSeq(s + [p]) == PosSeq(s) + [PosOf(p)];
    assert SelSeq(s + [p]) == SelSeq(s) + [p.isSelected];
  }

  lemma RemoveFacts(s: seq<Pane>, i: nat)
    requires i < |s|
    ensures Positions(RemoveAt(s, i)) == Positions(s) - multiset{PosOf(s[i])}
    ensures SelCount(RemoveAt(s, i)) == SelCount(s) - (if s[i].isSelected then 1 else 0)
  {
    var t := RemoveAt(s, i);
    var ps := PosSeq(s);
    var ss := SelSeq(s);
    assert ps == ps[..i] + [ps[i]] + ps[i + 1..];
    assert ss == ss[..i] + [ss[i]] + ss[i + 1..];
    assert PosSeq(t) == ps[..i] + ps[i + 1..];
    assert SelSeq(t) == ss[..i] + ss[i + 1..];
  }

  lemma UpdateFacts(s: seq<Pane>, i: nat, p: Pane)
    requires i < |s|
    ensures Positions(s[i := p]) == Positions(s) - multiset{PosOf(s[i])} + multiset{PosOf(p)}
    ensures SelCount(s[i := p]) ==
            SelCount(s) - (if s[i].isSelected then 1 else 0) + (if p.isSelected then 1 else 0)
  {
    assert PosSeq(s[i := p]) == PosSeq(s)[i := PosOf(p)];
    assert SelSeq(s[i := p]) == SelSeq(s)[i := p.isSelected];
  }

  /** A position holds a pane exactly when `getPane` finds one there. */
  lemma FindFacts(s: seq<Pane>, c: Pos)
    ensures c in Positions(s) <==> GetPane(s, c.x, c.y).Some?
  {
    var ps := PosSeq(s);
    if GetPane(s, c.x, c.y).Some? {
      assert ps[GetPane(s, c.x, c.y).value] == c;
    }
  }

  /** Some pane is selected exactly when the count is positive. */
  lemma SelectedFacts(s: seq<Pane>)
    ensures SelCount(s) > 0 <==> GetSelectedPane(s).Some?
  {
    var ss := SelSeq(s);
    if GetSelectedPane(s).Some? {
      assert ss[GetSelectedPane(s).value];
    } else {
      assert true !in ss;
    }
  }

  // ---------------------------------------------------------------------
  // setLayout keeps one pane per cell and one selected pane

  /** Cells (x, y) has reached: the rows above and the columns to its left. */
  predicate Before(c: Pos, x: int, y: int) {
    c.y < y || (c.y == y && c.x < x)
  }

  /** The cells holding a pane while step 3 has reached (x, y): those of
      the new grid that were in the old one or are already filled. */
  ghost predicate Expected(panes: seq<Pane>, oldColumns: int, oldRows: int, columns: int, rows: int, x: int, y: int) {
    forall c: Pos :: Positions(panes)[c] ==
      if InGrid(c, columns, rows) && (InGrid(c, oldColumns, oldRows) || Before(c, x, y)) then 1 else 0
  }

  /** The selection while step 3 runs: at most one selected pane in the
      list or on the stack, and a reselection pending exactly when the
      list has none. */
  ghost predicate SelectionKept(st: Relayout) {
    SelCount(st.panes) + SelCount(st.removed) <= 1 && (st.reselect <==> SelCount(st.panes) == 0)
  }

  lemma {:induction false} RemoveOutsideFacts(panes: seq<Pane>, columns: int, rows: int)
    ensures var st := RemoveOutside(panes, columns, rows);
            forall c: Pos :: Positions(st.panes)[c] == if c.x < columns && c.y < rows then Positions(panes)[c] else 0
    ensures var st := RemoveOutside(panes, columns, rows);
            SelCount(st.panes) + SelCount(st.removed) <= SelCount(panes) &&
            (st.reselect ==> SelCount(st.panes) < SelCount(panes)) &&
            (!st.reselect ==> SelCount(st.panes) == SelCount(panes))
    decreases |panes|
  {
    var st := RemoveOutside(panes, columns, rows);
    if |panes| > 0 {
      var init := panes[..|panes| - 1];
      var last := panes[|panes| - 1];
      var rest := RemoveOutside(init, columns, rows);
      RemoveOutsideFacts(init, columns, rows);
      assert panes == init + [last];
      AppendFacts(init, last);
      if last.x >= columns || last.y >= rows {
        var pushed: seq<Pane> := if IsEmpty(last) then [] else [last];
        assert SelCount(pushed + rest.removed) <= SelCount(rest.removed) + (if last.isSelected then 1 else 0) by {
          if !IsEmpty(last) {
            SelCountCons(last, rest.removed);
          } else {
            assert pushed + rest.removed == rest.removed;
          }
        }
      } else {
        AppendFacts(rest.panes, last);
      }
    }
  }

  lemma SelCountCons(p: Pane, s: seq<Pane>)
    ensures SelCount([p] + s) == SelCount(s) + (if p.isSelected then 1 else 0)
  {
    assert SelSeq([p] + s) == [p.isSelected] + SelSeq(s);
  }

  /** Placing a pane adds one pane at the cell and keeps the selection
      bookkeeping. */
  lemma PlaceFacts(st: Relayout, x: int, y: int)
    requires SelectionKept(st)
    ensures Positions(Place(st, x, y).panes) == Positions(st.panes) + multiset{Pos(x, y)}
    ensures SelectionKept(Place(st, x, y))
  {
    var r := Place(st, x, y);
    if |st.removed| == 0 {
      AppendFacts(st.panes, NewPane(x, y));
    } else {
      var moved := st.removed[|st.removed| - 1];
      var rest := st.removed[..|st.removed| - 1];
      AppendFacts(st.panes, moved.(x := x, y := y));
      assert st.removed == rest + [moved];
      AppendFacts(rest, moved);
    }
  }

  /** One cell of step 3 never fails inside the expected grid, and moves
      the expectation one cell on. */
  lemma CellFacts(st: Relayout, oldColumns: int, oldRows: int, columns: int, rows: int, x: int, y: int)
    requires 0 <= x < columns && 0 <= y < rows
    requires Expected(st.panes, oldColumns, oldRows, columns, rows, x, y) && SelectionKept(st)
    ensures Cell(st, oldColumns, oldRows, x, y).Ok?
    ensures var next := Cell(st, oldColumns, oldRows, x, y).value;
            Expected(next.panes, oldColumns, oldRows, columns, rows, x + 1, y) && SelectionKept(next)
  {
    var here := Pos(x, y);
    var before := Positions(st.panes);
    if y < oldRows && x < oldColumns {
      assert before[here] == 1;
      FindFacts(st.panes, here);
      var i := GetPane(st.panes, x, y).value;
      var next := Cell(st, oldColumns, oldRows, x, y).value;
      if IsEmpty(st.panes[i]) {
        var emptied := Relayout(RemoveAt(st.panes, i), st.removed, st.reselect || st.panes[i].isSelected);
        RemoveFacts(st.panes, i);
        PlaceFacts(emptied, x, y);
        assert next == Place(emptied, x, y);
      }
      assert Positions(next.panes) == before;
      ExpectedKept(st.panes, next.panes, oldColumns, oldRows, columns, rows, x, y);
    } else {
      assert before[here] == 0;
      PlaceFacts(st, x, y);
      ExpectedAdded(st.panes, Place(st, x, y).panes, oldColumns, oldRows, columns, rows, x, y);
    }
  }

  /** A cell of the old grid keeps its pane count. */
  lemma ExpectedKept(p1: seq<Pane>, p2: seq<Pane>, oldColumns: int, oldRows: int, columns: int, rows: int, x: int, y: int)
    requires 0 <= x < columns && 0 <= y < rows && x < oldColumns && y < oldRows
    requires Positions(p2) == Positions(p1)
    requires Expected(p1, oldColumns, oldRows, columns, rows, x, y)
    ensures Expected(p2, oldColumns, oldRows, columns, rows, x + 1, y)
  {
    forall c: Pos ensures Positions(p2)[c] ==
      if InGrid(c, columns, rows) && (InGrid(c, oldColumns, oldRows) || Before(c, x + 1, y)) then 1 else 0
    {
      if c != Pos(x, y) {
        assert Before(c, x + 1, y) <==> Before(c, x, y);
      }
    }
  }

  /** A new cell gains its first pane. */
  lemma ExpectedAdded(p1: seq<Pane>, p2: seq<Pane>, oldColumns: int, oldRows: int, columns: int, rows: int, x: int, y: int)
    requires 0 <= x < columns && 0 <= y < rows && !(x < oldColumns && y < oldRows)
    requires Positions(p2) == Positions(p1) + multiset{Pos(x, y)}
    requires Expected(p1, oldColumns, oldRows, columns, rows, x, y)
    ensures Expected(p2, oldColumns, oldRows, columns, rows, x + 1, y)
  {
    forall c: Pos ensures Positions(p2)[c] ==
      if InGrid(c, columns, rows) && (InGrid(c, oldColumns, oldRows) || Before(c, x + 1, y)) then 1 else 0
    {
      if c != Pos(x, y) {
        assert Before(c, x + 1, y) <==> Before(c, x, y);
      }
    }
  }

  /** Step 3 ran to the end without failing, left one pane per cell of
      the new grid and kept the selection bookkeeping. */
  ghost predicate FilledWell(f: Filled, columns: int, rows: int) {
    f.failure.None? && OnePerCell(f.state.panes, columns, rows) && SelectionKept(f.state)
  }

  lemma {:induction false} FillFacts(st: Relayout, oldColumns: int, oldRows: int, columns: int, rows: int, x: int, y: int)
    requires 0 <= x <= columns && 0 <= y <= rows
    requires Expected(st.panes, oldColumns, oldRows, columns, rows, x, y) && SelectionKept(st)
    ensures FilledWell(Fill(st, oldColumns, oldRows, columns, rows, x, y), columns, rows)
    decreases rows - y, columns - x, 1
  {
    if y >= rows {
      ExpectedDone(st.panes, oldColumns, oldRows, columns, rows, x, y);
      FillDone(st, oldColumns, oldRows, columns, rows, x, y);
    } else if x >= columns {
      FillRowEnd(st, oldColumns, oldRows, columns, rows, x, y);
    } else {
      FillAtCell(st, oldColumns, oldRows, columns, rows, x, y);
    }
  }

  /** Step 3 past the end of a row. */
  lemma {:induction false} FillRowEnd(st: Relayout, oldColumns: int, oldRows: int, columns: int, rows: int, x: int, y: int)
    requires 0 <= columns <= x && 0 <= y < rows
    requires Expected(st.panes, oldColumns, oldRows, columns, rows, x, y) && SelectionKept(st)
    ensures FilledWell(Fill(st, oldColumns, oldRows, columns, rows, x, y), columns, rows)
    decreases rows - y, columns - x, 0
  {
    ExpectedNextRow(st.panes, oldColumns, oldRows, columns, rows, x, y);
    FillFacts(st, oldColumns, oldRows, columns, rows, 0, y + 1);
    FillNextRow(st, oldColumns, oldRows, columns, rows, x, y);
  }

  /** Step 3 at a cell of the new grid. */
  lemma {:induction false} FillAtCell(st: Relayout, oldColumns: int, oldRows: int, columns: int, rows: int, x: int, y: int)
    requires 0 <= x < columns && 0 <= y < rows
    requires Expected(st.panes, oldColumns, oldRows, columns, rows, x, y) && SelectionKept(st)
    ensures FilledWell(Fill(st, oldColumns, oldRows, columns, rows, x, y), columns, rows)
    decreases rows - y, columns - x, 0
  {
    FillCell(st, oldColumns, oldRows, columns, rows, x, y);
    FillFacts(Cell(st, oldColumns, oldRows, x, y).value, oldColumns, oldRows, columns, rows, x + 1, y);
  }

  /** Step 3 at a cell of the new grid succeeds and goes on from the state
      that cell leaves. */
  lemma FillCell(st: Relayout, oldColumns: int, oldRows: int, columns: int, rows: int, x: int, y: int)
    requires 0 <= x < columns && 0 <= y < rows
    requires Expected(st.panes, oldColumns, oldRows, columns, rows, x, y) && SelectionKept(st)
    ensures Cell(st, oldColumns, oldRows, x, y).Ok?
    ensures var next := Cell(st, oldColumns, oldRows, x, y).value;
            Expected(next.panes, oldColumns, oldRows, columns, rows, x + 1, y) && SelectionKept(next) &&
            Fill(st, oldColumns, oldRows, columns, rows, x, y) == Fill(next, oldColumns, oldRows, columns, rows, x + 1, y)
  {
    CellFacts(st, oldColumns, oldRows, columns, rows, x, y);
    FillStep(st, Cell(st, oldColumns, oldRows, x, y).value, oldColumns, oldRows, columns, rows, x, y);
  }

  /** Past the last row step 3 is over. */
  lemma FillDone(st: Relayout, oldColumns: int, oldRows: int, columns: int, rows: int, x: int, y: int)
    requires y >= rows
    ensures Fill(st, oldColumns, oldRows, columns, rows, x, y) == Filled(st, None)
  {
  }

  /** Past the last column step 3 goes on with the next row. */
  lemma FillNextRow(st: Relayout, oldColumns: int, oldRows: int, columns: int, rows: int, x: int, y: int)
    requires y < rows && x >= columns
    ensures Fill(st, oldColumns, oldRows, columns, rows, x, y) == Fill(st, oldColumns, oldRows, columns, rows, 0, y + 1)
  {
  }

  /** A cell that succeeds hands its state on to the next one. */
  lemma FillStep(st: Relayout, next: Relayout, oldColumns: int, oldRows: int, columns: int, rows: int, x: int, y: int)
    requires x < columns && y < rows && Cell(st, oldColumns, oldRows, x, y) == Ok(next)
    ensures Fill(st, oldColumns, oldRows, columns, rows, x, y) == Fill(next, oldColumns, oldRows, columns, rows, x + 1, y)
  {
  }

  /** Past the last row every cell of the grid is filled. */
  lemma ExpectedDone(panes: seq<Pane>, oldColumns: int, oldRows: int, columns: int, rows: int, x: int, y: int)
    requires y >= rows
    requires Expected(panes, oldColumns, oldRows, columns, rows, x, y)
    ensures OnePerCell(panes, columns, rows)
  {
    forall c: Pos ensures Positions(panes)[c] == if InGrid(c, columns, rows) then 1 else 0 {
      assert InGrid(c, columns, rows) ==> Before(c, x, y);
    }
  }

  /** Past the last column the next row starts. */
  lemma ExpectedNextRow(panes: seq<Pane>, oldColumns: int, oldRows: int, columns: int, rows: int, x: int, y: int)
    requires x >= columns
    requires Expected(panes, oldColumns, oldRows, columns, rows, x, y)
    ensures Expected(panes, oldColumns, oldRows, columns, rows, 0, y + 1)
  {
    forall c: Pos ensures Positions(panes)[c] ==
      if InGrid(c, columns, rows) && (InGrid(c, oldColumns, oldRows) || Before(c, 0, y + 1)) then 1 else 0
    {
      assert InGrid(c, columns, rows) ==> (Before(c, x, y) <==> Before(c, 0, y + 1));
    }
  }

  /** After a pending reselection exactly one pane is selected. */
  lemma ReselectFacts(panes: seq<Pane>, reselect: bool)
    requires |panes| > 0
    requires reselect <==> SelCount(panes) == 0
    requires SelCount(panes) <= 1
    ensures SelCount(Reselect(panes, reselect)) == 1
    ensures Positions(Reselect(panes, reselect)) == Positions(panes)
  {
    if reselect {
      var i := if FirstNonEmpty(panes).Some? then FirstNonEmpty(panes).value else 0;
      SelectedFacts(panes);
      UpdateFacts(panes, i, Select(panes[i]));
    }
  }

  /** From a well-formed state, `setLayout` to any grid of at least one
      cell succeeds, leaves exactly one pane in each cell and none outside,
      and exactly one pane selected. */
  lemma SetLayoutWellFormed(m: Manager, columns: int, rows: int)
    requires WellFormed(m) && columns >= 1 && rows >= 1
    ensures SetLayout(m, columns, rows).failure.None?
    ensures WellFormed(SetLayout(m, columns, rows).manager)
  {
    var kept := RemoveOutside(m.panes, columns, rows);
    var filled := if columns != m.layoutX || rows != m.layoutY
                  then Fill(kept, m.layoutX, m.layoutY, columns, rows, 0, 0)
                  else Filled(kept, None);
    RelayoutWell(m, columns, rows);
    ReselectWell(filled.state.panes, filled.state.reselect, columns, rows);
  }

  /** Steps 2 and 3 of `setLayout` leave one pane per cell and the
      selection bookkeeping intact. */
  lemma RelayoutWell(m: Manager, columns: int, rows: int)
    requires WellFormed(m) && columns >= 1 && rows >= 1
    ensures var kept := RemoveOutside(m.panes, columns, rows);
            FilledWell(if columns != m.layoutX || rows != m.layoutY
                       then Fill(kept, m.layoutX, m.layoutY, columns, rows, 0, 0)
                       else Filled(kept, None), columns, rows)
  {
    var kept := RemoveOutside(m.panes, columns, rows);
    KeptFacts(m, columns, rows);
    if columns != m.layoutX || rows != m.layoutY {
      FillFacts(kept, m.layoutX, m.layoutY, columns, rows, 0, 0);
    }
  }

  /** Step 2 keeps the old panes inside the new grid: the expected
      starting point of step 3, and the final grid when the size stays. */
  lemma KeptFacts(m: Manager, columns: int, rows: int)
    requires WellFormed(m) && columns >= 1 && rows >= 1
    ensures var kept := RemoveOutside(m.panes, columns, rows);
            SelectionKept(kept) && Expected(kept.panes, m.layoutX, m.layoutY, columns, rows, 0, 0) &&
            (columns == m.layoutX && rows == m.layoutY ==> OnePerCell(kept.panes, columns, rows))
  {
    RemoveOutsideFacts(m.panes, columns, rows);
  }

  /** Step 4 on a filled grid leaves a well-formed state. */
  lemma ReselectWell(panes: seq<Pane>, reselect: bool, columns: int, rows: int)
    requires columns >= 1 && rows >= 1 && OnePerCell(panes, columns, rows)
    requires SelCount(panes) <= 1 && (reselect <==> SelCount(panes) == 0)
    ensures WellFormed(Manager(columns, rows, Reselect(panes, reselect)))
  {
    assert Pos(0, 0) in Positions(panes);
    ReselectFacts(panes, reselect);
    SamePositions(panes, Reselect(panes, reselect), columns, rows);
  }

  /** A layout that keeps its size and a well-formed state changes
      nothing. */
  lemma SameLayoutKeepsPanes(m: Manager)
    requires WellFormed(m)
    ensures SetLayout(m, m.layoutX, m.layoutY) == Outcome(m, None)
  {
    forall i | 0 <= i < |m.panes| ensures m.panes[i].x < m.layoutX && m.panes[i].y < m.layoutY {
      InsideGrid(m, i);
    }
    RemoveOutsideKeepsInside(m.panes, m.layoutX, m.layoutY);
  }

  /** Panes all inside the grid are all kept. */
  lemma {:induction false} RemoveOutsideKeepsInside(panes: seq<Pane>, columns: int, rows: int)
    requires forall i :: 0 <= i < |panes| ==> panes[i].x < columns && panes[i].y < rows
    ensures RemoveOutside(panes, columns, rows) == Relayout(panes, [], false)
    decreases |panes|
  {
    if |panes| > 0 {
      RemoveOutsideKeepsInside(panes[..|panes| - 1], columns, rows);
      assert panes == panes[..|panes| - 1] + [panes[|panes| - 1]];
    }
  }

  /** A pane of a well-formed state lies inside the grid. */
  lemma InsideGrid(m: Manager, i: nat)
    requires WellFormed(m) && i < |m.panes|
    ensures InGrid(PosOf(m.panes[i]), m.layoutX, m.layoutY)
  {
    var ps := PosSeq(m.panes);
    assert ps[i] in multiset(ps);
    assert Positions(m.panes)[ps[i]] > 0;
  }

  // ---------------------------------------------------------------------
  // Selection and setPane properties

  /** In a well-formed state, selecting a cell of the grid selects the
      pane there and unselects the one before, keeping the state
      well-formed; a position outside the grid throws after the old
      selection has been cleared, leaving none selected. */
  lemma SelectPaneFacts(m: Manager, x: int, y: int)
    requires WellFormed(m)
    ensures InGrid(Pos(x, y), m.layoutX, m.layoutY) ==>
              var o := SelectPane(m, x, y);
              o.failure.None? && WellFormed(o.manager) &&
              GetSelectedPane(o.manager.panes) == GetPane(m.panes, x, y)
    ensures !InGrid(Pos(x, y), m.layoutX, m.layoutY) ==>
              var o := SelectPane(m, x, y);
              o.failure == Some(NoPaneAtPosition) && SelCount(o.manager.panes) == 0
  {
    SelectedFacts(m.panes);
    FindFacts(m.panes, Pos(x, y));
    var i := GetSelectedPane(m.panes).value;
    var cleared := m.panes[i := Unselect(m.panes[i])];
    UnselectKeeps(m.panes, i);
    SamePlaces(m.panes, i, Unselect(m.panes[i]), x, y);
    if InGrid(Pos(x, y), m.layoutX, m.layoutY) {
      var j := GetPane(cleared, x, y).value;
      SelectOnly(cleared, j);
      SamePositions(m.panes, cleared[j := Select(cleared[j])], m.layoutX, m.layoutY);
    }
  }

  /** Clearing the selected flag of a pane keeps every place and
      removes one selection. */
  lemma UnselectKeeps(s: seq<Pane>, i: nat)
    requires i < |s| && s[i].isSelected
    ensures Positions(s[i := Unselect(s[i])]) == Positions(s)
    ensures SelCount(s[i := Unselect(s[i])]) == SelCount(s) - 1
  {
    UpdateFacts(s, i, Unselect(s[i]));
    assert PosOf(s[i]) in Positions(s) by {
      assert PosSeq(s)[i] == PosOf(s[i]);
    }
  }

  /** Selecting a pane where none is selected makes it the selected one,
      keeping every place. */
  lemma SelectOnly(s: seq<Pane>, j: nat)
    requires j < |s| && SelCount(s) == 0
    ensures Positions(s[j := Select(s[j])]) == Positions(s)
    ensures SelCount(s[j := Select(s[j])]) == 1
    ensures GetSelectedPane(s[j := Select(s[j])]) == Some(j)
  {
    UpdateFacts(s, j, Select(s[j]));
    assert PosOf(s[j]) in Positions(s) by {
      assert PosSeq(s)[j] == PosOf(s[j]);
    }
    assert !s[j].isSelected by {
      SelectedFacts(s);
    }
    OnlySelected(s[j := Select(s[j])], j);
  }

  /** The same places make the same grid. */
  lemma SamePositions(s: seq<Pane>, t: seq<Pane>, columns: int, rows: int)
    requires Positions(t) == Positions(s) && OnePerCell(s, columns, rows)
    ensures OnePerCell(t, columns, rows)
  {
  }

  /** With exactly one pane selected, it is the one found. */
  lemma OnlySelected(s: seq<Pane>, j: nat)
    requires j < |s| && s[j].isSelected && SelCount(s) == 1
    ensures GetSelectedPane(s) == Some(j)
  {
    var i := GetSelectedPane(s).value;
    if i < j {
      TwoSelected(s, i, j);
    }
  }

  /** Two selected panes count twice. */
  lemma TwoSelected(s: seq<Pane>, a: nat, b: nat)
    requires a < b < |s| && s[a].isSelected && s[b].isSelected
    ensures SelCount(s) >= 2
  {
    var ss := SelSeq(s);
    assert ss == ss[..a] + [ss[a]] + ss[a + 1..b] + [ss[b]] + ss[b + 1..];
  }

  /** `next` and `previous` stay in the grid and undo each other. */
  lemma NextPreviousInverse(m: Manager, p: Pos)
    requires m.layoutX >= 1 && m.layoutY >= 1 && InGrid(p, m.layoutX, m.layoutY)
    ensures InGrid(NextPanePosition(m, p), m.layoutX, m.layoutY)
    ensures InGrid(PreviousPanePosition(m, p), m.layoutX, m.layoutY)
    ensures PreviousPanePosition(m, NextPanePosition(m, p)) == p
    ensures NextPanePosition(m, PreviousPanePosition(m, p)) == p
  {
  }

  /** `next` is the following cell in reading order, the last cell wrapping
      to the first. */
  lemma NextIsReadingOrder(m: Manager, p: Pos)
    requires m.layoutX >= 1 && m.layoutY >= 1 && InGrid(p, m.layoutX, m.layoutY)
    ensures Rank(m, p) < m.layoutX * m.layoutY - 1 ==> Rank(m, NextPanePosition(m, p)) == Rank(m, p) + 1
    ensures Rank(m, p) == m.layoutX * m.layoutY - 1 ==> NextPanePosition(m, p) == Pos(0, 0)
  {
    var columns, rows := m.layoutX, m.layoutY;
    if p.x + 1 < columns {
      assert NextPanePosition(m, p) == Pos(p.x + 1, p.y);
      MulMono(p.y, rows - 1, columns);
      assert (rows - 1) * columns == rows * columns - columns;
    } else if p.y + 1 < rows {
      assert NextPanePosition(m, p) == Pos(0, p.y + 1);
      assert (p.y + 1) * columns == p.y * columns + columns;
    } else {
      assert p.y == rows - 1 && p.x == columns - 1;
      assert (rows - 1) * columns == rows * columns - columns;
    }
  }

  lemma MulMono(a: int, b: int, c: nat)
    requires a <= b
    ensures a * c <= b * c
  {
    assert b * c - a * c == (b - a) * c;
  }

  /** `setPane` on a cell of a well-formed state writes exactly the config's
      content into that pane, keeps the state well-formed, and selects the
      pane when asked to (leaving the selection alone otherwise). */
  lemma SetPaneFacts(m: Manager, x: int, y: int, config: Config)
    requires WellFormed(m) && InGrid(Pos(x, y), m.layoutX, m.layoutY)
    requires SetPane(m, x, y, config).failure.None?
    ensures var o := SetPane(m, x, y, config);
            var j := GetPane(m.panes, x, y).value;
            WellFormed(o.manager) && GetPane(o.manager.panes, x, y) == Some(j) &&
            o.manager.panes[j].seriesId == config.seriesId &&
            o.manager.panes[j].reportId == config.reportId &&
            o.manager.panes[j].videoId == config.videoId &&
            o.manager.panes[j].csViewport == config.csViewport &&
            (IsEmpty(o.manager.panes[j]) <==>
               !Truthy(config.seriesId) && !Truthy(config.videoId) && !Truthy(config.reportId)) &&
            (config.isSelected ==> GetSelectedPane(o.manager.panes) == Some(j)) &&
            (!config.isSelected ==> GetSelectedPane(o.manager.panes) == GetSelectedPane(m.panes))
  {
    FindFacts(m.panes, Pos(x, y));
    var j := GetPane(m.panes, x, y).value;
    var written := m.panes[j := Configured(m.panes[j], config)];
    ConfiguredKeeps(m.panes, j, config);
    SamePlaces(m.panes, j, Configured(m.panes[j], config), x, y);
    SamePositions(m.panes, written, m.layoutX, m.layoutY);
    if config.isSelected {
      SelectedFacts(written);
      var i := GetSelectedPane(written).value;
      var cleared := written[i := Unselect(written[i])];
      UnselectKeeps(written, i);
      SamePlaces(written, i, Unselect(written[i]), x, y);
      SelectOnly(cleared, j);
      SamePlaces(cleared, j, Select(cleared[j]), x, y);
      SamePositions(m.panes, cleared[j := Select(cleared[j])], m.layoutX, m.layoutY);
    }
  }

  /** Writing a config into a pane keeps every place and the selection. */
  lemma ConfiguredKeeps(s: seq<Pane>, j: nat, config: Config)
    requires j < |s|
    ensures Positions(s[j := Configured(s[j], config)]) == Positions(s)
    ensures SelCount(s[j := Configured(s[j], config)]) == SelCount(s)
    ensures GetSelectedPane(s[j := Configured(s[j], config)]) == GetSelectedPane(s)
  {
    var t := s[j := Configured(s[j], config)];
    UpdateFacts(s, j, Configured(s[j], config));
    assert PosOf(s[j]) in Positions(s) by {
      assert PosSeq(s)[j] == PosOf(s[j]);
    }
    assert forall k :: 0 <= k < |s| ==> t[k].isSelected == s[k].isSelected;
    SameSelection(s, t);
  }

  /** Panes selected at the same indices give the same selected pane. */
  lemma SameSelection(s: seq<Pane>, t: seq<Pane>)
    requires |t| == |s| && forall k :: 0 <= k < |s| ==> t[k].isSelected == s[k].isSelected
    ensures GetSelectedPane(t) == GetSelectedPane(s)
  {
  }
}

=== FILE: prefetch.dfy ===
/** The prefetch policy of the short-term cache
    (backend/WebViewerLibrary/ShortTermCache/ViewerPrefetchPolicy.cpp): once
    a series' information or a decoded image is accessed, which decoded
    images to schedule next. The Orthanc REST lookups, the series repository
    and the cache are parameters; JSON texts arrive already parsed (None
    when they do not parse). */
module Prefetch {
  import opened Wrappers
  import opened Text
  import opened Toolbox
  import opened Quality
  import opened Series
  import opened ImageRoute

  const PREFETCH_FORWARD: nat := 10
  const PREFETCH_BACKWARD: nat := 3

  datatype CacheBundle = SeriesInformation | DecodedImage | OtherBundle

  datatype CacheIndex = CacheIndex(bundle: CacheBundle, item: string)

  /** Why a prefetch throws instead of returning a list: a JSON value of the
      wrong type, a URL that does not parse, or an unknown policy. */
  datatype PrefetchError =
    | JsonFailure(e: JsonError)
    | NotAnObject
    | UnmatchedPath
    | RouteFailure(r: RouteError)

  /** The cache entry of a slice at a quality: `<instance>/<frame>/<route>`. */
  function ImageItem(slice: string, q: ImageQuality): CacheIndex {
    CacheIndex(DecodedImage, slice + "/" + ToProcessingPolicyString(q))
  }

  // ---------------------------------------------------------------------
  // The prefetch order: for each quality in turn, every slice of the window

  function Row(slices: seq<string>, q: ImageQuality): (r: seq<CacheIndex>)
    ensures |r| == |slices| && forall i :: 0 <= i < |slices| ==> r[i] == ImageItem(slices[i], q)
  {
    seq(|slices|, i requires 0 <= i < |slices| => ImageItem(slices[i], q))
  }

  /** The reference order: all slices at the first quality, then all at the
      second, and so on. */
  function Prefetched(slices: seq<string>, qualities: seq<ImageQuality>): seq<CacheIndex>
    decreases |qualities|
  {
    if |qualities| == 0 then []
    else Prefetched(slices, qualities[..|qualities| - 1]) + Row(slices, qualities[|qualities| - 1])
  }

  lemma {:induction false} PrefetchedLength(slices: seq<string>, qualities: seq<ImageQuality>)
    ensures |Prefetched(slices, qualities)| == |qualities| * |slices|
    decreases |qualities|
  {
    if |qualities| > 0 {
      var m := |qualities| - 1;
      PrefetchedLength(slices, qualities[..m]);
      assert (m + 1) * |slices| == m * |slices| + |slices|;
    }
  }

  lemma RowOffset(k: nat, m: nat, n: nat, j: nat)
    requires k < m && j < n
    ensures k * n + j < m * n
  {
    assert m * n == (k + 1) * n + (m - k - 1) * n;
    assert (m - k - 1) * n >= 0;
  }

  /** The `j`-th slice at the `k`-th quality sits at position `k * w + j`,
      `w` being the window's width. */
  lemma {:induction false} PrefetchedAt(slices: seq<string>, qualities: seq<ImageQuality>, k: nat, j: nat)
    requires k < |qualities| && j < |slices|
    ensures k * |slices| + j < |Prefetched(slices, qualities)|
    ensures Prefetched(slices, qualities)[k * |slices| + j] == ImageItem(slices[j], qualities[k])
    decreases |qualities|
  {
    var n := |slices|;
    var m := |qualities| - 1;
    var init := qualities[..m];
    PrefetchedLength(slices, init);
    PrefetchedLength(slices, qualities);
    if k < m {
      PrefetchedAt(slices, init, k, j);
      RowOffset(k, m, n, j);
    } else {
      assert k * n + j == |Prefetched(slices, init)| + j;
    }
  }

  /** Every slice of the window is scheduled at every quality. */
  lemma PrefetchedCovers(slices: seq<string>, qualities: seq<ImageQuality>, slice: string, q: ImageQuality)
    requires slice in slices && q in qualities
    ensures ImageItem(slice, q) in Prefetched(slices, qualities)
  {
    var j :| 0 <= j < |slices| && slices[j] == slice;
    var k :| 0 <= k < |qualities| && qualities[k] == q;
    PrefetchedAt(slices, qualities, k, j);
  }

  /** The nested loops of `PrefetchSeries`. */
  method Expand(slices: seq<string>, qualities: seq<ImageQuality>) returns (items: seq<CacheIndex>)
    ensures items == Prefetched(slices, qualities)
  {
    items := [];
    var k := 0;
    while k < |qualities|
      invariant 0 <= k <= |qualities|
      invariant items == Prefetched(slices, qualities[..k])
    {
      var row := ExpandRow(slices, qualities[k]);
      PrefetchedStep(slices, qualities, k);
      items := items + row;
      k := k + 1;
    }
    assert qualities[..k] == qualities;
  }

  /** The inner loop: every slice at one quality. */
  method ExpandRow(slices: seq<string>, q: ImageQuality) returns (row: seq<CacheIndex>)
    ensures row == Row(slices, q)
  {
    row := [];
    var j := 0;
    while j < |slices|
      invariant 0 <= j <= |slices|
      invariant |row| == j && forall i :: 0 <= i < j ==> row[i] == ImageItem(slices[i], q)
    {
      row := row + [ImageItem(slices[j], q)];
      j := j + 1;
    }
  }

  lemma PrefetchedStep(slices: seq<string>, qualities: seq<ImageQuality>, k: nat)
    requires k < |qualities|
    ensures Prefetched(slices, qualities[..k + 1]) == Prefetched(slices, qualities[..k]) + Row(slices, qualities[k])
  {
    assert qualities[..k + 1][..k] == qualities[..k];
  }

  // ---------------------------------------------------------------------
  // PrefetchSeries

  /** The parts of the series JSON the policy reads. */
  datatype SeriesJson = SeriesJson(id: Json, slices: seq<Json>)

  /** Parsing and the `Slices` checks: Ok(None) where `PrefetchSeries`
      returns early; `isMember` on a value that is neither an object nor
      null throws. */
  function ReadSeries(content: Option<Json>): (r: Result<Option<SeriesJson>, PrefetchError>)
    ensures r.Err? <==> content.Some? && !content.value.JObject? && !content.value.JNull?
    ensures r.Ok? && r.value.Some? <==>
              content.Some? && content.value.JObject? && "Slices" in content.value.members &&
              content.value.members["Slices"].JArray?
    ensures r.Ok? && r.value.Some? ==>
              r.value.value.slices == content.value.members["Slices"].items &&
              r.value.value.id == Get(content.value.members, "ID")
  {
    match content
    case None => Ok(None)
    case Some(JNull) => Ok(None)
    case Some(JObject(members)) =>
      if "Slices" !in members then Ok(None)
      else
        (match members["Slices"]
         case JArray(items) => Ok(Some(SeriesJson(Get(members, "ID"), items)))
         case _ => Ok(None))
    case Some(_) => Err(NotAnObject)
  }

  /** The slices with `startIndex <= i < min(size, endIndex)`. */
  function Window<T>(slices: seq<T>, startIndex: nat, endIndex: nat): (w: seq<T>)
    ensures startIndex >= |slices| || startIndex >= endIndex ==> w == []
    ensures forall i :: 0 <= i < |w| ==> startIndex + i < |slices| && startIndex + i < endIndex &&
                                         w[i] == slices[startIndex + i]
    ensures forall i :: startIndex <= i < |slices| && i < endIndex ==>
              i - startIndex < |w| && slices[i] == w[i - startIndex]
  {
    var stop := if endIndex < |slices| then endIndex else |slices|;
    if startIndex < stop then slices[startIndex..stop] else []
  }

  /** `asString` on every slice of the window, failing at the first one that
      is not convertible. */
  function SliceNames(slices: seq<Json>): (r: Result<seq<string>, PrefetchError>)
    ensures r.Ok? <==> forall i :: 0 <= i < |slices| ==> AsString(slices[i]).Ok?
    ensures r.Ok? ==> |r.value| == |slices| &&
                      forall i :: 0 <= i < |slices| ==> AsString(slices[i]) == Ok(r.value[i])
  {
    if |slices| == 0 then Ok([])
    else
      match AsString(slices[0])
      case Err(e) => Err(JsonFailure(e))
      case Ok(name) =>
        match SliceNames(slices[1..])
        case Err(e) =>
          assert forall i :: 1 <= i < |slices| ==> slices[1..][i - 1] == slices[i];
          Err(e)
        case Ok(names) => Ok([name] + names)
  }

  /** The qualities of the series with the JSON's `ID`, lowest first. */
  function SeriesQualities(id: Json, qualitiesOf: string -> set<ImageQuality>): (r: Result<seq<ImageQuality>, PrefetchError>)
    ensures r.Ok? <==> AsString(id).Ok?
    ensures r.Ok? ==> forall q :: q in r.value <==> q in qualitiesOf(AsString(id).value) && q != NONE
  {
    match AsString(id)
    case Err(e) => Err(JsonFailure(e))
    case Ok(seriesId) =>
      OrderedImageQualitiesDefault(qualitiesOf(seriesId));
      Ok(OrderedImageQualities(qualitiesOf(seriesId), NONE))
  }

  /** Every slice of the window is scheduled at every quality, other than
      NONE, of the series named by the JSON's `ID`. */
  predicate SchedulesWindow(items: seq<CacheIndex>, series: SeriesJson, startIndex: nat, endIndex: nat,
                            qualitiesOf: string -> set<ImageQuality>)
  {
    AsString(series.id).Ok? &&
    forall i, q :: startIndex <= i < |series.slices| && i < endIndex &&
                   q in qualitiesOf(AsString(series.id).value) && q != NONE ==>
      AsString(series.slices[i]).Ok? &&
      ImageItem(AsString(series.slices[i]).value, q) in items
  }

  /** The list `PrefetchSeries` gives for a series whose information was
      read: nothing when the series has no quality, otherwise the window's
      slices at every quality, quality by quality; an `ID` or a slice that
      is not a string is an error. */
  function WindowPrefetch(series: SeriesJson, startIndex: nat, endIndex: nat,
                          qualitiesOf: string -> set<ImageQuality>): (r: Result<seq<CacheIndex>, PrefetchError>)
    ensures AsString(series.id).Err? ==> r.Err?
    ensures AsString(series.id).Ok? && qualitiesOf(AsString(series.id).value) <= {NONE} ==> r == Ok([])
    ensures AsString(series.id).Ok? && !(qualitiesOf(AsString(series.id).value) <= {NONE}) ==>
              (r.Ok? <==> SliceNames(Window(series.slices, startIndex, endIndex)).Ok?)
    ensures r.Ok? ==> SchedulesWindow(r.value, series, startIndex, endIndex, qualitiesOf)
  {
    match SeriesQualities(series.id, qualitiesOf)
    case Err(e) => Err(e)
    case Ok(qualities) =>
      if |qualities| == 0 then Ok([])
      else
        match SliceNames(Window(series.slices, startIndex, endIndex))
        case Err(e) => Err(e)
        case Ok(names) =>
          PrefetchedSchedulesWindow(series, names, qualities, startIndex, endIndex, qualitiesOf);
          Ok(Prefetched(names, qualities))
  }

  /** `PrefetchSeries`: every slice of the window at every available
      quality, quality by quality. `qualitiesOf` stands for the series
      repository. */
  method PrefetchSeries(content: Option<Json>, startIndex: nat, endIndex: nat,
                        qualitiesOf: string -> set<ImageQuality>)
    returns (r: Result<seq<CacheIndex>, PrefetchError>)
    ensures ReadSeries(content).Err? ==> r.Err?
    ensures ReadSeries(content) == Ok(None) ==> r == Ok([])
    ensures ReadSeries(content).Ok? && ReadSeries(content).value.Some? ==>
              var series := ReadSeries(content).value.value;
              var qualities := SeriesQualities(series.id, qualitiesOf);
              var window := SliceNames(Window(series.slices, startIndex, endIndex));
              (r.Ok? <==> qualities.Ok? && (|qualities.value| == 0 || window.Ok?)) &&
              (r.Ok? && |qualities.value| == 0 ==> r.value == []) &&
              (r.Ok? && |qualities.value| > 0 ==> r.value == Prefetched(window.value, qualities.value)) &&
              (r.Ok? ==> SchedulesWindow(r.value, series, startIndex, endIndex, qualitiesOf))
    ensures ReadSeries(content).Err? ==> r == Err(ReadSeries(content).error)
    ensures ReadSeries(content).Ok? && ReadSeries(content).value.Some? ==>
              r == WindowPrefetch(ReadSeries(content).value.value, startIndex, endIndex, qualitiesOf)
  {
    var read := ReadSeries(content);
    if read.Err? {
      return Err(read.error);
    }
    if read.value.None? {
      return Ok([]);
    }
    var series := read.value.value;
    var qualities := SeriesQualities(series.id, qualitiesOf);
    if qualities.Err? {
      return Err(qualities.error);
    }
    if |qualities.value| == 0 {
      return Ok([]);
    }
    var names := SliceNames(Window(series.slices, startIndex, endIndex));
    if names.Err? {
      return Err(names.error);
    }
    var items := Expand(names.value, qualities.value);
    PrefetchedSchedulesWindow(series, names.value, qualities.value, startIndex, endIndex, qualitiesOf);
    return Ok(items);
  }

  lemma PrefetchedSchedulesWindow(series: SeriesJson, names: seq<string>, qualities: seq<ImageQuality>,
                                  startIndex: nat, endIndex: nat, qualitiesOf: string -> set<ImageQuality>)
    requires SeriesQualities(series.id, qualitiesOf) == Ok(qualities)
    requires SliceNames(Window(series.slices, startIndex, endIndex)) == Ok(names)
    ensures SchedulesWindow(Prefetched(names, qualities), series, startIndex, endIndex, qualitiesOf)
  {
    forall i, q | startIndex <= i < |series.slices| && i < endIndex &&
                  q in qualitiesOf(AsString(series.id).value) && q != NONE
      ensures AsString(series.slices[i]).Ok? &&
              ImageItem(AsString(series.slices[i]).value, q) in Prefetched(names, qualities)
    {
      WindowCovers(series.slices, names, startIndex, endIndex, i);
      PrefetchedCovers(names, qualities, AsString(series.slices[i]).value, q);
    }
  }

  /** `ApplySeries`: the first ten slices of a series whose information was
      just read, at every quality the series has. */
  method ApplySeries(content: Option<Json>, qualitiesOf: string -> set<ImageQuality>)
    returns (r: Result<seq<CacheIndex>, PrefetchError>)
    ensures r.Ok? ==> |r.value| <= 4 * PREFETCH_FORWARD
    ensures ReadSeries(content).Ok? && ReadSeries(content).value.Some? && r.Ok? ==>
              SchedulesWindow(r.value, ReadSeries(content).value.value, 0, PREFETCH_FORWARD, qualitiesOf)
  {
    r := PrefetchSeries(content, 0, PREFETCH_FORWARD, qualitiesOf);
    if r.Ok? {
      SeriesPrefetchBound(content, qualitiesOf, r.value);
    }
  }

  lemma SeriesPrefetchBound(content: Option<Json>, qualitiesOf: string -> set<ImageQuality>, items: seq<CacheIndex>)
    requires ReadSeries(content).Ok?
    requires ReadSeries(content) == Ok(None) ==> items == []
    requires ReadSeries(content).value.Some? ==>
               var series := ReadSeries(content).value.value;
               var qualities := SeriesQualities(series.id, qualitiesOf);
               var window := SliceNames(Window(series.slices, 0, PREFETCH_FORWARD));
               qualities.Ok? && (|qualities.value| == 0 ==> items == []) &&
               (|qualities.value| > 0 ==> window.Ok? && items == Prefetched(window.value, qualities.value))
    ensures |items| <= 4 * PREFETCH_FORWARD
  {
    if ReadSeries(content).value.Some? {
      var series := ReadSeries(content).value.value;
      var qualities := SeriesQualities(series.id, qualitiesOf).value;
      if |qualities| > 0 {
        PrefetchBound(SliceNames(Window(series.slices, 0, PREFETCH_FORWARD)).value, qualities);
      }
    }
  }

  /** A slice inside the window has a name among the window's names. */
  lemma WindowCovers(slices: seq<Json>, names: seq<string>, startIndex: nat, endIndex: nat, i: nat)
    requires SliceNames(Window(slices, startIndex, endIndex)) == Ok(names)
    requires startIndex <= i < |slices| && i < endIndex
    ensures AsString(slices[i]).Ok? && AsString(slices[i]).value in names
  {
    var w := Window(slices, startIndex, endIndex);
    assert w[i - startIndex] == slices[i];
    assert names[i - startIndex] == AsString(slices[i]).value;
  }

  /** Four qualities at most over a window of at most ten slices. */
  lemma PrefetchBound(names: seq<string>, qualities: seq<ImageQuality>)
    requires |names| <= PREFETCH_FORWARD
    requires forall i, j :: 0 <= i < j < |qualities| ==> Below(qualities[i], qualities[j])
    requires forall i :: 0 <= i < |qualities| ==> qualities[i] != NONE
    ensures |Prefetched(names, qualities)| <= 4 * PREFETCH_FORWARD
  {
    PrefetchedLength(names, qualities);
    OrderedLength(qualities);
    assert |qualities| * |names| <= 4 * |names|;
  }

  /** At most the four qualities above NONE are listed. */
  lemma OrderedLength(qualities: seq<ImageQuality>)
    requires forall i, j :: 0 <= i < j < |qualities| ==> Below(qualities[i], qualities[j])
    requires forall i :: 0 <= i < |qualities| ==> qualities[i] != NONE
    ensures |qualities| <= 4
  {
    if |qualities| > 4 {
      assert Rank(qualities[0]) >= 1;
      assert Rank(qualities[4]) >= Rank(qualities[0]) + 4 by {
        assert Below(qualities[0], qualities[1]) && Below(qualities[1], qualities[2]);
        assert Below(qualities[2], qualities[3]) && Below(qualities[3], qualities[4]);
      }
    }
  }

  // ---------------------------------------------------------------------
  // ApplyInstance

  /** The source's `while` loop: the first position holding `slice`, or the
      size when there is none. */
  function SlicePosition(slices: seq<Json>, slice: Json): (p: nat)
    ensures p <= |slices|
    ensures p < |slices| ==> slices[p] == slice
    ensures forall i :: 0 <= i < p ==> slices[i] != slice
  {
    if |slices| == 0 then 0
    else if slices[0] == slice then 0
    else 1 + SlicePosition(slices[1..], slice)
  }

  /** The window start as written: `position - PREFETCH_BACKWARD` in
      unsigned 32-bit arithmetic. */
  function StartAsWritten(position: nat): (s: nat)
    ensures s < UINT32_LIMIT
  {
    (position - PREFETCH_BACKWARD) % UINT32_LIMIT
  }

  /** The window end, `position + PREFETCH_FORWARD`, in the same
      arithmetic. */
  function EndAsWritten(position: nat): (e: nat)
    ensures position + PREFETCH_FORWARD < UINT32_LIMIT ==> e == position + PREFETCH_FORWARD
  {
    (position + PREFETCH_FORWARD) % UINT32_LIMIT
  }

  /** As written, accessing one of the first three slices of a series
      prefetches none of its neighbours: the start wraps to nearly 2^32. */
  lemma FirstSlicesGetNoNeighbours<T>(slices: seq<T>, position: nat)
    requires position < PREFETCH_BACKWARD && |slices| < UINT32_LIMIT - PREFETCH_BACKWARD
    ensures StartAsWritten(position) >= UINT32_LIMIT - PREFETCH_BACKWARD
    ensures Window(slices, StartAsWritten(position), EndAsWritten(position)) == []
  {
  }

  /** The start the clamp `std::max(0u, startIndex)` was meant to give:
      never before the first slice. */
  function PrefetchStart(position: nat): (s: nat)
    ensures s <= position && position - s <= PREFETCH_BACKWARD
    ensures PREFETCH_BACKWARD <= position < UINT32_LIMIT ==> s == StartAsWritten(position)
  {
    if position >= PREFETCH_BACKWARD then position - PREFETCH_BACKWARD else 0
  }

  /** With the clamped start the window holds the accessed slice, the three
      before it and the nine after it, as far as the series reaches. */
  lemma NeighbourWindow<T>(slices: seq<T>, position: nat, i: nat)
    requires i < |slices| && i + PREFETCH_BACKWARD >= position && i < position + PREFETCH_FORWARD
    ensures var w := Window(slices, PrefetchStart(position), position + PREFETCH_FORWARD);
            i - PrefetchStart(position) < |w| && w[i - PrefetchStart(position)] == slices[i]
  {
  }

  /** A slice missing from the series puts the position at the end, so the
      window holds the last three slices. */
  lemma MissingSliceWindow(slices: seq<Json>, slice: Json)
    requires slice !in slices
    ensures SlicePosition(slices, slice) == |slices|
    ensures var w := Window(slices, PrefetchStart(|slices|), |slices| + PREFETCH_FORWARD);
            w == slices[PrefetchStart(|slices|)..] &&
            (|slices| >= PREFETCH_BACKWARD ==> |w| == PREFETCH_BACKWARD)
  {
    assert forall i :: 0 <= i < |slices| ==> slices[i] in slices;
  }

  /** The URL of a decoded image, when it parses. */
  function ParsedUrl(path: string): (u: Option<ImageUrl>)
    ensures u.Some? <==> ParseUrlPostfix(path).Ok? && ParseUrlPostfix(path).value.Some?
    ensures u.Some? ==> ParseUrlPostfix(path) == Ok(u)
  {
    match ParseUrlPostfix(path)
    case Ok(Some(url)) => Some(url)
    case _ => None
  }

  /** `<instance>/<frame>`, as the slices of a series are spelled. */
  function UrlSlice(url: ImageUrl): string {
    url.instanceId + "/" + NatToString(url.frameIndex)
  }

  /** The qualities of the series above the one the URL asks for. */
  function HigherQualities(url: ImageUrl, series: string, qualitiesOf: string -> set<ImageQuality>): (r: seq<ImageQuality>)
    ensures forall q :: q in r <==> q in qualitiesOf(series) &&
                                     Below(FromProcessingPolicyString(PolicyName(url.policy)), q)
  {
    OrderedImageQualities(qualitiesOf(series), FromProcessingPolicyString(PolicyName(url.policy)))
  }

  /** The window `ApplyInstance` hands to `PrefetchSeries` for the slice at
      `position`: as written, the unsigned `position - 3` and `position + 10`;
      `clamped`, the start the author meant. */
  function NeighbourStart(position: nat, clamped: bool): nat {
    if clamped then PrefetchStart(position) else StartAsWritten(position)
  }

  function NeighbourEnd(position: nat, clamped: bool): nat {
    if clamped then position + PREFETCH_FORWARD else EndAsWritten(position)
  }

  /** The neighbouring slices of `slice` in a series JSON that was read. */
  function Neighbours(info: SeriesJson, slice: string, clamped: bool): seq<Json> {
    var position := SlicePosition(info.slices, JString(slice));
    Window(info.slices, NeighbourStart(position, clamped), NeighbourEnd(position, clamped))
  }

  /** The second half of `ApplyInstance`: the slices around the accessed
      one, found in the cached series information. */
  method NeighbourPrefetch(slice: string, content: Option<Json>, qualitiesOf: string -> set<ImageQuality>,
                           clamped: bool)
    returns (r: Result<seq<CacheIndex>, PrefetchError>)
    ensures ReadSeries(content).Err? ==> r.Err?
    ensures ReadSeries(content) == Ok(None) ==> r == Ok([])
    ensures r.Ok? && ReadSeries(content).Ok? && ReadSeries(content).value.Some? ==>
              var info := ReadSeries(content).value.value;
              var position := SlicePosition(info.slices, JString(slice));
              SchedulesWindow(r.value, info, NeighbourStart(position, clamped),
                              NeighbourEnd(position, clamped), qualitiesOf) &&
              (Neighbours(info, slice, clamped) == [] ==> r.value == [])
    ensures ReadSeries(content).Err? ==> r == Err(ReadSeries(content).error)
    ensures ReadSeries(content).Ok? && ReadSeries(content).value.Some? ==>
              var info := ReadSeries(content).value.value;
              var position := SlicePosition(info.slices, JString(slice));
              r == WindowPrefetch(info, NeighbourStart(position, clamped), NeighbourEnd(position, clamped), qualitiesOf)
  {
    var read := ReadSeries(content);
    if read.Err? {
      return Err(read.error);
    }
    if read.value.None? {
      return Ok([]);
    }
    var position := SlicePosition(read.value.value.slices, JString(slice));
    r := PrefetchSeries(content, NeighbourStart(position, clamped), NeighbourEnd(position, clamped), qualitiesOf);
    if r.Ok? && Neighbours(read.value.value, slice, clamped) == [] {
      PrefetchedLength([], SeriesQualities(read.value.value.id, qualitiesOf).value);
    }
  }

  /** The instance lookup `/instances/<id>` and its `ParentSeries`. */
  type SeriesOfInstance = string -> Option<string>

  /** The exact list `ApplyInstance` schedules for a URL of an instance of
      `series`: the frame at the qualities above the one asked for, then,
      when the series information is cached and names its slices, the
      neighbouring slices at every quality of the series. A cached text
      that is not an object, or a window slice that is not a string, is an
      error. */
  function InstanceList(url: ImageUrl, series: string, qualitiesOf: string -> set<ImageQuality>,
                        seriesCache: map<string, Option<Json>>, clamped: bool)
    : (r: Result<seq<CacheIndex>, PrefetchError>)
    ensures var higher := Prefetched([UrlSlice(url)], HigherQualities(url, series, qualitiesOf));
            r.Ok? ==> |higher| <= |r.value| && r.value[..|higher|] == higher
    ensures series !in seriesCache || ReadSeries(seriesCache[series]) == Ok(None) ==>
              r == Ok(Prefetched([UrlSlice(url)], HigherQualities(url, series, qualitiesOf)))
    ensures series in seriesCache && ReadSeries(seriesCache[series]).Err? ==>
              r == Err(ReadSeries(seriesCache[series]).error)
    ensures r.Ok? && series in seriesCache && ReadSeries(seriesCache[series]).Ok? &&
            ReadSeries(seriesCache[series]).value.Some? ==>
              var info := ReadSeries(seriesCache[series]).value.value;
              var position := SlicePosition(info.slices, JString(UrlSlice(url)));
              SchedulesWindow(r.value, info, NeighbourStart(position, clamped), NeighbourEnd(position, clamped), qualitiesOf)
  {
    var higher := Prefetched([UrlSlice(url)], HigherQualities(url, series, qualitiesOf));
    if series !in seriesCache then Ok(higher)
    else
      match ReadSeries(seriesCache[series])
      case Err(e) => Err(e)
      case Ok(None) => Ok(higher)
      case Ok(Some(info)) =>
        var position := SlicePosition(info.slices, JString(UrlSlice(url)));
        match WindowPrefetch(info, NeighbourStart(position, clamped), NeighbourEnd(position, clamped), qualitiesOf)
        case Err(e) => Err(e)
        case Ok(rest) =>
          assert (higher + rest)[..|higher|] == higher;
          SchedulesWindowAppend(higher, rest, info, NeighbourStart(position, clamped),
                                NeighbourEnd(position, clamped), qualitiesOf);
          Ok(higher + rest)
  }

  /** What `ApplyInstance` schedules for a URL that parsed: the higher
      qualities of the accessed frame first, then the neighbouring slices at
      every quality. */
  method InstancePrefetch(url: ImageUrl, parentSeries: SeriesOfInstance, qualitiesOf: string -> set<ImageQuality>,
                          seriesCache: map<string, Option<Json>>, clamped: bool)
    returns (r: Result<seq<CacheIndex>, PrefetchError>)
    ensures parentSeries(url.instanceId).None? ==> r == Ok([])
    ensures parentSeries(url.instanceId).Some? ==>
              var series := parentSeries(url.instanceId).value;
              var higher := Prefetched([UrlSlice(url)], HigherQualities(url, series, qualitiesOf));
              (series !in seriesCache ==> r == Ok(higher)) &&
              (r.Ok? ==> |higher| <= |r.value| && r.value[..|higher|] == higher) &&
              (r.Ok? && series in seriesCache && ReadSeries(seriesCache[series]).Ok? &&
               ReadSeries(seriesCache[series]).value.Some? ==>
                 var info := ReadSeries(seriesCache[series]).value.value;
                 var position := SlicePosition(info.slices, JString(UrlSlice(url)));
                 SchedulesWindow(r.value, info, NeighbourStart(position, clamped),
                                 NeighbourEnd(position, clamped), qualitiesOf) &&
                 (Neighbours(info, UrlSlice(url), clamped) == [] ==> r.value == higher))
    ensures parentSeries(url.instanceId).Some? ==>
              r == InstanceList(url, parentSeries(url.instanceId).value, qualitiesOf, seriesCache, clamped)
  {
    var parent := parentSeries(url.instanceId);
    if parent.None? {
      return Ok([]);
    }
    var higher := Expand([UrlSlice(url)], HigherQualities(url, parent.value, qualitiesOf));
    if parent.value !in seriesCache {
      return Ok(higher);
    }
    var rest := NeighbourPrefetch(UrlSlice(url), seriesCache[parent.value], qualitiesOf, clamped);
    if rest.Err? {
      return Err(rest.error);
    }
    var read := ReadSeries(seriesCache[parent.value]);
    if read.value.None? {
      assert higher + rest.value == higher;
    } else {
      var position := SlicePosition(read.value.value.slices, JString(UrlSlice(url)));
      SchedulesWindowAppend(higher, rest.value, read.value.value, NeighbourStart(position, clamped),
                            NeighbourEnd(position, clamped), qualitiesOf);
    }
    assert (higher + rest.value)[..|higher|] == higher;
    return Ok(higher + rest.value);
  }

  /** What `ApplyInstance` promises for `path`: a path that fails or does
      not match is an error; an instance of no series schedules nothing;
      otherwise the frame's higher qualities come first, and the slices of
      the unsigned window `position - 3` to `position + 10` follow, which
      is nothing more for one of the first three slices. */
  ghost predicate InstanceScheduled(path: string, parentSeries: SeriesOfInstance,
                                    qualitiesOf: string -> set<ImageQuality>,
                                    seriesCache: map<string, Option<Json>>,
                                    r: Result<seq<CacheIndex>, PrefetchError>)
  {
    (ParseUrlPostfix(path).Err? ==> r == Err(RouteFailure(ParseUrlPostfix(path).error))) &&
    (ParseUrlPostfix(path) == Ok(None) ==> r == Err(UnmatchedPath)) &&
    (ParsedUrl(path).Some? && parentSeries(ParsedUrl(path).value.instanceId).None? ==> r == Ok([])) &&
    (ParsedUrl(path).Some? && parentSeries(ParsedUrl(path).value.instanceId).Some? ==>
       var url := ParsedUrl(path).value;
       var series := parentSeries(url.instanceId).value;
       var higher := Prefetched([UrlSlice(url)], HigherQualities(url, series, qualitiesOf));
       (series !in seriesCache ==> r == Ok(higher)) &&
       (r.Ok? ==> |higher| <= |r.value| && r.value[..|higher|] == higher) &&
       (r.Ok? && series in seriesCache && ReadSeries(seriesCache[series]).Ok? &&
        ReadSeries(seriesCache[series]).value.Some? ==>
          var info := ReadSeries(seriesCache[series]).value.value;
          var position := SlicePosition(info.slices, JString(UrlSlice(url)));
          SchedulesWindow(r.value, info, StartAsWritten(position), EndAsWritten(position), qualitiesOf) &&
          (position < PREFETCH_BACKWARD && |info.slices| < UINT32_LIMIT - PREFETCH_BACKWARD ==>
             r.value == higher)) &&
       r == InstanceList(url, series, qualitiesOf, seriesCache, false))
  }

  /** `ApplyInstance`. `parentSeries` stands for the Orthanc instance
      lookup, `seriesCache` for the cache's series information (a missing
      key is a cache miss; None is a text that does not parse). The source
      ignores `parseUrlPostfix`'s verdict; here a path that does not match
      is an error. The window starts at the unsigned `position - 3`, so an
      access to one of the first three slices schedules only the frame's
      higher qualities. */
  method ApplyInstance(path: string, parentSeries: SeriesOfInstance, qualitiesOf: string -> set<ImageQuality>,
                       seriesCache: map<string, Option<Json>>)
    returns (r: Result<seq<CacheIndex>, PrefetchError>)
    ensures InstanceScheduled(path, parentSeries, qualitiesOf, seriesCache, r)
  {
    var parsed := ParseUrlPostfix(path);
    if parsed.Err? {
      return Err(RouteFailure(parsed.error));
    }
    if parsed.value.None? {
      return Err(UnmatchedPath);
    }
    var url := parsed.value.value;
    r := InstancePrefetch(url, parentSeries, qualitiesOf, seriesCache, false);
    var parent := parentSeries(url.instanceId);
    if r.Ok? && parent.Some? && parent.value in seriesCache {
      var read := ReadSeries(seriesCache[parent.value]);
      if read.Ok? && read.value.Some? {
        var info := read.value.value;
        var position := SlicePosition(info.slices, JString(UrlSlice(url)));
        if position < PREFETCH_BACKWARD && |info.slices| < UINT32_LIMIT - PREFETCH_BACKWARD {
          FirstSlicesGetNoNeighbours(info.slices, position);
        }
      }
    }
  }

  /** `ApplyInstance` with the clamped start the author meant: the accessed
      slice, the three before it and the nine after it are scheduled at
      every quality of the series, after the frame's higher qualities. */
  method ApplyInstanceIntended(path: string, parentSeries: SeriesOfInstance,
                               qualitiesOf: string -> set<ImageQuality>, seriesCache: map<string, Option<Json>>)
    returns (r: Result<seq<CacheIndex>, PrefetchError>)
    ensures ParseUrlPostfix(path).Err? ==> r == Err(RouteFailure(ParseUrlPostfix(path).error))
    ensures ParseUrlPostfix(path) == Ok(None) ==> r == Err(UnmatchedPath)
    ensures ParsedUrl(path).Some? && parentSeries(ParsedUrl(path).value.instanceId).None? ==> r == Ok([])
    ensures ParsedUrl(path).Some? && parentSeries(ParsedUrl(path).value.instanceId).Some? ==>
              var url := ParsedUrl(path).value;
              var series := parentSeries(url.instanceId).value;
              var higher := Prefetched([UrlSlice(url)], HigherQualities(url, series, qualitiesOf));
              (series !in seriesCache ==> r == Ok(higher)) &&
              (r.Ok? ==> |higher| <= |r.value| && r.value[..|higher|] == higher) &&
              (r.Ok? && series in seriesCache && ReadSeries(seriesCache[series]).Ok? &&
               ReadSeries(seriesCache[series]).value.Some? ==>
                 var info := ReadSeries(seriesCache[series]).value.value;
                 var position := SlicePosition(info.slices, JString(UrlSlice(url)));
                 SchedulesWindow(r.value, info, PrefetchStart(position), position + PREFETCH_FORWARD, qualitiesOf)) &&
              r == InstanceList(url, series, qualitiesOf, seriesCache, true)
  {
    var parsed := ParseUrlPostfix(path);
    if parsed.Err? {
      return Err(RouteFailure(parsed.error));
    }
    if parsed.value.None? {
      return Err(UnmatchedPath);
    }
    r := InstancePrefetch(parsed.value.value, parentSeries, qualitiesOf, seriesCache, true);
  }

  lemma SchedulesWindowAppend(first: seq<CacheIndex>, items: seq<CacheIndex>, series: SeriesJson,
                              startIndex: nat, endIndex: nat, qualitiesOf: string -> set<ImageQuality>)
    requires SchedulesWindow(items, series, startIndex, endIndex, qualitiesOf)
    ensures SchedulesWindow(first + items, series, startIndex, endIndex, qualitiesOf)
  {
    forall x | x in items ensures x in first + items {
      var k :| 0 <= k < |items| && items[k] == x;
      assert (first + items)[|first| + k] == x;
    }
  }

  /** `Apply`: what to prefetch after an access to the cache. */
  method Apply(accessed: CacheIndex, content: Option<Json>, parentSeries: SeriesOfInstance,
               qualitiesOf: string -> set<ImageQuality>, seriesCache: map<string, Option<Json>>)
    returns (r: Result<seq<CacheIndex>, PrefetchError>)
    ensures accessed.bundle == OtherBundle ==> r == Ok([])
    ensures accessed.bundle == SeriesInformation && r.Ok? ==>
              |r.value| <= 4 * PREFETCH_FORWARD &&
              (ReadSeries(content).Ok? && ReadSeries(content).value.Some? ==>
                 SchedulesWindow(r.value, ReadSeries(content).value.value, 0, PREFETCH_FORWARD, qualitiesOf))
    ensures accessed.bundle == DecodedImage && ParseUrlPostfix(accessed.item) == Ok(None) ==>
              r == Err(UnmatchedPath)
    ensures accessed.bundle == DecodedImage ==>
              InstanceScheduled(accessed.item, parentSeries, qualitiesOf, seriesCache, r)
  {
    match accessed.bundle
    case SeriesInformation =>
      r := ApplySeries(content, qualitiesOf);
    case DecodedImage =>
      r := ApplyInstance(accessed.item, parentSeries, qualitiesOf, seriesCache);
    case OtherBundle =>
      r := Ok([]);
  }
}

=== FILE: quality.dfy ===
/** The backend's image quality value object
    (backend/WebViewerLibrary/Image/AvailableQuality/ImageQuality.h): an
    enumeration ordered by its integer value and two string codecs, one for
    the series JSON and one for the image processing routes. */
module Quality {

  datatype ImageQuality = NONE | LOW | MEDIUM | LOSSLESS | PIXELDATA

  /** The enumerator's integer value; the comparison operators compare it. */
  function Rank(q: ImageQuality): nat {
    match q
    case NONE => 0
    case LOW => 1
    case MEDIUM => 2
    case LOSSLESS => 3
    case PIXELDATA => 4
  }

  /** `operator<` */
  predicate Below(a: ImageQuality, b: ImageQuality) { Rank(a) < Rank(b) }

  /** Every quality, in ascending order. */
  const ALL_QUALITIES: seq<ImageQuality> := [NONE, LOW, MEDIUM, LOSSLESS, PIXELDATA]

  /** The operators order the qualities as NONE < LOW < MEDIUM < LOSSLESS <
      PIXELDATA, and the order is total: distinct qualities are comparable. */
  lemma QualityOrder(a: ImageQuality, b: ImageQuality)
    ensures Below(NONE, LOW) && Below(LOW, MEDIUM) && Below(MEDIUM, LOSSLESS) && Below(LOSSLESS, PIXELDATA)
    ensures a != b <==> Below(a, b) || Below(b, a)
    ensures !(Below(a, b) && Below(b, a))
  {
  }

  /** `toString`: a name per quality, "unknown" for NONE. */
  function ToString(q: ImageQuality): (s: string)
    ensures s == "unknown" <==> q == NONE
  {
    match q
    case LOW => "low"
    case MEDIUM => "medium"
    case LOSSLESS => "lossless"
    case PIXELDATA => "pixeldata"
    case NONE => "unknown"
  }

  /** `fromString`: the quality of a recognised name, NONE for any other
      string, "unknown" included. */
  function FromString(s: string): (q: ImageQuality)
    ensures q != NONE ==> ToString(q) == s
  {
    if s == "low" then LOW
    else if s == "medium" then MEDIUM
    else if s == "lossless" then LOSSLESS
    else if s == "pixeldata" then PIXELDATA
    else NONE
  }

  /** Decoding an encoded quality gives it back; this holds for NONE too,
      since "unknown" is not a recognised name. */
  lemma StringRoundTrip(q: ImageQuality)
    ensures FromString(ToString(q)) == q
  {
  }

  /** A recognised name is the encoding of what it decodes to, and a string
      decodes to NONE exactly when it names no real quality. */
  lemma FromStringInverse(s: string)
    ensures FromString(s) != NONE ==> ToString(FromString(s)) == s
    ensures FromString(s) == NONE <==> forall q :: q != NONE ==> ToString(q) != s
  {
    if FromString(s) == NONE {
      forall q | q != NONE ensures ToString(q) != s {
        StringRoundTrip(q);
      }
    }
  }

  /** The name of a quality in a processing policy, "unknown" for NONE. */
  function ToProcessingPolicyString(q: ImageQuality): (s: string) {
    match q
    case LOW => "low-quality"
    case MEDIUM => "medium-quality"
    case LOSSLESS => "high-quality"
    case PIXELDATA => "pixeldata-quality"
    case NONE => "unknown"
  }

  /** The quality a processing-policy name stands for, NONE for any other
      string. */
  function FromProcessingPolicyString(s: string): (q: ImageQuality)
    ensures q != NONE ==> ToProcessingPolicyString(q) == s
  {
    if s == "low-quality" then LOW
    else if s == "medium-quality" then MEDIUM
    else if s == "high-quality" then LOSSLESS
    else if s == "pixeldata-quality" then PIXELDATA
    else NONE
  }

  lemma ProcessingPolicyStringRoundTrip(q: ImageQuality)
    ensures FromProcessingPolicyString(ToProcessingPolicyString(q)) == q
  {
  }

  lemma FromProcessingPolicyStringInverse(s: string)
    ensures FromProcessingPolicyString(s) != NONE ==>
              ToProcessingPolicyString(FromProcessingPolicyString(s)) == s
    ensures FromProcessingPolicyString(s) == NONE <==>
              forall q :: q != NONE ==> ToProcessingPolicyString(q) != s
  {
    if FromProcessingPolicyString(s) == NONE {
      forall q | q != NONE ensures ToProcessingPolicyString(q) != s {
        ProcessingPolicyStringRoundTrip(q);
      }
    }
  }
}

=== FILE: sequences.dfy ===
/** Sequence helpers shared by the model: the "push it unless it is already
    there" idiom the source uses to collect ids (`indexOf(x) === -1` before
    `push`, `std::find` before `push_back`). */
module Sequences {

  /** `ids` pushed one by one onto `order`, skipping those already there. */
  function AppendMissing<T(==,!new)>(order: seq<T>, ids: seq<T>): (r: seq<T>)
    ensures |r| >= |order| && r[..|order|] == order
    ensures forall x :: x in r <==> x in order || x in ids
    decreases |ids|
  {
    if |ids| == 0 then order
    else
      var acc := AppendMissing(order, ids[..|ids| - 1]);
      var last := ids[|ids| - 1];
      assert ids == ids[..|ids| - 1] + [last];
      if last in acc then acc else acc + [last]
  }

  /** From position `from` on, no entry of `r` occurs anywhere else in `r`. */
  ghost predicate UniqueFrom<T>(r: seq<T>, from: nat) {
    forall i, j :: from <= i < |r| && 0 <= j < |r| && i != j ==> r[i] != r[j]
  }

  /** Appending repeats nothing that is already there or appended before. */
  lemma {:induction false} AppendMissingDistinct<T(!new)>(order: seq<T>, ids: seq<T>)
    ensures UniqueFrom(AppendMissing(order, ids), |order|)
    decreases |ids|
  {
    if |ids| > 0 {
      var init := ids[..|ids| - 1];
      var acc := AppendMissing(order, init);
      AppendMissingDistinct(order, init);
      var last := ids[|ids| - 1];
      assert AppendMissing(order, ids) == if last in acc then acc else acc + [last];
      if last !in acc {
        var r := acc + [last];
        forall i, j | |order| <= i < |r| && 0 <= j < |r| && i != j ensures r[i] != r[j] {
          if i == |acc| {
            assert r[j] == acc[j] && acc[j] in acc;
          } else if j == |acc| {
            assert r[i] == acc[i] && acc[i] in acc;
          } else {
            assert r[i] == acc[i] && r[j] == acc[j];
          }
        }
        assert UniqueFrom(r, |order|);
      }
    }
  }

  /** Collecting copies of one value yields that value once, or nothing
      from nothing. */
  lemma {:induction false} AppendMissingConstant<T(!new)>(ids: seq<T>, x: T)
    requires forall i :: 0 <= i < |ids| ==> ids[i] == x
    ensures AppendMissing([], ids) == if |ids| == 0 then [] else [x]
    decreases |ids|
  {
    if |ids| > 0 {
      AppendMissingConstant(ids[..|ids| - 1], x);
    }
  }

  /** `indexOf`: the first position of `x`. */
  function FirstIndex<T(==)>(s: seq<T>, x: T): (i: nat)
    requires x in s
    ensures i < |s| && s[i] == x && x !in s[..i]
  {
    if s[0] == x then 0
    else
      var i := FirstIndex(s[1..], x);
      assert s[..i + 1] == [s[0]] + s[1..][..i];
      i + 1
  }

  /** Every entry of `r` occurs in `ids`, and earlier entries first occur
      earlier. */
  ghost predicate InFirstOrder<T>(r: seq<T>, ids: seq<T>) {
    (forall i :: 0 <= i < |r| ==> r[i] in ids) &&
    forall i, j :: 0 <= i < j < |r| ==> FirstIndex(ids, r[i]) < FirstIndex(ids, r[j])
  }

  /** The ids collected from scratch come in the order of their first
      occurrence. */
  lemma {:induction false} AppendMissingFirstOrder<T(!new)>(ids: seq<T>)
    ensures InFirstOrder(AppendMissing([], ids), ids)
    decreases |ids|
  {
    if |ids| > 0 {
      var init := ids[..|ids| - 1];
      var last := ids[|ids| - 1];
      var acc := AppendMissing([], init);
      AppendMissingFirstOrder(init);
      assert ids == init + [last];
      forall x | x in init ensures FirstIndex(ids, x) == FirstIndex(init, x) {
        FirstIndexPrefix(init, [last], x);
      }
      if last !in acc {
        var r := acc + [last];
        assert FirstIndex(ids, last) == |init| by {
          assert last !in init;
          assert ids[..|init|] == init;
        }
        forall i, j | 0 <= i < j < |r| ensures FirstIndex(ids, r[i]) < FirstIndex(ids, r[j]) {
          assert r[i] == acc[i] && acc[i] in acc && acc[i] in init;
          assert FirstIndex(ids, r[i]) == FirstIndex(init, acc[i]) < |init|;
          if j < |acc| {
            assert r[j] == acc[j] && acc[j] in acc && acc[j] in init;
            assert FirstIndex(ids, r[j]) == FirstIndex(init, acc[j]);
          } else {
            assert r[j] == last;
            assert FirstIndex(ids, r[j]) == |init|;
          }
        }
        assert InFirstOrder(r, ids);
      }
    }
  }

  /** The first position of an element of a prefix is found in the prefix. */
  lemma FirstIndexPrefix<T>(a: seq<T>, b: seq<T>, x: T)
    requires x in a
    ensures FirstIndex(a + b, x) == FirstIndex(a, x)
  {
    assert (a + b)[FirstIndex(a, x)] == x;
  }
}

=== FILE: series.dfy ===
/** The backend series object (backend/WebViewerLibrary/Series/Series.cpp):
    its middle instance, its available qualities as ordered lists, and the
    JSON round trip of the quality set. */
module Series {
  import opened Quality
  import opened SeriesHelpers

  /** `GetMiddleInstanceId`: the id at the middle of the ordered instances
      (the upper middle for an even count), or "" for an empty series. */
  function MiddleInstanceId(orderedInstances: seq<OrderedInstance>): (r: string)
    ensures |orderedInstances| == 0 ==> r == ""
    ensures |orderedInstances| > 0 ==>
              exists i :: 0 <= i < |orderedInstances| && r == orderedInstances[i].id &&
                          0 <= i - (|orderedInstances| - 1 - i) <= 1
  {
    if |orderedInstances| > 0 then orderedInstances[|orderedInstances| / 2].id else ""
  }

  /** `GetOrderedImageQualities`: the available qualities strictly above
      `higherThan`, ascending. */
  function OrderedImageQualities(available: set<ImageQuality>, higherThan: ImageQuality): (r: seq<ImageQuality>)
    ensures forall q :: q in r <==> q in available && Below(higherThan, q)
    ensures forall i, j :: 0 <= i < j < |r| ==> Below(r[i], r[j])
  {
    forall q | true ensures q in ALL_QUALITIES {
      assert ALL_QUALITIES[Rank(q)] == q;
    }
    AvailableAbove(ALL_QUALITIES, available, higherThan)
  }

  /** The members of an ascending list that are available and above
      `higherThan`, in the list's order. */
  function AvailableAbove(order: seq<ImageQuality>, available: set<ImageQuality>, higherThan: ImageQuality): (r: seq<ImageQuality>)
    requires forall i, j :: 0 <= i < j < |order| ==> Below(order[i], order[j])
    ensures forall q :: q in r <==> q in order && q in available && Below(higherThan, q)
    ensures forall i, j :: 0 <= i < j < |r| ==> Below(r[i], r[j])
    decreases |order|
  {
    if |order| == 0 then []
    else
      var rest := AvailableAbove(order[1..], available, higherThan);
      if order[0] in available && Below(higherThan, order[0]) then
        assert forall q :: q in rest ==> Below(order[0], q);
        [order[0]] + rest
      else rest
  }

  /** With the default argument NONE every available quality is listed,
      except NONE itself (which `FromJson` produces for an unknown name). */
  lemma OrderedImageQualitiesDefault(available: set<ImageQuality>)
    ensures forall q :: q in OrderedImageQualities(available, NONE) <==> q in available - {NONE}
    ensures NONE !in available ==>
              forall q :: q in OrderedImageQualities(available, NONE) <==> q in available
  {
    var r := OrderedImageQualities(available, NONE);
    forall q ensures q in r <==> q in available - {NONE} {
      assert Below(NONE, q) <==> q != NONE;
    }
  }

  /** The list has no repeated quality. */
  lemma OrderedImageQualitiesDistinct(available: set<ImageQuality>, higherThan: ImageQuality)
    ensures var r := OrderedImageQualities(available, higherThan);
            forall i, j :: 0 <= i < j < |r| ==> r[i] != r[j]
  {
  }

  /** `ToJson`'s `availableQualities`: the names of the set's members in the
      set's (ascending) iteration order. */
  function QualitiesToJson(available: set<ImageQuality>): (r: seq<string>)
    ensures forall q :: q in available <==> ToString(q) in r
    ensures forall i :: 0 <= i < |r| ==> FromString(r[i]) in available
  {
    var r := NamesIn(ALL_QUALITIES, available);
    forall q | true ensures q in available ==> ToString(q) in r {
      assert ALL_QUALITIES[Rank(q)] == q;
    }
    forall q | ToString(q) in r ensures q in available {
      StringRoundTrip(q);
    }
    r
  }

  /** The names of the members of `available`, in the order of `order`. */
  function NamesIn(order: seq<ImageQuality>, available: set<ImageQuality>): (r: seq<string>)
    ensures forall q :: q in order && q in available ==> ToString(q) in r
    ensures forall i :: 0 <= i < |r| ==> FromString(r[i]) in available
  {
    if |order| == 0 then []
    else
      var q := order[0];
      var rest := NamesIn(order[1..], available);
      StringRoundTrip(q);
      assert forall p :: p in order ==> p == q || p in order[1..];
      if q in available then [ToString(q)] + rest else rest
  }

  /** `FromJson`: the decoded names, as a set. */
  function QualitiesFromJson(names: seq<string>): (r: set<ImageQuality>)
    ensures forall s :: s in names ==> FromString(s) in r
    ensures forall q :: q in r ==> exists i :: 0 <= i < |names| && FromString(names[i]) == q
  {
    set s | s in names :: FromString(s)
  }

  /** Writing the quality set to JSON and reading it back gives the same
      set. */
  lemma QualitiesJsonRoundTrip(available: set<ImageQuality>)
    ensures QualitiesFromJson(QualitiesToJson(available)) == available
  {
    var names := QualitiesToJson(available);
    var decoded := QualitiesFromJson(names);
    forall q | q in available ensures q in decoded {
      StringRoundTrip(q);
    }
    forall q | q in decoded ensures q in available {
      var i :| 0 <= i < |names| && FromString(names[i]) == q;
    }
  }
}

=== FILE: series_adapter.dfy ===
/** The frontend's adapter from the backend's series description to viewer
    series (src/app/series/orthanc-series.adapter.js): every instance
    expands to one image id per frame, `<instance>:<frame>`; a series of
    single-frame instances stays one series, any other is split into one
    series per instance. The quality names the backend lists become the
    frontend's quality codes. The middle instance's tags are carried along
    untouched and are left out. */
module SeriesAdapter {
  import opened Wrappers
  import opened Text
  import FrontendQuality

  /** One entry of the backend's `instances` list: `[id, _, frameCount]`. */
  datatype OrthancInstance = OrthancInstance(id: string, frameCount: nat)

  datatype OrthancSeries = OrthancSeries(id: string, instances: seq<OrthancInstance>, availableQualities: seq<string>)

  /** `WvSeries` as the adapter builds it: the quality object maps each
      quality name to its code. */
  datatype ViewerSeries = ViewerSeries(id: string, studyId: string, imageIds: seq<string>, qualities: map<string, int>)

  datatype AdapterError = UnknownQuality

  /** `osimis.quality`: the name of every frontend quality code. */
  const QUALITY_CODES: map<string, int> :=
    map["LOW" := FrontendQuality.LOW, "MEDIUM" := FrontendQuality.MEDIUM,
        "LOSSLESS" := FrontendQuality.LOSSLESS, "PIXELDATA" := FrontendQuality.PIXELDATA]

  /** `<instance>:<index>`, the way image ids and series ids are formed. */
  function Indexed(id: string, index: nat): string {
    id + ":" + NatToString(index)
  }

  /** The image ids of one instance, one per frame. */
  function FrameIds(instance: OrthancInstance): (r: seq<string>)
    ensures |r| == instance.frameCount
    ensures forall k :: 0 <= k < |r| ==> r[k] == Indexed(instance.id, k)
  {
    seq(instance.frameCount, (k: int) requires 0 <= k => Indexed(instance.id, k))
  }

  function ImageIdsByInstance(instances: seq<OrthancInstance>): (r: seq<seq<string>>)
    ensures |r| == |instances|
    ensures forall i :: 0 <= i < |r| ==> r[i] == FrameIds(instances[i])
  {
    seq(|instances|, i requires 0 <= i < |instances| => FrameIds(instances[i]))
  }

  /** Every group holds exactly one image (vacuously so with no group). */
  predicate IsSingleFrame(groups: seq<seq<string>>) {
    forall i :: 0 <= i < |groups| ==> |groups[i]| == 1
  }

  /** `_.flatten`: the groups one after the other. */
  function Flatten(groups: seq<seq<string>>): (r: seq<string>)
  {
    if |groups| == 0 then [] else groups[0] + Flatten(groups[1..])
  }

  /** The names the backend lists, upper-cased. */
  function UpperNames(names: seq<string>): (r: seq<string>)
    ensures |r| == |names|
    ensures forall i :: 0 <= i < |r| ==> r[i] == Upper(names[i])
  {
    seq(|names|, i requires 0 <= i < |names| => Upper(names[i]))
  }

  /** `_.pickBy(osimis.quality, …)`: the frontend qualities one of whose
      upper-cased names is listed. */
  function PickQualities(names: seq<string>): (r: map<string, int>)
    ensures forall key :: key in r <==> key in QUALITY_CODES && key in UpperNames(names)
    ensures forall key :: key in r ==> r[key] == QUALITY_CODES[key]
  {
    var upper := UpperNames(names);
    map key | key in QUALITY_CODES && key in upper :: QUALITY_CODES[key]
  }

  /** `process`: the viewer series of a backend series. A quality name that
      is unknown, or that repeats another once upper-cased, throws. */
  function Process(series: OrthancSeries, studyId: string): (r: Result<seq<ViewerSeries>, AdapterError>)
    ensures r.Err? <==> |PickQualities(series.availableQualities)| != |series.availableQualities|
    ensures r.Ok? ==> forall k :: 0 <= k < |r.value| ==>
              r.value[k].id == Indexed(series.id, k) && r.value[k].studyId == studyId &&
              r.value[k].qualities == PickQualities(series.availableQualities)
  {
    var groups := ImageIdsByInstance(series.instances);
    var bySeries := if IsSingleFrame(groups) then [Flatten(groups)] else groups;
    var qualities := PickQualities(series.availableQualities);
    if |qualities| != |series.availableQualities| then Err(UnknownQuality)
    else Ok(seq(|bySeries|, k requires 0 <= k < |bySeries| => ViewerSeries(Indexed(series.id, k), studyId, bySeries[k], qualities)))
  }

  // ---------------------------------------------------------------------
  // Properties

  /** Every instance has exactly one frame. */
  predicate AllSingleFrame(instances: seq<OrthancInstance>) {
    forall i :: 0 <= i < |instances| ==> instances[i].frameCount == 1
  }

  /** The image id of a frame reads back as the instance and the frame,
      for the colon-free ids Orthanc hands out. */
  lemma IndexedRoundTrip(id: string, index: nat)
    requires ':' !in id
    ensures Split(Indexed(id, index), ':') == [id, NatToString(index)]
    ensures ParseNat(Split(Indexed(id, index), ':')[1]) == Some(index)
  {
    var digits := NatToString(index);
    assert ':' !in digits by {
      forall k | 0 <= k < |digits| ensures digits[k] != ':' {
        assert IsDigit(digits[k]);
      }
    }
    assert Join([id, digits], ':') == Indexed(id, index) by {
      assert Join([id, digits][1..], ':') == digits;
    }
    SplitJoin([id, digits], ':');
    ParseNatToString(index);
  }

  /** Flattening a list of single images lists those images in order. */
  lemma {:induction false} FlattenSingles(groups: seq<seq<string>>)
    requires IsSingleFrame(groups)
    ensures |Flatten(groups)| == |groups|
    ensures forall i :: 0 <= i < |groups| ==> Flatten(groups)[i] == groups[i][0]
  {
    if |groups| > 0 {
      FlattenSingles(groups[1..]);
      assert groups[0] == [groups[0][0]];
    }
  }

  /** Groups are single images exactly when every instance has one frame. */
  lemma SingleFrameIff(instances: seq<OrthancInstance>)
    ensures IsSingleFrame(ImageIdsByInstance(instances)) <==> AllSingleFrame(instances)
  {
  }

  /** A series of single-frame instances (or of none) becomes one series
      holding the frame-0 image of each instance, in instance order. */
  lemma SingleFrameSeries(series: OrthancSeries, studyId: string)
    requires AllSingleFrame(series.instances)
    requires Process(series, studyId).Ok?
    ensures var r := Process(series, studyId).value;
            |r| == 1 && |r[0].imageIds| == |series.instances| &&
            forall i :: 0 <= i < |series.instances| ==> r[0].imageIds[i] == Indexed(series.instances[i].id, 0)
  {
    var groups := ImageIdsByInstance(series.instances);
    SingleFrameIff(series.instances);
    FlattenSingles(groups);
  }

  /** Otherwise each instance becomes a series of its own, holding its
      frames in order. */
  lemma MultiFrameSeries(series: OrthancSeries, studyId: string)
    requires !AllSingleFrame(series.instances)
    requires Process(series, studyId).Ok?
    ensures var r := Process(series, studyId).value;
            |r| == |series.instances| &&
            forall k :: 0 <= k < |r| ==> r[k].imageIds == FrameIds(series.instances[k])
  {
    SingleFrameIff(series.instances);
  }

  /** The names of `s` are pairwise different. */
  predicate Distinct(s: seq<string>) {
    forall i, j :: 0 <= i < j < |s| ==> s[i] != s[j]
  }

  /** The set of a sequence is at most as large as the sequence, and as
      large exactly when it repeats nothing. */
  lemma {:induction false} SetSize(s: seq<string>)
    ensures |set x | x in s| <= |s|
    ensures |set x | x in s| == |s| <==> Distinct(s)
  {
    if |s| > 0 {
      var tail := s[1..];
      SetSize(tail);
      var all := set x | x in s;
      var rest := set x | x in tail;
      assert all == rest + {s[0]};
      if s[0] in tail {
        assert all == rest;
        var j :| 0 <= j < |tail| && tail[j] == s[0];
        assert s[0] == s[j + 1];
      } else {
        assert |all| == |rest| + 1;
        if Distinct(tail) {
          forall i, j | 0 <= i < j < |s| ensures s[i] != s[j] {
            if i > 0 {
              assert s[i] == tail[i - 1] && s[j] == tail[j - 1];
            } else {
              assert s[j] == tail[j - 1];
            }
          }
        } else {
          var i, j :| 0 <= i < j < |tail| && tail[i] == tail[j];
          assert s[i + 1] == s[j + 1];
        }
      }
    }
  }

  /** A backend series is accepted exactly when each of its quality names
      names a frontend quality once upper-cased, and no two name the same. */
  lemma AcceptedIff(series: OrthancSeries, studyId: string)
    ensures Process(series, studyId).Ok? <==>
              (forall i :: 0 <= i < |series.availableQualities| ==> Upper(series.availableQualities[i]) in QUALITY_CODES) &&
              Distinct(UpperNames(series.availableQualities))
  {
    var upper := UpperNames(series.availableQualities);
    PickedSize(upper, QUALITY_CODES.Keys, PickQualities(series.availableQualities).Keys);
  }

  /** The codes picked from a list of names are as many as the names
      exactly when every name is a code and no two are the same. */
  lemma PickedSize(upper: seq<string>, codes: set<string>, picked: set<string>)
    requires forall key :: key in picked <==> key in codes && key in upper
    ensures |picked| == |upper| <==>
              (forall i :: 0 <= i < |upper| ==> upper[i] in codes) && Distinct(upper)
  {
    var names := set x | x in upper;
    SetSize(upper);
    assert picked <= names;
    if forall i :: 0 <= i < |upper| ==> upper[i] in codes {
      assert picked == names;
    } else {
      var i :| 0 <= i < |upper| && upper[i] !in codes;
      var missing := names - picked;
      assert names == picked + missing;
      assert picked * missing == {};
      assert |missing| >= 1 by {
        assert upper[i] in missing;
      }
    }
  }
}

=== FILE: series_helpers.dfy ===
/** Slice ordering of a series (backend/WebViewerLibrary/Series/SeriesHelpers.cpp):
    reading each instance's frame count and index from its main DICOM tags,
    ordering the instances by index, and formatting the ordered list. */
module SeriesHelpers {
  import opened Wrappers
  import opened Text
  import opened Toolbox
  import opened Sorting

  /** An instance as the slice ordering sees it; the position and normal
      vectors are not part of the model. */
  datatype Instance = Instance(id: string, framesCount: nat, index: Option<nat>)

  /** The JSON of one instance of the series: its `ID` member and its
      `MainDicomTags` object. */
  datatype InstanceInfo = InstanceInfo(id: Json, mainDicomTags: map<string, Json>)

  /** One entry of the formatted series: `[id, 0, framesCount]`. */
  datatype OrderedInstance = OrderedInstance(id: string, firstFrame: nat, framesCount: nat)

  datatype OrderingError = JsonFailure(e: JsonError) | CannotOrderSlices

  /** `isspace` in the C locale. */
  predicate IsSpace(c: char) {
    c == ' ' || c == '\t' || c == '\n' || c == '\r' || c == '\U{000B}' || c == '\U{000C}'
  }

  function StripLeading(s: string): (r: string)
    ensures |r| <= |s| && r == s[|s| - |r|..]
    ensures |r| > 0 ==> !IsSpace(r[0])
    ensures forall i :: 0 <= i < |s| - |r| ==> IsSpace(s[i])
  {
    if |s| > 0 && IsSpace(s[0]) then StripLeading(s[1..]) else s
  }

  function StripTrailing(s: string): (r: string)
    ensures |r| <= |s| && r == s[..|r|]
    ensures |r| > 0 ==> !IsSpace(r[|r| - 1])
    ensures forall i :: |r| <= i < |s| ==> IsSpace(s[i])
  {
    if |s| > 0 && IsSpace(s[|s| - 1]) then StripTrailing(s[..|s| - 1]) else s
  }

  /** `r` is `s` with the white space run at each end removed, `r` starting
      at index `i` of `s`. */
  ghost predicate StrippedAt(s: string, r: string, i: int) {
    0 <= i <= |s| - |r| && r == s[i..i + |r|] &&
    (forall k :: 0 <= k < i ==> IsSpace(s[k])) &&
    (forall k :: i + |r| <= k < |s| ==> IsSpace(s[k])) &&
    (|r| > 0 ==> !IsSpace(r[0]) && !IsSpace(r[|r| - 1]))
  }

  /** Orthanc's `Toolbox::StripSpaces`: the string without its leading and
      trailing white space. */
  function StripSpaces(s: string): (r: string)
    ensures exists i :: StrippedAt(s, r, i)
  {
    StripBothEnds(s);
    StripTrailing(StripLeading(s))
  }

  lemma StripBothEnds(s: string)
    ensures StrippedAt(s, StripTrailing(StripLeading(s)), |s| - |StripLeading(s)|)
  {
    var t := StripLeading(s);
    var r := StripTrailing(t);
    var i := |s| - |t|;
    assert t == s[i..] && forall k :: 0 <= k < i ==> IsSpace(s[k]);
    assert r == t[..|r|] && forall k :: |r| <= k < |t| ==> IsSpace(t[k]);
    StripsCompose(s, t, r, i);
  }

  /** Stripping the front and then the back of what is left strips both
      ends. */
  lemma StripsCompose(s: string, t: string, r: string, i: nat)
    requires i <= |s| && t == s[i..] && (forall k :: 0 <= k < i ==> IsSpace(s[k]))
    requires |t| > 0 ==> !IsSpace(t[0])
    requires |r| <= |t| && r == t[..|r|] && (forall k :: |r| <= k < |t| ==> IsSpace(t[k]))
    requires |r| > 0 ==> !IsSpace(r[|r| - 1])
    ensures StrippedAt(s, r, i)
  {
    SliceOfSuffix(s, i, |r|);
    TrailingSpaces(s, t, r, i);
    if |r| > 0 {
      assert r[0] == t[0];
    }
  }

  lemma SliceOfSuffix(s: string, i: nat, n: nat)
    requires i + n <= |s|
    ensures s[i..][..n] == s[i..i + n]
  {
  }

  /** The white space `StripTrailing` drops sits at the end of `s`. */
  lemma TrailingSpaces(s: string, t: string, r: string, i: nat)
    requires i <= |s| && t == s[i..] && |r| <= |t|
    requires forall k :: |r| <= k < |t| ==> IsSpace(t[k])
    ensures forall k :: i + |r| <= k < |s| ==> IsSpace(s[k])
  {
    forall k | i + |r| <= k < |s| ensures IsSpace(s[k]) {
      assert s[k] == t[k - i];
    }
  }

  /** A tag read with `lexical_cast<unsigned int>` after an optional
      `StripSpaces`; None when the tag is absent or does not parse, an error
      when `asString` throws. */
  function TagNumber(tags: map<string, Json>, name: string, strip: bool): (r: Result<Option<nat>, JsonError>)
    ensures name !in tags ==> r == Ok(None)
    ensures name in tags ==> (r.Err? <==> AsString(tags[name]).Err?)
    ensures name in tags && r.Ok? ==>
              var s := AsString(tags[name]).value;
              r.value == ParseUInt32(if strip then StripSpaces(s) else s)
    ensures r.Ok? && r.value.Some? ==> r.value.value < UINT32_LIMIT
  {
    if name !in tags then Ok(None)
    else
      var s :- AsString(tags[name]);
      Ok(ParseUInt32(if strip then StripSpaces(s) else s))
  }

  /** A position or orientation tag is read through `asString` too, which
      throws on arrays and objects; its value plays no part here. */
  function CheckVectorTag(tags: map<string, Json>, name: string): (r: Result<bool, JsonError>)
    ensures r.Err? <==> name in tags && AsString(tags[name]).Err?
    ensures r.Ok? ==> r.value == (name in tags)
  {
    if name in tags then
      var s :- AsString(tags[name]);
      Ok(true)
    else Ok(false)
  }

  /** The `Instance` constructor. */
  function ParseInstance(info: InstanceInfo): (r: Result<Instance, JsonError>)
    ensures r.Err? <==>
              AsString(info.id).Err? ||
              TagNumber(info.mainDicomTags, "NumberOfFrames", false).Err? ||
              CheckVectorTag(info.mainDicomTags, "ImagePositionPatient").Err? ||
              CheckVectorTag(info.mainDicomTags, "ImageOrientationPatient").Err? ||
              TagNumber(info.mainDicomTags, "InstanceNumber", true).Err? ||
              (TagNumber(info.mainDicomTags, "InstanceNumber", true) == Ok(None) &&
               TagNumber(info.mainDicomTags, "ImageIndex", true).Err?)
    ensures r.Ok? ==> AsString(info.id).Ok? && r.value.id == AsString(info.id).value
    ensures r.Ok? ==>
              TagNumber(info.mainDicomTags, "NumberOfFrames", false).Ok? &&
              TagNumber(info.mainDicomTags, "InstanceNumber", true).Ok?
    ensures r.Ok? ==>
              var frames := TagNumber(info.mainDicomTags, "NumberOfFrames", false).value;
              r.value.framesCount == (if frames.Some? then frames.value else 1)
    ensures r.Ok? ==>
              var number := TagNumber(info.mainDicomTags, "InstanceNumber", true).value;
              (number.Some? ==> r.value.index == number) &&
              (number.None? ==> TagNumber(info.mainDicomTags, "ImageIndex", true) == Ok(r.value.index))
  {
    var tags := info.mainDicomTags;
    var id :- AsString(info.id);
    var frames :- TagNumber(tags, "NumberOfFrames", false);
    var _ :- CheckVectorTag(tags, "ImagePositionPatient");
    var _ :- CheckVectorTag(tags, "ImageOrientationPatient");
    var number :- TagNumber(tags, "InstanceNumber", true);
    var index :-
      if number.Some? then Ok(number)
      else TagNumber(tags, "ImageIndex", true);
    Ok(Instance(id, if frames.Some? then frames.value else 1, index))
  }

  /** A signed tag reads as `lexical_cast<unsigned int>` reads it: "+2"
      frames are two frames, and an `InstanceNumber` of "-1" is the index
      2^32 - 1, taken whatever the `ImageIndex`. */
  lemma SignedTags(info: InstanceInfo)
    requires info.id == JString("a")
    requires "NumberOfFrames" in info.mainDicomTags && info.mainDicomTags["NumberOfFrames"] == JString("+2")
    requires "InstanceNumber" in info.mainDicomTags && info.mainDicomTags["InstanceNumber"] == JString("-1")
    requires "ImagePositionPatient" !in info.mainDicomTags && "ImageOrientationPatient" !in info.mainDicomTags
    ensures ParseInstance(info) == Ok(Instance("a", 2, Some(UINT32_LIMIT - 1)))
  {
    var tags := info.mainDicomTags;
    SignedNumbers();
    StripMinusOne();
    TagOf(tags, "NumberOfFrames", false, "+2");
    TagOf(tags, "InstanceNumber", true, "-1");
  }

  /** Any instance whose tags hold rendered numbers reads them back: `f`
      frames, and the index `n` whatever the `ImageIndex`. */
  lemma NumberTagsRoundTrip(info: InstanceInfo, f: nat, n: nat)
    requires f < UINT32_LIMIT && n < UINT32_LIMIT
    requires AsString(info.id).Ok?
    requires "NumberOfFrames" in info.mainDicomTags && info.mainDicomTags["NumberOfFrames"] == JString(NatToString(f))
    requires "InstanceNumber" in info.mainDicomTags && info.mainDicomTags["InstanceNumber"] == JString(NatToString(n))
    requires CheckVectorTag(info.mainDicomTags, "ImagePositionPatient").Ok?
    requires CheckVectorTag(info.mainDicomTags, "ImageOrientationPatient").Ok?
    ensures ParseInstance(info) == Ok(Instance(AsString(info.id).value, f, Some(n)))
  {
    var tags := info.mainDicomTags;
    ParseUInt32ToString(f);
    ParseUInt32ToString(n);
    DigitsUnstripped(NatToString(n));
    TagOf(tags, "NumberOfFrames", false, NatToString(f));
    TagOf(tags, "InstanceNumber", true, NatToString(n));
  }

  /** White space is not a digit, so stripping leaves a number alone. */
  lemma DigitsUnstripped(s: string)
    requires |s| > 0 && AllDigits(s)
    ensures StripSpaces(s) == s
  {
    assert IsDigit(s[0]) && IsDigit(s[|s| - 1]);
    assert StripLeading(s) == s;
    assert StripTrailing(s) == s;
  }

  lemma StripMinusOne()
    ensures StripSpaces("-1") == "-1"
  {
    assert StripLeading("-1") == "-1";
    assert StripTrailing("-1") == "-1" by {
      assert !IsSpace("-1"[1]);
    }
  }

  /** A tag holding the JSON string `s` reads as `s` parses. */
  lemma TagOf(tags: map<string, Json>, name: string, strip: bool, s: string)
    requires name in tags && tags[name] == JString(s)
    ensures TagNumber(tags, name, strip) == Ok(ParseUInt32(if strip then StripSpaces(s) else s))
  {
  }

  function IndexKey(instance: Instance): nat {
    if instance.index.Some? then instance.index.value else 0
  }

  /** `IndexInSeriesComparator`, as a less-or-equal. */
  function IndexLe(): (T: (Instance, Instance) -> bool)
    ensures TotalPreorder(T)
    ensures forall a: Instance, b: Instance :: a.index.Some? && b.index.Some? ==> (T(a, b) <==> a.index.value <= b.index.value)
  {
    (a: Instance, b: Instance) => IndexKey(a) <= IndexKey(b)
  }

  lemma IndexLeIsPreorder()
    ensures TotalPreorder(IndexLe())
  {
  }

  function Indexed(instances: seq<Instance>): (r: seq<Instance>)
    ensures forall i :: 0 <= i < |r| ==> r[i].index.Some?
    ensures multiset(r) <= multiset(instances)
    ensures forall x :: x in instances && x.index.Some? ==> x in r
  {
    if |instances| == 0 then []
    else
      assert instances == [instances[0]] + instances[1..];
      if instances[0].index.Some? then [instances[0]] + Indexed(instances[1..])
      else Indexed(instances[1..])
  }

  lemma SortedByIndex(indexed: seq<Instance>, r: seq<Instance>)
    requires forall i :: 0 <= i < |indexed| ==> indexed[i].index.Some?
    requires multiset(r) == multiset(indexed) && Sorted(r, IndexLe())
    ensures forall i :: 0 <= i < |r| ==> r[i].index.Some?
    ensures forall i, j :: 0 <= i < j < |r| ==> r[i].index.value <= r[j].index.value
  {
    forall i | 0 <= i < |r| ensures r[i].index.Some? {
      assert r[i] in multiset(indexed);
    }
    forall i, j | 0 <= i < j < |r| ensures r[i].index.value <= r[j].index.value {
      assert IndexLe()(r[i], r[j]);
    }
  }

  /** `SortUsingIndexInSeries`. `std::sort` is not stable, so the contract
      promises an order by index and no more. */
  function SortUsingIndexInSeries(instances: seq<Instance>): (r: seq<Instance>)
    ensures |instances| <= 1 ==> r == instances
    ensures |instances| > 1 && Indexed(instances) == [] ==> r == instances
    ensures |instances| > 1 && Indexed(instances) != [] ==>
              multiset(r) == multiset(Indexed(instances)) &&
              (forall i :: 0 <= i < |r| ==> r[i].index.Some?) &&
              (forall i, j :: 0 <= i < j < |r| ==> r[i].index.value <= r[j].index.value)
  {
    if |instances| <= 1 then instances
    else
      var indexed := Indexed(instances);
      if |indexed| == 0 then instances
      else
        IndexLeIsPreorder();
        var r := Sort(indexed, IndexLe());
        SortedByIndex(indexed, r);
        r
  }

  /** `SliceOrdering`'s constructor on the index path: parsing every
      instance, then ordering them. The ordering step cannot fail, so the
      constructor's `CannotOrderSlices` exception is never raised. */
  function OrderSlices(infos: seq<InstanceInfo>): (r: Result<seq<Instance>, OrderingError>)
    ensures r != Err(CannotOrderSlices)
    ensures r.Ok? <==> forall i :: 0 <= i < |infos| ==> ParseInstance(infos[i]).Ok?
  {
    var parsed := ParseInstances(infos);
    if parsed.Err? then Err(JsonFailure(parsed.error))
    else Ok(SortUsingIndexInSeries(parsed.value))
  }

  function ParseInstances(infos: seq<InstanceInfo>): (r: Result<seq<Instance>, JsonError>)
    ensures r.Ok? <==> forall i :: 0 <= i < |infos| ==> ParseInstance(infos[i]).Ok?
    ensures r.Ok? ==> (|r.value| == |infos| &&
              forall i :: 0 <= i < |infos| ==> ParseInstance(infos[i]) == Ok(r.value[i]))
  {
    if |infos| == 0 then Ok([])
    else
      match ParseInstance(infos[0])
      case Err(e) => Err(e)
      case Ok(x) =>
        match ParseInstances(infos[1..])
        case Err(e) =>
          assert forall i :: 1 <= i < |infos| ==> infos[1..][i - 1] == infos[i];
          Err(e)
        case Ok(xs) => Ok([x] + xs)
  }

  /** `Format`: one `[id, 0, framesCount]` entry per ordered instance. */
  function Format(sorted: seq<Instance>): (r: seq<OrderedInstance>)
    ensures |r| == |sorted|
    ensures forall i :: 0 <= i < |r| ==>
              r[i] == OrderedInstance(sorted[i].id, 0, sorted[i].framesCount)
  {
    if |sorted| == 0 then []
    else [OrderedInstance(sorted[0].id, 0, sorted[0].framesCount)] + Format(sorted[1..])
  }
}

=== FILE: series_model.dfy ===
/** The frontend's series model (frontend/src/app/series/series.model.js):
    a list of image ids, the index of the image being shown, and the
    qualities the series offers. Navigation moves the index and reports the
    new image id to the series' listeners; that report is the `Notice` of
    each move. Playing, annotations and the frame-rate lookup are
    asynchronous and left out. */
module SeriesModel {
  import opened Wrappers
  import opened Text
  import SeriesAdapter
  import FrontendQuality

  datatype Series = Series(id: string, studyId: string, imageIds: seq<string>, currentIndex: int,
                           qualities: map<string, int>)

  /** What a move tells `onCurrentImageIdChanged`: nothing, or the new
      current image id (null when the index is out of range). */
  datatype Notice = Quiet | Changed(imageId: Option<string>)

  datatype Moved = Moved(series: Series, notice: Notice)

  function ImageCount(s: Series): nat { |s.imageIds| }

  // ---------------------------------------------------------------------
  // Construction

  /** `after` is `before` with PIXELDATA deleted and LOSSLESS set to its
      code; every other quality keeps its code, and no quality is added. */
  ghost predicate PixelDataReplaced(before: map<string, int>, after: map<string, int>) {
    "PIXELDATA" !in after && "LOSSLESS" in after && after["LOSSLESS"] == FrontendQuality.LOSSLESS &&
    forall key :: key != "PIXELDATA" && key != "LOSSLESS" ==>
      (key in after <==> key in before) && (key in after ==> after[key] == before[key])
  }

  /** The browsers the constructor's comment names. */
  predicate DecompressionLimited(browser: string) {
    Contains(browser, "Safari") || Contains(browser, "IE") || Contains(browser, "Edge")
  }

  /** The browser test of the constructor as written: `&&` binds tighter
      than `||`, so Safari and IE lose PIXELDATA and gain LOSSLESS whether
      or not PIXELDATA was offered, and only Edge looks at it. */
  function BrowserQualitiesAsWritten(browser: string, qualities: map<string, int>): (r: map<string, int>)
    ensures (Contains(browser, "Safari") || Contains(browser, "IE")) ==>
              "PIXELDATA" !in r && "LOSSLESS" in r && r["LOSSLESS"] == FrontendQuality.LOSSLESS
    ensures (Contains(browser, "Safari") || Contains(browser, "IE") ||
             (Contains(browser, "Edge") && "PIXELDATA" in qualities)) ==> PixelDataReplaced(qualities, r)
    ensures (!Contains(browser, "Safari") && !Contains(browser, "IE") &&
             !(Contains(browser, "Edge") && "PIXELDATA" in qualities)) ==> r == qualities
  {
    if Contains(browser, "Safari") || Contains(browser, "IE") || (Contains(browser, "Edge") && "PIXELDATA" in qualities)
    then (qualities - {"PIXELDATA"})["LOSSLESS" := FrontendQuality.LOSSLESS]
    else qualities
  }

  /** The browser test as its comment means it: on Safari, IE and Edge,
      an offered PIXELDATA is replaced by LOSSLESS. */
  function BrowserQualities(browser: string, qualities: map<string, int>): (r: map<string, int>)
    ensures "PIXELDATA" !in qualities ==> r == qualities
    ensures forall key :: key in r ==> (key in qualities && r[key] == qualities[key]) ||
                                       (key == "LOSSLESS" && "PIXELDATA" in qualities)
    ensures DecompressionLimited(browser) && "PIXELDATA" in qualities ==> PixelDataReplaced(qualities, r)
    ensures !DecompressionLimited(browser) ==> r == qualities
  {
    if DecompressionLimited(browser) && "PIXELDATA" in qualities
    then (qualities - {"PIXELDATA"})["LOSSLESS" := FrontendQuality.LOSSLESS]
    else qualities
  }

  /** `new WvSeries(…)`: the first image is current, and the offered
      qualities pass through the browser test as written. */
  function NewSeries(id: string, studyId: string, imageIds: seq<string>, qualities: map<string, int>, browser: string): (s: Series)
    ensures s.id == id && s.studyId == studyId && s.currentIndex == 0 && s.imageIds == imageIds
    ensures CurrentImageId(s) == if |imageIds| > 0 then Some(imageIds[0]) else None
    ensures Contains(browser, "Safari") || Contains(browser, "IE") ==>
              "PIXELDATA" !in s.qualities && "LOSSLESS" in s.qualities && s.qualities["LOSSLESS"] == FrontendQuality.LOSSLESS
    ensures !Contains(browser, "Safari") && !Contains(browser, "IE") && !Contains(browser, "Edge") ==>
              s.qualities == qualities
    ensures (Contains(browser, "Safari") || Contains(browser, "IE") ||
             (Contains(browser, "Edge") && "PIXELDATA" in qualities)) ==> PixelDataReplaced(qualities, s.qualities)
    ensures (!Contains(browser, "Safari") && !Contains(browser, "IE") && Contains(browser, "Edge") &&
             "PIXELDATA" !in qualities) ==> s.qualities == qualities
  {
    Series(id, studyId, imageIds, 0, BrowserQualitiesAsWritten(browser, qualities))
  }

  /** The constructor with the browser test its comment means. */
  function NewSeriesIntended(id: string, studyId: string, imageIds: seq<string>, qualities: map<string, int>,
                             browser: string): (s: Series)
    ensures s.id == id && s.studyId == studyId && s.currentIndex == 0 && s.imageIds == imageIds
    ensures CurrentImageId(s) == if |imageIds| > 0 then Some(imageIds[0]) else None
    ensures "PIXELDATA" !in qualities ==> s.qualities == qualities
    ensures DecompressionLimited(browser) && "PIXELDATA" in qualities ==> PixelDataReplaced(qualities, s.qualities)
  {
    Series(id, studyId, imageIds, 0, BrowserQualities(browser, qualities))
  }

  /** The two tests agree whenever PIXELDATA is offered: only a series
      without it tells them apart, and only on Safari and IE. */
  lemma BrowserTestsAgree(browser: string, qualities: map<string, int>)
    ensures "PIXELDATA" in qualities ==>
              BrowserQualitiesAsWritten(browser, qualities) == BrowserQualities(browser, qualities)
    ensures !Contains(browser, "Safari") && !Contains(browser, "IE") ==>
              BrowserQualitiesAsWritten(browser, qualities) == BrowserQualities(browser, qualities)
  {
  }

  /** On Safari, a series without PIXELDATA is told it has LOSSLESS. */
  lemma SafariGainsLossless()
    ensures var offered := map["LOW" := FrontendQuality.LOW];
            "LOSSLESS" !in offered && "LOSSLESS" in BrowserQualitiesAsWritten("Safari", offered) &&
            !HasQuality(Series("", "", [], 0, offered), FrontendQuality.LOSSLESS) &&
            HasQuality(NewSeries("", "", [], offered, "Safari"), FrontendQuality.LOSSLESS)
  {
    assert OccursAt("Safari", "Safari", 0);
    var offered := map["LOW" := FrontendQuality.LOW];
    assert forall name :: name in offered ==> offered[name] == FrontendQuality.LOW;
  }

  /** Corrected, a series without PIXELDATA keeps exactly its qualities on
      every browser. */
  lemma NoPixelDataUnchanged(browser: string, qualities: map<string, int>)
    requires "PIXELDATA" !in qualities
    ensures BrowserQualities(browser, qualities) == qualities
    ensures forall q :: HasQuality(NewSeriesIntended("", "", [], qualities, browser), q) <==> q in qualities.Values
  {
  }

  // ---------------------------------------------------------------------
  // The current image

  /** `getCurrentImageId`: null when the index is out of range. */
  function CurrentImageId(s: Series): (r: Option<string>)
    ensures r.Some? <==> 0 <= s.currentIndex < |s.imageIds|
    ensures r.Some? ==> r.value == s.imageIds[s.currentIndex]
  {
    if 0 <= s.currentIndex < |s.imageIds| then Some(s.imageIds[s.currentIndex]) else None
  }

  function MoveTo(s: Series, index: int): Moved {
    var t := s.(currentIndex := index);
    Moved(t, Changed(CurrentImageId(t)))
  }

  /** The index stays between -1 and the last image (0 for an empty
      series, where construction leaves it). */
  predicate IndexInBounds(s: Series) {
    -1 <= s.currentIndex && (s.currentIndex <= |s.imageIds| - 1 || s.currentIndex == 0)
  }

  /** `goToNextImage`: one image further; past the end only with
      `restart`, back to the first. */
  function GoToNextImage(s: Series, restart: bool): (m: Moved)
    ensures m.series.imageIds == s.imageIds && m.series.qualities == s.qualities
    ensures s.currentIndex < ImageCount(s) - 1 ==> m.series.currentIndex == s.currentIndex + 1
    ensures s.currentIndex >= ImageCount(s) - 1 ==>
              m.series.currentIndex == (if restart then 0 else s.currentIndex)
    ensures m.notice.Quiet? <==> s.currentIndex >= ImageCount(s) - 1 && !restart
    ensures m.notice.Changed? ==> m.notice.imageId == CurrentImageId(m.series)
  {
    if s.currentIndex >= ImageCount(s) - 1 && restart then MoveTo(s, 0)
    else if s.currentIndex < ImageCount(s) - 1 then MoveTo(s, s.currentIndex + 1)
    else Moved(s, Quiet)
  }

  /** `goToPreviousImage`: one image back; before the first only with
      `restart`, on to the last. */
  function GoToPreviousImage(s: Series, restart: bool): (m: Moved)
    ensures m.series.imageIds == s.imageIds && m.series.qualities == s.qualities
    ensures s.currentIndex > 0 ==> m.series.currentIndex == s.currentIndex - 1
    ensures s.currentIndex <= 0 ==>
              m.series.currentIndex == (if restart then ImageCount(s) - 1 else s.currentIndex)
    ensures m.notice.Quiet? <==> s.currentIndex <= 0 && !restart
    ensures m.notice.Changed? ==> m.notice.imageId == CurrentImageId(m.series)
  {
    if s.currentIndex > 0 then MoveTo(s, s.currentIndex - 1)
    else if restart then MoveTo(s, ImageCount(s) - 1)
    else Moved(s, Quiet)
  }

  /** `goToImage`: the index is floored; a negative one becomes -1, one
      past the last image is ignored, and the same index is no move. */
  function GoToImage(s: Series, index: real): (m: Moved)
    ensures m.series.imageIds == s.imageIds && m.series.qualities == s.qualities
    ensures index.Floor >= ImageCount(s) ==> m == Moved(s, Quiet)
    ensures index.Floor < 0 ==> m.series.currentIndex == -1
    ensures 0 <= index.Floor < ImageCount(s) ==> m.series.currentIndex == index.Floor
    ensures m.notice.Changed? <==> m.series.currentIndex != s.currentIndex
    ensures m.notice.Changed? ==> m.notice.imageId == CurrentImageId(m.series)
  {
    var wanted := index.Floor;
    if wanted >= 0 && wanted + 1 > ImageCount(s) then Moved(s, Quiet)
    else
      var target := if wanted < 0 then -1 else wanted;
      if s.currentIndex == target then Moved(s, Quiet) else MoveTo(s, target)
  }

  /** Every move keeps the index in bounds. */
  lemma MovesKeepBounds(s: Series, restart: bool, index: real)
    requires IndexInBounds(s)
    ensures IndexInBounds(GoToNextImage(s, restart).series)
    ensures IndexInBounds(GoToPreviousImage(s, restart).series)
    ensures IndexInBounds(GoToImage(s, index).series)
  {
  }

  /** Inside the series, going forward then back (or back then forward)
      returns to the same image. */
  lemma NextPreviousRoundTrip(s: Series, restart: bool)
    ensures 0 <= s.currentIndex < ImageCount(s) - 1 ==>
              GoToPreviousImage(GoToNextImage(s, restart).series, restart).series == s
    ensures 0 < s.currentIndex < ImageCount(s) ==>
              GoToNextImage(GoToPreviousImage(s, restart).series, restart).series == s
  {
  }

  /** With `restart`, the last and the first image follow each other. */
  lemma RestartWraps(s: Series)
    requires ImageCount(s) > 0
    ensures s.currentIndex == ImageCount(s) - 1 ==>
              GoToNextImage(s, true).notice == Changed(Some(s.imageIds[0]))
    ensures s.currentIndex == 0 ==>
              GoToPreviousImage(s, true).notice == Changed(Some(s.imageIds[ImageCount(s) - 1]))
  {
  }

  /** Going to an image shows it, and going there again is no move. */
  lemma GoToImageShows(s: Series, k: nat)
    requires k < ImageCount(s)
    ensures CurrentImageId(GoToImage(s, k as real).series) == Some(s.imageIds[k])
    ensures GoToImage(GoToImage(s, k as real).series, k as real) == Moved(GoToImage(s, k as real).series, Quiet)
  {
    assert (k as real).Floor == k;
  }

  // ---------------------------------------------------------------------
  // Instances and qualities

  /** The instance part of an image id: what comes before its first ':'. */
  function InstanceIdOf(imageId: string): string {
    Split(imageId, ':')[0]
  }

  function InstanceIds(imageIds: seq<string>): (r: seq<string>)
    ensures |r| == |imageIds|
    ensures forall i :: 0 <= i < |r| ==> r[i] == InstanceIdOf(imageIds[i])
  {
    seq(|imageIds|, i requires 0 <= i < |imageIds| => InstanceIdOf(imageIds[i]))
  }

  /** Each run of equal neighbours kept once, the runs in order. */
  function Collapse(xs: seq<string>): (r: seq<string>)
  {
    if |xs| == 0 then []
    else if |xs| >= 2 && xs[|xs| - 1] == xs[|xs| - 2] then Collapse(xs[..|xs| - 1])
    else Collapse(xs[..|xs| - 1]) + [xs[|xs| - 1]]
  }

  /** `listInstanceIds`: the instance ids of the images, a repeated
      instance listed once per run. */
  method ListInstanceIds(s: Series) returns (ids: seq<string>)
    ensures ids == Collapse(InstanceIds(s.imageIds))
  {
    var all := InstanceIds(s.imageIds);
    ids := [];
    var previous: Option<string> := None;
    for i := 0 to |s.imageIds|
      invariant ids == Collapse(all[..i])
      invariant previous == if i == 0 then None else Some(all[i - 1])
    {
      var instanceId := InstanceIdOf(s.imageIds[i]);
      CollapseStep(all, i);
      if previous != Some(instanceId) {
        ids := ids + [instanceId];
      }
      previous := Some(instanceId);
    }
    assert all[..|s.imageIds|] == all;
  }

  /** One more element either repeats the last one and is dropped, or is
      appended. */
  lemma CollapseStep(xs: seq<string>, i: nat)
    requires i < |xs|
    ensures Collapse(xs[..i + 1]) ==
            if i >= 1 && xs[i] == xs[i - 1] then Collapse(xs[..i]) else Collapse(xs[..i]) + [xs[i]]
  {
    assert xs[..i + 1][..i] == xs[..i];
  }

  /** `hasQuality`: some quality of the series has that code. */
  function HasQuality(s: Series, quality: int): (b: bool)
    ensures b <==> exists name :: name in s.qualities && s.qualities[name] == quality
  {
    quality in s.qualities.Values
  }

  /** No two neighbours of `xs` are equal. */
  ghost predicate NoRepeats(xs: seq<string>) {
    forall i, j :: 0 <= i < j < |xs| && j == i + 1 ==> xs[i] != xs[j]
  }

  /** No two neighbours of a collapsed list are equal. */
  lemma {:induction false} CollapseNoRepeats(xs: seq<string>)
    ensures NoRepeats(Collapse(xs))
    ensures |xs| > 0 ==> |Collapse(xs)| > 0 && Collapse(xs)[|Collapse(xs)| - 1] == xs[|xs| - 1]
    decreases |xs|
  {
    if |xs| > 0 {
      var init := xs[..|xs| - 1];
      CollapseNoRepeats(init);
    }
  }

  /** Collapsing loses no value and adds none. */
  lemma {:induction false} CollapseSameValues(xs: seq<string>)
    ensures forall x :: x in Collapse(xs) <==> x in xs
    decreases |xs|
  {
    if |xs| > 0 {
      var init := xs[..|xs| - 1];
      CollapseSameValues(init);
      assert xs == init + [xs[|xs| - 1]];
      if |xs| >= 2 && xs[|xs| - 1] == xs[|xs| - 2] {
        assert xs[|xs| - 1] == init[|init| - 1];
      }
    }
  }

  /** A list without equal neighbours collapses to itself. */
  lemma {:induction false} CollapseFixed(xs: seq<string>)
    requires NoRepeats(xs)
    ensures Collapse(xs) == xs
    decreases |xs|
  {
    if |xs| > 0 {
      var init := xs[..|xs| - 1];
      var last := xs[|xs| - 1];
      assert NoRepeats(init) by {
        forall i, j | 0 <= i < j < |init| && j == i + 1 ensures init[i] != init[j] {
          assert init[i] == xs[i] && init[j] == xs[j];
        }
      }
      CollapseFixed(init);
      if |xs| >= 2 {
        assert xs[|xs| - 2] != last;
        assert Collapse(xs) == Collapse(init) + [last];
      }
      assert xs == init + [last];
    }
  }

  /** `n` copies of `id`. */
  function Repeat(id: string, n: nat): (r: seq<string>)
    ensures |r| == n && forall k :: 0 <= k < n ==> r[k] == id
  {
    seq(n, _ => id)
  }

  /** A run of one value behind a list ending elsewhere adds that value
      once. */
  lemma {:induction false} CollapseRun(prefix: seq<string>, id: string, n: nat)
    requires n >= 1
    requires |prefix| > 0 ==> prefix[|prefix| - 1] != id
    ensures Collapse(prefix + Repeat(id, n)) == Collapse(prefix) + [id]
    decreases n
  {
    var xs := prefix + Repeat(id, n);
    if n == 1 {
      assert xs[..|xs| - 1] == prefix;
    } else {
      assert xs[..|xs| - 1] == prefix + Repeat(id, n - 1);
      CollapseRun(prefix, id, n - 1);
    }
  }

  /** The instance ids of an instance's frames repeat that instance. */
  lemma FrameInstanceIds(instance: SeriesAdapter.OrthancInstance)
    requires ':' !in instance.id
    ensures InstanceIds(SeriesAdapter.FrameIds(instance)) == Repeat(instance.id, instance.frameCount)
  {
    var frames := SeriesAdapter.FrameIds(instance);
    forall k | 0 <= k < instance.frameCount ensures InstanceIdOf(frames[k]) == instance.id {
      SeriesAdapter.IndexedRoundTrip(instance.id, k);
    }
  }

  /** The images of the adapter's series list, in order, read back as the
      ids of their instances, as long as the ids are colon-free, no
      instance is empty and no instance follows one with the same id. */
  ghost predicate ListableInstances(instances: seq<SeriesAdapter.OrthancInstance>) {
    (forall i :: 0 <= i < |instances| ==> ':' !in instances[i].id && instances[i].frameCount >= 1) &&
    NoRepeats(IdsOf(instances))
  }

  function IdsOf(instances: seq<SeriesAdapter.OrthancInstance>): (r: seq<string>)
    ensures |r| == |instances|
    ensures forall i :: 0 <= i < |r| ==> r[i] == instances[i].id
  {
    seq(|instances|, i requires 0 <= i < |instances| => instances[i].id)
  }

  /** The flattened frames of some instances, mapped back to instance ids. */
  function FlatInstanceIds(instances: seq<SeriesAdapter.OrthancInstance>): seq<string> {
    InstanceIds(SeriesAdapter.Flatten(SeriesAdapter.ImageIdsByInstance(instances)))
  }

  lemma {:induction false} FlattenSnoc(groups: seq<seq<string>>, last: seq<string>)
    ensures SeriesAdapter.Flatten(groups + [last]) == SeriesAdapter.Flatten(groups) + last
    decreases |groups|
  {
    if |groups| > 0 {
      assert (groups + [last])[1..] == groups[1..] + [last];
      FlattenSnoc(groups[1..], last);
    }
  }

  /** Adding an instance adds its repeated id behind the others. */
  lemma FlatInstanceIdsSnoc(instances: seq<SeriesAdapter.OrthancInstance>)
    requires |instances| > 0 && ':' !in instances[|instances| - 1].id
    ensures var last := instances[|instances| - 1];
            FlatInstanceIds(instances) ==
            FlatInstanceIds(instances[..|instances| - 1]) + Repeat(last.id, last.frameCount)
  {
    var init := instances[..|instances| - 1];
    var last := instances[|instances| - 1];
    var groups := SeriesAdapter.ImageIdsByInstance(init);
    assert SeriesAdapter.ImageIdsByInstance(instances) == groups + [SeriesAdapter.FrameIds(last)];
    FlattenSnoc(groups, SeriesAdapter.FrameIds(last));
    var flat := SeriesAdapter.Flatten(groups);
    var frames := SeriesAdapter.FrameIds(last);
    assert InstanceIds(flat + frames) == InstanceIds(flat) + InstanceIds(frames);
    FrameInstanceIds(last);
  }

  /** The frames of `instances`, mapped back to instance ids and collapsed,
      are the instances' ids, and the last frame belongs to the last
      instance. */
  ghost predicate ReadsBack(instances: seq<SeriesAdapter.OrthancInstance>) {
    Collapse(FlatInstanceIds(instances)) == IdsOf(instances) &&
    (|instances| > 0 ==>
       (|FlatInstanceIds(instances)| > 0 &&
        FlatInstanceIds(instances)[|FlatInstanceIds(instances)| - 1] == instances[|instances| - 1].id))
  }

  /** `listInstanceIds` of the flattened series gives back the instances. */
  lemma {:induction false} ListInstancesRoundTrip(instances: seq<SeriesAdapter.OrthancInstance>)
    requires ListableInstances(instances)
    ensures ReadsBack(instances)
    decreases |instances|
  {
    if |instances| == 0 {
      FlatInstanceIdsEmpty(instances);
    } else {
      ListableInit(instances);
      ListInstancesRoundTrip(instances[..|instances| - 1]);
      RoundTripStep(instances);
    }
  }

  lemma FlatInstanceIdsEmpty(instances: seq<SeriesAdapter.OrthancInstance>)
    requires |instances| == 0
    ensures FlatInstanceIds(instances) == [] && ReadsBack(instances)
  {
    assert SeriesAdapter.ImageIdsByInstance(instances) == [];
  }

  /** The step of `ListInstancesRoundTrip`: what holds of all instances
      but the last holds of all of them. */
  lemma RoundTripStep(instances: seq<SeriesAdapter.OrthancInstance>)
    requires |instances| > 0 && ListableInstances(instances)
    requires ReadsBack(instances[..|instances| - 1])
    ensures ReadsBack(instances)
  {
    var init := instances[..|instances| - 1];
    var last := instances[|instances| - 1];
    FlatInstanceIdsSnoc(instances);
    var before := FlatInstanceIds(init);
    if |init| == 0 {
      FlatInstanceIdsEmpty(init);
    } else {
      assert IdsOf(instances)[|init| - 1] != IdsOf(instances)[|init|];
    }
    RunStep(before, IdsOf(init), last.id, last.frameCount);
    IdsOfSnoc(instances);
  }

  /** Dropping the last instance keeps the rest listable. */
  lemma ListableInit(instances: seq<SeriesAdapter.OrthancInstance>)
    requires |instances| > 0 && ListableInstances(instances)
    ensures ListableInstances(instances[..|instances| - 1])
  {
    var init := instances[..|instances| - 1];
    assert forall i :: 0 <= i < |init| ==> init[i] == instances[i];
    var ids := IdsOf(instances);
    forall i, j | 0 <= i < j < |init| && j == i + 1 ensures IdsOf(init)[i] != IdsOf(init)[j] {
      assert ids[i] != ids[j];
    }
  }

  lemma IdsOfSnoc(instances: seq<SeriesAdapter.OrthancInstance>)
    requires |instances| > 0
    ensures IdsOf(instances) == IdsOf(instances[..|instances| - 1]) + [instances[|instances| - 1].id]
  {
  }

  /** A run of a new id behind a list that collapses to `ids` collapses to
      `ids` and that id, and ends with it. */
  lemma RunStep(before: seq<string>, ids: seq<string>, id: string, n: nat)
    requires n >= 1 && Collapse(before) == ids
    requires |before| > 0 ==> before[|before| - 1] != id
    ensures Collapse(before + Repeat(id, n)) == ids + [id]
    ensures |before + Repeat(id, n)| > 0 && (before + Repeat(id, n))[|before| + n - 1] == id
  {
    CollapseRun(before, id, n);
  }

  /** The adapter's series read back, through `listInstanceIds`, as the
      instances they came from: all of them for a single-frame series, one
      each otherwise. */
  lemma AdaptedInstances(series: SeriesAdapter.OrthancSeries, studyId: string)
    requires ListableInstances(series.instances)
    requires SeriesAdapter.Process(series, studyId).Ok?
    ensures var made := SeriesAdapter.Process(series, studyId).value;
            SeriesAdapter.AllSingleFrame(series.instances) ==>
              |made| == 1 && Collapse(InstanceIds(made[0].imageIds)) == IdsOf(series.instances)
    ensures var made := SeriesAdapter.Process(series, studyId).value;
            !SeriesAdapter.AllSingleFrame(series.instances) ==>
              |made| == |series.instances| &&
              forall k :: 0 <= k < |made| ==> Collapse(InstanceIds(made[k].imageIds)) == [series.instances[k].id]
  {
    var made := SeriesAdapter.Process(series, studyId).value;
    SeriesAdapter.SingleFrameIff(series.instances);
    if SeriesAdapter.AllSingleFrame(series.instances) {
      ListInstancesRoundTrip(series.instances);
    } else {
      SeriesAdapter.MultiFrameSeries(series, studyId);
      forall k | 0 <= k < |made| ensures Collapse(InstanceIds(made[k].imageIds)) == [series.instances[k].id] {
        var instance := series.instances[k];
        FrameInstanceIds(instance);
        CollapseRun([], instance.id, instance.frameCount);
        assert [] + Repeat(instance.id, instance.frameCount) == Repeat(instance.id, instance.frameCount);
      }
    }
  }
}

=== FILE: sorting.dfy ===
/** Insertion sort over an arbitrary total preorder. It stands for the
    `std::sort`, `std::map` iteration and `_.sortBy` orderings of the source;
    each user states which of the properties proved here it relies on. */
module Sorting {

  /** `le` is total and transitive, i.e. a total preorder. */
  ghost predicate TotalPreorder<T(!new)>(le: (T, T) -> bool) {
    (forall a, b :: le(a, b) || le(b, a)) &&
    (forall a, b, c :: le(a, b) && le(b, c) ==> le(a, c))
  }

  predicate Sorted<T>(s: seq<T>, le: (T, T) -> bool) {
    forall i, j :: 0 <= i < j < |s| ==> le(s[i], s[j])
  }

  /** Insert `x` before the first element it does not exceed. */
  function Insert<T(!new)>(x: T, s: seq<T>, le: (T, T) -> bool): (r: seq<T>)
    requires TotalPreorder(le) && Sorted(s, le)
    ensures Sorted(r, le)
    ensures multiset(r) == multiset(s) + multiset{x}
    ensures |r| == |s| + 1 && (r[0] == x || (|s| > 0 && r[0] == s[0]))
    decreases |s|
  {
    if |s| == 0 then [x]
    else if le(x, s[0]) then
      SortedCons(x, s, le);
      [x] + s
    else
      var t := Insert(x, s[1..], le);
      assert s == [s[0]] + s[1..];
      assert le(s[0], t[0]) by {
        if t[0] != x {
          assert t[0] == s[1];
        }
      }
      SortedCons(s[0], t, le);
      [s[0]] + t
  }

  /** A sorted sequence stays sorted under a head no greater than its
      first element. */
  lemma SortedCons<T(!new)>(x: T, s: seq<T>, le: (T, T) -> bool)
    requires TotalPreorder(le) && Sorted(s, le) && (|s| > 0 ==> le(x, s[0]))
    ensures Sorted([x] + s, le)
  {
    var r := [x] + s;
    forall i, j | 0 <= i < j < |r| ensures le(r[i], r[j]) {
      if i == 0 {
        if j > 1 {
          assert le(s[0], s[j - 1]);
        }
      } else {
        assert r[i] == s[i - 1] && r[j] == s[j - 1];
      }
    }
  }

  /** Sorts `s`; equal elements keep their relative order (see `SortStable`). */
  function Sort<T(!new)>(s: seq<T>, le: (T, T) -> bool): (r: seq<T>)
    requires TotalPreorder(le)
    ensures Sorted(r, le)
    ensures multiset(r) == multiset(s)
    decreases |s|
  {
    if |s| == 0 then []
    else
      assert s == [s[0]] + s[1..];
      Insert(s[0], Sort(s[1..], le), le)
  }

  /** The elements of `s` whose key is `k`, in order. */
  function WithKey<T>(s: seq<T>, key: T -> int, k: int): (r: seq<T>)
    ensures forall i :: 0 <= i < |r| ==> key(r[i]) == k
    ensures |r| <= |s|
  {
    if |s| == 0 then []
    else if key(s[0]) == k then [s[0]] + WithKey(s[1..], key, k)
    else WithKey(s[1..], key, k)
  }

  lemma {:induction false} InsertWithKey<T(!new)>(x: T, s: seq<T>, key: T -> int, le: (T, T) -> bool, k: int)
    requires forall a, b :: le(a, b) == (key(a) <= key(b))
    requires TotalPreorder(le) && Sorted(s, le)
    ensures WithKey(Insert(x, s, le), key, k) ==
            (if key(x) == k then [x] + WithKey(s, key, k) else WithKey(s, key, k))
    decreases |s|
  {
    if |s| == 0 {
    } else if le(x, s[0]) {
      assert Insert(x, s, le) == [x] + s;
      assert ([x] + s)[1..] == s;
    } else {
      var t := Insert(x, s[1..], le);
      assert Insert(x, s, le) == [s[0]] + t;
      assert ([s[0]] + t)[1..] == t;
      InsertWithKey(x, s[1..], key, le, k);
      if key(x) == k {
        assert key(s[0]) < k;
      }
    }
  }

  /** Sorting by a key is stable: the elements sharing a key come out in
      the order they went in. */
  lemma {:induction false} SortStable<T(!new)>(s: seq<T>, key: T -> int, le: (T, T) -> bool, k: int)
    requires forall a, b :: le(a, b) == (key(a) <= key(b))
    requires TotalPreorder(le)
    ensures WithKey(Sort(s, le), key, k) == WithKey(s, key, k)
    decreases |s|
  {
    if |s| > 0 {
      SortStable(s[1..], key, le, k);
      InsertWithKey(s[0], Sort(s[1..], le), key, le, k);
    }
  }
}

=== FILE: study.dfy ===
/** A study as the viewer navigates it (frontend/src/app/study/study.class.js):
    its series, video and report ids, and the colour that tells studies
    apart. Loading related studies and formatting dates go through
    promises and are left out.

    `getNextItemId` and `getPreviousItemId` walk the three lists in the
    order series, video, report and round again. Their `while (!_itemId)`
    loop never ends when every list is empty, or when it lands on an empty
    id (it reads the same slot again); that outcome is `Loops`. */
module Study {
  import opened Wrappers
  import opened Text

  datatype Kind = SeriesKind | VideoKind | ReportKind

  datatype Study = Study(id: string, seriesIds: seq<string>, videoIds: seq<string>,
                         reportIds: seq<string>, color: string)

  /** What a navigation call gives back: an item and its kind, the thrown
      "not found in the study" error, or a loop that never returns. */
  datatype Pick = Item(itemId: string, kind: Kind) | NotInStudy | Loops

  const GRAY := "gray"

  function NewStudy(id: string, seriesIds: seq<string>, pdfInstanceIds: seq<string>, videoIds: seq<string>): (s: Study)
    ensures !HasColor(s)
  {
    Study(id, seriesIds, videoIds, pdfInstanceIds, GRAY)
  }

  /** `setColor`: an undefined or empty colour falls back to gray. */
  function SetColor(s: Study, color: Option<string>): (r: Study)
    ensures r.(color := s.color) == s
  {
    s.(color := if Truthy(color) then color.value else GRAY)
  }

  /** `hasColor`: the colour is not the default one. */
  predicate HasColor(s: Study) {
    s.color != GRAY
  }

  function List(s: Study, k: Kind): seq<string> {
    match k
    case SeriesKind => s.seriesIds
    case VideoKind => s.videoIds
    case ReportKind => s.reportIds
  }

  /** The kind visited after `k`, in both directions of navigation. */
  function Following(k: Kind): Kind {
    match k
    case SeriesKind => VideoKind
    case VideoKind => ReportKind
    case ReportKind => SeriesKind
  }

  /** `indexOf`: the first position of `id`, if any. */
  function Find(ids: seq<string>, id: string): (r: Option<nat>)
    ensures r.None? <==> id !in ids
    ensures r.Some? ==> r.value < |ids| && ids[r.value] == id && id !in ids[..r.value]
  {
    if |ids| == 0 then None
    else if ids[0] == id then Some(0)
    else
      match Find(ids[1..], id)
      case None => None
      case Some(i) =>
        assert ids[..i + 1] == [ids[0]] + ids[1..][..i];
        Some(i + 1)
  }

  /** The item a slot holds; an empty id makes the loop read it forever. */
  function Take(ids: seq<string>, index: nat, k: Kind): (r: Pick)
    requires index < |ids|
    ensures r.Item? ==> r == Item(ids[index], k) && ids[index] != ""
    ensures r.Loops? <==> ids[index] == ""
  {
    if ids[index] != "" then Item(ids[index], k) else Loops
  }

  /** The loop of `getNextItemId` from slot `index` of kind `k`: past the
      end of a list it moves to slot 0 of the following kind. Three moves
      bring it back to slot 0 of a kind it has already seen empty, after
      which it would cycle for ever. */
  function NextScan(s: Study, k: Kind, index: nat, moves: nat): (r: Pick)
    ensures r.Item? ==> r.itemId in List(s, r.kind) && r.itemId != ""
    ensures !r.NotInStudy?
    decreases moves
  {
    if index < |List(s, k)| then Take(List(s, k), index, k)
    else if moves == 0 then Loops
    else NextScan(s, Following(k), 0, moves - 1)
  }

  /** The loop of `getPreviousItemId`: past either end of a list it moves
      to the last slot of the following kind. */
  function PreviousScan(s: Study, k: Kind, index: int, moves: nat): (r: Pick)
    ensures r.Item? ==> r.itemId in List(s, r.kind) && r.itemId != ""
    ensures !r.NotInStudy?
    decreases moves
  {
    if 0 <= index < |List(s, k)| then Take(List(s, k), index, k)
    else if moves == 0 then Loops
    else PreviousScan(s, Following(k), |List(s, Following(k))| - 1, moves - 1)
  }

  /** The kind and the first position of an id, looking in the series,
      then the videos, then the reports. */
  function Locate(s: Study, id: string): (r: Option<(Kind, nat)>)
    ensures r.None? <==> id !in s.seriesIds && id !in s.videoIds && id !in s.reportIds
    ensures r.Some? ==> r.value.1 < |List(s, r.value.0)| && List(s, r.value.0)[r.value.1] == id
  {
    match Find(s.seriesIds, id)
    case Some(i) => Some((SeriesKind, i))
    case None =>
      match Find(s.videoIds, id)
      case Some(i) => Some((VideoKind, i))
      case None =>
        match Find(s.reportIds, id)
        case Some(i) => Some((ReportKind, i))
        case None => None
  }

  /** `getNextItemId`: the item after `itemId`, or the first item when no
      id is given. */
  function NextItem(s: Study, itemId: Option<string>): (r: Pick)
    ensures r.NotInStudy? <==> Truthy(itemId) && Locate(s, itemId.value).None?
    ensures r.Item? ==> r.itemId in List(s, r.kind) && r.itemId != ""
  {
    if !Truthy(itemId) then NextScan(s, SeriesKind, 0, 3)
    else
      match Locate(s, itemId.value)
      case None => NotInStudy
      case Some((k, i)) =>
        if i + 1 >= |List(s, k)| then NextScan(s, Following(k), 0, 3)
        else NextScan(s, k, i + 1, 3)
  }

  /** `getPreviousItemId`: the item before `itemId`, or the first series
      when no id is given. Leaving the front of a list starts the
      following kind at slot 0, while the loop itself starts it at the
      last slot. */
  function PreviousItem(s: Study, itemId: Option<string>): (r: Pick)
    ensures r.NotInStudy? <==> Truthy(itemId) && Locate(s, itemId.value).None?
    ensures r.Item? ==> r.itemId in List(s, r.kind) && r.itemId != ""
  {
    if !Truthy(itemId) then PreviousScan(s, SeriesKind, 0, 3)
    else
      match Locate(s, itemId.value)
      case None => NotInStudy
      case Some((k, i)) =>
        if i - 1 < 0 then PreviousScan(s, Following(k), 0, 3)
        else PreviousScan(s, k, i - 1, 3)
  }

  // ---------------------------------------------------------------------
  // Properties

  /** Every id of the study is known once, and none is empty. */
  ghost predicate WellKeyed(s: Study) {
    var all := s.seriesIds + s.videoIds + s.reportIds;
    "" !in all && forall i, j :: 0 <= i < j < |all| ==> all[i] != all[j]
  }

  predicate AllEmpty(s: Study) {
    |s.seriesIds| == 0 && |s.videoIds| == 0 && |s.reportIds| == 0
  }

  /** The first non-empty list's first item, in the order series, video,
      report. */
  function First(s: Study): Option<(Kind, string)> {
    if |s.seriesIds| > 0 then Some((SeriesKind, s.seriesIds[0]))
    else if |s.videoIds| > 0 then Some((VideoKind, s.videoIds[0]))
    else if |s.reportIds| > 0 then Some((ReportKind, s.reportIds[0]))
    else None
  }

  /** A colour is shown exactly when a non-empty colour other than gray was
      set; no colour or the empty one resets to gray. */
  lemma ColorIff(s: Study, color: Option<string>)
    ensures HasColor(SetColor(s, color)) <==> Truthy(color) && color.value != GRAY
    ensures !Truthy(color) ==> SetColor(s, color).color == GRAY
  {
  }

  /** Without an id, `next` gives the first item in the order series, video,
      report; with every list empty it never returns. */
  lemma NextFromNothing(s: Study)
    ensures First(s).None? <==> NextItem(s, None) == Loops && AllEmpty(s)
    ensures First(s).Some? && First(s).value.1 != "" ==>
              NextItem(s, None) == Item(First(s).value.1, First(s).value.0)
    ensures NextItem(s, Some("")) == NextItem(s, None)
  {
  }

  /** In a well-keyed study with some item, neither direction loops, and
      an id of the study is found. */
  lemma NeverLoops(s: Study, itemId: Option<string>)
    requires WellKeyed(s) && !AllEmpty(s)
    ensures NextItem(s, itemId) != Loops
    ensures PreviousItem(s, itemId) != Loops
  {
    var all := s.seriesIds + s.videoIds + s.reportIds;
    forall k: Kind, i: nat | i < |List(s, k)| ensures List(s, k)[i] != "" {
      assert List(s, k)[i] in all;
    }
    NextScanFinds(s, SeriesKind, 0);
    PreviousScanFinds(s, SeriesKind, 0);
    forall k: Kind ensures NextScan(s, Following(k), 0, 3) != Loops {
      NextScanFinds(s, Following(k), 0);
    }
    forall k: Kind ensures PreviousScan(s, Following(k), 0, 3) != Loops {
      PreviousScanFinds(s, Following(k), 0);
    }
    forall k: Kind, i: nat ensures NextScan(s, k, i, 3) != Loops {
      NextScanFinds(s, k, i);
    }
    forall k: Kind, i: int ensures PreviousScan(s, k, i, 3) != Loops {
      PreviousScanFinds(s, k, i);
    }
  }

  /** Three moves reach every kind, so a scan only loops on an empty slot
      or when every list is empty. */
  lemma NextScanFinds(s: Study, k: Kind, index: nat)
    requires !AllEmpty(s)
    requires forall k': Kind, i: nat :: i < |List(s, k')| ==> List(s, k')[i] != ""
    ensures NextScan(s, k, index, 3) != Loops
  {
    var k1 := Following(k);
    var k2 := Following(k1);
    if index >= |List(s, k)| && |List(s, k1)| == 0 && |List(s, k2)| == 0 {
      assert |List(s, k)| > 0 by {
        assert Following(k2) == k;
      }
    }
  }

  lemma PreviousScanFinds(s: Study, k: Kind, index: int)
    requires !AllEmpty(s)
    requires forall k': Kind, i: nat :: i < |List(s, k')| ==> List(s, k')[i] != ""
    ensures PreviousScan(s, k, index, 3) != Loops
  {
    var k1 := Following(k);
    var k2 := Following(k1);
    if !(0 <= index < |List(s, k)|) && |List(s, k1)| == 0 && |List(s, k2)| == 0 {
      assert |List(s, k)| > 0 by {
        assert Following(k2) == k;
      }
    }
  }

  /** Inside one list of a well-keyed study, `next` and `previous` step to
      the neighbouring slot and undo each other. */
  lemma NextPreviousWithinList(s: Study, k: Kind, i: nat)
    requires WellKeyed(s) && i + 1 < |List(s, k)|
    ensures NextItem(s, Some(List(s, k)[i])) == Item(List(s, k)[i + 1], k)
    ensures PreviousItem(s, Some(List(s, k)[i + 1])) == Item(List(s, k)[i], k)
  {
    LocateWellKeyed(s, k, i);
    LocateWellKeyed(s, k, i + 1);
    assert List(s, k)[i + 1] in List(s, k);
    assert List(s, k)[i] in List(s, k);
    WellKeyedNonEmpty(s, k, i);
    WellKeyedNonEmpty(s, k, i + 1);
  }

  lemma WellKeyedNonEmpty(s: Study, k: Kind, i: nat)
    requires WellKeyed(s) && i < |List(s, k)|
    ensures List(s, k)[i] != ""
  {
    var all := s.seriesIds + s.videoIds + s.reportIds;
    assert List(s, k)[i] in all;
  }

  /** In a well-keyed study an id is found where it is. */
  lemma LocateWellKeyed(s: Study, k: Kind, i: nat)
    requires WellKeyed(s) && i < |List(s, k)|
    ensures Locate(s, List(s, k)[i]) == Some((k, i))
  {
    var all := s.seriesIds + s.videoIds + s.reportIds;
    var ns, nv := |s.seriesIds|, |s.videoIds|;
    var offset := match k case SeriesKind => 0 case VideoKind => ns case ReportKind => ns + nv;
    var id := List(s, k)[i];
    assert all[offset + i] == id;
    forall j | 0 <= j < |all| && j != offset + i ensures all[j] != id {
      if j < offset + i {
        assert all[j] != all[offset + i];
      } else {
        assert all[offset + i] != all[j];
      }
    }
    forall j | 0 <= j < ns && (k != SeriesKind || j != i) ensures s.seriesIds[j] != id {
      assert all[j] == s.seriesIds[j];
    }
    forall j | 0 <= j < nv && (k != VideoKind || j != i) ensures s.videoIds[j] != id {
      assert all[ns + j] == s.videoIds[j];
    }
    forall j | 0 <= j < |s.reportIds| && (k != ReportKind || j != i) ensures s.reportIds[j] != id {
      assert all[ns + nv + j] == s.reportIds[j];
    }
  }

  /** After the last series comes the first video, and with no video the
      first report. */
  lemma AfterLastSeries(s: Study)
    requires WellKeyed(s) && |s.seriesIds| > 0
    ensures var last := s.seriesIds[|s.seriesIds| - 1];
            (|s.videoIds| > 0 ==> NextItem(s, Some(last)) == Item(s.videoIds[0], VideoKind)) &&
            (|s.videoIds| == 0 && |s.reportIds| > 0 ==> NextItem(s, Some(last)) == Item(s.reportIds[0], ReportKind)) &&
            (|s.videoIds| == 0 && |s.reportIds| == 0 ==> NextItem(s, Some(last)) == Item(s.seriesIds[0], SeriesKind))
  {
    LocateWellKeyed(s, SeriesKind, |s.seriesIds| - 1);
    WellKeyedNonEmpty(s, SeriesKind, |s.seriesIds| - 1);
    WellKeyedNonEmpty(s, SeriesKind, 0);
    if |s.videoIds| > 0 {
      WellKeyedNonEmpty(s, VideoKind, 0);
    }
    if |s.reportIds| > 0 {
      WellKeyedNonEmpty(s, ReportKind, 0);
    }
  }

  /** Before the first series comes video 0 (the first video, not the last
      one), and with no video the last report. */
  lemma BeforeFirstSeries(s: Study)
    requires WellKeyed(s) && |s.seriesIds| > 0
    ensures |s.videoIds| > 0 ==> PreviousItem(s, Some(s.seriesIds[0])) == Item(s.videoIds[0], VideoKind)
    ensures |s.videoIds| == 0 && |s.reportIds| > 0 ==>
              PreviousItem(s, Some(s.seriesIds[0])) == Item(s.reportIds[|s.reportIds| - 1], ReportKind)
  {
    LocateWellKeyed(s, SeriesKind, 0);
    WellKeyedNonEmpty(s, SeriesKind, 0);
    if |s.videoIds| > 0 {
      WellKeyedNonEmpty(s, VideoKind, 0);
    }
    if |s.reportIds| > 0 {
      WellKeyedNonEmpty(s, ReportKind, |s.reportIds| - 1);
    }
  }
}

=== FILE: study_controller.dfy ===
/** The study route of the backend (backend/WebViewerLibrary/Study/StudyController.cpp):
    parsing `<study>` and `<study>/annotations`, and the order in which a
    study's series are listed. The study, its series and the stored
    display order are read from Orthanc and are parameters here. */
module StudyController {
  import opened Wrappers
  import opened Text
  import opened Sorting
  import opened Sequences

  datatype Request = StudyInfo(studyId: string) | Annotations(studyId: string)

  /** A badly formed postfix is answered with HTTP 404. */
  datatype RouteError = NotFound

  /** The postfix a request is reached by. */
  function Postfix(request: Request): string {
    match request
    case StudyInfo(id) => id
    case Annotations(id) => id + "/annotations"
  }

  /** `_ParseURLPostFix`: `^([^/]+)/annotations$` marks an annotation
      request, `^([^/]+)$` a study request; anything else is not found. */
  function ParseUrlPostfix(postfix: string): (r: Result<Request, RouteError>)
    ensures r.Ok? ==> Postfix(r.value) == postfix && r.value.studyId != "" && '/' !in r.value.studyId
  {
    var parts := Split(postfix, '/');
    if |parts| == 2 && parts[0] != "" && parts[1] == "annotations" then
      assert Join(parts[1..], '/') == parts[1];
      Ok(Annotations(parts[0]))
    else if |parts| == 1 && parts[0] != "" then Ok(StudyInfo(parts[0]))
    else Err(NotFound)
  }

  /** Every study id without a slash is reached by both of its routes. */
  lemma RouteRoundTrip(request: Request)
    requires request.studyId != "" && '/' !in request.studyId
    ensures ParseUrlPostfix(Postfix(request)) == Ok(request)
  {
    var id := request.studyId;
    match request
    case StudyInfo(_) =>
      SplitJoin([id], '/');
    case Annotations(_) =>
      assert Join([id, "annotations"], '/') == id + "/annotations" by {
        assert Join([id, "annotations"][1..], '/') == "annotations";
      }
      SplitJoin([id, "annotations"], '/');
  }

  // ---------------------------------------------------------------------
  // Series order

  /** One entry of `/studies/<id>/series?expand=true`: its id and its
      SeriesNumber, when that tag holds an integer. */
  datatype SeriesInfo = SeriesInfo(id: string, seriesNumber: Option<int>)

  /** The different series numbers, in the order they are first met. */
  function Numbers(series: seq<SeriesInfo>): (r: seq<int>)
    ensures forall n :: n in r <==> exists i :: 0 <= i < |series| && series[i].seriesNumber == Some(n)
    ensures forall n :: multiset(r)[n] <= 1
    decreases |series|
  {
    if |series| == 0 then []
    else
      var init := Numbers(series[..|series| - 1]);
      var last := series[|series| - 1];
      assert forall i :: 0 <= i < |series| - 1 ==> series[..|series| - 1][i] == series[i];
      if last.seriesNumber.None? || last.seriesNumber.value in init then init
      else init + [last.seriesNumber.value]
  }

  /** The entries whose number is `n`, in input order. */
  function WithNumber(series: seq<SeriesInfo>, n: int): (r: seq<SeriesInfo>)
    ensures forall x :: x in r <==> x in series && x.seriesNumber == Some(n)
    decreases |series|
  {
    if |series| == 0 then []
    else
      assert series == [series[0]] + series[1..];
      (if series[0].seriesNumber == Some(n) then [series[0]] else []) + WithNumber(series[1..], n)
  }

  /** The groups of the given numbers, one after the other. */
  function Groups(series: seq<SeriesInfo>, numbers: seq<int>): (r: seq<SeriesInfo>)
    ensures forall x :: x in r <==> x in series && x.seriesNumber.Some? && x.seriesNumber.value in numbers
    decreases |numbers|
  {
    if |numbers| == 0 then []
    else WithNumber(series, numbers[0]) + Groups(series, numbers[1..])
  }

  function IntLe(): (T: (int, int) -> bool) {
    (a: int, b: int) => a <= b
  }

  function Ids(series: seq<SeriesInfo>): (r: seq<string>)
    ensures |r| == |series|
    ensures forall i :: 0 <= i < |r| ==> r[i] == series[i].id
  {
    seq(|series|, i requires 0 <= i < |series| => series[i].id)
  }

  /** The numbered series: by ascending SeriesNumber, a number's series in
      input order (the vectors of the `std::map` walked in sorted key
      order). */
  function ByNumber(series: seq<SeriesInfo>): (r: seq<SeriesInfo>)
    ensures forall x :: x in r <==> x in series && x.seriesNumber.Some?
  {
    var numbers := Sort(Numbers(series), IntLe());
    SortedNumbers(series, numbers);
    Groups(series, numbers)
  }

  /** Sorting keeps the numbers met. */
  lemma SortedNumbers(series: seq<SeriesInfo>, numbers: seq<int>)
    requires numbers == Sort(Numbers(series), IntLe())
    ensures forall x :: x in series && x.seriesNumber.Some? ==> x.seriesNumber.value in numbers
  {
    forall x | x in series && x.seriesNumber.Some? ensures x.seriesNumber.value in numbers {
      var i :| 0 <= i < |series| && series[i] == x;
      assert x.seriesNumber.value in Numbers(series);
      assert x.seriesNumber.value in multiset(Numbers(series));
    }
  }

  // ---------------------------------------------------------------------
  // String order and the remaining series

  /** `std::string`'s `<=`: a prefix comes first, otherwise the first
      differing character decides. */
  predicate StringLe(a: string, b: string)
    decreases |a|
  {
    if |a| == 0 then true
    else if |b| == 0 then false
    else if a[0] != b[0] then a[0] < b[0]
    else StringLe(a[1..], b[1..])
  }

  lemma {:induction false} StringLeTotal(a: string, b: string)
    ensures StringLe(a, b) || StringLe(b, a)
    decreases |a|
  {
    if |a| > 0 && |b| > 0 && a[0] == b[0] {
      StringLeTotal(a[1..], b[1..]);
    }
  }

  lemma {:induction false} StringLeTransitive(a: string, b: string, c: string)
    requires StringLe(a, b) && StringLe(b, c)
    ensures StringLe(a, c)
    decreases |a|
  {
    if |a| > 0 && |b| > 0 && |c| > 0 && a[0] == b[0] && b[0] == c[0] {
      StringLeTransitive(a[1..], b[1..], c[1..]);
    }
  }

  function StringOrder(): (T: (string, string) -> bool) {
    (a: string, b: string) => StringLe(a, b)
  }

  lemma StringOrderIsPreorder()
    ensures TotalPreorder(StringOrder())
  {
    forall a: string, b: string ensures StringLe(a, b) || StringLe(b, a) {
      StringLeTotal(a, b);
    }
    forall a: string, b: string, c: string | StringLe(a, b) && StringLe(b, c) ensures StringLe(a, c) {
      StringLeTransitive(a, b, c);
    }
  }

  /** The study series the order so far does not hold, in study order. */
  function Remaining(studySeries: seq<string>, order: seq<string>): (r: seq<string>)
    ensures forall x :: x in r <==> x in studySeries && x !in order
    ensures multiset(r) <= multiset(studySeries)
    decreases |studySeries|
  {
    if |studySeries| == 0 then []
    else
      assert studySeries == [studySeries[0]] + studySeries[1..];
      (if studySeries[0] !in order then [studySeries[0]] else []) + Remaining(studySeries[1..], order)
  }

  // ---------------------------------------------------------------------
  // The display order

  /** The series list `ProcessStudyInfoRequest` answers with: the stored
      display order completed with the study's other series when one is
      stored; otherwise the numbered series by number, then the others
      sorted by id. */
  function DisplayOrder(studySeries: seq<string>, expanded: seq<SeriesInfo>, stored: Option<seq<string>>): (r: seq<string>)
    ensures forall x :: x in studySeries ==> x in r
  {
    match stored
    case Some(order) => AppendMissing(order, studySeries)
    case None =>
      var numbered := Ids(ByNumber(expanded));
      StringOrderIsPreorder();
      var sorted := Sort(Remaining(studySeries, numbered), StringOrder());
      RemainingCovers(studySeries, numbered, sorted);
      numbered + sorted
  }

  /** The numbered series and a reordering of the remaining ones hold
      every study series. */
  lemma RemainingCovers(studySeries: seq<string>, numbered: seq<string>, sorted: seq<string>)
    requires multiset(sorted) == multiset(Remaining(studySeries, numbered))
    ensures forall x :: x in studySeries ==> x in numbered + sorted
  {
    forall x | x in studySeries ensures x in numbered + sorted {
      if x !in numbered {
        assert x in multiset(Remaining(studySeries, numbered));
        assert x in multiset(sorted);
      }
    }
  }

  /** A stored order comes first, untouched, followed by the study series
      it lacks, each once, in study order; nothing else is added. */
  lemma StoredOrderFirst(studySeries: seq<string>, expanded: seq<SeriesInfo>, order: seq<string>)
    ensures var r := DisplayOrder(studySeries, expanded, Some(order));
            r[..|order|] == order &&
            (forall x :: x in r <==> x in order || x in studySeries) &&
            UniqueFrom(r, |order|)
  {
    AppendMissingDistinct(order, studySeries);
  }

  /** Without a stored order, the output is the numbered series, ordered by
      number and keeping the input order within a number, then every
      other study series, each as often as the study lists it, sorted by
      id. */
  lemma NumberedThenSorted(studySeries: seq<string>, expanded: seq<SeriesInfo>)
    ensures var byNumber := ByNumber(expanded);
            var r := DisplayOrder(studySeries, expanded, None);
            var rest := r[|byNumber|..];
            |r| >= |byNumber| && r[..|byNumber|] == Ids(byNumber) &&
            (forall i, j :: 0 <= i < j < |byNumber| ==>
               byNumber[i].seriesNumber.value <= byNumber[j].seriesNumber.value) &&
            (forall n :: WithNumber(byNumber, n) == WithNumber(expanded, n)) &&
            Sorted(rest, StringOrder()) &&
            multiset(rest) == multiset(Remaining(studySeries, Ids(byNumber)))
  {
    var numbers := Sort(Numbers(expanded), IntLe());
    ByNumberAscending(expanded, numbers);
    forall n ensures WithNumber(ByNumber(expanded), n) == WithNumber(expanded, n) {
      ByNumberStable(expanded, n);
    }
    StringOrderIsPreorder();
    var byNumber := ByNumber(expanded);
    var sorted := Sort(Remaining(studySeries, Ids(byNumber)), StringOrder());
    var r := DisplayOrder(studySeries, expanded, None);
    assert r == Ids(byNumber) + sorted;
    assert r[|byNumber|..] == sorted;
  }

  /** The series of one number keep their input order. */
  lemma ByNumberStable(series: seq<SeriesInfo>, n: int)
    ensures WithNumber(ByNumber(series), n) == WithNumber(series, n)
  {
    var numbers := Sort(Numbers(series), IntLe());
    assert forall k :: multiset(numbers)[k] <= 1 by {
      assert multiset(numbers) == multiset(Numbers(series));
    }
    GroupsWithNumber(series, numbers, n);
    if n !in numbers {
      NoneWithNumber(series, n);
    }
  }

  /** Sorting distinct numbers gives a strictly ascending list, so the
      groups come out by ascending number. */
  lemma ByNumberAscending(series: seq<SeriesInfo>, numbers: seq<int>)
    requires numbers == Sort(Numbers(series), IntLe())
    ensures NumbersAscend(Groups(series, numbers))
  {
    forall i, j | 0 <= i < j < |numbers| ensures numbers[i] < numbers[j] {
      assert IntLe()(numbers[i], numbers[j]);
      if numbers[i] == numbers[j] {
        TwoEqual(numbers, i, j);
      }
    }
    GroupsAscending(series, numbers);
  }

  lemma TwoEqual(s: seq<int>, i: nat, j: nat)
    requires i < j < |s| && s[i] == s[j]
    ensures multiset(s)[s[i]] >= 2
  {
    assert s == s[..i] + [s[i]] + s[i + 1..j] + [s[j]] + s[j + 1..];
  }

  /** Every entry is numbered, the numbers ascending. */
  ghost predicate NumbersAscend(r: seq<SeriesInfo>) {
    (forall i :: 0 <= i < |r| ==> r[i].seriesNumber.Some?) &&
    (forall i, j :: 0 <= i < j < |r| ==> r[i].seriesNumber.value <= r[j].seriesNumber.value)
  }

  /** Groups of strictly ascending numbers are ascending. */
  lemma {:induction false} GroupsAscending(series: seq<SeriesInfo>, numbers: seq<int>)
    requires forall i, j :: 0 <= i < j < |numbers| ==> numbers[i] < numbers[j]
    ensures NumbersAscend(Groups(series, numbers))
    decreases |numbers|
  {
    if |numbers| > 0 {
      var head := WithNumber(series, numbers[0]);
      var tail := Groups(series, numbers[1..]);
      GroupsAscending(series, numbers[1..]);
      var r := head + tail;
      forall i | 0 <= i < |r| ensures r[i].seriesNumber.Some? {
        if i < |head| {
          assert head[i] in head;
        } else {
          assert r[i] == tail[i - |head|];
        }
      }
      forall i, j | 0 <= i < j < |r| ensures r[i].seriesNumber.value <= r[j].seriesNumber.value {
        if j < |head| {
          assert r[i] == head[i] && r[j] == head[j];
          assert head[i] in head && head[j] in head;
        } else if i < |head| {
          assert r[i] == head[i] && head[i] in head;
          assert r[j] == tail[j - |head|] && r[j] in tail;
          var k :| 0 <= k < |numbers[1..]| && numbers[1..][k] == r[j].seriesNumber.value;
          assert numbers[k + 1] == r[j].seriesNumber.value;
        } else {
          assert r[i] == tail[i - |head|] && r[j] == tail[j - |head|];
          assert tail[i - |head|].seriesNumber.value <= tail[j - |head|].seriesNumber.value;
        }
      }
      assert NumbersAscend(r);
    }
  }

  /** Within a number, the groups keep the input order. */
  lemma {:induction false} GroupsWithNumber(series: seq<SeriesInfo>, numbers: seq<int>, n: int)
    requires forall k :: multiset(numbers)[k] <= 1
    ensures WithNumber(Groups(series, numbers), n) == if n in numbers then WithNumber(series, n) else []
    decreases |numbers|
  {
    if |numbers| > 0 {
      var head := WithNumber(series, numbers[0]);
      var tail := Groups(series, numbers[1..]);
      assert numbers == [numbers[0]] + numbers[1..];
      assert forall k :: multiset(numbers[1..])[k] <= multiset(numbers)[k];
      GroupsWithNumber(series, numbers[1..], n);
      WithNumberAppend(head, tail, n);
      assert multiset(numbers)[numbers[0]] == 1 + multiset(numbers[1..])[numbers[0]];
      if numbers[0] == n {
        WithNumberOfGroup(series, n);
      } else {
        OtherNumber(series, numbers[0], n);
      }
    }
  }

  lemma {:induction false} WithNumberAppend(a: seq<SeriesInfo>, b: seq<SeriesInfo>, n: int)
    ensures WithNumber(a + b, n) == WithNumber(a, n) + WithNumber(b, n)
    decreases |a|
  {
    if |a| > 0 {
      assert (a + b)[1..] == a[1..] + b;
      WithNumberAppend(a[1..], b, n);
    } else {
      assert a + b == b;
    }
  }

  /** Picking a number twice picks the same entries. */
  lemma {:induction false} WithNumberOfGroup(series: seq<SeriesInfo>, n: int)
    ensures WithNumber(WithNumber(series, n), n) == WithNumber(series, n)
    decreases |series|
  {
    if |series| > 0 {
      WithNumberOfGroup(series[1..], n);
      var w := WithNumber(series[1..], n);
      if series[0].seriesNumber == Some(n) {
        assert ([series[0]] + w)[1..] == w;
      } else {
        assert ([] + w) == w;
      }
    }
  }

  /** A group holds nothing of another number. */
  lemma {:induction false} OtherNumber(series: seq<SeriesInfo>, m: int, n: int)
    requires m != n
    ensures WithNumber(WithNumber(series, m), n) == []
    decreases |series|
  {
    if |series| > 0 {
      OtherNumber(series[1..], m, n);
      var w := WithNumber(series[1..], m);
      if series[0].seriesNumber == Some(m) {
        assert ([series[0]] + w)[1..] == w;
      } else {
        assert ([] + w) == w;
      }
    }
  }

  /** A number no entry carries picks nothing. */
  lemma NoneWithNumber(series: seq<SeriesInfo>, n: int)
    requires n !in Sort(Numbers(series), IntLe())
    ensures WithNumber(series, n) == []
  {
    SortedNumbers(series, Sort(Numbers(series), IntLe()));
    forall i | 0 <= i < |series| ensures series[i].seriesNumber != Some(n) {
      assert series[i] in series;
    }
    WithNumberEmpty(series, n);
  }

  lemma {:induction false} WithNumberEmpty(series: seq<SeriesInfo>, n: int)
    requires forall i :: 0 <= i < |series| ==> series[i].seriesNumber != Some(n)
    ensures WithNumber(series, n) == []
    decreases |series|
  {
    if |series| > 0 {
      WithNumberEmpty(series[1..], n);
    }
  }

  // ---------------------------------------------------------------------
  // Answering a request

  /** The answer of `_ProcessRequest`: HTTP 403, the annotations the
      repository holds for the study, or the study with its series in
      display order. */
  datatype Answer<A> = Forbidden | StudyAnnotations(annotations: A) | StudySeries(series: seq<string>)

  /** `_ProcessRequest`. `storageEnabled` and `annotationsOf` stand for the
      annotation repository; `studySeries`, `expanded` and `stored` for what
      Orthanc holds about the requested study. */
  function ProcessRequest<A>(request: Request, storageEnabled: bool, annotationsOf: string -> A,
                             studySeries: seq<string>, expanded: seq<SeriesInfo>,
                             stored: Option<seq<string>>): (r: Answer<A>)
    ensures r.Forbidden? <==> request.Annotations? && !storageEnabled
    ensures r.StudyAnnotations? <==> request.Annotations? && storageEnabled
    ensures r.StudyAnnotations? ==> r.annotations == annotationsOf(request.studyId)
    ensures r.StudySeries? ==> forall x :: x in studySeries ==> x in r.series
  {
    match request
    case Annotations(id) => if storageEnabled then StudyAnnotations(annotationsOf(id)) else Forbidden
    case StudyInfo(_) => StudySeries(DisplayOrder(studySeries, expanded, stored))
  }
}

=== FILE: task_priority.dfy ===
/** The rule that picks the next image download for a free web worker
    (src/app/image/loading/task-priority-policy.class.js, `selectTask`).
    Tasks are sorted into three queues by the priority of their request in
    the binaries cache; within a queue, qualities are tried from the
    lightest (low, medium, pixel data, lossless); preloading is only done
    while at least two workers are free. The busy workers and the tasks in
    process, which the rule receives but never reads, are left out. */
module TaskPriority {
  import opened Wrappers
  import FrontendQuality
  import BinariesCache

  /** A download task: the image and the quality to download. */
  datatype Task = Task(id: string, quality: int)

  /** What the binaries cache holds for a task: the request's priority
      (0 display, 1 and 2 preloading) and quality. */
  datatype Request = Request(priority: int, quality: int)

  /** The binaries cache as the rule reads it: at most one request per
      image id and cache scope, so the LOSSLESS and the PIXELDATA task of
      an image read the same request of the HIGH scope. */
  type Cache = map<(string, BinariesCache.Scope), Request>

  datatype Entry = Entry(task: Task, request: Request)

  datatype Queues = Queues(loading: seq<Entry>, preloadingHigh: seq<Entry>, preloadingLow: seq<Entry>)

  /** The order the passes try qualities in. */
  const QUALITY_ORDER: seq<int> :=
    [FrontendQuality.LOW, FrontendQuality.MEDIUM, FrontendQuality.PIXELDATA, FrontendQuality.LOSSLESS]

  // ---------------------------------------------------------------------
  // Reading the binaries cache

  /** Whether the cache has a scope for the task's quality. */
  predicate Known(t: Task) {
    BinariesCache.ScopeOf(t.quality).Ok?
  }

  /** Every task of the list has a quality the cache knows. */
  predicate AllKnown(tasks: seq<Task>) {
    forall i :: 0 <= i < |tasks| ==> Known(tasks[i])
  }

  function KeyOf(t: Task): (string, BinariesCache.Scope)
    requires Known(t)
  {
    (t.id, BinariesCache.ScopeOf(t.quality).value)
  }

  /** `imageBinariesCache.get(id, quality)`: the request of the task's
      scope, or null; a quality without a scope throws. */
  function Get(t: Task, cache: Cache): (r: Result<Option<Request>, BinariesCache.CacheError>)
    ensures r.Err? <==>
              t.quality !in {FrontendQuality.LOW, FrontendQuality.MEDIUM, FrontendQuality.PIXELDATA,
                             FrontendQuality.LOSSLESS, BinariesCache.HIGH_SCOPE_CODE}
    ensures r.Err? ==> r.error == BinariesCache.UnexpectedQuality
    ensures r.Ok? ==> Known(t) && (r.value.Some? <==> KeyOf(t) in cache)
    ensures r.Ok? && r.value.Some? ==> r.value.value == cache[KeyOf(t)]
  {
    var scope :- BinariesCache.ScopeOf(t.quality);
    if (t.id, scope) in cache then Ok(Some(cache[(t.id, scope)])) else Ok(None)
  }

  /** The two high qualities of an image read one and the same request. */
  lemma SharedHighRequest(id: string, cache: Cache)
    ensures Get(Task(id, FrontendQuality.LOSSLESS), cache) == Get(Task(id, FrontendQuality.PIXELDATA), cache)
    ensures Get(Task(id, FrontendQuality.LOSSLESS), cache).Ok?
  {
  }

  /** Whether a task's request is in the cache. */
  predicate InCache(t: Task, cache: Cache) {
    Known(t) && KeyOf(t) in cache
  }

  /** Whether a task's request is cached with the given priority. */
  predicate Cached(t: Task, cache: Cache, priority: int) {
    InCache(t, cache) && cache[KeyOf(t)].priority == priority
  }

  // ---------------------------------------------------------------------
  // Sorting the tasks into queues

  /** The first loop: each task whose request is cached goes to the queue
      of its priority; tasks without a request, or with another priority,
      are skipped; the first task of a quality the cache does not know
      makes `get` throw, and the throw leaves `selectTask`. */
  function Classify(tasks: seq<Task>, cache: Cache): (q: Result<Queues, BinariesCache.CacheError>)
    decreases |tasks|
  {
    if |tasks| == 0 then Ok(Queues([], [], []))
    else
      var acc :- Classify(tasks[..|tasks| - 1], cache);
      var t := tasks[|tasks| - 1];
      var request :- Get(t, cache);
      if request.None? then Ok(acc)
      else
        var e := Entry(t, request.value);
        match request.value.priority
        case 0 => Ok(acc.(loading := acc.loading + [e]))
        case 1 => Ok(acc.(preloadingHigh := acc.preloadingHigh + [e]))
        case 2 => Ok(acc.(preloadingLow := acc.preloadingLow + [e]))
        case _ => Ok(acc)
  }

  /** The cached tasks of one priority, in task order. */
  function OfPriority(tasks: seq<Task>, cache: Cache, priority: int): (r: seq<Entry>)
    ensures forall e :: e in r <==>
              e.task in tasks && Cached(e.task, cache, priority) && e.request == cache[KeyOf(e.task)]
    decreases |tasks|
  {
    if |tasks| == 0 then []
    else
      var init := tasks[..|tasks| - 1];
      var t := tasks[|tasks| - 1];
      assert tasks == init + [t];
      var rest := OfPriority(init, cache, priority);
      if Cached(t, cache, priority) then rest + [Entry(t, cache[KeyOf(t)])] else rest
  }

  /** The first loop throws exactly when some task has a quality the cache
      does not know; otherwise each queue holds exactly the cached tasks
      of its priority, in the order of the task list. */
  lemma {:induction false} ClassifyByPriority(tasks: seq<Task>, cache: Cache)
    ensures Classify(tasks, cache) ==
              if AllKnown(tasks)
              then Ok(Queues(OfPriority(tasks, cache, 0), OfPriority(tasks, cache, 1), OfPriority(tasks, cache, 2)))
              else Err(BinariesCache.UnexpectedQuality)
    decreases |tasks|
  {
    if |tasks| > 0 {
      var init := tasks[..|tasks| - 1];
      var t := tasks[|tasks| - 1];
      ClassifyByPriority(init, cache);
      assert AllKnown(tasks) <==> AllKnown(init) && Known(t) by {
        if AllKnown(init) && Known(t) {
          forall i | 0 <= i < |tasks| ensures Known(tasks[i]) {
            if i < |init| { assert tasks[i] == init[i]; }
          }
        }
        if AllKnown(tasks) {
          forall i | 0 <= i < |init| ensures Known(init[i]) {
            assert init[i] == tasks[i];
          }
        }
      }
    }
  }

  // ---------------------------------------------------------------------
  // The passes, as written

  /** One pass of the source: its loop reads the queue's first entry on
      every turn, so it only ever looks at the head. */
  function HeadPass(queue: seq<Entry>, quality: int): (r: Option<Task>)
    ensures r.Some? ==> |queue| > 0 && r.value == queue[0].task && queue[0].request.quality == quality
    ensures r.None? ==> |queue| == 0 || queue[0].request.quality != quality
  {
    if |queue| > 0 && queue[0].request.quality == quality then Some(queue[0].task) else None
  }

  /** The four passes over one queue, lightest quality first. */
  function HeadPasses(queue: seq<Entry>, qualities: seq<int>): (r: Option<Task>)
    ensures r.Some? <==> |queue| > 0 && queue[0].request.quality in qualities
    ensures r.Some? ==> r.value == queue[0].task
  {
    if |qualities| == 0 then None
    else
      match HeadPass(queue, qualities[0])
      case Some(t) => Some(t)
      case None =>
        var r := HeadPasses(queue, qualities[1..]);
        assert qualities == [qualities[0]] + qualities[1..];
        r
  }

  /** `selectTask` as written: the display queue, then, when at least two
      workers are free, the two preloading queues, then the first task of
      the list. It throws when some task has a quality the cache does not
      know. */
  function SelectTask(availableWorkers: nat, tasks: seq<Task>, cache: Cache)
    : (r: Result<Option<Task>, BinariesCache.CacheError>)
    ensures r.Err? <==> !AllKnown(tasks)
    ensures r.Err? ==> r.error == BinariesCache.UnexpectedQuality
    ensures r.Ok? && r.value.Some? ==> r.value.value in tasks
  {
    ClassifyByPriority(tasks, cache);
    var queues :- Classify(tasks, cache);
    match HeadPasses(queues.loading, QUALITY_ORDER)
    case Some(t) => assert Entry(t, queues.loading[0].request) in queues.loading; Ok(Some(t))
    case None =>
      if availableWorkers < 2 then Ok(None)
      else
        match HeadPasses(queues.preloadingHigh, QUALITY_ORDER)
        case Some(t) => assert Entry(t, queues.preloadingHigh[0].request) in queues.preloadingHigh; Ok(Some(t))
        case None =>
          match HeadPasses(queues.preloadingLow, QUALITY_ORDER)
          case Some(t) => assert Entry(t, queues.preloadingLow[0].request) in queues.preloadingLow; Ok(Some(t))
          case None => if |tasks| > 0 then Ok(Some(tasks[0])) else Ok(None)
  }

  /** A display task at the head of its queue with a known quality is
      picked whatever else waits. */
  lemma DisplayHeadFirst(availableWorkers: nat, tasks: seq<Task>, cache: Cache)
    ensures var loading := OfPriority(tasks, cache, 0);
            AllKnown(tasks) && |loading| > 0 && loading[0].request.quality in QUALITY_ORDER ==>
              SelectTask(availableWorkers, tasks, cache) == Ok(Some(loading[0].task))
  {
    ClassifyByPriority(tasks, cache);
  }

  /** With fewer than two free workers, only a display task is picked. */
  lemma OneWorkerOnlyDisplay(availableWorkers: nat, tasks: seq<Task>, cache: Cache)
    requires availableWorkers < 2
    ensures var r := SelectTask(availableWorkers, tasks, cache);
            r.Ok? && r.value.Some? ==> Cached(r.value.value, cache, 0)
  {
    ClassifyByPriority(tasks, cache);
    var loading := OfPriority(tasks, cache, 0);
    if |loading| > 0 {
      assert loading[0] in loading;
    }
  }

  /** When no queue head has a known quality and workers are free, the
      first task of the list is picked, whether or not it is cached, or
      nothing when the list is empty. */
  lemma FallbackFirstTask(availableWorkers: nat, tasks: seq<Task>, cache: Cache)
    requires availableWorkers >= 2
    requires forall p :: 0 <= p <= 2 ==>
               var q := OfPriority(tasks, cache, p); |q| == 0 || q[0].request.quality !in QUALITY_ORDER
    ensures AllKnown(tasks) ==>
              SelectTask(availableWorkers, tasks, cache) == Ok(if |tasks| > 0 then Some(tasks[0]) else None)
  {
    ClassifyByPriority(tasks, cache);
    var _ := OfPriority(tasks, cache, 0);
    var _ := OfPriority(tasks, cache, 1);
    var _ := OfPriority(tasks, cache, 2);
  }

  /** With two free workers and no display task to pick, the head of the
      high preloading queue is picked when its quality is known, ahead of
      the low preloading queue and the fallback. */
  lemma PreloadingHighSecond(availableWorkers: nat, tasks: seq<Task>, cache: Cache)
    requires availableWorkers >= 2
    requires var loading := OfPriority(tasks, cache, 0);
             |loading| == 0 || loading[0].request.quality !in QUALITY_ORDER
    ensures var high := OfPriority(tasks, cache, 1);
            AllKnown(tasks) && |high| > 0 && high[0].request.quality in QUALITY_ORDER ==>
              SelectTask(availableWorkers, tasks, cache) == Ok(Some(high[0].task))
  {
    ClassifyByPriority(tasks, cache);
  }

  /** With two free workers and neither a display nor a high preloading
      task to pick, the head of the low preloading queue is picked when
      its quality is known, ahead of the fallback. */
  lemma PreloadingLowThird(availableWorkers: nat, tasks: seq<Task>, cache: Cache)
    requires availableWorkers >= 2
    requires forall p :: 0 <= p <= 1 ==>
               var q := OfPriority(tasks, cache, p); |q| == 0 || q[0].request.quality !in QUALITY_ORDER
    ensures var low := OfPriority(tasks, cache, 2);
            AllKnown(tasks) && |low| > 0 && low[0].request.quality in QUALITY_ORDER ==>
              SelectTask(availableWorkers, tasks, cache) == Ok(Some(low[0].task))
  {
    ClassifyByPriority(tasks, cache);
    var _ := OfPriority(tasks, cache, 0);
    var _ := OfPriority(tasks, cache, 1);
  }

  /** A task whose request is not cached is only ever returned as the
      fallback, the first of the list. */
  lemma UncachedOnlyAsFallback(availableWorkers: nat, tasks: seq<Task>, cache: Cache)
    ensures var r := SelectTask(availableWorkers, tasks, cache);
            r.Ok? && r.value.Some? && !InCache(r.value.value, cache) ==> r.value.value == tasks[0]
  {
    ClassifyByPriority(tasks, cache);
    var loading := OfPriority(tasks, cache, 0);
    var high := OfPriority(tasks, cache, 1);
    var low := OfPriority(tasks, cache, 2);
    if |loading| > 0 { assert loading[0] in loading; }
    if |high| > 0 { assert high[0] in high; }
    if |low| > 0 { assert low[0] in low; }
  }

  /** Since the two high qualities share a request, a PIXELDATA display
      task whose image holds a LOSSLESS request is queued with quality
      100 and picked by the lossless pass, after any lighter head. */
  lemma SharedRequestDecidesPass()
    ensures var cache := map[("a", BinariesCache.HighScope) := Request(0, FrontendQuality.LOSSLESS)];
            var tasks := [Task("a", FrontendQuality.PIXELDATA)];
            Classify(tasks, cache) ==
              Ok(Queues([Entry(Task("a", FrontendQuality.PIXELDATA), Request(0, FrontendQuality.LOSSLESS))], [], [])) &&
            SelectTask(1, tasks, cache) == Ok(Some(Task("a", FrontendQuality.PIXELDATA)))
  {
    var cache := map[("a", BinariesCache.HighScope) := Request(0, FrontendQuality.LOSSLESS)];
    var tasks := [Task("a", FrontendQuality.PIXELDATA)];
    var e := Entry(tasks[0], Request(0, FrontendQuality.LOSSLESS));
    assert tasks[..0] == [];
    assert Get(tasks[0], cache) == Ok(Some(e.request));
    assert Classify(tasks[..0], cache) == Ok(Queues([], [], []));
    assert Classify(tasks, cache) == Ok(Queues([] + [e], [], []));
    assert [] + [e] == [e];
  }

  // ---------------------------------------------------------------------
  // The passes, as evidently intended

  /** A pass that walks its queue: the position of the first entry of the
      quality. */
  function FindQuality(queue: seq<Entry>, quality: int): (r: Option<nat>)
    ensures r.Some? ==> r.value < |queue| && queue[r.value].request.quality == quality &&
                        forall j :: 0 <= j < r.value ==> queue[j].request.quality != quality
    ensures r.None? ==> forall i :: 0 <= i < |queue| ==> queue[i].request.quality != quality
  {
    if |queue| == 0 then None
    else if queue[0].request.quality == quality then Some(0)
    else
      match FindQuality(queue[1..], quality)
      case None => None
      case Some(i) => Some(i + 1)
  }

  /** The four walking passes over one queue, lightest quality first. */
  function Passes(queue: seq<Entry>, qualities: seq<int>): (r: Option<Task>)
    ensures r.Some? <==> exists i :: 0 <= i < |queue| && queue[i].request.quality in qualities
    ensures r.Some? ==> exists i :: 0 <= i < |queue| && queue[i].task == r.value
  {
    if |qualities| == 0 then None
    else
      match FindQuality(queue, qualities[0])
      case Some(i) => Some(queue[i].task)
      case None =>
        var r := Passes(queue, qualities[1..]);
        assert qualities == [qualities[0]] + qualities[1..];
        r
  }

  /** `selectTask` with each pass walking its whole queue. */
  function SelectTaskIntended(availableWorkers: nat, tasks: seq<Task>, cache: Cache)
    : (r: Result<Option<Task>, BinariesCache.CacheError>)
    ensures r.Err? <==> !AllKnown(tasks)
    ensures r.Ok? && r.value.Some? ==> r.value.value in tasks
    ensures availableWorkers < 2 && r.Ok? && r.value.Some? ==> Cached(r.value.value, cache, 0)
  {
    ClassifyByPriority(tasks, cache);
    PassedCached(tasks, cache, 0);
    PassedCached(tasks, cache, 1);
    PassedCached(tasks, cache, 2);
    var queues :- Classify(tasks, cache);
    match Passes(queues.loading, QUALITY_ORDER)
    case Some(t) => Ok(Some(t))
    case None =>
      if availableWorkers < 2 then Ok(None)
      else
        match Passes(queues.preloadingHigh, QUALITY_ORDER)
        case Some(t) => Ok(Some(t))
        case None =>
          match Passes(queues.preloadingLow, QUALITY_ORDER)
          case Some(t) => Ok(Some(t))
          case None => if |tasks| > 0 then Ok(Some(tasks[0])) else Ok(None)
  }

  /** What a walking pass over a queue picks is a task of the list cached
      with that queue's priority. */
  lemma PassedCached(tasks: seq<Task>, cache: Cache, priority: int)
    ensures var r := Passes(OfPriority(tasks, cache, priority), QUALITY_ORDER);
            r.Some? ==> r.value in tasks && Cached(r.value, cache, priority)
  {
    var q := OfPriority(tasks, cache, priority);
    var r := Passes(q, QUALITY_ORDER);
    if r.Some? {
      var i :| 0 <= i < |q| && q[i].task == r.value;
      assert q[i] in q;
    }
  }

  /** The two readings agree when every queue is empty or led by the
      lightest of the qualities it holds. */
  lemma {:induction false} HeadPassesWhenHeadLightest(queue: seq<Entry>, qualities: seq<int>)
    requires LightestAt(queue, qualities, 0)
    ensures Passes(queue, qualities) == HeadPasses(queue, qualities)
  {
    if queue[0].request.quality != qualities[0] {
      assert FindQuality(queue, qualities[0]).None?;
      assert forall i :: 0 <= i < |queue| ==> queue[i].request.quality != qualities[0];
      var tail := qualities[1..];
      forall i | 0 <= i < |queue| && queue[i].request.quality in tail
        ensures FirstIndexOf(tail, queue[0].request.quality) <= FirstIndexOf(tail, queue[i].request.quality)
      {
        FirstIndexOfTail(qualities, queue[0].request.quality);
        FirstIndexOfTail(qualities, queue[i].request.quality);
      }
      FirstIndexOfTail(qualities, queue[0].request.quality);
      HeadPassesWhenHeadLightest(queue, tail);
    }
  }

  /** A queue on which reading only the head loses nothing: empty, led by
      its lightest quality, or holding no quality of the list. */
  ghost predicate HeadSuffices(queue: seq<Entry>) {
    |queue| == 0 || LightestAt(queue, QUALITY_ORDER, 0) ||
    forall i :: 0 <= i < |queue| ==> queue[i].request.quality !in QUALITY_ORDER
  }

  lemma HeadSufficesAgree(queue: seq<Entry>)
    requires HeadSuffices(queue)
    ensures Passes(queue, QUALITY_ORDER) == HeadPasses(queue, QUALITY_ORDER)
  {
    if |queue| > 0 && LightestAt(queue, QUALITY_ORDER, 0) {
      HeadPassesWhenHeadLightest(queue, QUALITY_ORDER);
    }
  }

  /** The rule as written and the intended one pick the same task whenever
      no queue hides a lighter task behind its head. */
  lemma SelectTaskAgrees(availableWorkers: nat, tasks: seq<Task>, cache: Cache)
    requires forall p :: 0 <= p <= 2 ==> HeadSuffices(OfPriority(tasks, cache, p))
    ensures SelectTask(availableWorkers, tasks, cache) == SelectTaskIntended(availableWorkers, tasks, cache)
  {
    ClassifyByPriority(tasks, cache);
    HeadSufficesAgree(OfPriority(tasks, cache, 0));
    HeadSufficesAgree(OfPriority(tasks, cache, 1));
    HeadSufficesAgree(OfPriority(tasks, cache, 2));
  }

  /** The position of a value's first occurrence in a list. */
  function FirstIndexOf(s: seq<int>, x: int): (i: nat)
    requires x in s
    ensures i < |s| && s[i] == x && forall j :: 0 <= j < i ==> s[j] != x
  {
    if s[0] == x then 0 else 1 + FirstIndexOf(s[1..], x)
  }

  lemma FirstIndexOfTail(s: seq<int>, x: int)
    requires x in s && s[0] != x
    ensures x in s[1..] && FirstIndexOf(s, x) == 1 + FirstIndexOf(s[1..], x)
  {
  }

  /** Entry `i` has a quality of the list, and none lighter is queued. */
  ghost predicate LightestAt(queue: seq<Entry>, qualities: seq<int>, i: nat) {
    i < |queue| && queue[i].request.quality in qualities &&
    forall j :: 0 <= j < |queue| && queue[j].request.quality in qualities ==>
      FirstIndexOf(qualities, queue[i].request.quality) <= FirstIndexOf(qualities, queue[j].request.quality)
  }

  /** Without the first quality in the queue, lightness is judged the same
      by the rest of the list. */
  lemma LightestTail(queue: seq<Entry>, qualities: seq<int>, i: nat)
    requires |qualities| > 0 && LightestAt(queue, qualities[1..], i)
    requires forall j :: 0 <= j < |queue| ==> queue[j].request.quality != qualities[0]
    ensures LightestAt(queue, qualities, i)
  {
    var tail := qualities[1..];
    forall j | 0 <= j < |queue| && queue[j].request.quality in qualities
      ensures FirstIndexOf(qualities, queue[i].request.quality) <= FirstIndexOf(qualities, queue[j].request.quality)
    {
      FirstIndexOfTail(qualities, queue[i].request.quality);
      FirstIndexOfTail(qualities, queue[j].request.quality);
    }
  }

  /** A walking pass picks an entry of the lightest quality its queue
      holds. */
  lemma {:induction false} PassesLightest(queue: seq<Entry>, qualities: seq<int>)
    ensures var r := Passes(queue, qualities);
            r.Some? ==> exists i: nat :: LightestAt(queue, qualities, i) && queue[i].task == r.value
  {
    if |qualities| > 0 {
      match FindQuality(queue, qualities[0])
      case Some(i) =>
        assert LightestAt(queue, qualities, i);
      case None =>
        var tail := qualities[1..];
        PassesLightest(queue, tail);
        var r := Passes(queue, qualities);
        assert r == Passes(queue, tail);
        if r.Some? {
          var i: nat :| LightestAt(queue, tail, i) && queue[i].task == r.value;
          LightestTail(queue, qualities, i);
        }
    }
  }

  /** Display tasks come first in the intended reading as well: when one
      of a known quality is waiting, a display task is picked. */
  lemma IntendedDisplayFirst(availableWorkers: nat, tasks: seq<Task>, cache: Cache)
    requires exists t :: t in tasks && Cached(t, cache, 0) && cache[KeyOf(t)].quality in QUALITY_ORDER
    ensures var r := SelectTaskIntended(availableWorkers, tasks, cache);
            r.Ok? ==> r.value.Some? && Cached(r.value.value, cache, 0)
  {
    ClassifyByPriority(tasks, cache);
    var loading := OfPriority(tasks, cache, 0);
    var t :| t in tasks && Cached(t, cache, 0) && cache[KeyOf(t)].quality in QUALITY_ORDER;
    var e := Entry(t, cache[KeyOf(t)]);
    assert e in loading;
    var i :| 0 <= i < |loading| && loading[i] == e;
    var r := Passes(loading, QUALITY_ORDER);
    assert r.Some?;
  }

  /** The discrepancy: a display queue holding a lossless task, then a
      low-quality one. As written the lossless task is picked, since every
      pass looks at the head only; the intended rule picks the low-quality
      one. */
  lemma HeadOnlyMissesLowQuality()
    ensures var cache := map[("a", BinariesCache.HighScope) := Request(0, 100), ("b", BinariesCache.LowScope) := Request(0, 1)];
            var tasks := [Task("a", 100), Task("b", 1)];
            SelectTask(1, tasks, cache) == Ok(Some(Task("a", 100))) &&
            SelectTaskIntended(1, tasks, cache) == Ok(Some(Task("b", 1)))
  {
    var cache := map[("a", BinariesCache.HighScope) := Request(0, 100), ("b", BinariesCache.LowScope) := Request(0, 1)];
    var tasks := [Task("a", 100), Task("b", 1)];
    ClassifyByPriority(tasks, cache);
    assert tasks[..1] == [Task("a", 100)];
    assert OfPriority(tasks, cache, 0) == [Entry(Task("a", 100), Request(0, 100)), Entry(Task("b", 1), Request(0, 1))];
  }
}

=== FILE: text.dfy ===
/** String helpers shared by the parsers of the model: decimal digits,
    `boost::lexical_cast` to unsigned integers, splitting and joining on a
    separator, ASCII lower-casing and substring search. */
module Text {
  import opened Wrappers

  const UINT32_LIMIT: nat := 0x1_0000_0000

  /** A JavaScript string value is truthy when it is defined and not
      empty. */
  predicate Truthy(s: Option<string>) {
    s.Some? && s.value != ""
  }

  predicate IsDigit(c: char) { '0' <= c <= '9' }

  predicate AllDigits(s: string) { forall i :: 0 <= i < |s| ==> IsDigit(s[i]) }

  function DigitValue(c: char): nat
    requires IsDigit(c)
  {
    (c as int) - ('0' as int)
  }

  function DigitChar(d: nat): (c: char)
    requires d < 10
    ensures IsDigit(c) && DigitValue(c) == d
  {
    ('0' as int + d) as char
  }

  /** Value of a string of decimal digits, most significant digit first. */
  function DigitsValue(s: string): nat
    requires AllDigits(s)
    decreases |s|
  {
    if |s| == 0 then 0
    else DigitsValue(s[..|s| - 1]) * 10 + DigitValue(s[|s| - 1])
  }

  /** A non-empty run of decimal digits read as a natural number. */
  function ParseNat(s: string): Option<nat> {
    if |s| > 0 && AllDigits(s) then Some(DigitsValue(s)) else None
  }

  /** The sign `boost::lexical_cast` accepts in front of the digits when the
      target is unsigned. */
  predicate IsSign(c: char) { c == '+' || c == '-' }

  /** The digits of `s` after an optional leading sign. */
  function Magnitude(s: string): string {
    if |s| > 0 && IsSign(s[0]) then s[1..] else s
  }

  /** `s` starts with a minus sign. */
  predicate Negated(s: string) { |s| > 0 && s[0] == '-' }

  /** `boost::lexical_cast<uint32_t>` (and `<unsigned int>`): an optional '+'
      or '-' followed by a non-empty run of digits whose value fits in 32
      bits. A '-' negates that value modulo 2^32, so "-1" reads as
      4294967295; anything else throws. */
  function ParseUInt32(s: string): (r: Option<nat>)
    ensures r.Some? <==> ParseNat(Magnitude(s)).Some? && ParseNat(Magnitude(s)).value < UINT32_LIMIT
    ensures r.Some? ==> r.value < UINT32_LIMIT
    ensures r.Some? && !Negated(s) ==> r.value == ParseNat(Magnitude(s)).value
    ensures r.Some? && Negated(s) ==> (r.value + ParseNat(Magnitude(s)).value) % UINT32_LIMIT == 0
  {
    match ParseNat(Magnitude(s))
    case Some(n) =>
      if n >= UINT32_LIMIT then None
      else if Negated(s) then Some((UINT32_LIMIT - n) % UINT32_LIMIT)
      else Some(n)
    case None => None
  }

  /** Decimal rendering of a natural number, as `std::to_string` or the
      JavaScript `+` operator produce it. */
  function NatToString(n: nat): (s: string)
    ensures |s| > 0 && AllDigits(s)
    decreases n
  {
    if n < 10 then [DigitChar(n)] else NatToString(n / 10) + [DigitChar(n % 10)]
  }

  lemma {:induction false} NatToStringValue(n: nat)
    ensures DigitsValue(NatToString(n)) == n
    decreases n
  {
    var s := NatToString(n);
    if n < 10 {
      assert s[..0] == [];
    } else {
      NatToStringValue(n / 10);
      assert s[..|s| - 1] == NatToString(n / 10);
    }
  }

  /** Rendering a number and parsing it back gives the number. */
  lemma ParseNatToString(n: nat)
    ensures ParseNat(NatToString(n)) == Some(n)
  {
    NatToStringValue(n);
  }

  /** A rendered 32-bit number reads back as itself, with or without a '+',
      and with a '-' as its additive inverse modulo 2^32. */
  lemma ParseUInt32ToString(n: nat)
    requires n < UINT32_LIMIT
    ensures ParseUInt32(NatToString(n)) == Some(n)
    ensures ParseUInt32("+" + NatToString(n)) == Some(n)
    ensures ParseUInt32("-" + NatToString(n)) == Some((UINT32_LIMIT - n) % UINT32_LIMIT)
  {
    ParseNatToString(n);
    assert Magnitude(NatToString(n)) == NatToString(n) by {
      assert IsDigit(NatToString(n)[0]);
    }
    assert Magnitude("+" + NatToString(n)) == NatToString(n);
    assert Magnitude("-" + NatToString(n)) == NatToString(n);
  }

  /** The two signed spellings of the instance tags: "+2" and "-1". */
  lemma SignedNumbers()
    ensures ParseUInt32("+2") == Some(2) && ParseUInt32("-1") == Some(UINT32_LIMIT - 1)
  {
    ParseUInt32ToString(1);
    ParseUInt32ToString(2);
    assert NatToString(1) == "1" && NatToString(2) == "2";
    assert "+" + "2" == "+2" && "-" + "1" == "-1";
  }

  predicate StartsWith(s: string, prefix: string) {
    |prefix| <= |s| && s[..|prefix|] == prefix
  }

  predicate EndsWith(s: string, suffix: string) {
    |suffix| <= |s| && s[|s| - |suffix|..] == suffix
  }

  /** `t` occurs in `s` starting at index `i`. */
  predicate OccursAt(s: string, t: string, i: int) {
    0 <= i && i + |t| <= |s| && s[i..i + |t|] == t
  }

  predicate Contains(s: string, t: string) {
    exists i :: 0 <= i <= |s| && OccursAt(s, t, i)
  }

  /** Position of the first occurrence of `c` in `s`. */
  function IndexOf(s: string, c: char): (i: nat)
    requires c in s
    ensures i < |s| && s[i] == c && c !in s[..i]
  {
    if s[0] == c then 0 else 1 + IndexOf(s[1..], c)
  }

  /** Glue `parts` together with `sep` between consecutive parts. */
  function Join(parts: seq<string>, sep: char): string
    requires |parts| >= 1
  {
    if |parts| == 1 then parts[0] else parts[0] + [sep] + Join(parts[1..], sep)
  }

  /** Split on every occurrence of `sep`, keeping empty tokens: n separators
      give n + 1 tokens (`boost::split` and Orthanc's `TokenizeString`). */
  function Split(s: string, sep: char): (parts: seq<string>)
    ensures |parts| >= 1
    ensures forall i :: 0 <= i < |parts| ==> sep !in parts[i]
    ensures Join(parts, sep) == s
    decreases |s|
  {
    if sep in s then
      var i := IndexOf(s, sep);
      assert s == s[..i] + [sep] + s[i + 1..];
      [s[..i]] + Split(s[i + 1..], sep)
    else [s]
  }

  /** Splitting undoes joining, as long as no part holds the separator. */
  lemma {:induction false} SplitJoin(parts: seq<string>, sep: char)
    requires |parts| >= 1
    requires forall i :: 0 <= i < |parts| ==> sep !in parts[i]
    ensures Split(Join(parts, sep), sep) == parts
    decreases |parts|
  {
    if |parts| > 1 {
      var s := Join(parts, sep);
      assert s == parts[0] + [sep] + Join(parts[1..], sep);
      assert sep in s by { assert s[|parts[0]|] == sep; }
      var i := IndexOf(s, sep);
      assert forall k :: 0 <= k < |parts[0]| ==> s[k] == parts[0][k];
      assert i == |parts[0]|;
      assert s[..i] == parts[0];
      assert s[i + 1..] == Join(parts[1..], sep);
      SplitJoin(parts[1..], sep);
    } else {
      assert sep !in parts[0];
    }
  }

  /** `tolower` in the C locale. */
  function LowerChar(c: char): char {
    if 'A' <= c <= 'Z' then (c as int + 32) as char else c
  }

  function Lower(s: string): (r: string)
    ensures |r| == |s| && forall i :: 0 <= i < |s| ==> r[i] == LowerChar(s[i])
  {
    if |s| == 0 then [] else [LowerChar(s[0])] + Lower(s[1..])
  }

  /** JavaScript's `toUpperCase` restricted to ASCII letters. */
  function UpperChar(c: char): char {
    if 'a' <= c <= 'z' then (c as int - 32) as char else c
  }

  function Upper(s: string): (r: string)
    ensures |r| == |s| && forall i :: 0 <= i < |s| ==> r[i] == UpperChar(s[i])
  {
    if |s| == 0 then [] else [UpperChar(s[0])] + Upper(s[1..])
  }
}

=== FILE: toolbox.dfy ===
/** The plugin's toolbox (backend/WebViewerLibrary/ViewerToolbox.cpp): a JSON
    value model with `asString`, tag sanitizing, backslash-separated vectors,
    MIME types, typed configuration lookups and the two pixel format
    conversions between the Orthanc core and the plugin SDK. */
module Toolbox {
  import opened Wrappers
  import opened Text

  /** A JSON value as jsoncpp stores it; floating point values are not part
      of the model. */
  datatype Json =
    | JNull
    | JBool(b: bool)
    | JInt(i: int)
    | JUInt(n: nat)
    | JString(s: string)
    | JArray(items: seq<Json>)
    | JObject(members: map<string, Json>)

  datatype JsonError = NotConvertibleToString | NotAnInt

  function IntToString(i: int): string {
    if i < 0 then "-" + NatToString(-i) else NatToString(i)
  }

  /** `Json::Value::asString`: scalars are rendered, arrays and objects
      throw. */
  function AsString(v: Json): (r: Result<string, JsonError>)
    ensures r.Err? <==> v.JArray? || v.JObject?
    ensures v.JString? ==> r == Ok(v.s)
    ensures v.JNull? ==> r == Ok("")
  {
    match v
    case JNull => Ok("")
    case JBool(b) => Ok(if b then "true" else "false")
    case JInt(i) => Ok(IntToString(i))
    case JUInt(n) => Ok(NatToString(n))
    case JString(s) => Ok(s)
    case JArray(_) => Err(NotConvertibleToString)
    case JObject(_) => Err(NotConvertibleToString)
  }

  /** `tags[name]` on a JSON object: a missing member reads as null. */
  function Get(tags: map<string, Json>, name: string): (v: Json)
    ensures name !in tags ==> v == JNull
    ensures name in tags ==> v == tags[name]
  {
    if name in tags then tags[name] else JNull
  }

  // ---------------------------------------------------------------------
  // SanitizeTag

  /** Some modalities store `Rows`/`Columns` as "600\0": keep what precedes
      the first backslash. Every other tag is returned as it is. */
  function SanitizeTag(tagName: string, value: Json): (r: Result<Json, JsonError>)
    ensures tagName != "Columns" && tagName != "Rows" ==> r == Ok(value)
    ensures (tagName == "Columns" || tagName == "Rows") ==>
              (r.Err? <==> AsString(value).Err?)
    ensures (tagName == "Columns" || tagName == "Rows") && r.Ok? ==>
              var s := AsString(value).value;
              AsString(r.value).Ok? &&
              var t := AsString(r.value).value;
              '\\' !in t && StartsWith(s, t) && (|t| < |s| ==> s[|t|] == '\\')
  {
    if tagName == "Columns" || tagName == "Rows" then
      var s :- AsString(value);
      if '\\' in s then Ok(JString(s[..IndexOf(s, '\\')])) else Ok(value)
    else Ok(value)
  }

  // ---------------------------------------------------------------------
  // TokenizeVector

  function ParseAll<R>(tokens: seq<string>, parse: string -> Option<R>): (r: Option<seq<R>>)
    ensures r.Some? <==> forall i :: 0 <= i < |tokens| ==> parse(tokens[i]).Some?
    ensures r.Some? ==> (|r.value| == |tokens| &&
              forall i :: 0 <= i < |tokens| ==> parse(tokens[i]) == Some(r.value[i]))
  {
    if |tokens| == 0 then Some([])
    else
      match parse(tokens[0])
      case None => None
      case Some(x) =>
        match ParseAll(tokens[1..], parse)
        case None =>
          assert forall i :: 1 <= i < |tokens| ==> tokens[1..][i - 1] == tokens[i];
          None
        case Some(xs) => Some([x] + xs)
  }

  /** A backslash-separated multi-valued DICOM string read as exactly
      `expectedSize` numbers; `parse` stands for `lexical_cast<float>`. */
  function TokenizeVector<R>(value: string, expectedSize: nat, parse: string -> Option<R>): (r: Option<seq<R>>)
    ensures var tokens := Split(value, '\\');
            (r.Some? <==> |tokens| == expectedSize &&
                          forall i :: 0 <= i < |tokens| ==> parse(tokens[i]).Some?) &&
            (r.Some? ==> |r.value| == expectedSize &&
                         forall i :: 0 <= i < |tokens| ==> parse(tokens[i]) == Some(r.value[i]))
  {
    var tokens := Split(value, '\\');
    if |tokens| != expectedSize then None else ParseAll(tokens, parse)
  }

  /** Joining numbers with backslashes and tokenizing again gives them
      back. */
  lemma TokenizeJoined<R>(parts: seq<string>, values: seq<R>, parse: string -> Option<R>)
    requires |parts| >= 1 && |values| == |parts|
    requires forall i :: 0 <= i < |parts| ==> '\\' !in parts[i] && parse(parts[i]) == Some(values[i])
    ensures TokenizeVector(Join(parts, '\\'), |parts|, parse) == Some(values)
  {
    SplitJoin(parts, '\\');
    var r := TokenizeVector(Join(parts, '\\'), |parts|, parse);
    assert r.Some?;
    assert forall i :: 0 <= i < |parts| ==> r.value[i] == values[i];
    assert r.value == values;
  }

  // ---------------------------------------------------------------------
  // GetMimeType

  /** Position of the last occurrence of `c` (`find_last_of`). */
  function LastIndexOf(s: string, c: char): (r: Option<nat>)
    ensures r.None? <==> c !in s
    ensures r.Some? ==> r.value < |s| && s[r.value] == c && c !in s[r.value + 1..]
  {
    if |s| == 0 then None
    else if s[|s| - 1] == c then Some(|s| - 1)
    else
      var r := LastIndexOf(s[..|s| - 1], c);
      assert s == s[..|s| - 1] + [s[|s| - 1]];
      if r.Some? then
        assert s[r.value + 1..] == s[..|s| - 1][r.value + 1..] + [s[|s| - 1]];
        r
      else r
  }

  /** The extension of a path, dot included, or "" without a dot. */
  function Extension(path: string): (e: string)
    ensures e == "" || (e[0] == '.' && '.' !in e[1..] && EndsWith(path, e))
    ensures '.' in path ==> e != ""
  {
    match LastIndexOf(path, '.')
    case None => ""
    case Some(i) => path[i..]
  }

  const MIME_TYPES: map<string, string> := map[
    ".html" := "text/html",
    ".css" := "text/css",
    ".js" := "application/javascript",
    ".gif" := "image/gif",
    ".svg" := "image/svg+xml",
    ".json" := "application/json",
    ".xml" := "application/xml",
    ".png" := "image/png",
    ".jpg" := "image/jpeg",
    ".jpeg" := "image/jpeg"]

  const OCTET_STREAM := "application/octet-stream"

  /** The if-chain of `GetMimeType` on an already lower-cased extension. */
  function MimeOfExtension(extension: string): (r: string)
    ensures r == (if extension in MIME_TYPES then MIME_TYPES[extension] else OCTET_STREAM)
  {
    if extension == ".html" then "text/html"
    else if extension == ".css" then "text/css"
    else if extension == ".js" then "application/javascript"
    else if extension == ".gif" then "image/gif"
    else if extension == ".svg" then "image/svg+xml"
    else if extension == ".json" then "application/json"
    else if extension == ".xml" then "application/xml"
    else if extension == ".png" then "image/png"
    else if extension == ".jpg" || extension == ".jpeg" then "image/jpeg"
    else OCTET_STREAM
  }

  /** MIME type of a served file, from its lower-cased extension. */
  function GetMimeType(path: string): (r: string)
    ensures var ext := Lower(Extension(path));
            r == (if ext in MIME_TYPES then MIME_TYPES[ext] else OCTET_STREAM)
  {
    MimeOfExtension(Lower(Extension(path)))
  }

  /** A suffix that starts with the path's only dot after `base` is its
      extension. */
  lemma ExtensionOfSuffix(base: string, ext: string)
    requires |ext| > 0 && ext[0] == '.' && '.' !in ext[1..]
    ensures Extension(base + ext) == ext
  {
    var p := base + ext;
    assert p[|base|] == '.';
    var i := LastIndexOf(p, '.');
    assert forall k :: |base| < k < |p| ==> p[k] == ext[1..][k - |base| - 1];
    assert i.value >= |base| by {
      assert forall k :: i.value < k < |p| ==> p[i.value + 1..][k - i.value - 1] == p[k];
    }
    assert p[|base|..] == ext;
  }

  /** Every key of the table is a dot followed by dot-free letters. */
  lemma MimeKeysAreExtensions(e: string)
    requires e in MIME_TYPES
    ensures |e| > 0 && e[0] == '.' && '.' !in e[1..]
  {
  }

  lemma LowerKeepsDots(ext: string)
    requires |Lower(ext)| > 0 && Lower(ext)[0] == '.' && '.' !in Lower(ext)[1..]
    ensures ext[0] == '.' && '.' !in ext[1..]
  {
    var e := Lower(ext);
    assert e[0] == LowerChar(ext[0]);
    forall k | 1 <= k < |ext| ensures ext[k] != '.' {
      assert e[k] == LowerChar(ext[k]);
      assert e[1..][k - 1] == e[k];
    }
  }

  /** A file name ending in a known extension, in any letter case, gets that
      extension's type whatever precedes the extension. */
  lemma MimeTypeOfFileName(base: string, ext: string)
    requires Lower(ext) in MIME_TYPES
    ensures GetMimeType(base + ext) == MIME_TYPES[Lower(ext)]
  {
    MimeKeysAreExtensions(Lower(ext));
    LowerKeepsDots(ext);
    ExtensionOfSuffix(base, ext);
  }

  /** A path without a dot is served as a byte stream. */
  lemma MimeTypeWithoutExtension(path: string)
    requires '.' !in path
    ensures GetMimeType(path) == OCTET_STREAM
  {
  }

  // ---------------------------------------------------------------------
  // Typed configuration lookups

  /** `configuration[key]` when the configuration is an object holding
      `key`. */
  function Lookup(configuration: Json, key: string): Option<Json> {
    if configuration.JObject? && key in configuration.members
    then Some(configuration.members[key]) else None
  }

  function GetStringValue(configuration: Json, key: string, defaultValue: string): (r: string)
    ensures (exists s :: Lookup(configuration, key) == Some(JString(s))) ==>
              Lookup(configuration, key) == Some(JString(r))
    ensures (forall s :: Lookup(configuration, key) != Some(JString(s))) ==> r == defaultValue
  {
    match Lookup(configuration, key)
    case Some(JString(s)) => s
    case _ => defaultValue
  }

  const INT32_MIN: int := -0x8000_0000
  const INT32_MAX: int := 0x7fff_ffff

  /** An integer member is returned through `asInt`, which throws when it
      does not fit in 32 bits; anything else gives the default. */
  function GetIntegerValue(configuration: Json, key: string, defaultValue: int): (r: Result<int, JsonError>)
    ensures (forall i :: Lookup(configuration, key) != Some(JInt(i))) ==> r == Ok(defaultValue)
    ensures forall i :: Lookup(configuration, key) == Some(JInt(i)) ==>
              r == (if INT32_MIN <= i <= INT32_MAX then Ok(i) else Err(NotAnInt))
  {
    match Lookup(configuration, key)
    case Some(JInt(i)) => if INT32_MIN <= i <= INT32_MAX then Ok(i) else Err(NotAnInt)
    case _ => Ok(defaultValue)
  }

  function GetBoolValue(configuration: Json, key: string, defaultValue: bool): (r: bool)
    ensures (exists b :: Lookup(configuration, key) == Some(JBool(b))) ==>
              Lookup(configuration, key) == Some(JBool(r))
    ensures (forall b :: Lookup(configuration, key) != Some(JBool(b))) ==> r == defaultValue
  {
    match Lookup(configuration, key)
    case Some(JBool(b)) => b
    case _ => defaultValue
  }

  // ---------------------------------------------------------------------
  // Pixel formats

  /** The Orthanc core's pixel formats: the six the plugin handles, and the
      others by their code. */
  datatype PixelFormat =
    | Grayscale16 | Grayscale8 | RGB24 | RGB48 | RGBA32 | SignedGrayscale16
    | OtherFormat(code: nat)

  /** The plugin SDK's pixel formats. */
  datatype PluginPixelFormat =
    | PluginGrayscale16 | PluginGrayscale8 | PluginRGB24 | PluginRGB48
    | PluginRGBA32 | PluginSignedGrayscale16
    | OtherPluginFormat(code: nat)

  datatype ConvertError = ParameterOutOfRange

  function ToPluginFormat(format: PixelFormat): (r: Result<PluginPixelFormat, ConvertError>)
    ensures r.Err? <==> format.OtherFormat?
  {
    match format
    case Grayscale16 => Ok(PluginGrayscale16)
    case Grayscale8 => Ok(PluginGrayscale8)
    case RGB24 => Ok(PluginRGB24)
    case RGB48 => Ok(PluginRGB48)
    case RGBA32 => Ok(PluginRGBA32)
    case SignedGrayscale16 => Ok(PluginSignedGrayscale16)
    case OtherFormat(_) => Err(ParameterOutOfRange)
  }

  function FromPluginFormat(format: PluginPixelFormat): (r: Result<PixelFormat, ConvertError>)
    ensures r.Err? <==> format.OtherPluginFormat?
  {
    match format
    case PluginGrayscale16 => Ok(Grayscale16)
    case PluginGrayscale8 => Ok(Grayscale8)
    case PluginRGB24 => Ok(RGB24)
    case PluginRGB48 => Ok(RGB48)
    case PluginRGBA32 => Ok(RGBA32)
    case PluginSignedGrayscale16 => Ok(SignedGrayscale16)
    case OtherPluginFormat(_) => Err(ParameterOutOfRange)
  }

  /** The two conversions are inverse bijections between the six supported
      formats. */
  lemma ConvertInverse(f: PixelFormat, p: PluginPixelFormat)
    ensures ToPluginFormat(f) == Ok(p) <==> FromPluginFormat(p) == Ok(f)
  {
  }
}

=== FILE: url_convertor.dfy ===
/** Turning the configured Orthanc url into an absolute one
    (frontend/src/app/utilities/orthanc-url-convertor.js). The page location
    is the record the constructor takes; the two regular expressions are
    written out as the matches JavaScript's backtracking finds. */
module UrlConvertor {
  import opened Wrappers
  import opened Text

  /** `document.location`'s parts; a port of 0 or none is left out of the
      origin, as the falsy test does. */
  datatype Location = Location(protocol: string, hostname: string, port: Option<nat>, pathname: string)

  datatype UrlError = NotAbsolute | NoMatch

  function PortSuffix(port: Option<nat>): string {
    if port.Some? && port.value != 0 then ":" + NatToString(port.value) else ""
  }

  function Origin(loc: Location): string {
    loc.protocol + "//" + loc.hostname + PortSuffix(loc.port)
  }

  /** The characters `.` does not match. */
  predicate IsLineTerminator(c: char) {
    c == '\n' || c == '\r' || c == '\U{2028}' || c == '\U{2029}'
  }

  predicate NoLineTerminator(s: string) {
    forall i :: 0 <= i < |s| ==> !IsLineTerminator(s[i])
  }

  // ---------------------------------------------------------------------
  // The location regex: protocol, host and path

  datatype LocationParts = LocationParts(scheme: string, host: string, path: string)

  /** `^([^:]*:\/\/)([^\/]*)(\/?.*)$`: the scheme runs to the first `:`,
      which must open `://`; the host runs to the next `/`; the path is the
      rest and must hold no line terminator. */
  function MatchLocation(s: string): (r: Option<LocationParts>)
    ensures r.Some? ==> s == r.value.scheme + r.value.host + r.value.path
    ensures r.Some? ==> EndsWith(r.value.scheme, "://") && ':' !in r.value.scheme[..|r.value.scheme| - 3]
    ensures r.Some? ==> '/' !in r.value.host && (r.value.path == [] || r.value.path[0] == '/')
    ensures r.Some? ==> NoLineTerminator(r.value.path)
  {
    if ':' !in s then None
    else
      var i := IndexOf(s, ':');
      if !OccursAt(s, "://", i) then None
      else
        var rest := s[i + 3..];
        var j := if '/' in rest then IndexOf(rest, '/') else |rest|;
        if !NoLineTerminator(rest[j..]) then None
        else
          LocationSplit(s, i, j);
          Some(LocationParts(s[..i + 3], rest[..j], rest[j..]))
  }

  /** Cutting after the first `://` and before the next `/` gives a
      scheme, a host and a path. */
  lemma LocationSplit(s: string, i: nat, j: nat)
    requires i < |s| && ':' !in s[..i] && OccursAt(s, "://", i)
    requires j <= |s[i + 3..]| && '/' !in s[i + 3..][..j]
    requires j < |s[i + 3..]| ==> s[i + 3..][j] == '/'
    ensures var scheme, rest := s[..i + 3], s[i + 3..];
            s == scheme + rest[..j] + rest[j..] &&
            EndsWith(scheme, "://") && ':' !in scheme[..|scheme| - 3] &&
            (rest[j..] == [] || rest[j..][0] == '/')
  {
    var rest := s[i + 3..];
    assert s == s[..i + 3] + rest[..j] + rest[j..];
    assert s[..i + 3][..i] == s[..i];
    assert s[..i + 3][i..] == s[i..i + 3];
  }

  // ---------------------------------------------------------------------
  // The page regex: a path prefix before /osimis-viewer/app/<page>.html

  const APP_DIR: string := "/osimis-viewer/app/"

  /** `[\w-]` */
  predicate IsWordChar(c: char) {
    'a' <= c <= 'z' || 'A' <= c <= 'Z' || '0' <= c <= '9' || c == '_' || c == '-'
  }

  /** The length of the run of word characters from `q`. */
  function WordRun(s: string, q: nat): (k: nat)
    ensures q + k <= |s| || (q >= |s| && k == 0)
    ensures forall i :: q <= i < q + k ==> IsWordChar(s[i])
    ensures q + k < |s| ==> !IsWordChar(s[q + k])
    decreases |s| - q
  {
    if q < |s| && IsWordChar(s[q]) then 1 + WordRun(s, q + 1) else 0
  }

  /** `(\/osimis-viewer\/app)(\/[\w-]+\.html)` matches at `p`. */
  predicate EntryAt(s: string, p: nat) {
    OccursAt(s, APP_DIR, p) &&
    var k := WordRun(s, p + |APP_DIR|);
    k >= 1 && OccursAt(s, ".html", p + |APP_DIR| + k)
  }

  /** The prefix `(\/?.*)` can end at `p`. */
  predicate PrefixEndsAt(s: string, p: nat) {
    p <= |s| && NoLineTerminator(s[..p]) && EntryAt(s, p)
  }

  /** The greedy prefix: the last place the entry page can start at or
      before `p`. */
  function LastEntry(s: string, p: nat): (r: Option<nat>)
    ensures r.Some? ==> r.value <= p && PrefixEndsAt(s, r.value)
    ensures r.Some? ==> forall q :: r.value < q <= p ==> !PrefixEndsAt(s, q)
    ensures r.None? ==> forall q :: 0 <= q <= p ==> !PrefixEndsAt(s, q)
  {
    if PrefixEndsAt(s, p) then Some(p)
    else if p == 0 then None
    else LastEntry(s, p - 1)
  }

  /** The first group of the page regex, or "" when it is empty or does not
      match (both leave the origin as it is). */
  function PathPrefix(path: string): (prefix: string)
    ensures prefix == [] || (LastEntry(path, |path|).Some? && prefix == path[..LastEntry(path, |path|).value])
    ensures LastEntry(path, |path|).Some? ==> prefix == path[..LastEntry(path, |path|).value]
    ensures LastEntry(path, |path|).None? ==> prefix == []
    ensures |prefix| <= |path| && prefix == path[..|prefix|]
    ensures (exists q :: 0 <= q <= |path| && PrefixEndsAt(path, q)) ==>
              PrefixEndsAt(path, |prefix|) && forall q :: |prefix| < q <= |path| ==> !PrefixEndsAt(path, q)
  {
    match LastEntry(path, |path|)
    case None => ""
    case Some(p) => path[..p]
  }

  // ---------------------------------------------------------------------
  // toAbsoluteURL

  /** The `while` that drops trailing slashes. It would spin on an empty
      string; the `:` every url here holds keeps it from getting there. */
  function StripTrailingSlashes(url: string): (r: string)
    requires ':' in url
    ensures ':' in r && StartsWith(url, r) && r[|r| - 1] != '/'
    ensures forall i :: |r| <= i < |url| ==> url[i] == '/'
  {
    if url[|url| - 1] == '/' then
      assert url == url[..|url| - 1] + ['/'];
      StripTrailingSlashes(url[..|url| - 1])
    else url
  }

  lemma StripIdempotent(url: string)
    requires ':' in url
    ensures StripTrailingSlashes(StripTrailingSlashes(url)) == StripTrailingSlashes(url)
  {
  }

  /** `toAbsoluteURL`. */
  function ToAbsoluteUrl(loc: Location, url: string): (r: Result<string, UrlError>)
    ensures r == Err(NotAbsolute) <==> !Contains(url, "://") && !StartsWith(url, "/")
    ensures r.Ok? ==> |r.value| > 0 && r.value[|r.value| - 1] != '/'
  {
    if !Contains(url, "://") && !StartsWith(url, "/") then Err(NotAbsolute)
    else
      var url1 := if StartsWith(url, "//") then loc.protocol + url else url;
      if Contains(url1, "://") then
        HasColon(url1);
        Ok(StripTrailingSlashes(url1))
      else
        match MatchLocation(Origin(loc) + loc.pathname)
        case None => Err(NoMatch)
        case Some(parts) =>
          var origin := parts.scheme + parts.host + PathPrefix(parts.path);
          assert parts.scheme[|parts.scheme| - 3] == ':';
          assert (origin + url1)[|parts.scheme| - 3] == ':';
          Ok(StripTrailingSlashes(origin + url1))
  }

  lemma HasColon(s: string)
    requires Contains(s, "://")
    ensures ':' in s
  {
    var i :| 0 <= i <= |s| && OccursAt(s, "://", i);
    assert s[i] == ':';
  }

  // ---------------------------------------------------------------------
  // What the conversion promises

  /** An absolute url is kept, only its trailing slashes dropped. */
  lemma AbsoluteKept(loc: Location, url: string)
    requires Contains(url, "://") && !StartsWith(url, "//")
    ensures ':' in url && ToAbsoluteUrl(loc, url) == Ok(StripTrailingSlashes(url))
  {
    HasColon(url);
  }

  /** A network-path reference `//host/...` gets the page's protocol. */
  lemma NetworkPathGetsProtocol(loc: Location, url: string)
    requires StartsWith(url, "//") && EndsWith(loc.protocol, ":")
    ensures ':' in loc.protocol + url
    ensures ToAbsoluteUrl(loc, url) == Ok(StripTrailingSlashes(loc.protocol + url))
  {
    var u := loc.protocol + url;
    assert OccursAt(u, "://", |loc.protocol| - 1);
    HasColon(u);
  }

  /** A location the browser can produce: the protocol is a scheme and a
      colon, the host holds no slash, the path is absolute. */
  ghost predicate WellFormed(loc: Location) {
    EndsWith(loc.protocol, ":") && ':' !in loc.protocol[..|loc.protocol| - 1] &&
    '/' !in loc.hostname && ':' !in loc.hostname &&
    StartsWith(loc.pathname, "/") && NoLineTerminator(loc.pathname)
  }

  /** For such a location the regex splits off exactly the path. */
  lemma WellFormedMatch(loc: Location)
    requires WellFormed(loc)
    ensures MatchLocation(Origin(loc) + loc.pathname) ==
            Some(LocationParts(loc.protocol + "//", loc.hostname + PortSuffix(loc.port), loc.pathname))
  {
    var s := Origin(loc) + loc.pathname;
    var n := |loc.protocol|;
    var host := loc.hostname + PortSuffix(loc.port);
    assert s == loc.protocol + "//" + host + loc.pathname;
    assert s[..n - 1] == loc.protocol[..n - 1];
    assert s[n - 1..n + 2] == "://";
    PortSuffixNoSlash(loc.port);
    assert s[n + 2..n + 2 + |host|] == host;
    assert s[n + 2 + |host|..] == loc.pathname;
    assert s[..n + 2] == loc.protocol + "//";
    MatchLocationAt(s, n - 1, |host|);
  }

  /** The location regex where the first colon and the next slash are. */
  lemma MatchLocationAt(s: string, i: nat, j: nat)
    requires OccursAt(s, "://", i) && ':' !in s[..i]
    requires i + 3 + j < |s| && '/' !in s[i + 3..i + 3 + j] && s[i + 3 + j] == '/'
    requires NoLineTerminator(s[i + 3 + j..])
    ensures MatchLocation(s) == Some(LocationParts(s[..i + 3], s[i + 3..i + 3 + j], s[i + 3 + j..]))
  {
    IndexOfAt(s, ':', i);
    var rest := s[i + 3..];
    assert rest[..j] == s[i + 3..i + 3 + j];
    IndexOfAt(rest, '/', j);
    assert rest[j..] == s[i + 3 + j..];
  }

  lemma IndexOfAt(s: string, c: char, i: nat)
    requires i < |s| && s[i] == c && c !in s[..i]
    ensures c in s && IndexOf(s, c) == i
  {
    if i > 0 {
      assert s[1..][..i - 1] == s[..i][1..];
      IndexOfAt(s[1..], c, i - 1);
    }
  }

  lemma PortSuffixNoSlash(port: Option<nat>)
    ensures '/' !in PortSuffix(port)
  {
    if port.Some? && port.value != 0 {
      var digits := NatToString(port.value);
      assert forall i :: 0 <= i < |digits| ==> IsDigit(digits[i]);
      assert PortSuffix(port) == [':'] + digits;
    }
  }

  /** The url of a path behind no reverse proxy: nothing before the viewer's
      page, so only the origin is prefixed. */
  lemma NoProxyPrefixesOrigin(loc: Location, url: string)
    requires WellFormed(loc) && StartsWith(url, "/") && !StartsWith(url, "//") && !Contains(url, "://")
    requires forall q :: 0 < q <= |loc.pathname| ==> !EntryAt(loc.pathname, q)
    ensures ':' in Origin(loc) + url
    ensures ToAbsoluteUrl(loc, url) == Ok(StripTrailingSlashes(Origin(loc) + url))
  {
    WellFormedMatch(loc);
    var origin := loc.protocol + "//" + loc.hostname + PortSuffix(loc.port);
    assert origin[|loc.protocol| - 1] == ':';
    NoLaterEntryEmptyPrefix(loc.pathname);
    assert loc.protocol + "//" + (loc.hostname + PortSuffix(loc.port)) + [] == Origin(loc);
  }

  /** A path whose entry page can only start at its very beginning has an
      empty prefix. */
  lemma NoLaterEntryEmptyPrefix(path: string)
    requires forall q :: 0 < q <= |path| ==> !EntryAt(path, q)
    ensures PathPrefix(path) == []
  {
    var entry := LastEntry(path, |path|);
    assert entry.None? || entry.value == 0;
  }

  /** Behind a reverse proxy, the path before `/osimis-viewer/app/<page>.html`
      is kept between the origin and the url. */
  lemma ReverseProxyKeepsPrefix(loc: Location, url: string, prefix: string, page: string, query: string)
    requires WellFormed(loc) && StartsWith(url, "/") && !StartsWith(url, "//") && !Contains(url, "://")
    requires loc.pathname == prefix + APP_DIR + page + ".html" + query
    requires |prefix| > 0 && |page| > 0 && forall i :: 0 <= i < |page| ==> IsWordChar(page[i])
    requires '/' !in query
    ensures ':' in Origin(loc) + prefix + url
    ensures ToAbsoluteUrl(loc, url) == Ok(StripTrailingSlashes(Origin(loc) + prefix + url))
  {
    WellFormedMatch(loc);
    var path := loc.pathname;
    var parts := LocationParts(loc.protocol + "//", loc.hostname + PortSuffix(loc.port), path);
    EntryAtPrefix(path, prefix, page, query);
    NoLaterEntry(path, prefix, page, query);
    LastEntryIs(path, |prefix|);
    PagePathPrefix(path, prefix, page, query);
    RelativeUrl(loc, url, parts);
    OriginParts(loc);
    assert PathPrefix(parts.path) == prefix;
    assert parts.scheme + parts.host == Origin(loc);
  }

  lemma PagePathPrefix(path: string, prefix: string, page: string, query: string)
    requires path == prefix + APP_DIR + page + ".html" + query
    ensures path[..|prefix|] == prefix
  {
  }

  lemma OriginParts(loc: Location)
    ensures Origin(loc) == (loc.protocol + "//") + (loc.hostname + PortSuffix(loc.port))
  {
  }

  /** The last entry point is the one no later one follows. */
  lemma LastEntryIs(path: string, p: nat)
    requires p <= |path| && PrefixEndsAt(path, p)
    requires forall q :: p < q <= |path| ==> !PrefixEndsAt(path, q)
    ensures PathPrefix(path) == path[..p]
  {
    var r := LastEntry(path, |path|);
    assert r.Some?;
    assert r.value == p;
  }

  /** A path-absolute url is put behind the origin and the page's prefix. */
  lemma RelativeUrl(loc: Location, url: string, parts: LocationParts)
    requires StartsWith(url, "/") && !StartsWith(url, "//") && !Contains(url, "://")
    requires MatchLocation(Origin(loc) + loc.pathname) == Some(parts)
    ensures ':' in parts.scheme + parts.host + PathPrefix(parts.path) + url
    ensures ToAbsoluteUrl(loc, url) == Ok(StripTrailingSlashes(parts.scheme + parts.host + PathPrefix(parts.path) + url))
  {
    var full := parts.scheme + parts.host + PathPrefix(parts.path) + url;
    assert full[|parts.scheme| - 3] == parts.scheme[|parts.scheme| - 3];
  }

  lemma EntryAtPrefix(path: string, prefix: string, page: string, query: string)
    requires path == prefix + APP_DIR + page + ".html" + query
    requires |page| > 0 && forall i :: 0 <= i < |page| ==> IsWordChar(page[i])
    requires NoLineTerminator(path)
    ensures PrefixEndsAt(path, |prefix|)
  {
    var p := |prefix|;
    var q := p + |APP_DIR|;
    assert path[p..q] == APP_DIR;
    assert forall i :: 0 <= i < |page| ==> path[q + i] == page[i];
    assert path[q + |page|] == '.';
    WordRunIs(path, q, |page|);
    assert path[q + |page|..q + |page| + 5] == ".html";
    assert NoLineTerminator(path[..p]);
  }

  lemma WordRunIs(s: string, q: nat, k: nat)
    requires q + k < |s| && (forall i :: q <= i < q + k ==> IsWordChar(s[i])) && !IsWordChar(s[q + k])
    ensures WordRun(s, q) == k
    decreases k
  {
    if k > 0 {
      WordRunIs(s, q + 1, k - 1);
    }
  }

  /** No later place matches: after the prefix, the only slashes are the
      three of `APP_DIR`. */
  lemma NoLaterEntry(path: string, prefix: string, page: string, query: string)
    requires path == prefix + APP_DIR + page + ".html" + query
    requires forall i :: 0 <= i < |page| ==> IsWordChar(page[i])
    requires '/' !in query
    ensures forall q :: |prefix| < q <= |path| ==> !PrefixEndsAt(path, q)
  {
    var p := |prefix|;
    SlashesAfterPrefix(path, prefix, page, query);
    forall q | p < q <= |path| ensures !OccursAt(path, APP_DIR, q) {
      if q + |APP_DIR| <= |path| {
        assert path[q..q + |APP_DIR|][0] == path[q];
      }
    }
  }

  /** After the prefix, the only slashes are at offsets 0, 14 and 18. */
  lemma SlashesAfterPrefix(path: string, prefix: string, page: string, query: string)
    requires path == prefix + APP_DIR + page + ".html" + query
    requires forall i :: 0 <= i < |page| ==> IsWordChar(page[i])
    requires '/' !in query
    ensures forall i :: |prefix| < i < |path| && path[i] == '/' ==> i == |prefix| + 14 || i == |prefix| + 18
  {
    var p := |prefix|;
    var tail := p + |APP_DIR|;
    forall i | tail <= i < |path| ensures path[i] != '/' {
      if i < tail + |page| {
        assert path[i] == page[i - tail];
      } else if i < tail + |page| + 5 {
        assert path[i] == ".html"[i - tail - |page|];
      } else {
        assert path[i] == query[i - tail - |page| - 5];
      }
    }
    forall i | p < i < tail ensures path[i] == APP_DIR[i - p] {
    }
  }

}

=== FILE: wrappers.dfy ===
/** Failure-carrying values used throughout the model in place of thrown
    exceptions, JavaScript `null`/`undefined` and C++ error returns. */
module Wrappers {

  /** A value that may be absent (`null` or `undefined` in the frontend). */
  datatype Option<+T> = None | Some(value: T) {
    function GetOr(default: T): T {
      match this
      case Some(v) => v
      case None => default
    }
  }

  /** Either a value or the error the source would throw. */
  datatype Result<+T, +E> = Ok(value: T) | Err(error: E) {
    predicate IsFailure() { Err? }

    function PropagateFailure<U>(): Result<U, E>
      requires Err?
    {
      Err(error)
    }

    function Extract(): T
      requires Ok?
    {
      value
    }
  }
}
